=== FILE: README.md ===
# GPRO race-management core in Dafny

This project models the computational core of a GPRO (Grand Prix Racing
Online) management tool. The tool keeps its race engineering in a
spreadsheet workbook (`calculadora.xlsx`). A Python service and several
Node routes write a manager's driver, car, weather, test points and race
options into fixed cells of that workbook. They let the formulas
recalculate and read setups, wear and strategies back from other fixed
cells. Around that core sit the pages that feed it:

- the manual setup solver, which bisects towards the ideal setting from the
  game's "too much / too little" feedback;
- the market page, with its CSV import of the driver market;
- the test-session page and its stint table;
- the sponsor calculator and the sponsor page;
- the shared dashboard state (driver, car, forecast, track).

The model is written as pure functions over immutable data:

- A workbook is a map from addresses to cell values (`Cells`).
- A batch of cell writes is a sequence. `PutAll` applies a batch in order and
  skips the writes the engine rejects (a set `faults` of addresses).
- The formula engine's recalculation is a function parameter `recalc`.
  Read-back lemmas assume only that it leaves the input cells alone
  (`Keeps`).
- Every answer the spreadsheet engine, the clock, the database or the user
  could give is an explicit parameter, so each branch of the source is
  reachable in the model.

Three behaviours of the code worth knowing:

- the Node test route does not canonicalise "tyres";
- it treats a lone "-" as text;
- the market pager's "next" on an empty list goes to page 0, and a null
  favourites cell sorts as one track. Both are modelled as written
  (`MarketView.EmptyListLeadsToPageZero`, `MarketView.NullFavouritesSortAsOne`);
  the market view state (`MarketView.ClickPage`, `MarketView.SortDrivers`)
  uses the corrected behaviour, see Findings.

## Modules

| file | module | models |
|---|---|---|
| common.dfy | `Base`, `Text` | Option/Result, trimming, ASCII and Latin-1 case, substring search, integer rendering |
| numbers.dfy | `Numbers` | Python `int()`/`float()` and JavaScript `Number()`/`parseInt` on decimal text |
| cells.dfy | `Cells` | A1 column letters, workbooks, batched writes with rejected cells |
| coercion.dfy | `Coercion` | `_safe_val` and `_write_val` of the Python backend |
| connection.dfy | `Connection` | `ExcelManager.get_wb` |
| backend.dfy | `Backend` | the five Python endpoints |
| jsvalues.dfy | `JsValues` | JavaScript values, truthiness, `Number`, `||`, `Math.round` |
| calcular.dfy | `Calcular` | the Node setup calculator route |
| testsroute.dfy | `TestsRoute` | the Node test-session route |
| manual.dfy | `Manual` | the manual setup solver route |
| manualpage.dfy | `ManualPage` | the manual setup page's history and suggestion display |
| marketimport.dfy | `MarketImport` | the market CSV import route |
| marketview.dfy | `MarketView` | the market page's filter, sort and pagination |
| testspage.dfy | `TestsPage` | the test-session page's stint table |
| sponsorsroute.dfy | `SponsorsRoute` | the sponsor calculator route |
| sponsorspage.dfy | `SponsorsPage` | the sponsor page's saved list |
| gamecontext.dfy | `GameContext` | the dashboard's shared state |

## Model

| member | source | states |
|---|---|---|
| Text.Trim | backend_python/main.py:70 | stripping leaves no blank at either end and removes only blanks (via `TrimWithWindow`) |
| Text.TrimIdempotent | backend_python/main.py:70 | stripping a stripped string changes nothing |
| Text.TrimAllBlank | backend_python/main.py:70 | a string made only of blanks strips to "" |
| Text.Lower | backend_python/main.py:71-73 | lower-casing keeps the length and maps each Latin-1 capital to its small letter and every other character to itself |
| Text.CaseRoundTrip | backend_python/main.py:71-73 | upper-casing a lower-cased Latin-1 capital gives it back, and the other way round for small letters |
| Text.LowerIdempotent | backend_python/main.py:71-73 | lower-casing twice is lower-casing once |
| Text.ReplaceAllChar | backend_python/main.py:75 | every occurrence of the character is replaced and every other character kept |
| Text.ReplaceAllAbsent | app/api/market/update/route.ts:30-37 | replacing a character that does not occur changes nothing |
| Text.IndexOf | app/api/tests/route.ts:43 | the index of the first occurrence, or `|s|` exactly when the character does not occur |
| Text.ReplaceFirstChar | app/api/tests/route.ts:43 | JavaScript `replace` with a string pattern changes only the first occurrence |
| Text.RemoveWhere | app/dashboard/sponsors/page.tsx:177 | filtering keeps exactly the elements that fail the test, in order |
| Text.RemoveWhereMultiset | app/dashboard/sponsors/page.tsx:177 | each kept value keeps its multiplicity and each removed value has none |
| Text.RemoveWhereAppend | app/dashboard/sponsors/page.tsx:177 | filtering distributes over concatenation |
| Text.NatToStringInjective | backend_python/main.py:67-79 | distinct naturals render as distinct digit strings |
| Numbers.ParseInteger | backend_python/main.py:77 | `int()` accepts an optional sign and at least one ASCII digit (see Left out), with the sign deciding the result's sign |
| Numbers.ParseIntegerRoundTrip | backend_python/main.py:77 | `int(str(i)) == i` for every integer |
| Numbers.ParseDecimal | backend_python/main.py:76 | `float()` accepts exactly an optional sign followed by digits with at most one point and at least one digit, so only non-empty text that has a point or is an integer |
| Numbers.ParseDecimalOfParts | backend_python/main.py:76 | `float` of `[sign] int-digits . frac-digits` is the value of those digits, negated for a minus sign |
| Numbers.DecimalOfInteger | backend_python/main.py:76-77 | without a point, `float` and `int` accept the same strings and agree on their value |
| Numbers.ParseDecimalOfInt | backend_python/main.py:76 | `float(str(i)) == i` for every integer |
| Numbers.LeadingInt | app/api/market/update/route.ts:44-45 | `parseInt` gives a value exactly when a digit follows the leading blanks and optional sign, and then only when the text holds a digit |
| Numbers.LeadingIntMaximalRun | app/api/market/update/route.ts:44-45 | the value of `parseInt` is the value of the longest digit run after the blanks and sign, negated for a minus sign |
| Numbers.DigitRunLength | app/api/market/update/route.ts:44-45 | the leading digit run is all digits and is followed by a non-digit or the end |
| Numbers.LeadingIntOfInt | app/api/market/update/route.ts:44-45 | `parseInt(String(i)) == i` for every integer |
| Numbers.DigitsOfNatToString | backend_python/main.py:77 | a natural's rendering is all digits and reads back as the natural |
| Cells.ColumnLetters | app/api/tests/route.ts:164-170 | the letters of a column index form a column name |
| Cells.ColumnLettersRoundTrip | app/api/tests/route.ts:164-170 | letters to index after index to letters is the identity on column indices |
| Cells.ColumnIndexRoundTrip | app/api/tests/route.ts:164-170 | every column name is the canonical name of its index |
| Cells.ColumnIndexInjective | app/api/tests/route.ts:164-170 | distinct column names denote distinct columns |
| Cells.SingleLetterIndex | app/api/tests/route.ts:168-169 | a one-letter column is its letter's offset from A |
| Cells.TwoLetters | app/api/tests/route.ts:168-169 | column `A?` is 26 plus its second letter's offset |
| Cells.Put | backend_python/main.py:82-90 | an accepted write decides its cell, a rejected one changes nothing, and no other cell changes |
| Cells.PutAll | backend_python/main.py:184-209 | the writes of a batch are applied in order, so an accepted last write decides its cell |
| Cells.PutAllUntouched | backend_python/main.py:184-209 | a cell no write of the batch targets keeps its content |
| Cells.PutAllFaulty | backend_python/main.py:89-90 | a rejected cell keeps its content whatever the batch writes |
| Cells.PutAllLastWins | backend_python/main.py:184-209 | the last write of a batch to an accepted cell decides it |
| Cells.RecalcKeepsLast | backend_python/main.py:211-212 | after a recalculation that keeps an input cell, the cell holds the last write to it |
| Cells.DistinctIsLast | app/api/calcular/route.js:122-180 | in a batch without repeated targets, every write is the last to its cell |
| Cells.DistinctAppend | app/api/calcular/route.js:122-180 | two distinct batches with disjoint targets make a distinct batch |
| Coercion.Truthy | backend_python/main.py:130-131 | Python truthiness of a scalar: None, False, 0, 0.0 and "" are false |
| Coercion.Or | backend_python/main.py:130-131 | `v or d` is `v` when `v` is truthy and `d` otherwise |
| Coercion.Get | backend_python/main.py:184-196 | `dict.get` gives None for a missing key and the member otherwise |
| Coercion.NumericText | backend_python/main.py:74-79 | numeric text is a float exactly when it has a point once commas become points, an int otherwise, and unparsable text is kept as it is |
| Coercion.SafeVal | backend_python/main.py:65-80 | absent exactly for None, "" and "-"; non-strings pass; strings are stripped or become a canonical marker |
| Coercion.SafeValMarker | backend_python/main.py:71-73 | "opt", "best" and "tyres" in any case and padding become "Opt", "Best", "Tyres" |
| Coercion.SafeValText | backend_python/main.py:74-79 | any other string is read as numeric text after stripping |
| Coercion.MarkerFixed | backend_python/main.py:71-73 | the canonical markers read as themselves |
| Coercion.SafeValOfIntText | backend_python/main.py:77 | an integer's rendering reads back as that integer |
| Coercion.SafeValDecimalComma | backend_python/main.py:75-76 | digits, a decimal comma and digits read as the number they denote |
| Coercion.SafeValIdempotent | backend_python/main.py:65-80 | reading a read value again changes nothing, except for "" and "-" |
| Coercion.DashIsNotStable | backend_python/main.py:67-70 | a padded "-" reads as "-", which a second read drops |
| Coercion.BlankIsNotStable | backend_python/main.py:67-70 | a non-empty blank string reads as "", which a write then empties |
| Coercion.Stored | backend_python/main.py:85-88 | a write empties the cell exactly for "" and None, and otherwise stores the value itself |
| Coercion.WriteVal | backend_python/main.py:82-90 | an accepted write stores the value or empties the cell for ""; a rejected one changes nothing; no other cell changes |
| Coercion.SafeValWriteReadRoundTrip | backend_python/main.py:65-90 | writing a read value and reading it back gives the same JSON value, except for "" and "-" |
| Coercion.ClearTwice | backend_python/main.py:85-86 | clearing a cell twice is clearing it once |
| Connection.FirstMatch | backend_python/main.py:46-50 | the first open book whose name contains the file's base name, or none |
| Connection.Probe | backend_python/main.py:34-39 | a cached engine that no longer answers is forgotten together with its workbook |
| Connection.Adopt | backend_python/main.py:43-52 | a book is adopted only from the active engine and only when its name matches; a failed scan changes nothing |
| Connection.Start | backend_python/main.py:54-58 | a workbook results exactly when the engine opens the file, in a hidden engine with alerts off |
| Connection.GetWb | backend_python/main.py:33-60 | the manager stays consistent and a returned workbook is cached and owned by the cached engine |
| Connection.InitialValid | backend_python/main.py:29-31 | a fresh manager is consistent |
| Connection.CachedReuse | backend_python/main.py:34-41 | while its engine answers, the cached workbook is returned and nothing changes |
| Connection.StaleRecovery | backend_python/main.py:34-39 | after a stale engine the call behaves exactly as on a fresh manager |
| Connection.AdoptsFirstMatch | backend_python/main.py:44-50 | with a matching book open, the first match is returned |
| Connection.LaunchedIsHidden | backend_python/main.py:54-58 | without a match, the workbook comes from a hidden engine with alerts off |
| Connection.ConnectionIsStable | backend_python/main.py:33-60 | a second call with the engine alive returns the same workbook and state |
| Connection.FailureRetries | backend_python/main.py:54-58 | a failed launch leaves no workbook cached |
| Backend.InputWrites | backend_python/main.py:184-196 | one write per schema field, in schema order, to the field's cell, with the payload member or an emptying write when it is missing, None or "" |
| Backend.ReadOutput | backend_python/main.py:130-131 | a reply field is `_safe_val` of its cell, followed by the field's `or` fallback when it has one |
| Backend.ReadOutputs | backend_python/main.py:107-121 | a reply object lists every schema field under its key, in schema order |
| Backend.StintColumnIndex | backend_python/main.py:317-319 | stint `j` is column 5 + j, that is `chr(70 + j)` |
| Backend.StintColumnsDistinct | backend_python/main.py:365-370 | the eight stint columns are G..N, pairwise distinct and never the totals column O |
| Backend.BoostColumnIndex | backend_python/main.py:382-387 | boost mini-stint `i` is column 16 + i, within R..Y |
| Backend.ReadCarPart | backend_python/main.py:124-132 | a car part carries its label; a falsy level reads as 1 and a falsy wear as 0, a truthy wear is read as it is, so the level is always truthy |
| Backend.GetStrategyState | backend_python/main.py:94-174 | fails exactly when the connection fails; otherwise 13 driver fields, 11 car parts in label order and the 13 weather fields |
| Backend.WrittenReadsBack | backend_python/main.py:65-90 | a cell holding what `_write_val` stored reads back as `_safe_val` of the value written |
| Backend.TrackWrites | backend_python/main.py:252-253 | R5 is written exactly when the track is truthy and not the placeholder |
| Backend.CarWrites | backend_python/main.py:199-203 | part `i` of the payload goes to I(6+i) then J(6+i), level first |
| Backend.UpdateDriverCar | backend_python/main.py:176-214 | a failed connection changes nothing and reports the error; otherwise the reply is the overall rating read from E5 after the writes and the recalculation |
| Backend.UpdateSetupWeather | backend_python/main.py:216-242 | a failed connection reports the error; no cell outside the fourteen weather cells changes |
| Backend.DriverSchemaAgrees | backend_python/main.py:107-119 | the driver is written to and read from the same twelve cells E6..E17, in the same key order, without a fallback |
| Backend.TestPointSchemaAgrees | backend_python/main.py:152-156 | the test points are written to and read from N6..N8 in the same key order, with fallback 0 |
| Backend.DriverWriteIsLast | backend_python/main.py:184-209 | no later write of `update_driver_car` overwrites a driver attribute |
| Backend.CarCellStored | backend_python/main.py:199-203 | each car write is the last to its cell, so an accepted one is what the cell holds afterwards |
| Backend.CarLevelWritten | backend_python/main.py:202 | after `update_driver_car`, the level cell of part `i` holds what was sent for it |
| Backend.CarWearWritten | backend_python/main.py:203 | after `update_driver_car`, the wear cell of part `i` holds what was sent for it |
| Backend.CarPartReads | backend_python/main.py:128-132 | a part whose two cells hold values reads as those values with the `or 1` and `or 0` fallbacks |
| Backend.DriverReadBack | backend_python/main.py:185-196 | a driver attribute sent to `update_driver_car` is what the state then reports for it |
| Backend.CarReadBack | backend_python/main.py:199-203 | a car part sent to `update_driver_car` is what the state reports, a falsy level shown as 1 and a falsy wear as 0 |
| Backend.TestPointReadBack | backend_python/main.py:206-209 | a test-point total sent is reported back, a falsy one as 0 |
| Backend.WeatherSlot | backend_python/main.py:135-149 | each weather input other than the average temperature has a reply slot, and that slot has a fallback |
| Backend.WeatherCellsDistinct | backend_python/main.py:223-238 | the fourteen weather inputs go to fourteen different cells |
| Backend.WeatherSchemaAgrees | backend_python/main.py:135-149 | each weather input other than the average is reported under its own key from the cell it was written to |
| Backend.WeatherReadBack | backend_python/main.py:223-238 | a weather field saved by `update_setup_weather` is what the state reports, after its fallback |
| Backend.AvgTempReadBack | backend_python/main.py:225 | the average temperature saved is reported among the race options, without fallback |
| Backend.TrackRule | backend_python/main.py:252-253 | R5 holds the track afterwards when it is truthy and not the placeholder, and keeps its old content otherwise |
| Backend.WearRowIsPermutation | backend_python/main.py:275-283 | the reply reports the wear of every sheet row exactly once |
| Backend.SetupWrites | backend_python/main.py:252-261 | `calculate_setup` makes the track write, if any, then six weather writes |
| Backend.ReadPartResult | backend_python/main.py:266-283 | reply entry `k` has its key, a setup exactly for the first six parts, and the J and K wear of the remapped row |
| Backend.CalculateSetup | backend_python/main.py:244-286 | a failed connection changes nothing; otherwise the reply has eleven entries read from the recalculated workbook |
| Backend.SetupWritesCells | backend_python/main.py:252-261 | `calculate_setup` writes only the track and R7..R9, T7..T9; the race-quarter temperatures are not sent |
| Backend.SetupTrackReadBack | backend_python/main.py:252-253 | the track given to `calculate_setup` is what the state reports, unless it is falsy or the placeholder, when the old track stays |
| Backend.SetupReportsWear | backend_python/main.py:271-273 | the starting wear reported for a part is what its row of column J held |
| Backend.SetupReportsEnteredWear | backend_python/main.py:199-203 | wear entered with `update_driver_car` is the starting wear `calculate_setup` reports under the part in that row |
| Backend.SetupKeepsWear | backend_python/main.py:256-263 | `calculate_setup` leaves the wear column J alone |
| Backend.RaceOptionWrites | backend_python/main.py:304-311 | each race option goes to its own cell, G3 and C3..C7 of the tyre sheet and R9 of the setup sheet |
| Backend.PersonalWrites | backend_python/main.py:315-319 | the manual stint laps go to G21..N21, and only when the object has a member |
| Backend.BoostOf | backend_python/main.py:322-325 | a missing boost is the empty object |
| Backend.BoostWrites | backend_python/main.py:322-325 | the three boost laps go to R20..R22, a missing one as an emptying write |
| Backend.StintRow | backend_python/main.py:367-369 | a stint row holds stints 1..8 from G..N and then the total from O |
| Backend.StintTable | backend_python/main.py:365-370 | a stint table has the five labelled rows from its first sheet row down |
| Backend.ReadStrategy | backend_python/main.py:336-387 | every block of the strategy reply, each field read from its own cell |
| Backend.CalculateStrategy | backend_python/main.py:288-392 | a failed connection changes nothing; otherwise the reply is the strategy read after the writes and the recalculation |
| Backend.BoostCells | backend_python/main.py:323-325 | the boost laps land in R20..R22 of the tyre sheet |
| Backend.RaceOptionCells | backend_python/main.py:305-311 | the cells of the race options |
| Backend.PersonalCells | backend_python/main.py:317-319 | manual stint `j` goes to column 6 + j of row 21 |
| Backend.PersonalWritten | backend_python/main.py:315-319 | the laps sent in a non-empty `personal_stint_voltas` are what G21..N21 hold after the writes |
| Backend.PersonalStintReadBack | backend_python/main.py:315-319 | manual stint laps come back in the `voltas` row of `stints_personal` |
| Backend.EmptyPersonalKeepsLaps | backend_python/main.py:316 | an empty `personal_stint_voltas` keeps the manual laps already in row 21 |
| Backend.StrategyTrackReadBack | backend_python/main.py:301-302 | the track given to `calculate_strategy` is what the state reports, unless falsy or the placeholder |
| Backend.StrategyTrackStored | backend_python/main.py:301-302 | R5 after `calculate_strategy` holds the track, or its old content when the track is not written |
| Backend.StrategyAvoidsTrack | backend_python/main.py:304-325 | after the track write, `calculate_strategy` never writes R5 |
| Backend.RaceOptionsReadBack | backend_python/main.py:305-311 | the tyre-wear percentage and the average temperature sent are what the state reports |
| Backend.MissingBoostClears | backend_python/main.py:323-325 | a boost the request leaves out empties its lap cell instead of keeping the old lap |
| JsValues.Truthy | app/api/calcular/route.js:122 | JavaScript truthiness: undefined, null, false, 0, NaN and "" are false, every object true |
| JsValues.Or | app/api/calcular/route.js:152-156 | `v \|\| d` is `v` when `v` is truthy and `d` otherwise |
| JsValues.ToNumber | app/api/calcular/route.js:125-129 | `Number` keeps numbers, maps blank text and null to 0, true to 1 and false to 0, undefined, NaN and objects to NaN, and other text to its decimal value when it is a signed decimal and to NaN otherwise |
| JsValues.NumberOr | app/api/calcular/route.js:125-129 | `Number(v) \|\| d` is the number `v` denotes, or `d` when that is 0 or NaN |
| JsValues.NumberOrStable | app/api/calcular/route.js:125-129 | converting a stored `Number(v) \|\| d` again gives the same number |
| JsValues.Round | app/api/calcular/route.js:193-195 | `Math.round` is the nearest integer, halves rounded up |
| JsValues.Member | app/api/calcular/route.js:117-125 | a missing request member is undefined |
| JsValues.ToNumberOfIntText | app/api/calcular/route.js:125-129 | `Number` reads an integer's rendering back as that integer |
| Calcular.Settle | app/api/calcular/route.js:79-80 | a truthy object becomes 0 and undefined becomes ""; other values are kept |
| Calcular.CleanObject | app/api/calcular/route.js:63-80 | no object cell cleans to an object or to undefined |
| Calcular.CleanCell | app/api/calcular/route.js:60-81 | null and undefined become null, primitives are kept, an error object becomes 0, and no object survives |
| Calcular.CleanIdempotent | app/api/calcular/route.js:60-81 | cleaning a cleaned cell changes nothing |
| Calcular.CleanFormulaFirst | app/api/calcular/route.js:63-67 | a formula is kept as "=" and its text whatever the cached result, unless the cell is an error |
| Calcular.CleanSharedResult | app/api/calcular/route.js:68-70 | a shared-formula cell gives its cached result, "" without one, and 0 for an object result |
| Calcular.CleanNullResult | app/api/calcular/route.js:71-73 | outside shared formulas a null cached result counts as an object and becomes 0 |
| Calcular.CleanRichText | app/api/calcular/route.js:74-75 | rich text is joined only without formula and cached result |
| Calcular.CleanNothing | app/api/calcular/route.js:76-80 | an object with none of the recognised properties cleans to null |
| Calcular.ColumnConstantsNameLetters | app/api/calcular/route.js:11-37 | the numeric column constants name the columns E, I, J, K, AC, AD and AE |
| Calcular.WeatherOrderIsPermutation | app/api/calcular/route.js:149-173 | the route writes each of the fourteen weather fields exactly once |
| Calcular.WeatherPosInverts | app/api/calcular/route.js:149-173 | the position of each weather field in the route's order inverts that order, both ways |
| Calcular.WeatherValue | app/api/calcular/route.js:149-173 | conditions default to "Dry", the average is `Number(avgTemp)` or 0 when undefined, other temperatures `Number(v) \|\| 0` |
| Calcular.TrackW | app/api/calcular/route.js:122 | R5 is written, with the request's track, exactly when that track is truthy |
| Calcular.DriverW | app/api/calcular/route.js:124-130 | twelve driver writes down E6..E17, each `Number(v) \|\| 0` of its attribute, the energy `Number(v) \|\| 100` |
| Calcular.CarLvlW | app/api/calcular/route.js:132-143 | eleven level writes down I6..I16, each `Number(level) \|\| 1` of its part |
| Calcular.CarWearW | app/api/calcular/route.js:132-144 | eleven wear writes down J6..J16, each `Number(wear) \|\| 0` of its part |
| Calcular.RiskW | app/api/calcular/route.js:176-181 | one write exactly when `desgasteModifier` is present: `Number(desgasteModifier) \|\| 0` into C4 of the tyre sheet; none otherwise |
| Calcular.ReadJsPart | app/api/calcular/route.js:184-223 | entry `k` has its key, setups only for the first six parts, and the rounded J and K wear of the remapped row |
| Calcular.Calculate | app/api/calcular/route.js:115-231 | a failed engine load changes nothing; otherwise eleven remapped entries read after the writes and the recalculation |
| Calcular.DriverCellsAgree | app/api/calcular/route.js:124-130 | driver attribute `i` goes to the cell the Python backend uses for it |
| Calcular.CarCellsAgree | app/api/calcular/route.js:140-144 | car part `i` goes to the level and wear cells the Python backend uses |
| Calcular.RemapAgrees | app/api/calcular/route.js:210-223 | entry `k` reports the wear of the row where the request's part of that name was written, as in the Python backend |
| Calcular.WearCellsAgree | app/api/calcular/route.js:198-208 | the wear columns read are J and K of the Python backend |
| Calcular.WeatherColumns | app/api/calcular/route.js:149-173 | every weather write lands in columns R..T of the setup sheet |
| Calcular.WeatherW | app/api/calcular/route.js:149-173 | fourteen writes; each backend weather field (R7..R9, T7..T9 and the quarter ranges in S/T12..15) is written once, into the cell the backend stores it in, with `WeatherValue`: the conditions default to "Dry", the average temperature is `Number(avgTemp)` when present, the rest `Number(v) \|\| 0` |
| Calcular.WearIsLast | app/api/calcular/route.js:143-181 | no write after the wear block touches column J |
| Calcular.WearReadBack | app/api/calcular/route.js:141-144 | the starting wear reported for a part is the rounded number the request gave it, 0 when it denotes none |
| Calcular.EnergyZeroBecomesHundred | app/api/calcular/route.js:128 | an energy of 0 is written as 100, unlike every other driver attribute |
| Calcular.PlaceholderTrackWritten | app/api/calcular/route.js:122 | unlike the Python backend, the placeholder track is written |
| TestsRoute.Round4 | app/api/tests/route.ts:47 | rounding to four decimals moves a number by at most half of 0.0001 |
| TestsRoute.Keyword | app/api/tests/route.ts:41-42 | only "Opt" and "Best" are canonical markers |
| TestsRoute.NumberText | app/api/tests/route.ts:43-44 | non-marker text becomes a number or stays the same text |
| TestsRoute.SafeVal | app/api/tests/route.ts:36-49 | null exactly for null, undefined, "" and error objects; strings trimmed or canonical; numbers to four decimals; the rest passes |
| TestsRoute.SafeValText | app/api/tests/route.ts:39-44 | a non-marker string is read as number text after trimming |
| TestsRoute.DashIsKept | app/api/tests/route.ts:36-44 | a lone "-" stays a string here, while the Python backend drops it |
| TestsRoute.BlankIsZero | app/api/tests/route.ts:39-44 | a blank string reads as 0 here, while the Python backend gives "" |
| TestsRoute.TyresIsNotCanonical | app/api/tests/route.ts:41-42 | "tyres" is not canonicalised here, while the Python backend gives "Tyres" |
| TestsRoute.WordIsText | app/api/tests/route.ts:43-44 | a comma-free word that no number starts like stays text |
| TestsRoute.DecimalCommaAgrees | app/api/tests/route.ts:43 | digits, a comma and digits read as the same number here as in the Python backend |
| TestsRoute.NumberTextOfDecimal | app/api/tests/route.ts:43-44 | text whose first comma became a point and gives a decimal reads as that decimal |
| TestsRoute.FirstCommaBecomesPoint | app/api/tests/route.ts:43 | in digits, comma, digits, the first comma becomes the point |
| TestsRoute.ColumnOf | app/api/tests/route.ts:164-170 | the letter loop computes the bijective base-26 index minus one, and a column name's index names it back |
| TestsRoute.UpperLetters | app/api/tests/route.ts:168 | upper-casing first does not change a column's value |
| TestsRoute.WriteOf | app/api/tests/route.ts:160-172 | the write lands at the denoted column and the 1-based row; "" and null empty the cell |
| TestsRoute.WriteCell | app/api/tests/route.ts:160-172 | the helper changes exactly one cell |
| TestsRoute.LettersWriteIsA1 | app/api/tests/route.ts:164-171 | a write with letters lands on the A1 cell those letters and that row name |
| TestsRoute.CarPartsOrderAgrees | app/api/tests/route.ts:137-141 | both Node routes put the parts in the same rows |
| TestsRoute.FirstCaseMatch | app/api/tests/route.ts:195 | the first key equal to the part id ignoring letter case, or none |
| TestsRoute.ValueAt | app/api/tests/route.ts:196 | a key the object lacks gives a falsy part |
| TestsRoute.MissingPartDefaults | app/api/tests/route.ts:195-199 | a part the request does not name in any case gets level 1 and wear 0 |
| TestsRoute.PartFoundIgnoringCase | app/api/tests/route.ts:195-199 | a part named in another letter case is found, and its own level and wear are used |
| TestsRoute.ValueAtUnique | app/api/tests/route.ts:196 | with unique keys, a key's lookup gives its own value |
| TestsRoute.ColumnWrites | app/api/tests/route.ts:184 | a column block writes its values down one column from the given row |
| TestsRoute.DriverW | app/api/tests/route.ts:180-185 | twelve driver writes down E6..E17 |
| TestsRoute.LevelW | app/api/tests/route.ts:198-201 | eleven level writes, I6..I16, part `j` in car-part order getting its level |
| TestsRoute.WearW | app/api/tests/route.ts:199-202 | eleven wear writes, J6..J16, part `j` in car-part order getting its wear |
| TestsRoute.CarW | app/api/tests/route.ts:188-203 | the car block is the levels then the wears |
| TestsRoute.TrackW | app/api/tests/route.ts:177 | one write exactly when the track is truthy, putting the track into R5 |
| TestsRoute.SetupText | app/api/tests/route.ts:230 | a number is rounded and rendered, NaN renders as "NaN", anything else goes through `safeVal` |
| TestsRoute.SimulateStint | app/api/tests/route.ts:237-263 | the simulation runs only for a positive lap count; otherwise wear "0.0" and fuel "0" |
| TestsRoute.SetupIdeal | app/api/tests/route.ts:223-231 | the race setups of the six adjustable parts, from AE6..AE11 |
| TestsRoute.Post | app/api/tests/route.ts:143-278 | a failed engine load changes nothing; without test inputs the call fails after the track, driver and car are written; otherwise the setups and the stint |
| TestsRoute.EnergyZeroKept | app/api/tests/route.ts:183 | unlike the setup calculator, an energy of 0 is written as 0 |
| TestsRoute.RaceColumnAgrees | app/api/tests/route.ts:226-228 | the race setup is read from the setup calculator's race column |
| TestsRoute.ConditionWrites | app/api/tests/route.ts:208-219 | `Number(avg_temp)` into R9 (the backend's average temperature), the condition into T9 (the race weather) and cleared when blank or null, and, exactly when a modifier is given, `Number(modifier) \|\| 0` into the tyre sheet's C4 (the backend's `ct_valor`) |
| TestsRoute.ConditionTargets | app/api/tests/route.ts:208-219 | the condition writes touch only R9, T9 and the tyre sheet's C4 |
| TestsRoute.CarTargets | app/api/tests/route.ts:201-202 | the car block writes I6..I16 and then J6..J16 |
| TestsRoute.DriverIsLast | app/api/tests/route.ts:180-219 | in the full batch, no later write touches driver attribute `i` |
| TestsRoute.DriverInjected | app/api/tests/route.ts:180-185 | after the call, a kept driver cell holds `Number(v) \|\| 0` of the attribute sent |
| TestsRoute.LevelIsLast | app/api/tests/route.ts:188-219 | in the full batch, no later write touches the level of part `i` |
| TestsRoute.LevelInjected | app/api/tests/route.ts:188-203 | after the call, a kept level cell holds the level the route resolved for that part |
| Manual.Table | app/api/manual/route.ts:13-59 | each part's table lists its seven messages with the shared numeric row and its own short label |
| Manual.TableShape | app/api/manual/route.ts:13-59 | every table has three "too high" rows, the "OK" row in the middle, three "too low" rows, steps 3..-3 and distinct messages |
| Manual.RowsShape | app/api/manual/route.ts:15-21 | the numeric columns row by row: accepted only in the middle, direction, widths and signed step |
| Manual.OkIsMiddle | app/api/manual/route.ts:18 | the middle message of every table is the plain "OK" |
| Manual.WingMessagesDistinct | app/api/manual/route.ts:14-22 | the wing table's seven messages are pairwise distinct, as object keys are |
| Manual.EngineMessagesDistinct | app/api/manual/route.ts:23-31 | the engine table's messages are pairwise distinct |
| Manual.BrakeMessagesDistinct | app/api/manual/route.ts:32-40 | the brakes table's messages are pairwise distinct |
| Manual.GearMessagesDistinct | app/api/manual/route.ts:41-49 | the gearbox table's messages are pairwise distinct |
| Manual.SuspensionMessagesDistinct | app/api/manual/route.ts:50-58 | the suspension table's messages are pairwise distinct |
| Manual.LogicOf | app/api/manual/route.ts:61-64 | both wings use the wing table |
| Manual.Direction | app/api/manual/route.ts:172-174 | the probe moves down exactly for the wings, the gearbox and the suspension |
| Manual.FindFeedback | app/api/manual/route.ts:252 | a message found in the table is one of its rows, and none is found exactly when no row has it |
| Manual.Classify | app/api/manual/route.ts:252-253 | a message is processed with its own row, and an unknown message (other than the `Object.prototype` names, see Left out) with the "OK" row |
| Manual.FindFirst | app/api/manual/route.ts:252 | in a table with distinct messages a message finds its own row |
| Manual.ClassifyRoundTrip | app/api/manual/route.ts:252-253 | from row to message and back gives the row, which is accepted exactly in the middle |
| Manual.LastWith | app/api/manual/route.ts:78-82 | the latest entry with the given verdict, and none exactly when no entry has it |
| Manual.TrailingOks | app/api/manual/route.ts:177-180 | the accepted laps that end the history, stopped by a rejected one |
| Manual.ScanLast | app/api/manual/route.ts:129-135 | the backward scan with early exit finds the latest accepted and the latest rejected value |
| Manual.RoundHalfUp | app/api/manual/route.ts:66 | `Math.floor(n + 0.5)` is the nearest integer, halves up |
| Manual.ApplyBounds | app/api/manual/route.ts:67 | results are clamped to 1..1000, values inside stay |
| Manual.Half | app/api/manual/route.ts:244 | half a width rounded half up is `(n + 1) / 2` |
| Manual.Midpoint | app/api/manual/route.ts:140-142 | the rounded midpoint lies between the two values |
| Manual.FreeUp | app/api/manual/route.ts:146-153 | the first untried value from the start up to the stop, or none when all were tried |
| Manual.FreeDown | app/api/manual/route.ts:155-163 | the first untried value from the start down to the stop, or none when all were tried |
| Manual.BisectPick | app/api/manual/route.ts:140-165 | the pick lies between the two verdicts and is untried, unless every value there was tried and it is the accepted one |
| Manual.Halve | app/api/manual/route.ts:183 | a halving never goes below 1 and never grows a positive step |
| Manual.StepAfter | app/api/manual/route.ts:181-185 | after halvings the step is at least 1 and at most the half width |
| Manual.Nudge | app/api/manual/route.ts:187-195 | the retry moves at most five units, falling back to the last value with a unit step |
| Manual.NextSuggestion | app/api/manual/route.ts:123-197 | 500 for an empty history, the accepted value for a gap of at most 2, and a value within 1..1000 otherwise |
| Manual.BisectSuggestion | app/api/manual/route.ts:137-167 | in bisection the accepted value for a gap of at most 2, else a clamped value |
| Manual.ProbeSuggestion | app/api/manual/route.ts:172-196 | after accepted laps the probe gives a value within 1..1000 |
| Manual.ComputeNextSuggestion | app/api/manual/route.ts:123-197 | the route's loops compute the specified suggestion |
| Manual.ComputeBisect | app/api/manual/route.ts:137-167 | the bisection branch's loops compute the specified suggestion |
| Manual.ComputeProbe | app/api/manual/route.ts:172-196 | the probing branch's loops compute the specified suggestion |
| Manual.HalvingLoop | app/api/manual/route.ts:181-185 | the halving loop halves `consecutive - 1` times |
| Manual.CountTrailingOks | app/api/manual/route.ts:176-180 | the counting loop counts the trailing accepted laps |
| Manual.BisectLoops | app/api/manual/route.ts:143-165 | the two search loops compute the bisection pick |
| Manual.SearchUp | app/api/manual/route.ts:146-153 | the upward loop finds the first untried value |
| Manual.SearchDown | app/api/manual/route.ts:155-163 | the downward loop finds the first untried value |
| Manual.NudgeLoop | app/api/manual/route.ts:186-195 | the retry loop computes the specified nudge |
| Manual.FinalAnalysis | app/api/manual/route.ts:199-233 | "—" for an empty history, "N/A" without an accepted lap, else half a width beyond the accepted value away from the rejected one, clamped, with the margin |
| Manual.BestNok | app/api/manual/route.ts:99-103 | the relevant rejection with the smallest absolute step, the earliest on a tie, and none exactly when no option is relevant |
| Manual.KeepFrom | app/api/manual/route.ts:107-110 | the filter keeps exactly the accepted messages and the picked rejection |
| Manual.Messages | app/api/manual/route.ts:116 | every message of the table, in order |
| Manual.ExpectedDir | app/api/manual/route.ts:91-93 | down exactly when the rejected value is above the accepted one, up exactly when below |
| Manual.Pick | app/api/manual/route.ts:95-104 | no rejection is picked for equal values, and a picked one is relevant |
| Manual.AllowedFeedbacks | app/api/manual/route.ts:71-120 | never empty; every message outside bisection; in bisection only "OK" and rejections |
| Manual.BestNokIsNearest | app/api/manual/route.ts:99-103 | the kept rejection is the one-width message nearest to "OK" on the expected side |
| Manual.AllowedInBisection | app/api/manual/route.ts:90-112 | in bisection exactly "OK" and the mildest rejection towards the accepted value, in table order; "OK" alone for equal values |
| Manual.BisectionKeeps | app/api/manual/route.ts:97-110 | the filter of a well-shaped table for each expected direction |
| Manual.KeepOne | app/api/manual/route.ts:107-110 | with one picked rejection the filter keeps it and "OK" in table order |
| Manual.KeepNone | app/api/manual/route.ts:107-112 | without a picked rejection the filter keeps "OK" alone |
| Manual.RejectedMoves | app/api/manual/route.ts:168-171 | after a rejected lap with no accepted one, the suggestion moves by `dir * mult` widths, clamped |
| Manual.BisectionTriesNewValue | app/api/manual/route.ts:137-167 | with a gap above 2, the suggestion lies between the verdicts and was never tried, unless all were |
| Manual.FirstProbe | app/api/manual/route.ts:172-186 | after a first accepted lap the probe moves half a width in the part's direction |
| Manual.HalveIsIntegerHalf | app/api/manual/route.ts:183 | the halving is `max(1, (s + 1) / 2)` |
| Manual.ZsTotal | app/api/manual/route.ts:240-243 | the width is the rounded value of `136 - 0.11555 xp - 0.29895 ct` |
| Manual.ProcessPart | app/api/manual/route.ts:250-260 | the processed entry keeps the value and message and takes the "OK" row for an unknown message |
| Manual.PartHistory | app/api/manual/route.ts:271 | a part's entries across laps, present exactly when every lap has the part |
| Manual.ProcessLap | app/api/manual/route.ts:246-261 | the processed lap has exactly the current lap's parts |
| Manual.Histories | app/api/manual/route.ts:263-271 | each part is evaluated on its earlier entries followed by its new entry |
| Manual.Post | app/api/manual/route.ts:235-295 | fails with "Erro interno" exactly for an unknown part or an incomplete history; otherwise every reply map has exactly the lap's parts and the widths |
| Manual.PostExtendsPartHistory | app/api/manual/route.ts:263-278 | each part's suggestion, analysis and options are computed on its history plus exactly its new entry |
| Manual.PostUnknownMessageIsOk | app/api/manual/route.ts:252-253 | an unknown message (other than the `Object.prototype` names, see Left out) counts as an accepted lap |
| ManualPage.ShortFeedback | app/dashboard/manual/page.tsx:22-31 | the label is "SATISFATÓRIO" exactly when the message is "OK"; a critical keyword gives a critical label and an adjustment keyword an adjustment label, each low when a low-side word occurs and high otherwise; any other message is "AJUSTE REQUERIDO" |
| ManualPage.FeedbackColour | app/dashboard/manual/page.tsx:33-37 | emerald exactly for "OK", rose exactly for other messages with an alarming word, amber for the rest |
| ManualPage.CriticalIsAlarming | app/dashboard/manual/page.tsx:24-35 | every critical keyword contains an alarming word, so a critical message is also alarming |
| ManualPage.CriticalIsRose | app/dashboard/manual/page.tsx:22-37 | a message labelled critical is always coloured rose |
| ManualPage.ChosenMessage | app/dashboard/manual/page.tsx:70 | a part with a non-empty chosen feedback sends that feedback, any other part sends "OK" |
| ManualPage.CurrentLap | app/dashboard/manual/page.tsx:70 | the lap sent holds exactly the six display parts, each with its input value and its chosen message |
| ManualPage.Calculate | app/dashboard/manual/page.tsx:67-85 | a finished session, a missing XP or CT, XP "0" or a failed reply leave the page unchanged; a success appends the processed lap, takes the suggestions as the new inputs, clears the feedbacks and keeps XP and CT |
| ManualPage.CalculateWithRoute | app/dashboard/manual/page.tsx:67-83 | a successful calculation answered by the manual route grows the history by exactly one lap over the same parts and keeps an input for every part |
| ManualPage.FinishedIsFinal | app/dashboard/manual/page.tsx:85 | once eight laps are recorded no reply changes the session |
| ManualPage.Delta | app/dashboard/manual/page.tsx:211-213 | the first lap shows 0; every later lap shows the amount that takes the previous lap's setting to its own |
| ManualPage.DeltasTelescope | app/dashboard/manual/page.tsx:211-213 | the first lap's setting plus the deltas up to a lap give that lap's setting |
| MarketImport.TrimUnits | app/api/market/update/route.ts:42 | the trimmed text has no JavaScript blank at either end and holds only units of the original |
| MarketImport.SplitOn | app/api/market/update/route.ts:103 | splitting at a unit gives one more piece than there are separators, and no piece holds the separator |
| MarketImport.JoinSplit | app/api/market/update/route.ts:103 | joining the pieces with the separator gives the text back |
| MarketImport.Scan | app/api/market/update/route.ts:48-56 | after the loop the quoted state is on exactly when the line holds an odd number of quotes; one field was finished per separator outside quotes, each trimmed and without quotes |
| MarketImport.ParseCsvLine | app/api/market/update/route.ts:48-59 | a line gives one field per separator outside quotes plus one; no field holds a quote and every field is trimmed |
| MarketImport.ParseCsvLineColumns | app/api/market/update/route.ts:57-58 | the final quote stripping and trimming never change a field the loop produced |
| MarketImport.ParseCsvLineWithoutQuotes | app/api/market/update/route.ts:48-59 | on a line without quotes the parser is split at the separator followed by trim on each piece |
| MarketImport.ParseCsvLineLoop | app/api/market/update/route.ts:48-59 | the loop over the line's units yields exactly the fields of the parser |
| MarketImport.DecodeNumeric | app/api/market/update/route.ts:31-33 | a text without "&" is unchanged, and decoding never lengthens the text |
| MarketImport.DecodeEncodeNumeric | app/api/market/update/route.ts:31-33 | writing every unit as a decimal reference "&#n;" and decoding gives the text back |
| MarketImport.DecodeEntities | app/api/market/update/route.ts:28-38 | an undefined or empty text decodes to "", and a text without "&" is unchanged |
| MarketImport.DoubleEscapedLessThan | app/api/market/update/route.ts:30-37 | the "&amp;" pass runs before the "&lt;" pass, so "&amp;lt;" comes out as "<" |
| MarketImport.EscapedReferenceStays | app/api/market/update/route.ts:30-37 | the numeric pass runs before "&amp;", so "&amp;#65;" comes out as the literal "&#65;" |
| MarketImport.ParseIntOrZero | app/api/market/update/route.ts:44-45 | `parseInt` of the text when it gives a number and 0 when it gives NaN, so a non-zero result needs a digit |
| MarketImport.SafeParseInt | app/api/market/update/route.ts:40-46 | an undefined or empty value is 0, any other value is `parseInt` of the cleaned text or 0 when that is NaN, and a non-zero result needs a digit in the value |
| MarketImport.SafeParseIntOfInt | app/api/market/update/route.ts:40-46 | the plain rendering of any integer reads back as that integer |
| MarketImport.SafeParseIntCurrency | app/api/market/update/route.ts:43 | currency mode is plain mode on the value with "$", ",", blanks and "." removed |
| MarketImport.CleanNumber | app/api/market/update/route.ts:42-43 | plain mode only trims; currency mode leaves no "$", ",", blank or "."; nothing new is added |
| MarketImport.SplitLines | app/api/market/update/route.ts:103 | one line more than there are line feeds, none holding a line feed |
| MarketImport.Lines | app/api/market/update/route.ts:103 | the kept lines are exactly the non-blank pieces of the split, in order |
| MarketImport.SeparatorOf | app/api/market/update/route.ts:106 | the separator is ";" exactly when the header line holds ";", and "," otherwise |
| MarketImport.ColumnOf | app/api/market/update/route.ts:12-18 | a header names a column exactly when its upper-cased text is that column's key in the column map |
| MarketImport.Convert | app/api/market/update/route.ts:113-133 | numeric and money columns always store an integer, the name stores decoded text, and any other column stores its cell text or is left out when the cell is missing |
| MarketImport.LastIndexes | app/api/market/update/route.ts:113-127 | each column maps to the last header that names it |
| MarketImport.RowRecordColumn | app/api/market/update/route.ts:109-134 | a column of a row's record holds the conversion of the cell under the last header naming it, and only a text column whose cell is missing is absent |
| MarketImport.Rows | app/api/market/update/route.ts:109 | one record per line after the header, in order |
| MarketImport.WithIds | app/api/market/update/route.ts:135 | the kept records are exactly those with a truthy id, in order |
| MarketImport.Import | app/api/market/update/route.ts:103-137 | fewer than two non-blank lines and an empty driver list are the two errors; otherwise every record returned has an id |
| MarketImport.ChunksFlatten | app/api/market/update/route.ts:150-158 | the chunks concatenate back to the driver list |
| MarketImport.ChunksSizes | app/api/market/update/route.ts:150-152 | every chunk holds 1 to 1000 records and every chunk but the last exactly 1000 |
| MarketImport.ChunkAt | app/api/market/update/route.ts:151-152 | chunk k is the slice starting at k times the chunk size |
| MarketImport.ChunkLoop | app/api/market/update/route.ts:150-158 | the insert loop visits exactly the chunks, which concatenate back to the list |
| MarketImport.FirstRefused | app/api/market/update/route.ts:151-158 | the loop stops at the first chunk the database refuses, after every earlier chunk was accepted |
| MarketImport.Store | app/api/market/update/route.ts:149-160 | the table keeps its old rows and gains a prefix of the drivers; the reply is the driver count exactly when all were inserted, and otherwise the refusing chunk's error |
| MarketImport.Sync | app/api/market/update/route.ts:87-166 | an import error or a failed cleanup leaves the table unchanged with that error; otherwise the rows with a non-zero id go and the drivers are inserted in chunks |
| MarketImport.SyncReplacesDrivers | app/api/market/update/route.ts:142-160 | after a successful synchronisation the table is the rows with id 0 followed by the file's drivers |
| MarketView.DeadlineOfDay | app/dashboard/market/page.tsx:48 | the deadline of a day falls on that day at 21:00 UTC |
| MarketView.FourDays | app/dashboard/market/page.tsx:49-54 | any four consecutive days hold a Monday or a Thursday, so the backward search ends within four steps |
| MarketView.LatestDeadline | app/dashboard/market/page.tsx:46-55 | the result is a Monday or Thursday 21:00 UTC not after now, no such deadline lies between it and now, and at most four steps back are taken |
| MarketView.CheckDatabaseStatus | app/dashboard/market/page.tsx:41-65 | the base is outdated exactly when it was never synced or a market deadline has passed since the sync; an unparseable date counts as up to date; the caption follows the status |
| MarketView.FlagCode | app/dashboard/market/page.tsx:66-73 | with the page's alpha-3 to alpha-2 table, the flag code is never empty, has no upper-case letter, and is "xx" for a nationality the table does not list |
| MarketView.FlagCodeIn | app/dashboard/market/page.tsx:70-73 | the flag code is never empty and has no upper-case letter; an unknown nationality gets "xx" |
| MarketView.FlagCodeOfCode | app/dashboard/market/page.tsx:70-73 | a listed country code, written in upper or lower case, gives its flag |
| MarketView.FlagCodePadded | app/dashboard/market/page.tsx:71 | blanks around the nationality do not change the flag |
| MarketView.FlagCodeUnknown | app/dashboard/market/page.tsx:72 | a nationality whose key is not in the table gets the placeholder flag "xx" |
| MarketView.Tracks | app/dashboard/market/page.tsx:77 | every counted track is neither blank nor "0" once trimmed |
| MarketView.CountFavTracks | app/dashboard/market/page.tsx:75-78 | the count never exceeds the number of pieces the split gives |
| MarketView.CountFavTracksGuard | app/dashboard/market/page.tsx:76-77 | the early return for "", "0" and a pair of quotes only short-cuts texts whose general count is already 0 |
| MarketView.CountJoinedTracks | app/dashboard/market/page.tsx:75-78 | joining named tracks with commas and counting gives back their number |
| MarketView.SplitJoinTracks | app/dashboard/market/page.tsx:77 | splitting a comma join of separator-free pieces gives back the pieces |
| MarketView.FilterDrivers | app/dashboard/market/page.tsx:172-180 | the kept drivers are exactly those inside every bound, a missing number counting as 0 |
| MarketView.FilterCounts | app/dashboard/market/page.tsx:172-180 | the filter keeps each passing driver as often as it occurs and no other |
| MarketView.UpdateFilter | app/dashboard/market/page.tsx:203-204 | one bound of one column changes and every other bound stays |
| MarketView.InitialFiltersCover | app/dashboard/market/page.tsx:25-38 | the initial panel lets through every driver whose values lie in 0..99 |
| MarketView.HandleSort | app/dashboard/market/page.tsx:163-167 | the clicked column becomes the key; the order is ascending exactly when that column was sorted descending |
| MarketView.HandleSortTwice | app/dashboard/market/page.tsx:163-167 | clicking the active header twice comes back to the same order |
| MarketView.LexLessTrans | app/dashboard/market/page.tsx:187-188 | the text comparison is transitive |
| MarketView.NullFavouritesSortAsOne | app/dashboard/market/page.tsx:186 | a driver without favourites sorts by favourites as if it had one track, while the table shows 0 |
| MarketView.SortValueOf | app/dashboard/market/page.tsx:184-186 | corrected (see Findings): favourites sort by the count the table shows, every other column by its own value |
| MarketView.BeforeTrans | app/dashboard/market/page.tsx:183-190 | the comparator is a strict order, so the sort is well defined |
| MarketView.Insert | app/dashboard/market/page.tsx:183-190 | inserting into a sorted list gives a sorted permutation of the list plus the driver |
| MarketView.SortDrivers | app/dashboard/market/page.tsx:182-191 | corrected (see Findings): the sorted list is a permutation of its input in the comparator's order |
| MarketView.FilteredDrivers | app/dashboard/market/page.tsx:171-193 | corrected (see Findings): the table holds each passing driver as often as the base does, and no other, in the chosen order |
| MarketView.FavouritesSortedAsShown | app/dashboard/market/page.tsx:186 | sorting by favourites, descending, lists the shown counts from high to low |
| MarketView.SliceIndex | app/dashboard/market/page.tsx:197 | a slice index is clamped into the list, and an index inside it is kept |
| MarketView.PageRows | app/dashboard/market/page.tsx:195-198 | a page holds at most twenty rows |
| MarketView.TotalPages | app/dashboard/market/page.tsx:200 | `Math.ceil(n / 20)`: the fewest pages of twenty that hold `n` rows |
| MarketView.PageCount | app/dashboard/market/page.tsx:200 | there are as many pages as chunks of twenty rows |
| MarketView.PageIsChunk | app/dashboard/market/page.tsx:195-200 | page p is the p-th chunk of twenty rows |
| MarketView.PagesPartition | app/dashboard/market/page.tsx:195-200 | the pages, read one after another, are the whole table |
| MarketView.PageZeroEmpty | app/dashboard/market/page.tsx:196-197 | page 0 shows no row |
| MarketView.EmptyListLeadsToPageZero | app/dashboard/market/page.tsx:329-330 | on an empty list the next and last buttons are enabled on page 1 and lead to page 0 |
| MarketView.Press | app/dashboard/market/page.tsx:324-330 | the page stays at 1 or above and within the pages there are; a disabled button changes nothing; first and previous never move forward |
| MarketView.PressAgrees | app/dashboard/market/page.tsx:324-330 | on a page of a non-empty list the corrected buttons act as written |
| MarketView.ClickSort | app/dashboard/market/page.tsx:163-169 | a header click re-sorts, goes back to page 1 and keeps drivers and filters |
| MarketView.SetBound | app/dashboard/market/page.tsx:203-206 | editing a bound re-filters, goes back to page 1 and keeps drivers and sort |
| MarketView.ClickPage | app/dashboard/market/page.tsx:324-330 | corrected (see Findings): a page button keeps the page within the pages there are and changes nothing else |
| MarketView.Reload | app/dashboard/market/page.tsx:130-140 | a reload replaces the drivers and keeps the page |
| MarketView.InitialViewShowsFirstPage | app/dashboard/market/page.tsx:110-113 | the page opens on page 1 showing the first twenty drivers of the order |
| TestsPage.SumSplit | app/dashboard/tests/page.tsx:130 | the lap total is the laps of the other stints plus the stint's own |
| TestsPage.SumUpdate | app/dashboard/tests/page.tsx:130 | changing one stint changes the total by the difference of its laps |
| TestsPage.VisibleStintsCount | app/dashboard/tests/page.tsx:121-128 | between 1 and 8 columns show; every stint before the last shown column has laps with the running total under 100, and when fewer than 8 show, the stint that would open the next one does not |
| TestsPage.Typed | app/dashboard/tests/page.tsx:135 | an empty field stays blank, and a field is not a number exactly when it does not start with an integer |
| TestsPage.EditStint | app/dashboard/tests/page.tsx:132-142 | a locked stint ignores the edit and no other stint changes; a typed number never exceeds 50 or what was typed, keeps the total within 100, and is only lowered below the 50-lap cap when the total reaches 100 |
| TestsPage.EditAfterOverflowGoesNegative | app/dashboard/tests/page.tsx:137-139 | when the other stints already hold more than 100 laps, any number typed into a stint becomes negative |
| TestsPage.ValidateMinLaps | app/dashboard/tests/page.tsx:144-147 | a field changes exactly when it holds 1 to 4 laps, and then becomes 5; no other field changes |
| TestsPage.ValidateCanExceedBudget | app/dashboard/tests/page.tsx:144-147 | the minimum-laps rule ignores the 100-lap budget and can push a full total past 100 |
| TestsPage.InitialTests | app/dashboard/tests/page.tsx:104-109 | the page opens with eight stints totalling ten laps and nothing locked |
| TestsPage.ToggleLock | app/dashboard/tests/page.tsx:111-119 | only stint i's lock flips; locking copies the live result into the frozen slot, unlocking leaves the frozen slots alone |
| TestsPage.LockFreezesShown | app/dashboard/tests/page.tsx:111-119 | after locking, the result shown under the stint stays what it was through any recalculation |
| TestsPage.UnlockShowsLive | app/dashboard/tests/page.tsx:326-335 | after unlocking, the live result is shown again |
| TestsPage.Recalculated | app/dashboard/tests/page.tsx:192 | a recalculation replaces the live results and nothing else |
| TestsPage.Edit | app/dashboard/tests/page.tsx:132-142 | an edit of a locked stint changes nothing, and edits never touch locks or results |
| TestsPage.Blur | app/dashboard/tests/page.tsx:315 | the minimum-laps rule on leaving a field keeps eight stints and touches neither locks nor results |
| TestsPage.ApplyPriority | app/dashboard/tests/page.tsx:149-152 | the risk is 100 exactly for the "test the car's limits" priority and 80 otherwise; temperature and pit stops stay |
| TestsPage.JsRem | app/dashboard/tests/page.tsx:249-253 | the JavaScript remainder keeps the sign of the dividend and agrees with the mathematical one on non-negative values |
| TestsPage.NextSupplier | app/dashboard/tests/page.tsx:253 | the right arrow moves to the next supplier and wraps from the last to the first |
| TestsPage.PrevSupplier | app/dashboard/tests/page.tsx:249 | the left arrow moves to the previous supplier and wraps from the first to the last |
| TestsPage.SupplierArrowsInverse | app/dashboard/tests/page.tsx:249-253 | on a valid index the left and right arrows undo each other |
| SponsorsRoute.ColumnNumbersNameLetters | app/api/sponsors/route.js:17-24 | the route's 1-based column numbers name the columns O to T, and 29 and 30 name AC and AD |
| SponsorsRoute.Extract | app/api/sponsors/route.js:30-41 | an empty cell reads as null, a primitive as itself, and the result is never undefined |
| SponsorsRoute.JsText | app/api/sponsors/route.js:68 | text renders as itself and every non-number has a rendering; a number has one here exactly when it is whole |
| SponsorsRoute.AnswerText | app/api/sponsors/route.js:71-75 | the answer is never empty: a falsy value reads as "..." and non-empty text as itself |
| SponsorsRoute.RowAnswers | app/api/sponsors/route.js:70-76 | every answer of a table row is non-empty text |
| SponsorsRoute.ReadRows | app/api/sponsors/route.js:61-78 | one entry per listed row, holding that row's key and answers |
| SponsorsRoute.BuildAnswers | app/api/sponsors/route.js:61-78 | when every row's answers are filled, so is every entry of the table |
| SponsorsRoute.BuildAnswersKeys | app/api/sponsors/route.js:67-77 | the table has a key exactly when some row carries it |
| SponsorsRoute.BuildAnswersLast | app/api/sponsors/route.js:61-78 | a key holds the answers of the last row that carries it |
| SponsorsRoute.AnswerRows | app/api/sponsors/route.js:52-81 | the rows read come from the primary sheet, else the fallback, else none, and all have filled answers |
| SponsorsRoute.LoadAnswers | app/api/sponsors/route.js:50-82 | without either sheet the answer table is empty; every entry has filled answers |
| SponsorsRoute.BuildOpponents | app/api/sponsors/route.js:88-97 | every progress value is a number or NaN, and every key comes from a managers cell of the rows |
| SponsorsRoute.LoadOpponents | app/api/sponsors/route.js:84-98 | without the Tables sheet the opponent table is empty |
| SponsorsRoute.LookupIndex | app/api/sponsors/route.js:118-121 | the index is the rounded value clamped to 1..7, and none when the value is not a number |
| SponsorsRoute.Lookup | app/api/sponsors/route.js:118-128 | without a table the answer is the read error; a key without a row gives "..."; otherwise the row's answer to the question |
| SponsorsRoute.Diff | app/api/sponsors/route.js:112 | the difference is the gap between the two progress figures times the number of managers |
| SponsorsRoute.Managers | app/api/sponsors/route.js:110 | the managers figure is never 0: a missing, non-numeric or zero value counts as 1 |
| SponsorsRoute.OpponentProgress | app/api/sponsors/route.js:113 | the opponent progress is the table's number for the managers figure, and 0 when there is none |
| SponsorsRoute.AnswerList | app/api/sponsors/route.js:116-144 | five answers in the page's order (image area, expectations, image popularity, patience amount, patience duration), none empty when the table is filled |
| SponsorsRoute.Post | app/api/sponsors/route.js:101-160 | a workbook that cannot be read fails the request; otherwise five non-empty answers and the progress difference come back |
| SponsorsRoute.PostReadsRow | app/api/sponsors/route.js:118-132 | the area answer is column T of the last table row keyed by the clamped image rating |
| SponsorsRoute.PostMissingRow | app/api/sponsors/route.js:126-127 | without a row keyed by the clamped image rating the area answer is "..." |
| SponsorsPage.ChangeAttribute | app/dashboard/sponsors/page.tsx:122-124 | the changed attribute takes the new value and every other attribute keeps its own |
| SponsorsPage.ChangeAttributeLaws | app/dashboard/sponsors/page.tsx:122-124 | writing an attribute's own value changes nothing, and two writes keep the last |
| SponsorsPage.FilterSponsors | app/dashboard/sponsors/page.tsx:118-120 | the listed sponsors are exactly those whose lower-cased name contains the lower-cased search text, each as often as in the list |
| SponsorsPage.FilterKeepsOrder | app/dashboard/sponsors/page.tsx:118-120 | filtering a list in two parts gives the filtered parts one after the other, so list order is kept |
| SponsorsPage.FilterEmptyKeepsAll | app/dashboard/sponsors/page.tsx:118-120 | an empty search lists every saved sponsor |
| SponsorsPage.FindByName | app/dashboard/sponsors/page.tsx:156 | the index is that of the first sponsor with the same name ignoring Latin-1 case, and -1 when there is none |
| SponsorsPage.SameNameIgnoresCase | app/dashboard/sponsors/page.tsx:156 | a name matches its own upper- and lower-cased forms |
| SponsorsPage.FindByNameIgnoresCase | app/dashboard/sponsors/page.tsx:156 | searching for the upper-cased name finds the same sponsor as the name itself |
| SponsorsPage.Save | app/dashboard/sponsors/page.tsx:146-167 | a blank name changes nothing; a new name goes in front; an existing name is overwritten in place when the user confirms, and kept otherwise |
| SponsorsPage.SavePreservesDistinct | app/dashboard/sponsors/page.tsx:146-167 | saving never makes two saved sponsors share a name |
| SponsorsPage.SaveStoresItem | app/dashboard/sponsors/page.tsx:146-167 | after a confirmed save of a non-blank name, the list holds the new sponsor and no other sponsor of that name |
| SponsorsPage.Delete | app/dashboard/sponsors/page.tsx:175-179 | once confirmed, every sponsor with the id is removed and every other sponsor is kept as often as before |
| SponsorsPage.DeleteKeepsOrder | app/dashboard/sponsors/page.tsx:177 | deletion works piecewise, so the kept sponsors stay in their order |
| SponsorsPage.DeletePreservesDistinct | app/dashboard/sponsors/page.tsx:175-179 | deleting never makes two saved sponsors share a name |
| GameContext.UpdateDriver | app/context/GameContext.tsx:136-138 | the field takes the value and every other field keeps its own |
| GameContext.DriverFieldsStay | app/context/GameContext.tsx:67-71 | the initial driver has every field, and updates keep every field |
| GameContext.InitialCarShape | app/context/GameContext.tsx:73-80 | the car starts with the eleven parts, each at level 1 without wear |
| GameContext.UpdateCar | app/context/GameContext.tsx:140-148 | a part in range takes the value in the one field and keeps its name and other field; an index outside the car changes nothing; no other part changes |
| GameContext.UpdateCarLaws | app/context/GameContext.tsx:140-148 | writing a field's own value back is a no-op, and two writes to one field keep the last |
| GameContext.UpdateWeather | app/context/GameContext.tsx:150-152 | the supplied keys take the new values and all others keep theirs |
| GameContext.UpdateWeatherTwice | app/context/GameContext.tsx:150-152 | two updates in a row act as one update with the later values winning |
| GameContext.Bounds | app/context/GameContext.tsx:122-125 | the eight quadrant bounds, in order, through Number; none when one of them is not a number |
| GameContext.RaceAvgTemp | app/context/GameContext.tsx:121-129 | the average is the sum of the eight bounds divided by eight, and 0 when one of them is not a number |
| GameContext.RealSumWithin | app/context/GameContext.tsx:127 | a sum of values within a range lies within the count times its ends |
| GameContext.RaceAvgWithin | app/context/GameContext.tsx:121-129 | the average lies between the lowest and highest bound |
| GameContext.InitialRaceAvg | app/context/GameContext.tsx:82-86 | the initial forecast averages to 0 |
| GameContext.InitialTrackNotWritten | app/context/GameContext.tsx:96 | the initial track is the placeholder that the backends never write to the sheet |

## Left out

- The spreadsheet engine and its formulas: xlwings' `calculate()`, HyperFormula and ExcelJS. Recalculation is the parameter `recalc`, and only its "inputs stay put" property is assumed.
- Building the HyperFormula instance of the setup calculator, patching its shared formulas and caching it are left out. The cell cleaner applied while the workbook is loaded is modelled.
- The test route's workbook loading, its single-flight `loadingPromise` and its mutex are concurrency, not logic, and are left out. The wear and fuel rates of its lap simulation are floating-point and are the parameter `simulate`.
- HTTP plumbing: the FastAPI app, CORS, logging, uvicorn, the Next.js response wrappers and the rewrite configuration.
- The `/api/python/tracks` endpoint and `app/api/tracks/route.js`: both only read the track list A4:A67. The `/api/python/tyre_suppliers` endpoint returns a constant list.
- `app/api/performance/route.js` and `app/api/test-calculator/route.ts`: they repeat the cell schema that `Calcular` and `TestsRoute` already cover.
- Floating point: the `zs` formula of the manual solver (its rounded total is a parameter), `toFixed` formatting, and infinities and `-0`. Numbers are exact reals.
- SponsorsRoute.Diff: the `Number(diff.toFixed(2))` rounding of the reply is not modelled; the contract states the exact difference.
- SponsorsRoute.JsText: `String(x)` of a fractional number has no rendering in the model, so such a key or answer cell reads as missing; integers are always rendered as plain digits, whereas JavaScript switches to exponent form (`1e+21`) from 10^21 on.
- Numbers.ParseDecimal: accepts only `[+|-] digits [. digits]` with ASCII digits. Exponents, `inf`/`Infinity`, `nan`, hexadecimal, `_` digit separators and non-ASCII decimal digits, which Python and JavaScript also accept in part, parse as failures.
- Numbers.ParseInteger: accepts only an optional sign and ASCII digits. Python's `int()` also accepts `_` digit separators and non-ASCII decimal digits; such text parses as a failure here. CPython 3.11 and later also refuse `int()` and `str()` on integers of more than 4300 digits, so the round trip holds only below that length.
- Manual.Classify: the message table is a plain object in the source, so a message equal to an `Object.prototype` member name ("toString", "constructor", "valueOf", "hasOwnProperty", "__proto__" and the like) finds an inherited member, and the lap then counts as a rejection with an undefined direction and a NaN weight. The model treats these names as unknown messages with the "OK" row; `Manual.PostUnknownMessageIsOk` carries the same exception.
- Manual.ProcessPart: setting values are integers, so the weight `Number(acerto)` of a fractional setting is not modelled.
- Backend.UpdateDriverCar, Backend.UpdateSetupWeather, Backend.CalculateSetup, Backend.CalculateStrategy: recalculation is assumed never to raise and request members are objects, so the `except` path that replies `{"sucesso": False}` after some cells were already written (a null driver or car element, a workbook error) is not modelled; these always succeed.
- MarketView.SortValueOf, MarketView.SortDrivers, MarketView.FilteredDrivers: they use the corrected favourites key (the count the table shows). The comparator as written counts a null favourites cell as one track; that version is `MarketView.NullFavouritesSortAsOne` (see Findings).
- MarketView.ClickPage: uses the corrected pager that never goes below page 1. The pager as written goes to page 0 on an empty list; that version is `MarketView.EmptyListLeadsToPageZero` (see Findings).
- MarketView.TextAt: a missing text cell reads as "" and sorts before every other text. In the source a null compared with `<` or `>` gives false both ways, so the order it leaves such drivers in depends on the sort algorithm and is not modelled.
- SponsorsPage.FindByName, SponsorsPage.Save, SponsorsPage.FilterSponsors, MarketImport.UpperUnits, MarketView.NationalityKey, Text.Lower: case mapping covers the ASCII and Latin-1 letters only. Letters beyond U+00FF, the mapping of "ÿ" to "Ÿ", "µ" and the expansion of "ß" to "SS" are left unchanged.
- Text.Trim: removes space, tab, line feed, carriage return, vertical tab and form feed. The other Unicode blanks that Python's `strip()` and JavaScript's `trim()` also remove are kept. Only the market import (`MarketImport.TrimUnits`) uses JavaScript's full set.
- Network, database and storage: Supabase queries, `fetch`, gunzip and `TextDecoder` (the decoded CSV text is a parameter), `localStorage` persistence of the sponsor list, and authentication.
- The market route's `GET`, a database query ordered by overall rating, is left out for the same reason.
- Clock and locale: `Date.now()` ids and `toLocaleDateString`/`toLocaleString` dates are parameters or left out. The current instant is a parameter of `MarketView.CheckDatabaseStatus`.
- The debounced recalculation effects of the test and sponsor pages: they only schedule the route calls that are modelled.
- The sponsor page's `loadFromDb` only copies a saved sponsor back into the form.
- The shared state's `updateTrack` and `updateDesgasteModifier` are plain setters, and its fetches of the track and supplier lists are network calls.
- All JSX rendering, animation and the UI-only pages.

## Findings

| source | as written | input that shows it | evidently intended | confidence | as-written member | corrected member |
|---|---|---|---|---|---|---|
| app/dashboard/market/page.tsx:329-330 | "next" and "last" are disabled only when the page equals `totalPages`, and they go to `Math.min(totalPages, page + 1)` and `totalPages` | a filter that matches no driver: `totalPages` is 0, page 1 keeps both buttons enabled, and a press sets page 0 (shown as "0 / 1") | the page stays at 1 or above | not executed | MarketView.EmptyListLeadsToPageZero | MarketView.Press |
| app/dashboard/market/page.tsx:186 | the favourites comparator counts `String(value)`, so a null favourites cell is the text "null", which counts as one track | two drivers, the first with favourites "Monza" and the second with none, sorted ascending by favourites: both sort as 1, so the table shows 1 then 0 | sort by the count the table shows (0 for no favourites) | not executed | MarketView.NullFavouritesSortAsOne | MarketView.FavouritesSortedAsShown |

=== FILE: backend.dfy ===
/**
 * The Python backend's endpoints, as transformations of the workbook.
 *
 * Each endpoint writes its inputs into fixed cells, lets the workbook
 * recalculate, and reads results back from fixed cells. The formulas are not
 * modelled: recalculation is a parameter `recalc`, about which the lemmas
 * assume only that it leaves the input cells they talk about alone (inputs
 * are constants, not formulas). The connection outcome is a parameter too:
 * when it failed, an endpoint reports the failure and touches nothing.
 */
module Backend {
  import opened Base
  import opened Text
  import opened Cells
  import opened Coercion
  import Connection

  const SetupSheet: string := "Setup&WS"
  const TyreSheet: string := "Tyre&Fuel"

  /** The track selector's placeholder, never written to the workbook. */
  const TrackSentinel: string := "Selecionar Pista"

  /** An endpoint's JSON reply: `sucesso` true with data, or false with the error message. */
  datatype Reply<T> = Success(data: T) | Failure(message: string)

  /** A payload field written to a fixed cell. */
  datatype Input = Input(key: string, col: string, row: int)

  /** A reply field read from a fixed cell, with the `or` fallback some fields apply. */
  datatype Output = Output(key: string, col: string, row: int, fallback: Option<Value>)

  type Recalc = Workbook<Value> -> Workbook<Value>

  // ---------------------------------------------------------------------------
  // Schemas, as written in each endpoint

  /** `update_driver_car`: the driver attributes, E6 to E17. */
  const DriverInputs: seq<Input> := [
    Input("concentracao", "E", 6), Input("talento", "E", 7), Input("agressividade", "E", 8),
    Input("experiencia", "E", 9), Input("tecnica", "E", 10), Input("resistencia", "E", 11),
    Input("carisma", "E", 12), Input("motivacao", "E", 13), Input("reputacao", "E", 14),
    Input("peso", "E", 15), Input("idade", "E", 16), Input("energia", "E", 17)]

  /** `get_strategy_state`: the driver attributes and the overall rating in E5. */
  const DriverOutputs: seq<Output> := [
    Output("concentracao", "E", 6, None), Output("talento", "E", 7, None),
    Output("agressividade", "E", 8, None), Output("experiencia", "E", 9, None),
    Output("tecnica", "E", 10, None), Output("resistencia", "E", 11, None),
    Output("carisma", "E", 12, None), Output("motivacao", "E", 13, None),
    Output("reputacao", "E", 14, None), Output("peso", "E", 15, None),
    Output("idade", "E", 16, None), Output("energia", "E", 17, None),
    Output("total", "E", 5, None)]

  /** `update_driver_car`: the three test-point totals. */
  const TestPointInputs: seq<Input> := [
    Input("power", "N", 6), Input("handling", "N", 7), Input("accel", "N", 8)]

  const TestPointOutputs: seq<Output> := [
    Output("power", "N", 6, Some(Int(0))), Output("handling", "N", 7, Some(Int(0))),
    Output("accel", "N", 8, Some(Int(0)))]

  /** `update_setup_weather`: temperatures, conditions and the four race quarters. */
  const WeatherInputs: seq<Input> := [
    Input("tempQ1", "R", 7), Input("tempQ2", "R", 8), Input("avgTemp", "R", 9),
    Input("weatherQ1", "T", 7), Input("weatherQ2", "T", 8), Input("weatherRace", "T", 9),
    Input("r1_temp_min", "S", 12), Input("r1_temp_max", "T", 12),
    Input("r2_temp_min", "S", 13), Input("r2_temp_max", "T", 13),
    Input("r3_temp_min", "S", 14), Input("r3_temp_max", "T", 14),
    Input("r4_temp_min", "S", 15), Input("r4_temp_max", "T", 15)]

  /** `get_strategy_state`: the weather block; the average temperature is read with the race options. */
  const WeatherOutputs: seq<Output> := [
    Output("tempQ1", "R", 7, Some(Int(0))), Output("tempQ2", "R", 8, Some(Int(0))),
    Output("weatherQ1", "T", 7, Some(Str("Dry"))), Output("weatherQ2", "T", 8, Some(Str("Dry"))),
    Output("weatherRace", "T", 9, Some(Str("Dry"))),
    Output("r1_temp_min", "S", 12, Some(Int(0))), Output("r1_temp_max", "T", 12, Some(Int(0))),
    Output("r2_temp_min", "S", 13, Some(Int(0))), Output("r2_temp_max", "T", 13, Some(Int(0))),
    Output("r3_temp_min", "S", 14, Some(Int(0))), Output("r3_temp_max", "T", 14, Some(Int(0))),
    Output("r4_temp_min", "S", 15, Some(Int(0))), Output("r4_temp_max", "T", 15, Some(Int(0)))]

  /** `get_strategy_state`: the car part labels, one per sheet row from 6. */
  const CarPartLabels: seq<string> := [
    "Chassi", "Motor", "Asa dianteira", "Asa traseira", "Assoalho", "Laterais",
    "Radiador", "Câmbio", "Freios", "Suspensão", "Eletrônicos"]

  /** `calculate_strategy`: the race options, all on the tyre sheet except the average temperature. */
  const RaceOptionInputs: seq<(string, Input)> := [
    (TyreSheet, Input("desgaste_pneu_percent", "G", 3)), (TyreSheet, Input("condicao", "C", 3)),
    (TyreSheet, Input("ct_valor", "C", 4)), (TyreSheet, Input("pneus_fornecedor", "C", 5)),
    (TyreSheet, Input("tipo_pneu", "C", 6)), (TyreSheet, Input("pitstops_num", "C", 7)),
    (SetupSheet, Input("avg_temp", "R", 9))]

  /** The cell of a schema field. */
  function InputCell(sheet: string, f: Input): Addr {
    At(sheet, f.col, f.row)
  }

  function OutputCell(sheet: string, f: Output): Addr {
    At(sheet, f.col, f.row)
  }

  /** The writes `_write_val` performs for a schema, in order. */
  function InputWrites(sheet: string, fields: seq<Input>, p: Payload): (ws: seq<Write<Value>>)
    ensures |ws| == |fields|
    ensures forall i :: 0 <= i < |fields| ==> ws[i] == (InputCell(sheet, fields[i]), Stored(Get(p, fields[i].key)))
  {
    seq(|fields|, i requires 0 <= i < |fields| => (InputCell(sheet, fields[i]), Stored(Get(p, fields[i].key))))
  }

  /** `_safe_val` of a cell, then the field's `or` fallback. */
  function ReadOutput(wb: Workbook<Value>, sheet: string, f: Output): (v: Value)
    ensures f.fallback.None? ==> v == SafeVal(ReadRaw(wb, OutputCell(sheet, f)))
    ensures f.fallback.Some? ==> v == Or(SafeVal(ReadRaw(wb, OutputCell(sheet, f))), f.fallback.value)
  {
    var v := SafeVal(ReadRaw(wb, OutputCell(sheet, f)));
    match f.fallback
    case None => v
    case Some(d) => Or(v, d)
  }

  /** A JSON object read through a schema, keys in schema order. */
  function ReadOutputs(wb: Workbook<Value>, sheet: string, fields: seq<Output>): (r: seq<(string, Value)>)
    ensures |r| == |fields|
    ensures forall i :: 0 <= i < |fields| ==> r[i] == (fields[i].key, ReadOutput(wb, sheet, fields[i]))
  {
    seq(|fields|, i requires 0 <= i < |fields| => (fields[i].key, ReadOutput(wb, sheet, fields[i])))
  }

  // ---------------------------------------------------------------------------
  // Column arithmetic

  /** Column letter of stint `j` (1..8): `chr(70 + j)`, G to N. */
  function StintColumn(j: int): string
    requires 1 <= j <= 8
  {
    Chr(70 + j)
  }

  /** Column letter of boost mini-stint `i` (1..8): `chr(82 + i - 1)`, R to Y. */
  function BoostColumn(i: int): string
    requires 1 <= i <= 8
  {
    Chr(82 + i - 1)
  }

  lemma StintColumnIndex(j: int)
    requires 1 <= j <= 8
    ensures ColumnIndex(StintColumn(j)) == 5 + j
  {
    SingleLetterIndex((70 + j) as char);
  }

  /** Stints sit in G..N: pairwise distinct columns, none of them the totals column O. */
  lemma StintColumnsDistinct(j: int, k: int)
    requires 1 <= j <= 8 && 1 <= k <= 8
    ensures j != k ==> ColumnIndex(StintColumn(j)) != ColumnIndex(StintColumn(k))
    ensures ColumnIndex(StintColumn(j)) != ColumnIndex("O")
    ensures ColumnIndex("G") <= ColumnIndex(StintColumn(j)) <= ColumnIndex("N")
  {
    StintColumnIndex(j);
    StintColumnIndex(k);
  }

  lemma BoostColumnIndex(i: int)
    requires 1 <= i <= 8
    ensures ColumnIndex(BoostColumn(i)) == 16 + i
    ensures ColumnIndex("R") <= ColumnIndex(BoostColumn(i)) <= ColumnIndex("Y")
  {
    SingleLetterIndex((82 + i - 1) as char);
  }

  // ---------------------------------------------------------------------------
  // get_strategy_state

  datatype CarPart = CarPart(name: string, lvl: Value, wear: Value)

  datatype State = State(
    currentTrack: Value,
    driver: seq<(string, Value)>,
    car: seq<CarPart>,
    weather: seq<(string, Value)>,
    testPoints: seq<(string, Value)>,
    avgTemp: Value,
    tyreWear: Value)

  /** Car part `i` as read: an absent or zero level reads as 1, an absent or zero wear as 0. */
  function ReadCarPart(wb: Workbook<Value>, i: nat): (p: CarPart)
    requires i < |CarPartLabels|
    ensures p.name == CarPartLabels[i]
    ensures Truthy(SafeVal(ReadRaw(wb, At(SetupSheet, "I", 6 + i)))) ==> p.lvl == SafeVal(ReadRaw(wb, At(SetupSheet, "I", 6 + i)))
    ensures !Truthy(SafeVal(ReadRaw(wb, At(SetupSheet, "I", 6 + i)))) ==> p.lvl == Int(1)
    ensures Truthy(SafeVal(ReadRaw(wb, At(SetupSheet, "J", 6 + i)))) ==> p.wear == SafeVal(ReadRaw(wb, At(SetupSheet, "J", 6 + i)))
    ensures !Truthy(SafeVal(ReadRaw(wb, At(SetupSheet, "J", 6 + i)))) ==> p.wear == Int(0)
    ensures Truthy(p.lvl)
  {
    CarPart(CarPartLabels[i],
            Or(SafeVal(ReadRaw(wb, At(SetupSheet, "I", 6 + i))), Int(1)),
            Or(SafeVal(ReadRaw(wb, At(SetupSheet, "J", 6 + i))), Int(0)))
  }

  /** `get_strategy_state`: the whole sheet state, for every page of the front end. */
  function GetStrategyState(conn: Result<Connection.Book>, wb: Workbook<Value>): (r: Reply<State>)
    ensures conn.Err? <==> r.Failure?
    ensures r.Success? ==> |r.data.driver| == 13 && |r.data.car| == 11 && |r.data.weather| == |WeatherOutputs|
    ensures r.Success? ==> forall i :: 0 <= i < 11 ==> r.data.car[i].name == CarPartLabels[i]
  {
    match conn
    case Err(msg) => Failure(msg)
    case Ok(_) =>
      Success(State(
        SafeVal(ReadRaw(wb, At(SetupSheet, "R", 5))),
        ReadOutputs(wb, SetupSheet, DriverOutputs),
        seq(11, i requires 0 <= i < 11 => ReadCarPart(wb, i)),
        ReadOutputs(wb, SetupSheet, WeatherOutputs),
        ReadOutputs(wb, SetupSheet, TestPointOutputs),
        SafeVal(ReadRaw(wb, At(SetupSheet, "R", 9))),
        SafeVal(ReadRaw(wb, At(TyreSheet, "G", 3)))))
  }

  // ---------------------------------------------------------------------------
  // Writing back

  /** A write that lands is read back by `_safe_val` as the value written. */
  lemma WrittenReadsBack(wb: Workbook<Value>, a: Addr, v: Value)
    requires Lookup(wb, a) == Stored(v)
    ensures SafeVal(ReadRaw(wb, a)) == SafeVal(v)
  {
  }

  /** The track is written only when it is truthy and not the placeholder. */
  function TrackWrites(pista: Value): (ws: seq<Write<Value>>)
    ensures |ws| <= 1
    ensures |ws| == 1 <==> Truthy(pista) && pista != Str(TrackSentinel)
    ensures |ws| == 1 ==> ws[0] == (At(SetupSheet, "R", 5), Some(pista))
  {
    if Truthy(pista) && pista != Str(TrackSentinel) then [(At(SetupSheet, "R", 5), Stored(pista))] else []
  }

  /** Car part `i` of the payload goes to I(6+i) and J(6+i), level first. */
  function CarWrites(car: seq<Payload>): (ws: seq<Write<Value>>)
    ensures |ws| == 2 * |car|
    ensures forall i :: 0 <= i < |car| ==>
              ws[2 * i] == (At(SetupSheet, "I", 6 + i), Stored(Get(car[i], "lvl")))
              && ws[2 * i + 1] == (At(SetupSheet, "J", 6 + i), Stored(Get(car[i], "wear")))
  {
    SetupColumns();
    seq(2 * |car|, k requires 0 <= k < 2 * |car| =>
      (Addr(SetupSheet, if k % 2 == 0 then 8 else 9, 6 + k / 2),
       Stored(Get(car[k / 2], if k % 2 == 0 then "lvl" else "wear"))))
  }

  datatype DriverCarRequest = DriverCarRequest(driver: Payload, car: seq<Payload>, testPoints: Payload)

  /** `update_driver_car`'s writes, in order: driver, car, test points. */
  function DriverCarWrites(req: DriverCarRequest): seq<Write<Value>> {
    InputWrites(SetupSheet, DriverInputs, req.driver)
    + CarWrites(req.car)
    + InputWrites(SetupSheet, TestPointInputs, req.testPoints)
  }

  /**
   * `update_driver_car`: writes the driver, the car and the test points,
   * recalculates, and answers the overall rating read from E5.
   */
  function UpdateDriverCar(conn: Result<Connection.Book>, wb: Workbook<Value>, req: DriverCarRequest,
                           faults: set<Addr>, recalc: Recalc): (r: (Workbook<Value>, Reply<Value>))
    ensures conn.Err? ==> r == (wb, Failure(conn.msg))
    ensures conn.Ok? ==> r.1 == Success(SafeVal(ReadRaw(r.0, At(SetupSheet, "E", 5))))
  {
    match conn
    case Err(msg) => (wb, Failure(msg))
    case Ok(_) =>
      var wb1 := recalc(PutAll(wb, DriverCarWrites(req), faults));
      (wb1, Success(SafeVal(ReadRaw(wb1, At(SetupSheet, "E", 5)))))
  }

  /** `update_setup_weather`: writes the weather block; no recalculation. */
  function UpdateSetupWeather(conn: Result<Connection.Book>, wb: Workbook<Value>, data: Payload,
                              faults: set<Addr>): (r: (Workbook<Value>, Reply<()>))
    ensures conn.Err? ==> r == (wb, Failure(conn.msg))
    ensures conn.Ok? ==> r.1 == Success(())
    ensures forall a :: (forall i :: 0 <= i < |WeatherInputs| ==> InputCell(SetupSheet, WeatherInputs[i]) != a)
                        ==> Lookup(r.0, a) == Lookup(wb, a)
  {
    match conn
    case Err(msg) => (wb, Failure(msg))
    case Ok(_) =>
      var ws := InputWrites(SetupSheet, WeatherInputs, data);
      forall a | forall i :: 0 <= i < |WeatherInputs| ==> InputCell(SetupSheet, WeatherInputs[i]) != a
        ensures Lookup(PutAll(wb, ws, faults), a) == Lookup(wb, a)
      {
        PutAllUntouched(wb, ws, faults, a);
      }
      (PutAll(wb, ws, faults), Success(()))
  }

  // ---------------------------------------------------------------------------
  // Read-back of what update_driver_car writes

  /** Letters of the columns the driver/car schema uses. */
  lemma SetupColumns()
    ensures ColumnIndex("E") == 4 && ColumnIndex("I") == 8 && ColumnIndex("J") == 9
    ensures ColumnIndex("K") == 10 && ColumnIndex("N") == 13
    ensures ColumnIndex("R") == 17 && ColumnIndex("S") == 18 && ColumnIndex("T") == 19
  {
    SingleLetterIndex('E'); SingleLetterIndex('I'); SingleLetterIndex('J');
    SingleLetterIndex('K'); SingleLetterIndex('N');
    SingleLetterIndex('R'); SingleLetterIndex('S'); SingleLetterIndex('T');
  }

  /** The driver is written and read through the same twelve cells, E6..E17, in the same order. */
  lemma DriverSchemaAgrees(i: int)
    requires 0 <= i < |DriverInputs|
    ensures i < |DriverOutputs| && DriverOutputs[i].key == DriverInputs[i].key
    ensures DriverOutputs[i].fallback == None
    ensures OutputCell(SetupSheet, DriverOutputs[i]) == InputCell(SetupSheet, DriverInputs[i])
    ensures InputCell(SetupSheet, DriverInputs[i]) == Addr(SetupSheet, 4, 6 + i)
  {
    SetupColumns();
  }

  /** The test points are written and read through N6..N8, in the same order. */
  lemma TestPointSchemaAgrees(i: int)
    requires 0 <= i < |TestPointInputs|
    ensures i < |TestPointOutputs| && TestPointOutputs[i].key == TestPointInputs[i].key
    ensures TestPointOutputs[i].fallback == Some(Int(0))
    ensures OutputCell(SetupSheet, TestPointOutputs[i]) == InputCell(SetupSheet, TestPointInputs[i])
    ensures InputCell(SetupSheet, TestPointInputs[i]) == Addr(SetupSheet, 13, 6 + i)
  {
    SetupColumns();
  }

  /** Every car write lands in column I or J of its own row. */
  lemma CarWriteCells(car: seq<Payload>, k: int)
    requires 0 <= k < 2 * |car|
    ensures CarWrites(car)[k].0 == Addr(SetupSheet, if k % 2 == 0 then 8 else 9, 6 + k / 2)
  {
  }


  /** No later write of `update_driver_car` overwrites driver attribute `i`. */
  lemma DriverWriteIsLast(req: DriverCarRequest, i: int)
    requires 0 <= i < |DriverInputs|
    ensures LastWriteAt(DriverCarWrites(req), InputCell(SetupSheet, DriverInputs[i]), i)
  {
    DriverSchemaAgrees(i);
    var a := InputCell(SetupSheet, DriverInputs[i]);
    var d := InputWrites(SetupSheet, DriverInputs, req.driver);
    DriverBlockLast(req.driver, i);
    CarAvoidsColumnE(req.car, a);
    TestPointsAvoidColumnE(req.testPoints, a);
    var none: seq<Write<Value>> := [];
    LastWriteWithin(none, d, CarWrites(req.car), InputWrites(SetupSheet, TestPointInputs, req.testPoints), a, i);
    assert none + d == d;
  }

  lemma DriverBlockLast(driver: Payload, i: int)
    requires 0 <= i < |DriverInputs|
    ensures LastWriteAt(InputWrites(SetupSheet, DriverInputs, driver), InputCell(SetupSheet, DriverInputs[i]), i)
  {
    DriverSchemaAgrees(i);
    var d := InputWrites(SetupSheet, DriverInputs, driver);
    forall j | i < j < |d| ensures d[j].0 != InputCell(SetupSheet, DriverInputs[i]) {
      DriverSchemaAgrees(j);
    }
  }

  /** The car writes stay in columns I and J. */
  lemma CarAvoidsColumnE(car: seq<Payload>, a: Addr)
    requires a.col == 4
    ensures forall j :: 0 <= j < |CarWrites(car)| ==> CarWrites(car)[j].0 != a
  {
    forall j | 0 <= j < |CarWrites(car)| ensures CarWrites(car)[j].0 != a {
      CarWriteCells(car, j);
    }
  }

  /** No later car write targets the cell of car write `k`. */
  lemma CarBlockLast(car: seq<Payload>, k: int)
    requires 0 <= k < 2 * |car|
    ensures LastWriteAt(CarWrites(car), CarWrites(car)[k].0, k)
  {
    var c := CarWrites(car);
    CarWriteCells(car, k);
    forall j | k < j < |c| ensures c[j].0 != c[k].0 {
      CarWriteCells(car, j);
    }
  }

  /** The test points stay in column N. */
  lemma TestPointsAvoidColumnE(tp: Payload, a: Addr)
    requires a.col != 13
    ensures forall j :: 0 <= j < |InputWrites(SetupSheet, TestPointInputs, tp)| ==>
              InputWrites(SetupSheet, TestPointInputs, tp)[j].0 != a
  {
    forall j | 0 <= j < |InputWrites(SetupSheet, TestPointInputs, tp)|
      ensures InputWrites(SetupSheet, TestPointInputs, tp)[j].0 != a
    {
      TestPointSchemaAgrees(j);
    }
  }

  /** A driver attribute written by `update_driver_car` is what `get_strategy_state` reports for it. */
  lemma DriverReadBack(conn: Result<Connection.Book>, wb: Workbook<Value>, req: DriverCarRequest,
                       faults: set<Addr>, recalc: Recalc, i: int)
    requires conn.Ok? && 0 <= i < |DriverInputs|
    requires InputCell(SetupSheet, DriverInputs[i]) !in faults
    requires Keeps(recalc, InputCell(SetupSheet, DriverInputs[i]))
    ensures GetStrategyState(conn, UpdateDriverCar(conn, wb, req, faults, recalc).0).data.driver[i]
         == (DriverInputs[i].key, SafeVal(Get(req.driver, DriverInputs[i].key)))
  {
    DriverSchemaAgrees(i);
    var a := InputCell(SetupSheet, DriverInputs[i]);
    DriverWriteIsLast(req, i);
    var w0 := PutAll(wb, DriverCarWrites(req), faults);
    PutAllLastWins(wb, DriverCarWrites(req), faults, a, i);
    assert Lookup(recalc(w0), a) == Lookup(w0, a);
    WrittenReadsBack(recalc(w0), a, Get(req.driver, DriverInputs[i].key));
  }

  /** The state's car part `i` is the part read from the workbook. */
  lemma StateCarPart(conn: Result<Connection.Book>, w: Workbook<Value>, i: int)
    requires conn.Ok? && 0 <= i < 11
    ensures GetStrategyState(conn, w).data.car[i] == ReadCarPart(w, i)
  {
  }

  /** A car part whose two cells hold values reads as those values, with the `or` fallbacks. */
  lemma CarPartReads(w: Workbook<Value>, i: int, lvl: Value, wear: Value)
    requires 0 <= i < |CarPartLabels|
    requires Lookup(w, At(SetupSheet, "I", 6 + i)) == Stored(lvl)
    requires Lookup(w, At(SetupSheet, "J", 6 + i)) == Stored(wear)
    ensures ReadCarPart(w, i) == CarPart(CarPartLabels[i], Or(SafeVal(lvl), Int(1)), Or(SafeVal(wear), Int(0)))
  {
    WrittenReadsBack(w, At(SetupSheet, "I", 6 + i), lvl);
    WrittenReadsBack(w, At(SetupSheet, "J", 6 + i), wear);
  }

  /**
   * A car part written by `update_driver_car` is what `get_strategy_state`
   * reports for it, with a falsy level shown as 1 and a falsy wear as 0.
   */
  lemma CarReadBack(conn: Result<Connection.Book>, wb: Workbook<Value>, req: DriverCarRequest,
                    faults: set<Addr>, recalc: Recalc, i: int)
    requires conn.Ok? && 0 <= i < |req.car| && i < |CarPartLabels|
    requires At(SetupSheet, "I", 6 + i) !in faults && At(SetupSheet, "J", 6 + i) !in faults
    requires Keeps(recalc, At(SetupSheet, "I", 6 + i)) && Keeps(recalc, At(SetupSheet, "J", 6 + i))
    ensures GetStrategyState(conn, UpdateDriverCar(conn, wb, req, faults, recalc).0).data.car[i]
         == CarPart(CarPartLabels[i], Or(SafeVal(Get(req.car[i], "lvl")), Int(1)),
                    Or(SafeVal(Get(req.car[i], "wear")), Int(0)))
  {
    var w1 := UpdateDriverCar(conn, wb, req, faults, recalc).0;
    CarLevelWritten(conn, wb, req, faults, recalc, i);
    CarWearWritten(conn, wb, req, faults, recalc, i);
    CarPartReads(w1, i, Get(req.car[i], "lvl"), Get(req.car[i], "wear"));
    StateCarPart(conn, w1, i);
  }

  /** A test-point total written by `update_driver_car` is reported back, a falsy one as 0. */
  lemma TestPointReadBack(conn: Result<Connection.Book>, wb: Workbook<Value>, req: DriverCarRequest,
                          faults: set<Addr>, recalc: Recalc, i: int)
    requires conn.Ok? && 0 <= i < |TestPointInputs|
    requires InputCell(SetupSheet, TestPointInputs[i]) !in faults
    requires Keeps(recalc, InputCell(SetupSheet, TestPointInputs[i]))
    ensures GetStrategyState(conn, UpdateDriverCar(conn, wb, req, faults, recalc).0).data.testPoints[i]
         == (TestPointInputs[i].key, Or(SafeVal(Get(req.testPoints, TestPointInputs[i].key)), Int(0)))
  {
    TestPointSchemaAgrees(i);
    var a := InputCell(SetupSheet, TestPointInputs[i]);
    var d := InputWrites(SetupSheet, DriverInputs, req.driver);
    var c := CarWrites(req.car);
    var t := InputWrites(SetupSheet, TestPointInputs, req.testPoints);
    forall j | i < j < |t| ensures t[j].0 != a {
      TestPointSchemaAgrees(j);
    }
    var none: seq<Write<Value>> := [];
    LastWriteInside(d + c, t, none, a, i);
    assert d + c + t + none == DriverCarWrites(req);
    var w0 := PutAll(wb, DriverCarWrites(req), faults);
    PutAllLastWins(wb, DriverCarWrites(req), faults, a, |d + c| + i);
    assert Lookup(recalc(w0), a) == Lookup(w0, a);
    WrittenReadsBack(recalc(w0), a, Get(req.testPoints, TestPointInputs[i].key));
  }

  // ---------------------------------------------------------------------------
  // Read-back of what update_setup_weather writes

  /** Position in the reply's weather block of weather input `i` (the average temperature, input 2, is reported elsewhere). */
  function WeatherSlot(i: int): (r: int)
    requires 0 <= i < |WeatherInputs| && i != 2
    ensures 0 <= r < |WeatherOutputs| && WeatherOutputs[r].fallback.Some?
  {
    if i < 2 then i else i - 1
  }

  /** The fourteen weather inputs go to fourteen different cells. */
  lemma WeatherCellsDistinct()
    ensures forall i, j :: 0 <= i < j < |WeatherInputs| ==>
              InputCell(SetupSheet, WeatherInputs[i]) != InputCell(SetupSheet, WeatherInputs[j])
  {
    SetupColumns();
  }

  /** Each weather input other than the average temperature is reported under its own key from its own cell. */
  lemma WeatherSchemaAgrees(i: int)
    requires 0 <= i < |WeatherInputs| && i != 2
    ensures WeatherSlot(i) < |WeatherOutputs|
    ensures WeatherOutputs[WeatherSlot(i)].key == WeatherInputs[i].key
    ensures WeatherOutputs[WeatherSlot(i)].fallback.Some?
    ensures OutputCell(SetupSheet, WeatherOutputs[WeatherSlot(i)]) == InputCell(SetupSheet, WeatherInputs[i])
  {
  }

  /** A weather field saved by `update_setup_weather` is what `get_strategy_state` reports, after its fallback. */
  lemma WeatherReadBack(conn: Result<Connection.Book>, wb: Workbook<Value>, data: Payload,
                        faults: set<Addr>, i: int)
    requires conn.Ok? && 0 <= i < |WeatherInputs| && i != 2
    requires InputCell(SetupSheet, WeatherInputs[i]) !in faults
    ensures GetStrategyState(conn, UpdateSetupWeather(conn, wb, data, faults).0).data.weather[WeatherSlot(i)]
         == (WeatherInputs[i].key,
             Or(SafeVal(Get(data, WeatherInputs[i].key)), WeatherOutputs[WeatherSlot(i)].fallback.value))
  {
    WeatherSchemaAgrees(i);
    WeatherCellsDistinct();
    var ws := InputWrites(SetupSheet, WeatherInputs, data);
    var a := InputCell(SetupSheet, WeatherInputs[i]);
    PutAllLastWins(wb, ws, faults, a, i);
    WrittenReadsBack(PutAll(wb, ws, faults), a, Get(data, WeatherInputs[i].key));
  }

  /** The average temperature saved by `update_setup_weather` is reported with the race options. */
  lemma AvgTempReadBack(conn: Result<Connection.Book>, wb: Workbook<Value>, data: Payload, faults: set<Addr>)
    requires conn.Ok? && At(SetupSheet, "R", 9) !in faults
    ensures GetStrategyState(conn, UpdateSetupWeather(conn, wb, data, faults).0).data.avgTemp
         == SafeVal(Get(data, "avgTemp"))
  {
    WeatherCellsDistinct();
    var ws := InputWrites(SetupSheet, WeatherInputs, data);
    var a := InputCell(SetupSheet, WeatherInputs[2]);
    PutAllLastWins(wb, ws, faults, a, 2);
    WrittenReadsBack(PutAll(wb, ws, faults), a, Get(data, "avgTemp"));
  }

  // ---------------------------------------------------------------------------
  // The track rule, shared by both calculations

  /** The track cell R5 of the setup sheet. */
  const TrackCell: Addr := At(SetupSheet, "R", 5)

  /**
   * A batch that starts with the track write and never touches R5 again
   * stores the track when it is truthy and not the placeholder, and
   * otherwise leaves the cell as it was.
   */
  lemma TrackRule(wb: Workbook<Value>, pista: Value, rest: seq<Write<Value>>, faults: set<Addr>)
    requires TrackCell !in faults
    requires forall j :: 0 <= j < |rest| ==> rest[j].0 != TrackCell
    ensures Truthy(pista) && pista != Str(TrackSentinel) ==>
              Lookup(PutAll(wb, TrackWrites(pista) + rest, faults), TrackCell) == Some(pista)
    ensures !(Truthy(pista) && pista != Str(TrackSentinel)) ==>
              Lookup(PutAll(wb, TrackWrites(pista) + rest, faults), TrackCell) == Lookup(wb, TrackCell)
  {
    var ws := TrackWrites(pista) + rest;
    if |TrackWrites(pista)| == 1 {
      var none: seq<Write<Value>> := [];
      assert LastWriteAt(TrackWrites(pista), TrackCell, 0);
      LastWriteInside(none, TrackWrites(pista), rest, TrackCell, 0);
      assert none + TrackWrites(pista) + rest == ws;
      PutAllLastWins(wb, ws, faults, TrackCell, 0);
    } else {
      assert ws == rest;
      PutAllUntouched(wb, ws, faults, TrackCell);
    }
  }

  // ---------------------------------------------------------------------------
  // calculate_setup

  /** Keys of the setup reply, in the order the endpoint builds it. */
  const SetupPartKeys: seq<string> := [
    "asaDianteira", "asaTraseira", "motor", "freios", "cambio", "suspensao",
    "chassi", "assoalho", "laterais", "radiador", "eletronicos"]

  /**
   * For reply entry `k`, the offset from row 6 of the sheet row holding that
   * part's wear. The first six entries also have a setup, read from row 6 + k.
   */
  const WearRow: seq<int> := [2, 3, 1, 8, 7, 9, 0, 4, 5, 6, 10]

  /** Inverse of `WearRow`: the reply entry that reports the wear of sheet row 6 + r. */
  const WearEntry: seq<int> := [6, 2, 0, 1, 7, 8, 9, 4, 3, 5, 10]

  /** Every part's wear is reported exactly once: `WearRow` is a permutation of the eleven rows. */
  lemma WearRowIsPermutation()
    ensures |WearRow| == |WearEntry| == |SetupPartKeys| == |CarPartLabels| == 11
    ensures forall k :: 0 <= k < 11 ==> 0 <= WearRow[k] < 11 && WearEntry[WearRow[k]] == k
    ensures forall r :: 0 <= r < 11 ==> 0 <= WearEntry[r] < 11 && WearRow[WearEntry[r]] == r
    ensures forall k, l :: 0 <= k < l < 11 ==> WearRow[k] != WearRow[l]
  {
  }

  /** One entry of the setup reply: the three setups when the part has them, and its wear at start and end. */
  datatype PartResult = PartResult(key: string, setup: Option<(Value, Value, Value)>, start: Value, end: Value)

  /** `calculate_setup`'s writes, in order: the track, then the weather fields R7..T9. */
  function SetupWrites(data: Payload): (ws: seq<Write<Value>>)
    ensures |ws| == |TrackWrites(Get(data, "pista"))| + 6
  {
    TrackWrites(Get(data, "pista")) + InputWrites(SetupSheet, WeatherInputs[..6], data)
  }

  /** Reply entry `k` of `calculate_setup`, read from the recalculated workbook. */
  function ReadPartResult(wb: Workbook<Value>, k: int): (p: PartResult)
    requires 0 <= k < 11
    ensures p.key == SetupPartKeys[k]
    ensures p.setup.Some? <==> k < 6
    ensures p.start == SafeVal(ReadRaw(wb, At(SetupSheet, "J", 6 + WearRow[k])))
    ensures p.end == SafeVal(ReadRaw(wb, At(SetupSheet, "K", 6 + WearRow[k])))
  {
    var row := 6 + WearRow[k];
    PartResult(
      SetupPartKeys[k],
      if k < 6 then
        Some((SafeVal(ReadRaw(wb, At(SetupSheet, "AC", 6 + k))),
              SafeVal(ReadRaw(wb, At(SetupSheet, "AD", 6 + k))),
              SafeVal(ReadRaw(wb, At(SetupSheet, "AE", 6 + k)))))
      else None,
      SafeVal(ReadRaw(wb, At(SetupSheet, "J", row))),
      SafeVal(ReadRaw(wb, At(SetupSheet, "K", row))))
  }

  /**
   * `calculate_setup`: writes the track and the weather, recalculates, and
   * answers the ideal setups of six parts and the wear of all eleven.
   */
  function CalculateSetup(conn: Result<Connection.Book>, wb: Workbook<Value>, data: Payload,
                          faults: set<Addr>, recalc: Recalc): (r: (Workbook<Value>, Reply<seq<PartResult>>))
    ensures conn.Err? ==> r == (wb, Failure(conn.msg))
    ensures conn.Ok? ==> r.0 == recalc(PutAll(wb, SetupWrites(data), faults))
    ensures conn.Ok? ==> r.1.Success? && |r.1.data| == 11
    ensures conn.Ok? ==> forall k :: 0 <= k < 11 ==> r.1.data[k] == ReadPartResult(r.0, k)
  {
    match conn
    case Err(msg) => (wb, Failure(msg))
    case Ok(_) =>
      var wb1 := recalc(PutAll(wb, SetupWrites(data), faults));
      (wb1, Success(seq(11, k requires 0 <= k < 11 => ReadPartResult(wb1, k))))
  }

  /** `calculate_setup` writes only the track and R7, R8, R9, T7, T8, T9: the race-quarter temperatures are not sent. */
  lemma SetupWritesCells(data: Payload, a: Addr)
    requires a != TrackCell
    requires a.sheet != SetupSheet || !(a.col in {17, 19} && 7 <= a.row <= 9)
    ensures forall j :: 0 <= j < |SetupWrites(data)| ==> SetupWrites(data)[j].0 != a
  {
    SetupColumns();
    var t := TrackWrites(Get(data, "pista"));
    var w := InputWrites(SetupSheet, WeatherInputs[..6], data);
    assert forall j :: 0 <= j < 6 ==> w[j].0.sheet == SetupSheet && w[j].0.col in {17, 19} && 7 <= w[j].0.row <= 9;
    forall j | 0 <= j < |SetupWrites(data)| ensures SetupWrites(data)[j].0 != a {
      if j >= |t| {
        assert SetupWrites(data)[j] == w[j - |t|];
      }
    }
  }

  /** The track `calculate_setup` is given is the one the state then reports, unless it is falsy or the placeholder. */
  lemma SetupTrackReadBack(conn: Result<Connection.Book>, wb: Workbook<Value>, data: Payload,
                           faults: set<Addr>, recalc: Recalc)
    requires conn.Ok? && TrackCell !in faults && Keeps(recalc, TrackCell)
    ensures var st := GetStrategyState(conn, CalculateSetup(conn, wb, data, faults, recalc).0).data;
            var pista := Get(data, "pista");
            (Truthy(pista) && pista != Str(TrackSentinel) ==> st.currentTrack == SafeVal(pista))
            && (!(Truthy(pista) && pista != Str(TrackSentinel)) ==> st.currentTrack == SafeVal(ReadRaw(wb, TrackCell)))
  {
    SetupColumns();
    var w := InputWrites(SetupSheet, WeatherInputs[..6], data);
    assert forall j :: 0 <= j < 6 ==> w[j].0.row != 5;
    TrackRule(wb, Get(data, "pista"), w, faults);
    var w0 := PutAll(wb, SetupWrites(data), faults);
    assert Lookup(recalc(w0), TrackCell) == Lookup(w0, TrackCell);
  }

  /** The starting wear `calculate_setup` reports for a part is what its row of column J held before. */
  lemma SetupReportsWear(conn: Result<Connection.Book>, wb: Workbook<Value>, data: Payload,
                         faults: set<Addr>, recalc: Recalc, k: int, v: Value)
    requires conn.Ok? && 0 <= k < 11
    requires Lookup(wb, At(SetupSheet, "J", 6 + WearRow[k])) == Stored(v)
    requires Keeps(recalc, At(SetupSheet, "J", 6 + WearRow[k]))
    ensures CalculateSetup(conn, wb, data, faults, recalc).1.data[k].start == SafeVal(v)
  {
    SetupKeepsWear(wb, data, faults, recalc, WearRow[k]);
  }

  /**
   * Wear entered with `update_driver_car` is the starting wear `calculate_setup`
   * reports, under the part that sits in that sheet row.
   */
  lemma SetupReportsEnteredWear(conn: Result<Connection.Book>, wb: Workbook<Value>, req: DriverCarRequest,
                                data: Payload, faults: set<Addr>, recalc: Recalc, k: int)
    requires conn.Ok? && 0 <= k < 11 && WearRow[k] < |req.car|
    requires At(SetupSheet, "J", 6 + WearRow[k]) !in faults
    requires Keeps(recalc, At(SetupSheet, "J", 6 + WearRow[k]))
    ensures var wb1 := UpdateDriverCar(conn, wb, req, faults, recalc).0;
            CalculateSetup(conn, wb1, data, faults, recalc).1.data[k].start == SafeVal(Get(req.car[WearRow[k]], "wear"))
  {
    var wb1 := UpdateDriverCar(conn, wb, req, faults, recalc).0;
    CarWearWritten(conn, wb, req, faults, recalc, WearRow[k]);
    SetupReportsWear(conn, wb1, data, faults, recalc, k, Get(req.car[WearRow[k]], "wear"));
  }

  /** `calculate_setup` leaves the wear column J alone, when recalculation does. */
  lemma SetupKeepsWear(wb: Workbook<Value>, data: Payload, faults: set<Addr>, recalc: Recalc, i: int)
    requires Keeps(recalc, At(SetupSheet, "J", 6 + i))
    ensures Lookup(recalc(PutAll(wb, SetupWrites(data), faults)), At(SetupSheet, "J", 6 + i))
         == Lookup(wb, At(SetupSheet, "J", 6 + i))
  {
    var a := At(SetupSheet, "J", 6 + i);
    SetupColumns();
    SetupWritesCells(data, a);
    PutAllUntouched(wb, SetupWrites(data), faults, a);
    var w0 := PutAll(wb, SetupWrites(data), faults);
    assert Lookup(recalc(w0), a) == Lookup(w0, a);
  }

  /** Every car write of the batch is the last one to its cell, so the cell holds it afterwards. */
  lemma CarCellStored(wb: Workbook<Value>, req: DriverCarRequest, faults: set<Addr>, k: int)
    requires 0 <= k < 2 * |req.car|
    requires CarWrites(req.car)[k].0 !in faults
    ensures Lookup(PutAll(wb, DriverCarWrites(req), faults), CarWrites(req.car)[k].0) == CarWrites(req.car)[k].1
  {
    var d := InputWrites(SetupSheet, DriverInputs, req.driver);
    var c := CarWrites(req.car);
    var t := InputWrites(SetupSheet, TestPointInputs, req.testPoints);
    var a := c[k].0;
    CarWriteCells(req.car, k);
    TestPointsAvoidColumnE(req.testPoints, a);
    CarBlockLast(req.car, k);
    MiddleWriteStored(wb, d, c, t, faults, k);
  }

  /** After `update_driver_car`, the level cell of part `i` holds what was sent for it. */
  lemma CarLevelWritten(conn: Result<Connection.Book>, wb: Workbook<Value>, req: DriverCarRequest,
                        faults: set<Addr>, recalc: Recalc, i: int)
    requires conn.Ok? && 0 <= i < |req.car|
    requires At(SetupSheet, "I", 6 + i) !in faults
    requires Keeps(recalc, At(SetupSheet, "I", 6 + i))
    ensures Lookup(UpdateDriverCar(conn, wb, req, faults, recalc).0, At(SetupSheet, "I", 6 + i))
         == Stored(Get(req.car[i], "lvl"))
  {
    var c := CarWrites(req.car);
    assert c[2 * i] == (At(SetupSheet, "I", 6 + i), Stored(Get(req.car[i], "lvl")));
    CarCellStored(wb, req, faults, 2 * i);
  }

  /** After `update_driver_car`, the wear cell of part `i` holds what was sent for it. */
  lemma CarWearWritten(conn: Result<Connection.Book>, wb: Workbook<Value>, req: DriverCarRequest,
                       faults: set<Addr>, recalc: Recalc, i: int)
    requires conn.Ok? && 0 <= i < |req.car|
    requires At(SetupSheet, "J", 6 + i) !in faults
    requires Keeps(recalc, At(SetupSheet, "J", 6 + i))
    ensures Lookup(UpdateDriverCar(conn, wb, req, faults, recalc).0, At(SetupSheet, "J", 6 + i))
         == Stored(Get(req.car[i], "wear"))
  {
    var c := CarWrites(req.car);
    assert c[2 * i + 1] == (At(SetupSheet, "J", 6 + i), Stored(Get(req.car[i], "wear")));
    CarCellStored(wb, req, faults, 2 * i + 1);
  }

  // ---------------------------------------------------------------------------
  // calculate_strategy

  /** A JSON object with scalar members, keys in insertion order. */
  type Obj = seq<(string, Value)>

  /** The `stint{i}` keys, i = 1..8. */
  const StintKeys: seq<string> := ["stint1", "stint2", "stint3", "stint4", "stint5", "stint6", "stint7", "stint8"]

  /** The `boost{i}` keys, i = 1..3. */
  const BoostKeys: seq<string> := ["boost1", "boost2", "boost3"]

  /**
   * The request. A sub-object the request leaves out is `{}`: `race_options`,
   * `personal_stint_voltas`, `boost_laps` and each `boost{i}` in it.
   */
  datatype StrategyRequest = StrategyRequest(
    pista: Value,
    raceOptions: Payload,
    personal: Payload,
    boosts: map<string, Payload>)

  /** The race options, each to its own cell. */
  function RaceOptionWrites(ro: Payload): (ws: seq<Write<Value>>)
    ensures |ws| == |RaceOptionInputs|
    ensures forall i :: 0 <= i < |ws| ==>
              ws[i] == (InputCell(RaceOptionInputs[i].0, RaceOptionInputs[i].1), Stored(Get(ro, RaceOptionInputs[i].1.key)))
  {
    seq(|RaceOptionInputs|, i requires 0 <= i < |RaceOptionInputs| =>
      (InputCell(RaceOptionInputs[i].0, RaceOptionInputs[i].1), Stored(Get(ro, RaceOptionInputs[i].1.key))))
  }

  /** The manual stint laps go to G21..N21, and only when the object has a member at all. */
  function PersonalWrites(ps: Payload): (ws: seq<Write<Value>>)
    ensures |ps| == 0 ==> ws == []
    ensures |ps| > 0 ==> |ws| == 8
    ensures |ps| > 0 ==> forall j :: 0 <= j < 8 ==>
              ws[j] == (At(TyreSheet, StintColumn(j + 1), 21), Stored(Get(ps, StintKeys[j])))
  {
    if |ps| == 0 then []
    else seq(8, j requires 0 <= j < 8 => (At(TyreSheet, StintColumn(j + 1), 21), Stored(Get(ps, StintKeys[j]))))
  }

  /** `bl.get(key, {})`. */
  function BoostOf(bl: map<string, Payload>, key: string): (p: Payload)
    ensures key !in bl ==> p == map[]
  {
    if key in bl then bl[key] else map[]
  }

  /** The three boost laps go to R20..R22; a boost left out empties its cell. */
  function BoostWrites(bl: map<string, Payload>): (ws: seq<Write<Value>>)
    ensures |ws| == 3
    ensures forall i :: 0 <= i < 3 ==> ws[i] == (At(TyreSheet, "R", 20 + i), Stored(Get(BoostOf(bl, BoostKeys[i]), "volta")))
  {
    seq(3, i requires 0 <= i < 3 => (At(TyreSheet, "R", 20 + i), Stored(Get(BoostOf(bl, BoostKeys[i]), "volta"))))
  }

  /** `calculate_strategy`'s writes, in order: track, race options, manual stints, boosts. */
  function StrategyWrites(req: StrategyRequest): seq<Write<Value>> {
    TrackWrites(req.pista) + OptionWrites(req)
  }

  /** The race options, the personal stints and the boosts, in that order. */
  function OptionWrites(req: StrategyRequest): seq<Write<Value>> {
    RaceOptionWrites(req.raceOptions) + PersonalWrites(req.personal) + BoostWrites(req.boosts)
  }

  /** `race_calculated_data`. */
  const RaceDataOutputs: seq<Output> := [
    Output("nivel_aderencia", "D", 24, None), Output("consumo_combustivel", "D", 22, None),
    Output("desgaste_pneu_str", "D", 23, None), Output("ultrapassagem", "D", 17, None),
    Output("voltas", "D", 18, None), Output("pit_io", "D", 19, None), Output("tcd_corrida", "D", 21, None)]

  /** The compounds and their rows. */
  const Compounds: seq<(string, int)> := [("Extra Soft", 6), ("Soft", 7), ("Medium", 8), ("Hard", 9)]

  /** A compound's details, read from its row. */
  function CompoundOutputs(row: int): seq<Output> {
    [Output("req_stops", "G", row, None), Output("fuel_load", "K", row, None),
     Output("tyre_wear", "N", row, None), Output("total", "O", row, None)]
  }

  /** The rows of a stint table, as offsets from its first row. */
  const StintLabels: seq<string> := ["voltas", "desg_final_pneu", "comb_necessario", "est_tempo_pit", "voltas_em_bad"]

  /** One row of a stint table: stints 1..8 from G..N, then the total from O. */
  function StintRow(wb: Workbook<Value>, row: int): (o: Obj)
    ensures |o| == 9
    ensures forall j :: 0 <= j < 8 ==> o[j] == (StintKeys[j], SafeVal(ReadRaw(wb, At(TyreSheet, StintColumn(j + 1), row))))
    ensures o[8] == ("total", SafeVal(ReadRaw(wb, At(TyreSheet, "O", row))))
  {
    seq(8, j requires 0 <= j < 8 => (StintKeys[j], SafeVal(ReadRaw(wb, At(TyreSheet, StintColumn(j + 1), row)))))
    + [("total", SafeVal(ReadRaw(wb, At(TyreSheet, "O", row))))]
  }

  /** A stint table starting at sheet row `start`, one labelled row per offset. */
  function StintTable(wb: Workbook<Value>, start: int): (t: seq<(string, Obj)>)
    ensures |t| == 5
    ensures forall k :: 0 <= k < 5 ==> t[k] == (StintLabels[k], StintRow(wb, start + k))
  {
    seq(5, k requires 0 <= k < 5 => (StintLabels[k], StintRow(wb, start + k)))
  }

  datatype StrategyResult = StrategyResult(
    raceData: Obj,
    compounds: seq<(string, Obj)>,
    predefined: seq<(string, Obj)>,
    personal: seq<(string, Obj)>,
    boostLaps: seq<(string, Obj)>,
    miniStints: seq<(string, Obj)>)

  /** Everything `calculate_strategy` reads back, from the recalculated workbook. */
  function ReadStrategy(wb: Workbook<Value>): (r: StrategyResult)
    ensures r.raceData == ReadOutputs(wb, TyreSheet, RaceDataOutputs)
    ensures |r.compounds| == 4 && forall c :: 0 <= c < 4 ==>
              r.compounds[c] == (Compounds[c].0, ReadOutputs(wb, TyreSheet, CompoundOutputs(Compounds[c].1)))
    ensures r.predefined == StintTable(wb, 14) && r.personal == StintTable(wb, 21)
    ensures |r.boostLaps| == 3 && forall i :: 0 <= i < 3 ==>
              r.boostLaps[i] == (BoostKeys[i], [("stint", SafeVal(ReadRaw(wb, At(TyreSheet, "S", 20 + i)))),
                                                ("voltas_list", SafeVal(ReadRaw(wb, At(TyreSheet, "T", 20 + i))))])
    ensures |r.miniStints| == 8 && forall i :: 0 <= i < 8 ==>
              r.miniStints[i] == (StintKeys[i], [("val1", SafeVal(ReadRaw(wb, At(TyreSheet, BoostColumn(i + 1), 25)))),
                                                 ("val2", SafeVal(ReadRaw(wb, At(TyreSheet, BoostColumn(i + 1), 24))))])
  {
    StrategyResult(
      ReadOutputs(wb, TyreSheet, RaceDataOutputs),
      seq(4, c requires 0 <= c < 4 => (Compounds[c].0, ReadOutputs(wb, TyreSheet, CompoundOutputs(Compounds[c].1)))),
      StintTable(wb, 14),
      StintTable(wb, 21),
      seq(3, i requires 0 <= i < 3 =>
        (BoostKeys[i], [("stint", SafeVal(ReadRaw(wb, At(TyreSheet, "S", 20 + i)))),
                        ("voltas_list", SafeVal(ReadRaw(wb, At(TyreSheet, "T", 20 + i))))])),
      seq(8, i requires 0 <= i < 8 =>
        (StintKeys[i], [("val1", SafeVal(ReadRaw(wb, At(TyreSheet, BoostColumn(i + 1), 25)))),
                        ("val2", SafeVal(ReadRaw(wb, At(TyreSheet, BoostColumn(i + 1), 24))))])))
  }

  /**
   * `calculate_strategy`: writes the track, race options, manual stints and
   * boost laps, recalculates, and reads the whole strategy back.
   */
  function CalculateStrategy(conn: Result<Connection.Book>, wb: Workbook<Value>, req: StrategyRequest,
                             faults: set<Addr>, recalc: Recalc): (r: (Workbook<Value>, Reply<StrategyResult>))
    ensures conn.Err? ==> r == (wb, Failure(conn.msg))
    ensures conn.Ok? ==> r.0 == recalc(PutAll(wb, StrategyWrites(req), faults))
    ensures conn.Ok? ==> r.1 == Success(ReadStrategy(r.0))
  {
    match conn
    case Err(msg) => (wb, Failure(msg))
    case Ok(_) =>
      var wb1 := recalc(PutAll(wb, StrategyWrites(req), faults));
      (wb1, Success(ReadStrategy(wb1)))
  }

  // ---------------------------------------------------------------------------
  // What calculate_strategy writes, read back

  /** The three boost laps land in column R, rows 20..22, of the tyre sheet. */
  lemma BoostCells(bl: map<string, Payload>)
    ensures forall i :: 0 <= i < 3 ==> BoostWrites(bl)[i].0 == Addr(TyreSheet, 17, 20 + i)
  {
    SetupColumns();
  }

  /** The cells of the race options. */
  lemma RaceOptionCells(ro: Payload)
    ensures RaceOptionWrites(ro)[0].0 == Addr(TyreSheet, 6, 3)
    ensures forall i :: 1 <= i < 6 ==> RaceOptionWrites(ro)[i].0 == Addr(TyreSheet, 2, 2 + i)
    ensures RaceOptionWrites(ro)[6].0 == Addr(SetupSheet, 17, 9)
  {
    SetupColumns();
    SingleLetterIndex('G');
    SingleLetterIndex('C');
  }

  /** Manual stint `j` (0-based) goes to column 6 + j of row 21 of the tyre sheet. */
  lemma PersonalCells(ps: Payload)
    requires |ps| > 0
    ensures forall j :: 0 <= j < 8 ==> PersonalWrites(ps)[j].0 == Addr(TyreSheet, 6 + j, 21)
  {
    forall j | 0 <= j < 8 ensures PersonalWrites(ps)[j].0 == Addr(TyreSheet, 6 + j, 21) {
      StintColumnIndex(j + 1);
    }
  }

  /** The stint laps sent in a non-empty `personal_stint_voltas` land in G21..N21. */
  lemma PersonalWritten(wb: Workbook<Value>, req: StrategyRequest, faults: set<Addr>, j: int)
    requires |req.personal| > 0 && 0 <= j < 8
    requires At(TyreSheet, StintColumn(j + 1), 21) !in faults
    ensures Lookup(PutAll(wb, StrategyWrites(req), faults), At(TyreSheet, StintColumn(j + 1), 21))
         == Stored(Get(req.personal, StintKeys[j]))
  {
    var a := At(TyreSheet, StintColumn(j + 1), 21);
    var xs := TrackWrites(req.pista) + RaceOptionWrites(req.raceOptions);
    var ps := PersonalWrites(req.personal);
    var bs := BoostWrites(req.boosts);
    PersonalCells(req.personal);
    BoostCells(req.boosts);
    assert a == ps[j].0;
    LastWriteInside(xs, ps, bs, a, j);
    PutAllLastWins(wb, StrategyWrites(req), faults, a, |xs| + j);
  }

  /** Manual stint laps sent to `calculate_strategy` come back in the `voltas` row of `stints_personal`. */
  lemma PersonalStintReadBack(conn: Result<Connection.Book>, wb: Workbook<Value>, req: StrategyRequest,
                              faults: set<Addr>, recalc: Recalc, j: int)
    requires conn.Ok? && |req.personal| > 0 && 0 <= j < 8
    requires At(TyreSheet, StintColumn(j + 1), 21) !in faults
    requires Keeps(recalc, At(TyreSheet, StintColumn(j + 1), 21))
    ensures CalculateStrategy(conn, wb, req, faults, recalc).1.data.personal[0]
         == ("voltas", CalculateStrategy(conn, wb, req, faults, recalc).1.data.personal[0].1)
    ensures CalculateStrategy(conn, wb, req, faults, recalc).1.data.personal[0].1[j]
         == (StintKeys[j], SafeVal(Get(req.personal, StintKeys[j])))
  {
    var a := At(TyreSheet, StintColumn(j + 1), 21);
    PersonalWritten(wb, req, faults, j);
    var w0 := PutAll(wb, StrategyWrites(req), faults);
    assert Lookup(recalc(w0), a) == Lookup(w0, a);
    WrittenReadsBack(recalc(w0), a, Get(req.personal, StintKeys[j]));
  }

  /** An empty `personal_stint_voltas` writes nothing to row 21: the manual laps already in the sheet are kept. */
  lemma EmptyPersonalKeepsLaps(wb: Workbook<Value>, req: StrategyRequest, faults: set<Addr>, j: int)
    requires |req.personal| == 0 && 0 <= j < 8
    ensures Lookup(PutAll(wb, StrategyWrites(req), faults), At(TyreSheet, StintColumn(j + 1), 21))
         == Lookup(wb, At(TyreSheet, StintColumn(j + 1), 21))
  {
    var a := At(TyreSheet, StintColumn(j + 1), 21);
    var ws := StrategyWrites(req);
    var t := TrackWrites(req.pista);
    var ro := RaceOptionWrites(req.raceOptions);
    var bs := BoostWrites(req.boosts);
    StintColumnIndex(j + 1);
    RaceOptionCells(req.raceOptions);
    BoostCells(req.boosts);
    SetupColumns();
    assert ws == t + ro + bs;
    forall k | 0 <= k < |ws| ensures ws[k].0 != a {
      if k < |t| {
        assert ws[k] == t[k];
      } else if k < |t| + |ro| {
        assert ws[k] == ro[k - |t|];
      } else {
        assert ws[k] == bs[k - |t| - |ro|];
      }
    }
    PutAllUntouched(wb, ws, faults, a);
  }

  /** The track `calculate_strategy` is given is the one the state then reports, unless it is falsy or the placeholder. */
  lemma StrategyTrackReadBack(conn: Result<Connection.Book>, wb: Workbook<Value>, req: StrategyRequest,
                              faults: set<Addr>, recalc: Recalc)
    requires conn.Ok? && TrackCell !in faults && Keeps(recalc, TrackCell)
    ensures var st := GetStrategyState(conn, CalculateStrategy(conn, wb, req, faults, recalc).0).data;
            (Truthy(req.pista) && req.pista != Str(TrackSentinel) ==> st.currentTrack == SafeVal(req.pista))
            && (!(Truthy(req.pista) && req.pista != Str(TrackSentinel)) ==> st.currentTrack == SafeVal(ReadRaw(wb, TrackCell)))
  {
    var w1 := CalculateStrategy(conn, wb, req, faults, recalc).0;
    StrategyTrackStored(conn, wb, req, faults, recalc);
    if Truthy(req.pista) && req.pista != Str(TrackSentinel) {
      WrittenReadsBack(w1, TrackCell, req.pista);
    }
  }

  /** The track cell after `calculate_strategy`. */
  lemma StrategyTrackStored(conn: Result<Connection.Book>, wb: Workbook<Value>, req: StrategyRequest,
                            faults: set<Addr>, recalc: Recalc)
    requires conn.Ok? && TrackCell !in faults && Keeps(recalc, TrackCell)
    ensures Truthy(req.pista) && req.pista != Str(TrackSentinel) ==>
              Lookup(CalculateStrategy(conn, wb, req, faults, recalc).0, TrackCell) == Stored(req.pista)
    ensures !(Truthy(req.pista) && req.pista != Str(TrackSentinel)) ==>
              Lookup(CalculateStrategy(conn, wb, req, faults, recalc).0, TrackCell) == Lookup(wb, TrackCell)
  {
    StrategyAvoidsTrack(req);
    TrackRule(wb, req.pista, OptionWrites(req), faults);
    var w0 := PutAll(wb, StrategyWrites(req), faults);
    assert Lookup(recalc(w0), TrackCell) == Lookup(w0, TrackCell);
  }

  /** After the track write, `calculate_strategy` never writes R5 of the setup sheet. */
  lemma StrategyAvoidsTrack(req: StrategyRequest)
    ensures forall k :: 0 <= k < |OptionWrites(req)| ==> OptionWrites(req)[k].0 != TrackCell
  {
    SetupColumns();
    var ro := RaceOptionWrites(req.raceOptions);
    var ps := PersonalWrites(req.personal);
    var bs := BoostWrites(req.boosts);
    var rest := ro + ps + bs;
    RaceOptionCells(req.raceOptions);
    BoostCells(req.boosts);
    if |req.personal| > 0 { PersonalCells(req.personal); }
    forall k | 0 <= k < |rest| ensures rest[k].0 != TrackCell {
      if k < |ro| {
        assert rest[k] == ro[k];
      } else if k < |ro| + |ps| {
        assert rest[k] == ps[k - |ro|];
      } else {
        assert rest[k] == bs[k - |ro| - |ps|];
      }
    }
  }

  /** A race option's cell holds that option once the whole batch is written. */
  lemma RaceOptionStored(wb: Workbook<Value>, req: StrategyRequest, faults: set<Addr>, k: int)
    requires k == 0 || k == 6
    requires RaceOptionWrites(req.raceOptions)[k].0 !in faults
    ensures Lookup(PutAll(wb, StrategyWrites(req), faults), RaceOptionWrites(req.raceOptions)[k].0)
            == RaceOptionWrites(req.raceOptions)[k].1
  {
    var t := TrackWrites(req.pista);
    var ro := RaceOptionWrites(req.raceOptions);
    var pb := PersonalWrites(req.personal) + BoostWrites(req.boosts);
    RaceOptionCells(req.raceOptions);
    BoostCells(req.boosts);
    if |req.personal| > 0 { PersonalCells(req.personal); }
    forall j | 0 <= j < |pb| ensures pb[j].0.sheet == TyreSheet && pb[j].0.row >= 20 {
      if j >= |PersonalWrites(req.personal)| {
        assert pb[j] == BoostWrites(req.boosts)[j - |PersonalWrites(req.personal)|];
      }
    }
    assert LastWriteAt(ro, ro[k].0, k);
    assert StrategyWrites(req) == t + ro + pb by {
      assert OptionWrites(req) == ro + pb;
    }
    MiddleWriteStored(wb, t, ro, pb, faults, k);
  }

  /**
   * The tyre-wear percentage and the average temperature sent as race options
   * are what the state then reports.
   */
  lemma RaceOptionsReadBack(conn: Result<Connection.Book>, wb: Workbook<Value>, req: StrategyRequest,
                            faults: set<Addr>, recalc: Recalc)
    requires conn.Ok?
    requires At(TyreSheet, "G", 3) !in faults && Keeps(recalc, At(TyreSheet, "G", 3))
    requires At(SetupSheet, "R", 9) !in faults && Keeps(recalc, At(SetupSheet, "R", 9))
    ensures var st := GetStrategyState(conn, CalculateStrategy(conn, wb, req, faults, recalc).0).data;
            st.tyreWear == SafeVal(Get(req.raceOptions, "desgaste_pneu_percent"))
            && st.avgTemp == SafeVal(Get(req.raceOptions, "avg_temp"))
  {
    var ws := StrategyWrites(req);
    RaceOptionCells(req.raceOptions);
    RaceOptionStored(wb, req, faults, 0);
    RaceOptionStored(wb, req, faults, 6);
    var w0 := PutAll(wb, ws, faults);
    assert Lookup(recalc(w0), At(TyreSheet, "G", 3)) == Lookup(w0, At(TyreSheet, "G", 3));
    assert Lookup(recalc(w0), At(SetupSheet, "R", 9)) == Lookup(w0, At(SetupSheet, "R", 9));
    WrittenReadsBack(recalc(w0), At(TyreSheet, "G", 3), Get(req.raceOptions, "desgaste_pneu_percent"));
    WrittenReadsBack(recalc(w0), At(SetupSheet, "R", 9), Get(req.raceOptions, "avg_temp"));
  }

  /** A boost the request leaves out empties its lap cell instead of keeping the old lap. */
  lemma MissingBoostClears(wb: Workbook<Value>, req: StrategyRequest, faults: set<Addr>, i: int)
    requires 0 <= i < 3 && BoostKeys[i] !in req.boosts
    requires At(TyreSheet, "R", 20 + i) !in faults
    ensures Lookup(PutAll(wb, StrategyWrites(req), faults), At(TyreSheet, "R", 20 + i)) == None
  {
    var xs := TrackWrites(req.pista) + RaceOptionWrites(req.raceOptions) + PersonalWrites(req.personal);
    var bs := BoostWrites(req.boosts);
    var none: seq<Write<Value>> := [];
    BoostCells(req.boosts);
    assert StrategyWrites(req) == xs + bs + none by {
      assert OptionWrites(req) == RaceOptionWrites(req.raceOptions) + PersonalWrites(req.personal) + bs;
    }
    MiddleWriteStored(wb, xs, bs, none, faults, i);
  }
}

=== FILE: calcular.dfy ===
/**
 * The Node setup calculator (`app/api/calcular/route.js`): the cell cleaner
 * applied while loading the workbook into the formula engine, the request's
 * injection into fixed cells, and the remapped setup/wear reply.
 *
 * The engine addresses cells by 0-based column and 0-based row; `HfCell`
 * turns such a pair into the model's address, whose row is 1-based as in A1
 * notation, so the lemmas can compare these cells with the Python ones.
 */
module Calcular {
  import opened Base
  import opened Text
  import opened Cells
  import opened JsValues
  import Backend

  // ---------------------------------------------------------------------------
  // cleanValues

  /** The last two steps of the cleaner: a truthy object becomes 0, undefined becomes "". */
  function Settle(val: JsVal): (r: JsVal)
    ensures !r.Obj? && !r.Undefined?
    ensures !val.Obj? && !val.Undefined? ==> r == val
  {
    if Truthy(val) && IsObjectType(val) then Num(0.0)
    else if val.Undefined? then Str("")
    else val
  }

  /** The cleaner on an object cell: error, formula, shared formula, result, rich text, text, in that order. */
  function CleanObject(o: Fields): (r: JsVal)
    ensures !r.Obj? && !r.Undefined?
  {
    if Truthy(o.error) then Num(0.0)
    else if o.formula != "" then Str("=" + o.formula)
    else if Truthy(o.sharedFormula) then
      if Truthy(o.result) && IsObjectType(o.result) then Num(0.0) else Settle(o.result)
    else if !o.result.Undefined? then
      if IsObjectType(o.result) then Num(0.0) else Settle(o.result)
    else if o.richText.Some? then Str(Concat(o.richText.value))
    else if Truthy(o.text) then Settle(o.text)
    else Null
  }

  /**
   * `cleanValues` on one cell: null and undefined become null, primitives are
   * kept, objects are reduced to a primitive. No object survives.
   */
  function CleanCell(cell: JsVal): (r: JsVal)
    ensures !r.Obj? && !r.Undefined?
    ensures cell.Null? || cell.Undefined? ==> r == Null
    ensures !cell.Obj? && !cell.Undefined? ==> r == cell
    ensures cell.Obj? && Truthy(cell.f.error) ==> r == Num(0.0)
  {
    match cell
    case Undefined => Null
    case Obj(o) => CleanObject(o)
    case _ => cell
  }

  /** Cleaning a cleaned cell changes nothing. */
  lemma CleanIdempotent(cell: JsVal)
    ensures CleanCell(CleanCell(cell)) == CleanCell(cell)
  {
  }

  /** A formula is kept as formula text whatever the cached result, unless the cell is an error. */
  lemma CleanFormulaFirst(o: Fields)
    requires !Truthy(o.error) && o.formula != ""
    ensures CleanCell(Obj(o)) == Str("=" + o.formula)
  {
  }

  /** A shared-formula cell gives its cached result, "" when there is none, and 0 for an object result. */
  lemma CleanSharedResult(o: Fields)
    requires !Truthy(o.error) && o.formula == "" && Truthy(o.sharedFormula)
    ensures o.result.Undefined? ==> CleanCell(Obj(o)) == Str("")
    ensures o.result.Obj? ==> CleanCell(Obj(o)) == Num(0.0)
    ensures !IsObjectType(o.result) && !o.result.Undefined? ==> CleanCell(Obj(o)) == o.result
  {
  }

  /** Outside shared formulas a null cached result counts as an object and becomes 0. */
  lemma CleanNullResult(o: Fields)
    requires !Truthy(o.error) && o.formula == "" && !Truthy(o.sharedFormula) && o.result == Null
    ensures CleanCell(Obj(o)) == Num(0.0)
  {
  }

  /** Rich text is joined only when there is no formula and no cached result. */
  lemma CleanRichText(o: Fields, runs: seq<string>)
    requires !Truthy(o.error) && o.formula == "" && !Truthy(o.sharedFormula) && o.result.Undefined?
    requires o.richText == Some(runs)
    ensures CleanCell(Obj(o)) == Str(Concat(runs))
  {
  }

  /** An object with none of the recognised properties cleans to null. */
  lemma CleanNothing()
    ensures CleanCell(Obj(NoFields)) == Null
  {
  }

  // ---------------------------------------------------------------------------
  // The CELLS constants

  const DriverCol: int := 4
  const DriverStartRow: int := 6
  const CarLvlCol: int := 8
  const StartRowCar: int := 6
  const CarWearCol: int := 9
  const OutputColWear: int := 10
  const OutputStartRow: int := 6
  const OutputColQ1: int := 28
  const OutputColQ2: int := 29
  const OutputColRace: int := 30

  /** A 0-based engine coordinate as an address. */
  function HfCell(sheet: string, col: int, row0: int): Addr {
    Addr(sheet, col, row0 + 1)
  }

  /** The numeric column constants name the same columns as the backend's letters. */
  lemma ColumnConstantsNameLetters()
    ensures DriverCol == ColumnIndex("E") && CarLvlCol == ColumnIndex("I")
    ensures CarWearCol == ColumnIndex("J") && OutputColWear == ColumnIndex("K")
    ensures OutputColQ1 == ColumnIndex("AC") && OutputColQ2 == ColumnIndex("AD")
    ensures OutputColRace == ColumnIndex("AE")
  {
    Backend.SetupColumns();
    TwoLetters('C');
    TwoLetters('D');
    TwoLetters('E');
  }

  // ---------------------------------------------------------------------------
  // POST: injection

  /** Order of the car parts in the request and on the sheet, from row 6. */
  const CarInputKeys: seq<string> := [
    "chassi", "motor", "asaDianteira", "asaTraseira", "assoalho", "laterais",
    "radiador", "cambio", "freios", "suspensao", "eletronicos"]

  /** Order in which the route writes the backend's weather fields. */
  const WeatherOrder: seq<int> := [0, 1, 3, 4, 5, 2, 6, 7, 8, 9, 10, 11, 12, 13]

  /** The route writes each backend weather field exactly once. */
  lemma WeatherOrderIsPermutation()
    ensures |WeatherOrder| == |Backend.WeatherInputs| == 14
    ensures forall j :: 0 <= j < 14 ==> 0 <= WeatherOrder[j] < 14
    ensures forall j, l :: 0 <= j < l < 14 ==> WeatherOrder[j] != WeatherOrder[l]
  {
  }

  /** Inverse of `WeatherOrder`: the position at which backend weather field `i` is written. */
  const WeatherPos: seq<int> := [0, 1, 5, 2, 3, 4, 6, 7, 8, 9, 10, 11, 12, 13]

  /** `WeatherPos` undoes `WeatherOrder`, both ways. */
  lemma WeatherPosInverts()
    ensures |WeatherPos| == 14
    ensures forall i :: 0 <= i < 14 ==> 0 <= WeatherPos[i] < 14 && WeatherOrder[WeatherPos[i]] == i
    ensures forall j :: 0 <= j < 14 ==> WeatherPos[WeatherOrder[j]] == j
  {
  }

  /** The value written for weather field `i` of the backend's schema. */
  function WeatherValue(body: map<string, JsVal>, i: int): (r: JsVal)
    requires 0 <= i < |Backend.WeatherInputs|
    ensures 3 <= i <= 5 ==> r == Or(Member(body, Backend.WeatherInputs[i].key), Str("Dry"))
    ensures i == 2 && Member(body, "avgTemp").Undefined? ==> r == Num(0.0)
    ensures i == 2 && !Member(body, "avgTemp").Undefined? ==> r == ToNumber(Member(body, "avgTemp"))
    ensures i != 2 && !(3 <= i <= 5) ==> r == Num(NumberOr(Member(body, Backend.WeatherInputs[i].key), 0.0))
  {
    var v := Member(body, Backend.WeatherInputs[i].key);
    if 3 <= i <= 5 then Or(v, Str("Dry"))
    else if i == 2 then (if v.Undefined? then Num(0.0) else ToNumber(v))
    else Num(NumberOr(v, 0.0))
  }

  /** The track goes to R5 only when the request's track is truthy. */
  function TrackW(body: map<string, JsVal>): (ws: seq<Write<JsVal>>)
    ensures |ws| <= 1
    ensures |ws| == 1 <==> Truthy(Member(body, "pista"))
    ensures |ws| == 1 ==> ws[0] == (Backend.TrackCell, Some(Member(body, "pista")))
  {
    if Truthy(Member(body, "pista")) then [(At(Backend.SetupSheet, "R", 5), Some(Member(body, "pista")))] else []
  }

  /** The driver column E6..E17: a missing, zero or non-numeric attribute is 0, but the energy is 100. */
  function DriverW(body: map<string, JsVal>): (ws: seq<Write<JsVal>>)
    ensures |ws| == 12
    ensures forall i :: 0 <= i < 12 ==> ws[i].0 == At(Backend.SetupSheet, "E", 6 + i)
    ensures forall i :: 0 <= i < 11 ==>
              ws[i].1 == Some(Num(NumberOr(Member(body, Backend.DriverInputs[i].key), 0.0)))
    ensures ws[11].1 == Some(Num(NumberOr(Member(body, "energia"), 100.0)))
  {
    ColumnConstantsNameLetters();
    seq(12, i requires 0 <= i < 12 =>
      (HfCell(Backend.SetupSheet, DriverCol, DriverStartRow - 1 + i),
       Some(Num(NumberOr(Member(body, Backend.DriverInputs[i].key), if i == 11 then 100.0 else 0.0)))))
  }

  /** The eleven car levels, I6..I16: a missing, zero or non-numeric level is 1. */
  function CarLvlW(body: map<string, JsVal>): (ws: seq<Write<JsVal>>)
    ensures |ws| == 11
    ensures forall i :: 0 <= i < 11 ==>
              ws[i] == (At(Backend.SetupSheet, "I", 6 + i), Some(Num(NumberOr(Member(body, CarInputKeys[i] + "_lvl"), 1.0))))
  {
    ColumnConstantsNameLetters();
    seq(11, i requires 0 <= i < 11 =>
      (HfCell(Backend.SetupSheet, CarLvlCol, StartRowCar - 1 + i),
       Some(Num(NumberOr(Member(body, CarInputKeys[i] + "_lvl"), 1.0)))))
  }

  /** The eleven starting wears, J6..J16: a missing, zero or non-numeric wear is 0. */
  function CarWearW(body: map<string, JsVal>): (ws: seq<Write<JsVal>>)
    ensures |ws| == 11
    ensures forall i :: 0 <= i < 11 ==>
              ws[i] == (At(Backend.SetupSheet, "J", 6 + i), Some(Num(NumberOr(Member(body, CarInputKeys[i] + "_wear"), 0.0))))
  {
    ColumnConstantsNameLetters();
    seq(11, i requires 0 <= i < 11 =>
      (HfCell(Backend.SetupSheet, CarWearCol, StartRowCar - 1 + i),
       Some(Num(NumberOr(Member(body, CarInputKeys[i] + "_wear"), 0.0)))))
  }

  /** Each backend weather field `i` is written once, at position `WeatherPos[i]`, into its own cell. */
  function WeatherW(body: map<string, JsVal>): (ws: seq<Write<JsVal>>)
    ensures |ws| == 14
    ensures forall i :: 0 <= i < 14 ==>
              ws[WeatherPos[i]] == (Backend.InputCell(Backend.SetupSheet, Backend.WeatherInputs[i]), Some(WeatherValue(body, i)))
  {
    WeatherPosInverts();
    seq(14, j requires 0 <= j < 14 =>
      (Backend.InputCell(Backend.SetupSheet, Backend.WeatherInputs[WeatherOrder[j]]),
       Some(WeatherValue(body, WeatherOrder[j]))))
  }

  /** The wear modifier goes to C4 of the tyre sheet when the request has one. */
  function RiskW(body: map<string, JsVal>): (ws: seq<Write<JsVal>>)
    ensures |ws| <= 1
    ensures |ws| == 1 <==> !Member(body, "desgasteModifier").Undefined?
    ensures |ws| == 1 ==> ws[0] == (At(Backend.TyreSheet, "C", 4), Some(Num(NumberOr(Member(body, "desgasteModifier"), 0.0))))
  {
    SingleLetterIndex('C');
    if Member(body, "desgasteModifier").Undefined? then []
    else [(HfCell(Backend.TyreSheet, 2, 3), Some(Num(NumberOr(Member(body, "desgasteModifier"), 0.0))))]
  }

  /** Every write of the request, in order. */
  function CalcularWrites(body: map<string, JsVal>): seq<Write<JsVal>> {
    TrackW(body) + DriverW(body) + CarLvlW(body) + CarWearW(body) + WeatherW(body) + RiskW(body)
  }

  // ---------------------------------------------------------------------------
  // POST: the reply

  /** An engine cell's value; an empty cell reads as null. */
  function ReadCell(wb: Workbook<JsVal>, a: Addr): JsVal {
    match Lookup(wb, a)
    case Some(v) => v
    case None => Null
  }

  /** `Math.round(Number(v) || 0)` of a cell. */
  function ReadRounded(wb: Workbook<JsVal>, a: Addr): int {
    Round(NumberOr(ReadCell(wb, a), 0.0))
  }

  datatype JsPart = JsPart(key: string, setup: Option<(int, int, int)>, start: int, end: int)

  /** Reply entry `k`: the setups from AC/AD/AE of row 6 + k for the first six parts, the wear from J/K of the part's row. */
  function ReadJsPart(wb: Workbook<JsVal>, k: int): (p: JsPart)
    requires 0 <= k < 11
    ensures p.key == Backend.SetupPartKeys[k]
    ensures p.setup.Some? <==> k < 6
    ensures p.start == ReadRounded(wb, HfCell(Backend.SetupSheet, CarWearCol, StartRowCar - 1 + Backend.WearRow[k]))
    ensures p.end == ReadRounded(wb, HfCell(Backend.SetupSheet, OutputColWear, StartRowCar - 1 + Backend.WearRow[k]))
  {
    var row := StartRowCar - 1 + Backend.WearRow[k];
    var srow := OutputStartRow - 1 + k;
    JsPart(
      Backend.SetupPartKeys[k],
      if k < 6 then
        Some((ReadRounded(wb, HfCell(Backend.SetupSheet, OutputColQ1, srow)),
              ReadRounded(wb, HfCell(Backend.SetupSheet, OutputColQ2, srow)),
              ReadRounded(wb, HfCell(Backend.SetupSheet, OutputColRace, srow))))
      else None,
      ReadRounded(wb, HfCell(Backend.SetupSheet, CarWearCol, row)),
      ReadRounded(wb, HfCell(Backend.SetupSheet, OutputColWear, row)))
  }

  /**
   * `POST`: injects the request, lets the engine recalculate, and answers the
   * remapped setups and wears. `engine` is the outcome of loading the
   * workbook into the engine.
   */
  function Calculate(engine: Result<()>, wb: Workbook<JsVal>, body: map<string, JsVal>,
                     recalc: Workbook<JsVal> -> Workbook<JsVal>): (r: (Workbook<JsVal>, Backend.Reply<seq<JsPart>>))
    ensures engine.Err? ==> r == (wb, Backend.Failure(engine.msg))
    ensures engine.Ok? ==> r.0 == recalc(PutAll(wb, CalcularWrites(body), {}))
    ensures engine.Ok? ==> r.1.Success? && |r.1.data| == 11
    ensures engine.Ok? ==> forall k :: 0 <= k < 11 ==> r.1.data[k] == ReadJsPart(r.0, k)
  {
    match engine
    case Err(msg) => (wb, Backend.Failure(msg))
    case Ok(_) =>
      var wb1 := recalc(PutAll(wb, CalcularWrites(body), {}));
      (wb1, Backend.Success(seq(11, k requires 0 <= k < 11 => ReadJsPart(wb1, k))))
  }

  // ---------------------------------------------------------------------------
  // Agreement with the Python backend

  /** Driver attribute `i` goes to the cell the backend uses for it. */
  lemma DriverCellsAgree(i: int)
    requires 0 <= i < 12
    ensures HfCell(Backend.SetupSheet, DriverCol, DriverStartRow - 1 + i)
         == Backend.InputCell(Backend.SetupSheet, Backend.DriverInputs[i])
  {
    Backend.DriverSchemaAgrees(i);
  }

  /** Car part `i` goes to the level and wear cells the backend uses for it. */
  lemma CarCellsAgree(i: int)
    requires 0 <= i < 11
    ensures HfCell(Backend.SetupSheet, CarLvlCol, StartRowCar - 1 + i) == At(Backend.SetupSheet, "I", 6 + i)
    ensures HfCell(Backend.SetupSheet, CarWearCol, StartRowCar - 1 + i) == At(Backend.SetupSheet, "J", 6 + i)
  {
    Backend.SetupColumns();
  }

  /**
   * The reply uses the backend's remapping: entry `k` reports the wear of the
   * sheet row into which the request's part `SetupPartKeys[k]` was written.
   */
  lemma RemapAgrees()
    ensures forall k :: 0 <= k < 11 ==> CarInputKeys[Backend.WearRow[k]] == Backend.SetupPartKeys[k]
  {
  }

  /** The wear columns the route reads are the J and K of the backend. */
  lemma WearCellsAgree(k: int)
    requires 0 <= k < 11
    ensures HfCell(Backend.SetupSheet, CarWearCol, StartRowCar - 1 + Backend.WearRow[k])
         == At(Backend.SetupSheet, "J", 6 + Backend.WearRow[k])
    ensures HfCell(Backend.SetupSheet, OutputColWear, StartRowCar - 1 + Backend.WearRow[k])
         == At(Backend.SetupSheet, "K", 6 + Backend.WearRow[k])
  {
    Backend.SetupColumns();
  }

  // ---------------------------------------------------------------------------
  // Read-back

  /** Columns of the weather writes: R, S and T of the setup sheet. */
  lemma WeatherColumns(body: map<string, JsVal>)
    ensures forall j :: 0 <= j < 14 ==>
              WeatherW(body)[j].0.sheet == Backend.SetupSheet && 17 <= WeatherW(body)[j].0.col <= 19
  {
    Backend.SetupColumns();
  }

  /** No write after the wear block touches column J. */
  lemma WearIsLast(body: map<string, JsVal>, i: int)
    requires 0 <= i < 11
    ensures LastWriteAt(CalcularWrites(body), HfCell(Backend.SetupSheet, CarWearCol, StartRowCar - 1 + i),
                        |TrackW(body)| + 12 + 11 + i)
  {
    var a := HfCell(Backend.SetupSheet, CarWearCol, StartRowCar - 1 + i);
    var xs := TrackW(body) + DriverW(body) + CarLvlW(body);
    var ys := CarWearW(body);
    var zs := WeatherW(body) + RiskW(body);
    WeatherColumns(body);
    forall j | 0 <= j < |zs| ensures zs[j].0 != a {
      if j >= 14 {
        assert zs[j] == RiskW(body)[j - 14];
      }
    }
    forall j | i < j < |ys| ensures ys[j].0 != a {
    }
    LastWriteInside(xs, ys, zs, a, i);
    assert xs + ys + zs == CalcularWrites(body);
  }

  /**
   * The starting wear the route reports for a part is the wear the request
   * gave that part, as the number it denotes (0 when it denotes none), rounded.
   */
  lemma WearReadBack(engine: Result<()>, wb: Workbook<JsVal>, body: map<string, JsVal>,
                     recalc: Workbook<JsVal> -> Workbook<JsVal>, k: int)
    requires engine.Ok? && 0 <= k < 11
    requires Keeps(recalc, HfCell(Backend.SetupSheet, CarWearCol, StartRowCar - 1 + Backend.WearRow[k]))
    ensures Calculate(engine, wb, body, recalc).1.data[k].start
         == Round(NumberOr(Member(body, Backend.SetupPartKeys[k] + "_wear"), 0.0))
  {
    var i := Backend.WearRow[k];
    var a := HfCell(Backend.SetupSheet, CarWearCol, StartRowCar - 1 + i);
    RemapAgrees();
    WearStored(wb, body, i);
    var w0 := PutAll(wb, CalcularWrites(body), {});
    assert Lookup(recalc(w0), a) == Lookup(w0, a);
    NumberOrStable(Member(body, CarInputKeys[i] + "_wear"), 0.0);
  }

  /** After the route's writes, wear cell J(6+i) holds the wear the request gave part `i`. */
  lemma WearStored(wb: Workbook<JsVal>, body: map<string, JsVal>, i: int)
    requires 0 <= i < 11
    ensures Lookup(PutAll(wb, CalcularWrites(body), {}), HfCell(Backend.SetupSheet, CarWearCol, StartRowCar - 1 + i))
         == Some(Num(NumberOr(Member(body, CarInputKeys[i] + "_wear"), 0.0)))
  {
    var a := HfCell(Backend.SetupSheet, CarWearCol, StartRowCar - 1 + i);
    WearIsLast(body, i);
    PutAllLastWins(wb, CalcularWrites(body), {}, a, |TrackW(body)| + 12 + 11 + i);
  }

  /** An energy of 0 is written as 100, unlike every other driver attribute. */
  lemma EnergyZeroBecomesHundred(body: map<string, JsVal>)
    requires Member(body, "energia") == Num(0.0)
    ensures DriverW(body)[11] == (At(Backend.SetupSheet, "E", 17), Some(Num(100.0)))
    ensures forall i :: 0 <= i < 11 && Member(body, Backend.DriverInputs[i].key) == Num(0.0) ==>
              DriverW(body)[i].1 == Some(Num(0.0))
  {
    DriverCellsAgree(11);
  }

  /** Unlike the backend, the route writes any truthy track, the placeholder included. */
  lemma PlaceholderTrackWritten(body: map<string, JsVal>)
    requires Member(body, "pista") == Str(Backend.TrackSentinel)
    ensures TrackW(body) == [(Backend.TrackCell, Some(Str(Backend.TrackSentinel)))]
  {
  }
}

=== FILE: cells.dfy ===
/**
 * Workbook addressing and batched cell writes.
 *
 * A workbook is a finite map from addresses to cell contents; a cell not in
 * the map is empty. Columns are 0-based (A is 0), as the HyperFormula and
 * ExcelJS engines number them, and rows are 1-based, as in A1 notation.
 */
module Cells {
  import opened Base
  import opened Text

  datatype Addr = Addr(sheet: string, col: int, row: int)

  type Workbook<V> = map<Addr, V>

  // ---------------------------------------------------------------------------
  // Column letters

  /** Bijective base-26 value of a run of letters: A = 1, Z = 26, AA = 27. */
  function LettersValue(s: string): int {
    if s == [] then 0
    else LettersValue(s[..|s| - 1]) * 26 + (UpperChar(s[|s| - 1]) as int - 64)
  }

  /** 0-based index of a column written in letters, case-insensitively. */
  function ColumnIndex(letters: string): int {
    LettersValue(letters) - 1
  }

  predicate IsUpperLetter(c: char) {
    'A' <= c <= 'Z'
  }

  predicate IsColumnName(s: string) {
    |s| > 0 && forall i :: 0 <= i < |s| ==> IsUpperLetter(s[i])
  }

  /** The letters of a 0-based column index. */
  function ColumnLetters(i: nat): (s: string)
    ensures IsColumnName(s)
    decreases i
  {
    if i < 26 then [(65 + i) as char]
    else ColumnLetters(i / 26 - 1) + [(65 + i % 26) as char]
  }

  /** Letters to index and back: every column index has a name that reads back as it. */
  lemma {:induction false} ColumnLettersRoundTrip(i: nat)
    ensures ColumnIndex(ColumnLetters(i)) == i
    decreases i
  {
    if i >= 26 {
      ColumnLettersRoundTrip(i / 26 - 1);
      var s := ColumnLetters(i);
      var c := (65 + i % 26) as char;
      assert s[..|s| - 1] == ColumnLetters(i / 26 - 1);
      assert s[|s| - 1] == c && UpperChar(c) == c;
      assert LettersValue(s) == (i / 26) * 26 + i % 26 + 1;
    } else {
      var s := ColumnLetters(i);
      assert s[..0] == [] && UpperChar(s[0]) == s[0];
      assert s[0] as int == 65 + i;
      assert LettersValue(s) == LettersValue(s[..0]) * 26 + (s[0] as int - 64);
    }
  }

  /** Index to letters and back: a column name is the canonical name of its index. */
  lemma {:induction false} ColumnIndexRoundTrip(s: string)
    requires IsColumnName(s)
    ensures ColumnIndex(s) >= 0
    ensures ColumnLetters(ColumnIndex(s)) == s
    decreases |s|
  {
    var p := s[..|s| - 1];
    var c := s[|s| - 1];
    assert 0 <= c as int - 65 < 26;
    assert UpperChar(c) == c;
    if |s| > 1 {
      assert IsColumnName(p) by {
        assert forall i :: 0 <= i < |p| ==> p[i] == s[i];
      }
      ColumnIndexRoundTrip(p);
      var idx := ColumnIndex(s);
      assert idx == (ColumnIndex(p) + 1) * 26 + (c as int - 65);
      assert idx / 26 - 1 == ColumnIndex(p);
      assert idx % 26 == c as int - 65;
      assert s == p + [c];
    } else {
      assert s == [c] && p == [];
      assert LettersValue(s) == LettersValue(p) * 26 + (c as int - 64);
    }
  }

  /** A one-letter column is its letter's offset from A. */
  lemma SingleLetterIndex(c: char)
    requires IsUpperLetter(c)
    ensures ColumnIndex([c]) == c as int - 65
  {
    var s := [c];
    assert s[..0] == [] && UpperChar(s[0]) == s[0];
    assert LettersValue(s) == LettersValue(s[..0]) * 26 + (s[0] as int - 64);
  }

  /** A two-letter column A? is 26 plus its second letter's offset. */
  lemma TwoLetters(c: char)
    requires IsUpperLetter(c)
    ensures ColumnIndex(['A', c]) == 26 + (c as int - 65)
  {
    var s := ['A', c];
    assert s[..1] == ['A'];
    SingleLetterIndex('A');
    assert LettersValue(s) == LettersValue(s[..1]) * 26 + (UpperChar(c) as int - 64);
  }

  /** Distinct column names never denote the same column. */
  lemma ColumnIndexInjective(a: string, b: string)
    requires IsColumnName(a) && IsColumnName(b) && a != b
    ensures ColumnIndex(a) != ColumnIndex(b)
  {
    ColumnIndexRoundTrip(a);
    ColumnIndexRoundTrip(b);
  }

  /** The cell at column `col` (letters) and row `row` of `sheet`. */
  function At(sheet: string, col: string, row: int): Addr {
    Addr(sheet, ColumnIndex(col), row)
  }

  /** One-letter column built from a character code, as `chr(n)` builds it. */
  function Chr(n: int): string
    requires 0 <= n < 0xD800
  {
    [n as char]
  }

  // ---------------------------------------------------------------------------
  // Batched writes

  /** The content of a cell, None when it is empty. */
  function Lookup<V>(wb: Workbook<V>, a: Addr): Option<V> {
    if a in wb then Some(wb[a]) else None
  }

  /** One write: `None` empties the cell, `Some(v)` stores `v`. */
  type Write<V> = (Addr, Option<V>)

  /**
   * Performs one write unless the engine rejects it: a rejected write
   * (an address in `faults`) is reported and skipped, never raised.
   */
  function Put<V>(wb: Workbook<V>, w: Write<V>, faults: set<Addr>): (r: Workbook<V>)
    ensures w.0 !in faults ==> Lookup(r, w.0) == w.1
    ensures forall a :: a != w.0 || w.0 in faults ==> Lookup(r, a) == Lookup(wb, a)
  {
    if w.0 in faults then wb
    else match w.1
      case None => wb - {w.0}
      case Some(v) => wb[w.0 := v]
  }

  /** Recalculation leaves the cell `a` (an input constant, not a formula) alone. */
  ghost predicate Keeps<V(!new)>(recalc: Workbook<V> -> Workbook<V>, a: Addr) {
    forall w :: Lookup(recalc(w), a) == Lookup(w, a)
  }

  /** Performs the writes in order. */
  function PutAll<V>(wb: Workbook<V>, ws: seq<Write<V>>, faults: set<Addr>): (r: Workbook<V>)
    ensures ws != [] && ws[|ws| - 1].0 !in faults ==> Lookup(r, ws[|ws| - 1].0) == ws[|ws| - 1].1
    decreases |ws|
  {
    if ws == [] then wb else PutAll(Put(wb, ws[0], faults), ws[1..], faults)
  }

  predicate Targets<V>(ws: seq<Write<V>>, a: Addr) {
    exists k :: 0 <= k < |ws| && ws[k].0 == a
  }

  /** `k` is the last write of the batch that targets `a`. */
  predicate LastWriteAt<V>(ws: seq<Write<V>>, a: Addr, k: int) {
    0 <= k < |ws| && ws[k].0 == a && forall j :: k < j < |ws| ==> ws[j].0 != a
  }

  /** A cell the batch does not target keeps its content. */
  lemma {:induction false} PutAllUntouched<V>(wb: Workbook<V>, ws: seq<Write<V>>, faults: set<Addr>, a: Addr)
    requires forall k :: 0 <= k < |ws| ==> ws[k].0 != a
    ensures Lookup(PutAll(wb, ws, faults), a) == Lookup(wb, a)
    decreases |ws|
  {
    if ws != [] {
      PutAllUntouched(Put(wb, ws[0], faults), ws[1..], faults, a);
    }
  }

  /** A rejected cell keeps its content, whatever the batch says. */
  lemma {:induction false} PutAllFaulty<V>(wb: Workbook<V>, ws: seq<Write<V>>, faults: set<Addr>, a: Addr)
    requires a in faults
    ensures Lookup(PutAll(wb, ws, faults), a) == Lookup(wb, a)
    decreases |ws|
  {
    if ws != [] {
      PutAllFaulty(Put(wb, ws[0], faults), ws[1..], faults, a);
    }
  }

  /** The last write to an accepted cell decides its content. */
  lemma {:induction false} PutAllLastWins<V>(wb: Workbook<V>, ws: seq<Write<V>>, faults: set<Addr>, a: Addr, k: int)
    requires LastWriteAt(ws, a, k) && a !in faults
    ensures Lookup(PutAll(wb, ws, faults), a) == ws[k].1
    decreases |ws|
  {
    if k == 0 {
      PutAllUntouched(Put(wb, ws[0], faults), ws[1..], faults, a);
    } else {
      PutAllLastWins(Put(wb, ws[0], faults), ws[1..], faults, a, k - 1);
    }
  }

  /** A write of the middle batch that is the last to its accepted cell decides that cell. */
  lemma MiddleWriteStored<V>(wb: Workbook<V>, xs: seq<Write<V>>, ys: seq<Write<V>>, zs: seq<Write<V>>,
                             faults: set<Addr>, k: int)
    requires 0 <= k < |ys| && LastWriteAt(ys, ys[k].0, k) && ys[k].0 !in faults
    requires forall j :: 0 <= j < |zs| ==> zs[j].0 != ys[k].0
    ensures Lookup(PutAll(wb, xs + ys + zs, faults), ys[k].0) == ys[k].1
  {
    LastWriteInside(xs, ys, zs, ys[k].0, k);
    assert (xs + ys + zs)[|xs| + k] == ys[k];
    PutAllLastWins(wb, xs + ys + zs, faults, ys[k].0, |xs| + k);
  }

  /** A last write inside the middle batch stays the last once the batch is surrounded. */
  lemma LastWriteInside<V>(xs: seq<Write<V>>, ys: seq<Write<V>>, zs: seq<Write<V>>, a: Addr, k: int)
    requires LastWriteAt(ys, a, k)
    requires forall j :: 0 <= j < |zs| ==> zs[j].0 != a
    ensures LastWriteAt(xs + ys + zs, a, |xs| + k)
  {
    var ws := xs + ys + zs;
    forall j | |xs| + k < j < |ws| ensures ws[j].0 != a {
      if j < |xs| + |ys| {
        assert ws[j] == ys[j - |xs|];
      } else {
        assert ws[j] == zs[j - |xs| - |ys|];
      }
    }
  }

  /** A last write stays the last behind a prefix and before two batches that leave the cell alone. */
  lemma LastWriteWithin<V>(xs: seq<Write<V>>, ys: seq<Write<V>>, cs: seq<Write<V>>, zs: seq<Write<V>>,
                           a: Addr, k: int)
    requires LastWriteAt(ys, a, k)
    requires forall j :: 0 <= j < |cs| ==> cs[j].0 != a
    requires forall j :: 0 <= j < |zs| ==> zs[j].0 != a
    ensures LastWriteAt(xs + ys + cs + zs, a, |xs| + k)
    ensures (xs + ys + cs + zs)[|xs| + k] == ys[k]
  {
    AvoidsAppend(cs, zs, a);
    LastWriteInside(xs, ys, cs + zs, a, k);
    assert xs + ys + cs + zs == xs + ys + (cs + zs);
  }

  /** A recalculation that keeps the cell leaves it with the last write's content. */
  lemma RecalcKeepsLast<V(!new)>(wb: Workbook<V>, ws: seq<Write<V>>, recalc: Workbook<V> -> Workbook<V>, a: Addr, k: int)
    requires LastWriteAt(ws, a, k) && Keeps(recalc, a)
    ensures Lookup(recalc(PutAll(wb, ws, {})), a) == ws[k].1
  {
    PutAllLastWins(wb, ws, {}, a, k);
  }

  /** Two batches that leave a cell alone leave it alone together. */
  lemma AvoidsAppend<V>(xs: seq<Write<V>>, ys: seq<Write<V>>, a: Addr)
    requires forall j :: 0 <= j < |xs| ==> xs[j].0 != a
    requires forall j :: 0 <= j < |ys| ==> ys[j].0 != a
    ensures forall j :: 0 <= j < |xs + ys| ==> (xs + ys)[j].0 != a
  {
    forall j | 0 <= j < |xs + ys| ensures (xs + ys)[j].0 != a {
      if j < |xs| {
        assert (xs + ys)[j] == xs[j];
      } else {
        assert (xs + ys)[j] == ys[j - |xs|];
      }
    }
  }

  /** The addresses of a batch are pairwise distinct. */
  predicate DistinctTargets<V>(ws: seq<Write<V>>) {
    forall i, j :: 0 <= i < j < |ws| ==> ws[i].0 != ws[j].0
  }

  /** In a batch without repeated targets, every write is the last one to its cell. */
  lemma DistinctIsLast<V>(ws: seq<Write<V>>, k: int)
    requires DistinctTargets(ws) && 0 <= k < |ws|
    ensures LastWriteAt(ws, ws[k].0, k)
  {
  }

  /** Appending batches keeps them distinct when their address sets are disjoint. */
  lemma DistinctAppend<V>(xs: seq<Write<V>>, ys: seq<Write<V>>)
    requires DistinctTargets(xs) && DistinctTargets(ys)
    requires forall i, j :: 0 <= i < |xs| && 0 <= j < |ys| ==> xs[i].0 != ys[j].0
    ensures DistinctTargets(xs + ys)
  {
    var zs := xs + ys;
    forall i, j | 0 <= i < j < |zs| ensures zs[i].0 != zs[j].0 {
      if j < |xs| {
      } else if i >= |xs| {
        assert zs[i] == ys[i - |xs|] && zs[j] == ys[j - |xs|];
      } else {
        assert zs[i] == xs[i] && zs[j] == ys[j - |xs|];
      }
    }
  }
}

=== FILE: coercion.dfy ===
/**
 * Python-side cell values and the two helpers every backend endpoint uses to
 * cross the boundary between the workbook and JSON: `_safe_val` (workbook to
 * JSON) and `_write_val` (JSON to workbook).
 */
module Coercion {
  import opened Base
  import opened Text
  import opened Numbers
  import opened Cells

  /** A scalar as Python sees it: None, bool, int, float (as an exact real) or str. */
  datatype Value = Null | Bool(b: bool) | Int(i: int) | Num(x: real) | Str(s: string)

  /** Python truthiness: None, False, 0, 0.0 and "" are false. */
  predicate Truthy(v: Value) {
    match v
    case Null => false
    case Bool(b) => b
    case Int(i) => i != 0
    case Num(x) => x != 0.0
    case Str(s) => s != ""
  }

  /** Python `v or d`. */
  function Or(v: Value, d: Value): (r: Value)
    ensures Truthy(v) ==> r == v
    ensures !Truthy(v) ==> r == d
  {
    if Truthy(v) then v else d
  }

  /** A JSON object with scalar members. */
  type Payload = map<string, Value>

  /** Python `p.get(k)`: None for a missing key. */
  function Get(p: Payload, k: string): (r: Value)
    ensures k !in p ==> r == Null
    ensures k in p ==> r == p[k]
  {
    if k in p then p[k] else Null
  }

  /** The three sheet markers that are canonicalised regardless of case. */
  function Keyword(t: string): (r: Option<string>)
    ensures r.Some? ==> r.value == "Opt" || r.value == "Best" || r.value == "Tyres"
  {
    var l := Lower(t);
    if l == "opt" then Some("Opt")
    else if l == "best" then Some("Best")
    else if l == "tyres" then Some("Tyres")
    else None
  }

  /** How `_safe_val` reads a stripped, non-marker string: a float if it has a point, else an int, else the string itself. */
  function NumericText(t: string): (r: Value)
    ensures r.Str? || r.Num? || r.Int?
    ensures r.Str? ==> r.s == t
    ensures r.Num? ==> '.' in ReplaceAllChar(t, ',', '.')
    ensures r.Int? ==> '.' !in ReplaceAllChar(t, ',', '.')
  {
    var clean := ReplaceAllChar(t, ',', '.');
    if '.' in clean then
      match ParseDecimal(clean)
      case Some(x) => Num(x)
      case None => Str(t)
    else
      match ParseInteger(clean)
      case Some(i) => Int(i)
      case None => Str(t)
  }

  /**
   * `_safe_val`: the JSON form of a raw cell value. None, "" and "-" are
   * absent; strings are stripped, the markers canonicalised, decimal commas
   * accepted, and numeric text turned into numbers; other values pass through.
   */
  function SafeVal(v: Value): (r: Value)
    ensures r == Null <==> v == Null || v == Str("") || v == Str("-")
    ensures !v.Str? ==> r == v
    ensures v.Str? && r.Str? ==> r.s == Trim(v.s) || Keyword(Trim(v.s)) == Some(r.s)
  {
    if v == Null || v == Str("") || v == Str("-") then Null
    else if v.Str? then
      var t := Trim(v.s);
      match Keyword(t)
      case Some(k) => Str(k)
      case None => NumericText(t)
    else v
  }

  /** What `_write_val` stores for a value: "" and None empty the cell. */
  function Stored(v: Value): (r: Option<Value>)
    ensures r == None <==> v == Null || v == Str("")
    ensures r.Some? ==> r.value == v
  {
    if v == Str("") || v == Null then None else Some(v)
  }

  /** The raw value xlwings reports for a cell: None when empty. */
  function ReadRaw(wb: Workbook<Value>, a: Addr): Value {
    match Lookup(wb, a)
    case Some(v) => v
    case None => Null
  }

  /**
   * `_write_val`: stores `v` in the cell, or empties it for "" and None.
   * A write the engine rejects (`a` in `faults`) is logged and leaves the
   * workbook as it was.
   */
  function WriteVal(wb: Workbook<Value>, a: Addr, v: Value, faults: set<Addr>): (r: Workbook<Value>)
    ensures a !in faults ==> ReadRaw(r, a) == (if v == Str("") then Null else v)
    ensures a in faults ==> r == wb
    ensures forall b :: b != a ==> Lookup(r, b) == Lookup(wb, b)
  {
    Put(wb, (a, Stored(v)), faults)
  }

  // ---------------------------------------------------------------------------
  // Properties

  /** A marker string is canonicalised whatever its case and padding. */
  lemma SafeValMarker(s: string)
    requires s != "" && s != "-"
    requires Keyword(Trim(s)).Some?
    ensures SafeVal(Str(s)) == Str(Keyword(Trim(s)).value)
  {
  }

  /** Any other string is read as numeric text, after stripping. */
  lemma SafeValText(s: string)
    requires s != "" && s != "-"
    requires Keyword(Trim(s)) == None
    ensures SafeVal(Str(s)) == NumericText(Trim(s))
  {
  }

  /** The canonical markers read as themselves. */
  lemma MarkerFixed(k: string)
    requires k == "Opt" || k == "Best" || k == "Tyres"
    ensures SafeVal(Str(k)) == Str(k)
  {
    TrimFixed(k);
    if k == "Opt" {
      assert Lower(k) == "opt";
    } else if k == "Best" {
      assert Lower(k) == "best";
    } else {
      assert Lower(k) == "tyres";
    }
    SafeValMarker(k);
  }

  /** A digit string has no blank at either end and is not a marker. */
  lemma DigitsArePlain(s: string)
    requires |s| > 0 && IsDigit(s[0]) && IsDigit(s[|s| - 1])
    ensures Trim(s) == s
    ensures Keyword(s) == None
  {
    TrimFixed(s);
    assert Lower(s)[0] == s[0];
  }

  /** An integer's rendering reads back as that integer. */
  lemma SafeValOfIntText(i: int)
    ensures SafeVal(Str(IntToString(i))) == Int(i)
  {
    var s := IntToString(i);
    IntTextIsPlain(i);
    NumericOfIntText(i);
    SafeValText(s);
  }

  lemma IntTextIsPlain(i: int)
    ensures IntToString(i) != "" && IntToString(i) != "-"
    ensures Trim(IntToString(i)) == IntToString(i)
    ensures Keyword(IntToString(i)) == None
  {
    var s := IntToString(i);
    var d := NatToString(if i < 0 then -i else i);
    assert IsDigit(d[0]) && IsDigit(d[|d| - 1]);
    if i < 0 {
      assert s == "-" + d;
      TrimFixed(s);
      assert Lower(s)[0] == '-';
    } else {
      DigitsArePlain(s);
    }
  }

  lemma NumericOfIntText(i: int)
    ensures NumericText(IntToString(i)) == Int(i)
  {
    var s := IntToString(i);
    ParseIntegerRoundTrip(i);
    NoPunctuation(i);
    assert ReplaceAllChar(s, ',', '.') == s;
  }

  lemma NoPunctuation(i: int)
    ensures '.' !in IntToString(i) && ',' !in IntToString(i)
  {
    var s := IntToString(i);
    if i < 0 {
      assert s[1..] == NatToString(-i);
      forall k | 0 <= k < |s| ensures s[k] != '.' && s[k] != ',' {
        if k > 0 { assert IsDigit(s[1..][k - 1]); }
      }
    } else {
      forall k | 0 <= k < |s| ensures s[k] != '.' && s[k] != ',' {
        assert IsDigit(s[k]);
      }
    }
  }

  /**
   * A decimal comma reads as a decimal point: integer digits, a comma and
   * fraction digits read as the number they denote.
   */
  lemma SafeValDecimalComma(ip: string, fp: string)
    requires |ip| > 0 && |fp| > 0 && AllDigits(ip) && AllDigits(fp)
    ensures SafeVal(Str(ip + "," + fp))
         == Num(DecimalMagnitude(ip, fp))
  {
    var s := ip + "," + fp;
    assert s[0] == ip[0] && s[|s| - 1] == fp[|fp| - 1];
    DigitsArePlain(s);
    NumericOfComma(ip, fp);
    SafeValText(s);
  }

  lemma NumericOfComma(ip: string, fp: string)
    requires |ip| > 0 && AllDigits(ip) && AllDigits(fp)
    ensures NumericText(ip + "," + fp)
         == Num(DecimalMagnitude(ip, fp))
  {
    CommaBecomesPoint(ip, fp);
    PointedDecimal(ip, fp);
    assert '.' in ip + "." + fp by { assert (ip + "." + fp)[|ip|] == '.'; }
  }

  lemma CommaBecomesPoint(ip: string, fp: string)
    requires AllDigits(ip) && AllDigits(fp)
    ensures ReplaceAllChar(ip + "," + fp, ',', '.') == ip + "." + fp
  {
    var s := ip + "," + fp;
    var c := ReplaceAllChar(s, ',', '.');
    forall k | 0 <= k < |s| ensures c[k] == (ip + "." + fp)[k] {
      if k < |ip| {
        assert s[k] == ip[k];
      } else if k > |ip| {
        assert s[k] == fp[k - |ip| - 1];
      }
    }
  }

  lemma PointedDecimal(ip: string, fp: string)
    requires |ip| > 0 && AllDigits(ip) && AllDigits(fp)
    ensures ParseDecimal(ip + "." + fp)
         == Some(DecimalMagnitude(ip, fp))
  {
    var c := ip + "." + fp;
    assert c[..|ip|] == ip && c[|ip| + 1..] == fp;
    IndexOfFirst(c, '.', |ip|);
    assert IsDigit(c[0]);
    assert SplitSign(c) == (false, c);
  }

  /** The index of `x` is `k` when `x` sits at `k` and nowhere before it. */
  lemma IndexOfFirst(s: string, x: char, k: int)
    requires 0 <= k < |s| && s[k] == x && x !in s[..k]
    ensures IndexOf(s, x) == k
  {
  }

  /**
   * Reading is idempotent on everything it can produce except the two
   * strings it maps to absence on a second pass.
   */
  lemma SafeValIdempotent(v: Value)
    requires SafeVal(v) != Str("") && SafeVal(v) != Str("-")
    ensures SafeVal(SafeVal(v)) == SafeVal(v)
  {
    var r := SafeVal(v);
    if v.Str? && r.Str? && v != Str("") && v != Str("-") {
      var t := Trim(v.s);
      TrimIdempotent(v.s);
      if Keyword(t).Some? {
        SafeValMarker(v.s);
        MarkerFixed(r.s);
      } else {
        SafeValText(v.s);
        assert r.s == t;
        SafeValText(t);
      }
    }
  }

  /**
   * Writing what was read and reading it back gives the same JSON value, for
   * every read result other than "" and "-".
   */
  lemma SafeValWriteReadRoundTrip(wb: Workbook<Value>, a: Addr, raw: Value, faults: set<Addr>)
    requires a !in faults
    requires SafeVal(raw) != Str("") && SafeVal(raw) != Str("-")
    ensures SafeVal(ReadRaw(WriteVal(wb, a, SafeVal(raw), faults), a)) == SafeVal(raw)
  {
    SafeValIdempotent(raw);
  }

  /** A padded "-" reads as the string "-", which a second read drops. */
  lemma DashIsNotStable(s: string)
    requires s != "-" && Trim(s) == "-"
    ensures SafeVal(Str(s)) == Str("-")
    ensures SafeVal(SafeVal(Str(s))) == Null
  {
    assert Lower("-") == "-";
    assert ReplaceAllChar("-", ',', '.') == "-";
    SafeValText(s);
  }

  /** A non-empty blank string reads as "", which the write then empties. */
  lemma BlankIsNotStable(s: string)
    requires s != "" && Trim(s) == ""
    ensures SafeVal(Str(s)) == Str("")
    ensures Stored(SafeVal(Str(s))) == None
  {
    assert Lower("") == "";
    SafeValText(s);
  }

  /** Clearing a cell twice is clearing it once. */
  lemma ClearTwice(wb: Workbook<Value>, a: Addr, faults: set<Addr>)
    ensures WriteVal(WriteVal(wb, a, Null, faults), a, Null, faults) == WriteVal(wb, a, Null, faults)
  {
  }
}

=== FILE: common.dfy ===
/** Failure-compatible wrappers shared by every module of the model. */
module Base {

  /** A value that may be missing: Python's None, JavaScript's undefined. */
  datatype Option<T> = None | Some(value: T) {
    function GetOr(default: T): T {
      match this
      case Some(v) => v
      case None => default
    }
  }

  /** The outcome of an operation that either yields a value or reports a message. */
  datatype Result<T> = Ok(value: T) | Err(msg: string)

  function Min(a: int, b: int): int {
    if a <= b then a else b
  }

  function Max(a: int, b: int): int {
    if a >= b then a else b
  }
}

/**
 * Sequence and string helpers: trimming, Latin-1 case mapping, substring tests,
 * literal replacement and decimal rendering of integers.
 *
 * Trimming and substring tests are generic over the element type so that the
 * UTF-16 code-unit strings of the market import share them with `string`.
 */
module Text {

  /** `xs.join('')` for strings. */
  function Concat(xs: seq<string>): (r: string)
    ensures |xs| == 1 ==> r == xs[0]
  {
    if xs == [] then "" else Concat(xs[..|xs| - 1]) + xs[|xs| - 1]
  }

  /** `p` is a prefix of `s`. */
  predicate IsPrefix<T(==)>(p: seq<T>, s: seq<T>) {
    |p| <= |s| && s[..|p|] == p
  }

  /** `sub` occurs somewhere in `s` (JavaScript `includes`, Python `in`). */
  predicate Contains<T(==)>(s: seq<T>, sub: seq<T>)
    decreases |s|
  {
    IsPrefix(sub, s) || (|s| > 0 && Contains(s[1..], sub))
  }

  /** Witness form of `Contains`: an occurrence at index `i`. */
  predicate OccursAt<T(==)>(s: seq<T>, sub: seq<T>, i: int) {
    0 <= i && i + |sub| <= |s| && s[i..i + |sub|] == sub
  }

  /** An occurrence at any index makes `Contains` true. */
  lemma {:induction false} ContainsFromWindow<T>(s: seq<T>, sub: seq<T>, i: int)
    requires OccursAt(s, sub, i)
    ensures Contains(s, sub)
    decreases i
  {
    if i > 0 {
      assert s[1..][i - 1..i - 1 + |sub|] == s[i..i + |sub|];
      ContainsFromWindow(s[1..], sub, i - 1);
    }
  }

  /** A text containing `a + b` contains `a`. */
  lemma {:induction false} ContainsPrefixOf<T>(s: seq<T>, a: seq<T>, b: seq<T>)
    requires Contains(s, a + b)
    ensures Contains(s, a)
    decreases |s|
  {
    if IsPrefix(a + b, s) {
      assert s[..|a|] == (a + b)[..|a|] == a;
    } else {
      ContainsPrefixOf(s[1..], a, b);
    }
  }

  /** Whether `s` holds the element `x` anywhere. */
  predicate Has<T(==)>(s: seq<T>, x: T) {
    x in s
  }

  // ---------------------------------------------------------------------------
  // Trimming

  /** Drops the elements satisfying `ws` from the front. */
  function TrimStartWith<T>(s: seq<T>, ws: T -> bool): (r: seq<T>)
    ensures |r| <= |s| && r == s[|s| - |r|..]
    ensures r == [] || !ws(r[0])
    ensures forall i :: 0 <= i < |s| - |r| ==> ws(s[i])
  {
    if |s| > 0 && ws(s[0]) then TrimStartWith(s[1..], ws) else s
  }

  /** Drops the elements satisfying `ws` from the back. */
  function TrimEndWith<T>(s: seq<T>, ws: T -> bool): (r: seq<T>)
    ensures |r| <= |s| && r == s[..|r|]
    ensures r == [] || !ws(r[|r| - 1])
    ensures forall i :: |r| <= i < |s| ==> ws(s[i])
  {
    if |s| > 0 && ws(s[|s| - 1]) then TrimEndWith(s[..|s| - 1], ws) else s
  }

  /** Both ends. */
  function TrimWith<T>(s: seq<T>, ws: T -> bool): (r: seq<T>)
    ensures |r| <= |s|
    ensures r == [] || (!ws(r[0]) && !ws(r[|r| - 1]))
  {
    var a := TrimStartWith(s, ws);
    var r := TrimEndWith(a, ws);
    assert r != [] ==> r[0] == a[0];
    r
  }

  /** The trim is a contiguous window of `s`. */
  lemma TrimWithWindow<T>(s: seq<T>, ws: T -> bool)
    ensures OccursAt(s, TrimWith(s, ws), |s| - |TrimStartWith(s, ws)|)
  {
    var a := TrimStartWith(s, ws);
    var r := TrimEndWith(a, ws);
    var m := |s| - |a|;
    assert a == s[m..] && r == a[..|r|];
    assert s[m..][..|r|] == s[m..m + |r|];
  }

  /** So everything in the trim comes from `s`. */
  lemma TrimWithWithin<T>(s: seq<T>, ws: T -> bool)
    ensures forall x :: x in TrimWith(s, ws) ==> x in s
  {
    TrimWithWindow(s, ws);
    var r := TrimWith(s, ws);
    var i := |s| - |TrimStartWith(s, ws)|;
    forall x | x in r ensures x in s {
      var k :| 0 <= k < |r| && r[k] == x;
      assert s[i..i + |r|][k] == s[i + k];
    }
  }

  /** A sequence is its trim with blank runs before and after. */
  lemma TrimWithParts<T>(s: seq<T>, ws: T -> bool) returns (pre: seq<T>, suf: seq<T>)
    ensures s == pre + TrimWith(s, ws) + suf
    ensures forall k :: 0 <= k < |pre| ==> ws(pre[k])
    ensures forall k :: 0 <= k < |suf| ==> ws(suf[k])
  {
    var a := TrimStartWith(s, ws);
    pre := TrimStartRest(s, ws);
    suf := TrimEndRest(a, ws);
    JoinParts(s, pre, a, TrimEndWith(a, ws), suf);
  }

  lemma JoinParts<T>(s: seq<T>, pre: seq<T>, a: seq<T>, r: seq<T>, suf: seq<T>)
    requires s == pre + a && a == r + suf
    ensures s == pre + r + suf
  {
  }

  lemma TrimStartRest<T>(s: seq<T>, ws: T -> bool) returns (pre: seq<T>)
    ensures s == pre + TrimStartWith(s, ws)
    ensures forall k :: 0 <= k < |pre| ==> ws(pre[k])
  {
    var a := TrimStartWith(s, ws);
    pre := s[..|s| - |a|];
    forall k | 0 <= k < |pre| ensures ws(pre[k]) {
      assert pre[k] == s[k];
    }
  }

  lemma TrimEndRest<T>(a: seq<T>, ws: T -> bool) returns (suf: seq<T>)
    ensures a == TrimEndWith(a, ws) + suf
    ensures forall k :: 0 <= k < |suf| ==> ws(suf[k])
  {
    var r := TrimEndWith(a, ws);
    suf := a[|r|..];
    forall k | 0 <= k < |suf| ensures ws(suf[k]) {
      assert suf[k] == a[|r| + k];
    }
  }

  /** Blank padding on both sides does not change the trim. */
  lemma TrimWithPadded<T>(pre: seq<T>, s: seq<T>, suf: seq<T>, ws: T -> bool)
    requires forall k :: 0 <= k < |pre| ==> ws(pre[k])
    requires forall k :: 0 <= k < |suf| ==> ws(suf[k])
    ensures TrimWith(pre + s + suf, ws) == TrimWith(s, ws)
  {
    assert pre + s + suf == pre + (s + suf);
    TrimStartSkip(pre, s + suf, ws);
    var a := TrimStartWith(s, ws);
    if a == [] {
      assert forall k :: 0 <= k < |s| ==> ws(s[k]);
      TrimStartSkip(s, suf, ws);
      TrimStartSkip(suf, [], ws);
      assert suf + [] == suf;
    } else {
      TrimStartAppend(s, suf, ws);
      TrimEndSkip(a, suf, ws);
    }
  }

  lemma {:induction false} TrimStartSkip<T>(pre: seq<T>, s: seq<T>, ws: T -> bool)
    requires forall k :: 0 <= k < |pre| ==> ws(pre[k])
    ensures TrimStartWith(pre + s, ws) == TrimStartWith(s, ws)
    decreases |pre|
  {
    if pre == [] {
      assert pre + s == s;
    } else {
      var x := pre + s;
      assert x[0] == pre[0] && x[1..] == pre[1..] + s;
      TrimStartSkip(pre[1..], s, ws);
    }
  }

  lemma {:induction false} TrimEndSkip<T>(s: seq<T>, suf: seq<T>, ws: T -> bool)
    requires forall k :: 0 <= k < |suf| ==> ws(suf[k])
    ensures TrimEndWith(s + suf, ws) == TrimEndWith(s, ws)
    decreases |suf|
  {
    if suf == [] {
      assert s + suf == s;
    } else {
      var x := s + suf;
      var p := suf[..|suf| - 1];
      assert x[|x| - 1] == suf[|suf| - 1] && x[..|x| - 1] == s + p;
      TrimEndSkip(s, p, ws);
    }
  }

  lemma {:induction false} TrimStartAppend<T>(s: seq<T>, suf: seq<T>, ws: T -> bool)
    requires TrimStartWith(s, ws) != []
    ensures TrimStartWith(s + suf, ws) == TrimStartWith(s, ws) + suf
    decreases |s|
  {
    var x := s + suf;
    assert x[0] == s[0];
    if ws(s[0]) {
      assert x[1..] == s[1..] + suf;
      TrimStartAppend(s[1..], suf, ws);
    }
  }

  /** A sequence whose ends are not blank is its own trim. */
  lemma TrimWithFixed<T>(s: seq<T>, ws: T -> bool)
    requires s == [] || (!ws(s[0]) && !ws(s[|s| - 1]))
    ensures TrimWith(s, ws) == s
  {
  }

  /** Trimming twice is trimming once. */
  lemma TrimWithIdempotent<T>(s: seq<T>, ws: T -> bool)
    ensures TrimWith(TrimWith(s, ws), ws) == TrimWith(s, ws)
  {
    TrimWithFixed(TrimWith(s, ws), ws);
  }

  /**
   * Blank characters removed by Python's `str.strip()` and JavaScript's
   * `String.prototype.trim()`; both strip a larger Unicode set, of which the
   * model keeps the ASCII control and space characters.
   */
  predicate IsSpace(c: char) {
    c == ' ' || c == '\t' || c == '\n' || c == '\r' || c == '\U{B}' || c == '\U{C}'
  }

  function Trim(s: string): (r: string)
    ensures |r| <= |s|
    ensures r == [] || (!IsSpace(r[0]) && !IsSpace(r[|r| - 1]))
  {
    TrimWith(s, IsSpace)
  }

  lemma TrimIdempotent(s: string)
    ensures Trim(Trim(s)) == Trim(s)
  {
    TrimWithIdempotent(s, IsSpace);
  }

  lemma TrimFixed(s: string)
    requires s == [] || (!IsSpace(s[0]) && !IsSpace(s[|s| - 1]))
    ensures Trim(s) == s
  {
    TrimWithFixed(s, IsSpace);
  }

  /** Every character of a string made only of blanks is removed. */
  lemma TrimAllBlank(s: string)
    requires forall i :: 0 <= i < |s| ==> IsSpace(s[i])
    ensures Trim(s) == []
  {
  }

  // ---------------------------------------------------------------------------
  // Case mapping of the Latin-1 letters

  /**
   * The capital letters of Latin-1: A-Z and U+00C0..U+00DE without the
   * multiplication sign U+00D7. Each has its small letter 32 code points on.
   */
  predicate IsCapital(c: char) {
    'A' <= c <= 'Z' || ('\U{C0}' <= c <= '\U{DE}' && c != '\U{D7}')
  }

  /**
   * The small letters of Latin-1 that have a capital in Latin-1: a-z and
   * U+00E0..U+00FE without the division sign U+00F7.
   */
  predicate IsSmall(c: char) {
    'a' <= c <= 'z' || ('\U{E0}' <= c <= '\U{FE}' && c != '\U{F7}')
  }

  function LowerChar(c: char): (r: char)
    ensures IsCapital(c) ==> r as int == c as int + 32 && IsSmall(r)
    ensures !IsCapital(c) ==> r == c
  {
    if 'A' <= c <= 'Z' then (c as int + 32) as char
    else if c < '\U{C0}' then c
    else if IsCapital(c) then (c as int + 32) as char
    else c
  }

  function UpperChar(c: char): (r: char)
    ensures IsSmall(c) ==> r as int == c as int - 32 && IsCapital(r)
    ensures !IsSmall(c) ==> r == c
  {
    if 'a' <= c <= 'z' then (c as int - 32) as char
    else if c < '\U{E0}' then c
    else if IsSmall(c) then (c as int - 32) as char
    else c
  }

  /** Lower-casing a capital and upper-casing the result gives the capital back, and vice versa. */
  lemma CaseRoundTrip(c: char)
    ensures IsCapital(c) ==> UpperChar(LowerChar(c)) == c
    ensures IsSmall(c) ==> LowerChar(UpperChar(c)) == c
  {
  }

  /** `toLowerCase` / `lower()` on the Latin-1 letters. */
  function Lower(s: string): (r: string)
    ensures |r| == |s|
    ensures forall i :: 0 <= i < |s| ==> r[i] == LowerChar(s[i])
  {
    seq(|s|, i requires 0 <= i < |s| => LowerChar(s[i]))
  }

  /** `toUpperCase` / `upper()` on the Latin-1 letters. */
  function Upper(s: string): (r: string)
    ensures |r| == |s|
    ensures forall i :: 0 <= i < |s| ==> r[i] == UpperChar(s[i])
  {
    seq(|s|, i requires 0 <= i < |s| => UpperChar(s[i]))
  }

  /** Lower-casing is idempotent. */
  lemma LowerIdempotent(s: string)
    ensures Lower(Lower(s)) == Lower(s)
  {
    assert forall i :: 0 <= i < |s| ==> Lower(Lower(s))[i] == Lower(s)[i];
  }

  lemma UpperIdempotent(s: string)
    ensures Upper(Upper(s)) == Upper(s)
  {
    assert forall i :: 0 <= i < |s| ==> Upper(Upper(s))[i] == Upper(s)[i];
  }

  // ---------------------------------------------------------------------------
  // Replacement

  /** Every occurrence of `a` becomes `b` (Python `replace`, JS `/a/g`). */
  function ReplaceAllChar(s: string, a: char, b: char): (r: string)
    ensures |r| == |s|
    ensures forall i :: 0 <= i < |s| ==> r[i] == (if s[i] == a then b else s[i])
  {
    seq(|s|, i requires 0 <= i < |s| => if s[i] == a then b else s[i])
  }

  /** Index of the first `x` in `s`, or `|s|` when there is none. */
  function IndexOf<T(==)>(s: seq<T>, x: T): (k: nat)
    ensures k <= |s|
    ensures k < |s| ==> s[k] == x
    ensures x !in s[..k]
    ensures k == |s| <==> x !in s
  {
    if s == [] then 0
    else if s[0] == x then 0
    else
      var k := 1 + IndexOf(s[1..], x);
      assert s[..k] == [s[0]] + s[1..][..k - 1];
      k
  }

  /** Only the first occurrence of `a` becomes `b` (JS `replace` with a string pattern). */
  function ReplaceFirstChar(s: string, a: char, b: char): (r: string)
    ensures |r| == |s|
    ensures a !in s ==> r == s
    ensures forall i :: 0 <= i < |s| && i != IndexOf(s, a) ==> r[i] == s[i]
    ensures a in s ==> r[IndexOf(s, a)] == b
  {
    var k := IndexOf(s, a);
    if k == |s| then s else s[..k] + [b] + s[k + 1..]
  }

  /** Removes every element satisfying `drop`. */
  function RemoveWhere<T>(s: seq<T>, drop: T -> bool): (r: seq<T>)
    ensures |r| <= |s|
    ensures forall i :: 0 <= i < |r| ==> !drop(r[i])
    ensures forall x :: x in r ==> x in s
    ensures forall i :: 0 <= i < |s| && !drop(s[i]) ==> s[i] in r
  {
    if s == [] then []
    else if drop(s[0]) then RemoveWhere(s[1..], drop)
    else [s[0]] + RemoveWhere(s[1..], drop)
  }

  /** Removal keeps every kept element as often as it occurs and drops the rest. */
  lemma {:induction false} RemoveWhereMultiset<T>(s: seq<T>, drop: T -> bool, x: T)
    ensures multiset(RemoveWhere(s, drop))[x] == if drop(x) then 0 else multiset(s)[x]
    decreases |s|
  {
    if s != [] {
      RemoveWhereMultiset(s[1..], drop, x);
      assert s == [s[0]] + s[1..];
    }
  }

  /** Removal distributes over concatenation. */
  lemma {:induction false} RemoveWhereAppend<T>(a: seq<T>, b: seq<T>, drop: T -> bool)
    ensures RemoveWhere(a + b, drop) == RemoveWhere(a, drop) + RemoveWhere(b, drop)
    decreases |a|
  {
    if a != [] {
      assert (a + b)[0] == a[0] && (a + b)[1..] == a[1..] + b;
      RemoveWhereAppend(a[1..], b, drop);
      if drop(a[0]) {
        assert RemoveWhere(a, drop) == RemoveWhere(a[1..], drop);
      } else {
        assert RemoveWhere(a, drop) == [a[0]] + RemoveWhere(a[1..], drop);
      }
    } else {
      assert a + b == b;
    }
  }

  /** A sequence with nothing to remove is kept whole. */
  lemma {:induction false} RemoveWhereNone<T>(s: seq<T>, drop: T -> bool)
    requires forall i :: 0 <= i < |s| ==> !drop(s[i])
    ensures RemoveWhere(s, drop) == s
    decreases |s|
  {
    if s != [] {
      RemoveWhereNone(s[1..], drop);
    }
  }

  /** A sequence whose every element is dropped leaves nothing. */
  lemma {:induction false} RemoveWhereAll<T>(s: seq<T>, drop: T -> bool)
    requires forall i :: 0 <= i < |s| ==> drop(s[i])
    ensures RemoveWhere(s, drop) == []
    decreases |s|
  {
    if s != [] {
      RemoveWhereAll(s[1..], drop);
    }
  }

  /** Literal, left-to-right, non-overlapping replacement of every occurrence of `pat`. */
  function ReplaceAll<T(==)>(s: seq<T>, pat: seq<T>, rep: seq<T>): seq<T>
    requires |pat| > 0
    decreases |s|
  {
    if |s| == 0 then []
    else if IsPrefix(pat, s) then rep + ReplaceAll(s[|pat|..], pat, rep)
    else [s[0]] + ReplaceAll(s[1..], pat, rep)
  }

  /** A string without the pattern is left alone. */
  lemma {:induction false} ReplaceAllAbsent<T>(s: seq<T>, pat: seq<T>, rep: seq<T>)
    requires |pat| > 0 && !Contains(s, pat)
    ensures ReplaceAll(s, pat, rep) == s
    decreases |s|
  {
    if |s| > 0 {
      ReplaceAllAbsent(s[1..], pat, rep);
    }
  }

  // ---------------------------------------------------------------------------
  // Digits

  predicate IsDigit(c: char) {
    '0' <= c <= '9'
  }

  function DigitChar(d: int): (c: char)
    requires 0 <= d < 10
    ensures IsDigit(c) && c as int - '0' as int == d
  {
    ('0' as int + d) as char
  }

  /** Decimal rendering of a natural number, without leading zeros. */
  function NatToString(n: nat): (s: string)
    ensures |s| > 0
    ensures forall i :: 0 <= i < |s| ==> IsDigit(s[i])
    decreases n
  {
    if n < 10 then [DigitChar(n)] else NatToString(n / 10) + [DigitChar(n % 10)]
  }

  /** Decimal rendering of an integer, as JavaScript's `String(n)` and Python's `str(n)` print it. */
  function IntToString(i: int): (s: string)
    ensures |s| > 0
  {
    if i < 0 then "-" + NatToString(-i) else NatToString(i)
  }

  /** Distinct naturals render differently. */
  lemma {:induction false} NatToStringInjective(a: nat, b: nat)
    requires NatToString(a) == NatToString(b)
    ensures a == b
    decreases a
  {
    var sa, sb := NatToString(a), NatToString(b);
    if a < 10 && b < 10 {
      assert sa[0] == sb[0];
    } else if a >= 10 && b >= 10 {
      assert sa[|sa| - 1] == sb[|sb| - 1];
      assert a % 10 == b % 10;
      assert NatToString(a / 10) == sa[..|sa| - 1] == sb[..|sb| - 1] == NatToString(b / 10);
      NatToStringInjective(a / 10, b / 10);
    }
  }
}

=== FILE: connection.dfy ===
/**
 * The backend's single shared connection to the spreadsheet engine
 * (`ExcelManager.get_wb`): reuse the cached workbook while its engine
 * answers, otherwise adopt an already-open workbook of a running engine,
 * otherwise start a hidden engine and open the file.
 *
 * The engine itself is outside the model: every answer it could give is an
 * explicit parameter (`Env`), so each branch of the source is reachable.
 */
module Connection {
  import opened Base
  import opened Text

  /** A running engine instance. `id` stands for its identity. */
  datatype App = App(id: nat, visible: bool, alertsShown: bool)

  /** An open workbook and the engine that owns it. */
  datatype Book = Book(name: string, owner: nat)

  /** The manager's two cached handles. */
  datatype Manager = Manager(app: Option<App>, wb: Option<Book>)

  /** Base name of the workbook file the backend works on. */
  const FileName: string := "calculadora.xlsx"

  /** The manager as constructed: nothing cached. */
  const Initial: Manager := Manager(None, None)

  /** A cached workbook always belongs to the cached engine. */
  predicate Valid(m: Manager) {
    m.wb.Some? ==> m.app.Some? && m.wb.value.owner == m.app.value.id
  }

  /** What looking for a running engine finds. */
  datatype Scan =
    | NoInstance                              // no engine is running
    | ScanFails                               // asking for the active engine raises
    | Active(app: App, names: seq<string>)    // the active engine and the names of its open books

  /** What starting a fresh engine does. */
  datatype Launch =
    | LaunchFails          // the engine cannot be started
    | AlertsFail(id: nat)  // started, but switching its alerts off raises
    | OpenFails(id: nat)   // started and silenced, but opening the file raises
    | Opens(id: nat)       // started, silenced, and the file is open

  /** The engine's answers during one call. */
  datatype Env = Env(alive: bool, scan: Scan, launch: Launch)

  /** Index of the first name containing the workbook's base name, or `|names|`. */
  function FirstMatch(names: seq<string>): (k: nat)
    ensures k <= |names|
    ensures k < |names| ==> Contains(names[k], FileName)
    ensures forall j :: 0 <= j < k ==> !Contains(names[j], FileName)
  {
    if names == [] then 0
    else if Contains(names[0], FileName) then 0
    else 1 + FirstMatch(names[1..])
  }

  /** Step 1: a cached engine that no longer answers is forgotten with its workbook. */
  function Probe(m: Manager, alive: bool): (r: Manager)
    ensures m.app.Some? && !alive ==> r == Initial
    ensures m.app.None? || alive ==> r == m
  {
    if m.app.Some? && !alive then Initial else m
  }

  /** Step 2: adopt the first matching book of the active engine; a failure here is swallowed. */
  function Adopt(m: Manager, scan: Scan): (r: Manager)
    requires m.wb.None?
    ensures r.wb.Some? ==> scan.Active? && r.app == Some(scan.app)
    ensures r.wb.Some? ==> Contains(r.wb.value.name, FileName) && r.wb.value.owner == scan.app.id
    ensures !scan.Active? ==> r == m
  {
    match scan
    case Active(app, names) =>
      var k := FirstMatch(names);
      if k < |names| then Manager(Some(app), Some(Book(names[k], app.id)))
      else Manager(Some(app), None)
    case _ => m
  }

  /** Step 3: start a hidden, silent engine and open the file; failures propagate. */
  function Start(m: Manager, launch: Launch): (r: (Manager, Result<Book>))
    ensures r.1.Ok? <==> launch.Opens?
    ensures r.1.Ok? ==> r.0 == Manager(Some(App(launch.id, false, false)), Some(r.1.value))
    ensures r.1.Ok? ==> r.1.value == Book(FileName, launch.id)
    ensures r.0.wb.None? <==> r.1.Err?
  {
    match launch
    case LaunchFails => (Manager(m.app, None), Err("engine could not be started"))
    case AlertsFail(id) => (Manager(Some(App(id, false, true)), None), Err("engine alerts could not be disabled"))
    case OpenFails(id) => (Manager(Some(App(id, false, false)), None), Err("workbook could not be opened"))
    case Opens(id) =>
      var b := Book(FileName, id);
      (Manager(Some(App(id, false, false)), Some(b)), Ok(b))
  }

  /**
   * `get_wb`: the workbook to work on and the manager's new state, or the
   * error raised while starting the engine.
   */
  function GetWb(m: Manager, env: Env): (r: (Manager, Result<Book>))
    requires Valid(m)
    ensures Valid(r.0)
    ensures r.1.Ok? <==> r.0.wb.Some?
    ensures r.1.Ok? ==> r.0.wb == Some(r.1.value)
    ensures r.1.Ok? ==> r.0.app.Some? && r.1.value.owner == r.0.app.value.id
  {
    var m1 := Probe(m, env.alive);
    if m1.wb.Some? then (m1, Ok(m1.wb.value))
    else
      var m2 := Adopt(m1, env.scan);
      if m2.wb.Some? then (m2, Ok(m2.wb.value))
      else Start(m2, env.launch)
  }

  // ---------------------------------------------------------------------------
  // Properties

  /** A fresh manager is consistent. */
  lemma InitialValid()
    ensures Valid(Initial)
  {
  }

  /** While its engine answers, the cached workbook is returned and nothing changes. */
  lemma CachedReuse(m: Manager, env: Env)
    requires Valid(m) && m.wb.Some? && env.alive
    ensures GetWb(m, env) == (m, Ok(m.wb.value))
  {
  }

  /**
   * A stale engine is detected and the connection rebuilt from scratch:
   * nothing of the old cached state survives into the result.
   */
  lemma StaleRecovery(m: Manager, env: Env)
    requires Valid(m) && m.app.Some? && !env.alive
    ensures GetWb(m, env) == GetWb(Initial, env)
  {
  }

  /** A running engine's matching book is preferred to a new engine: the first match is adopted. */
  lemma AdoptsFirstMatch(m: Manager, app: App, names: seq<string>, launch: Launch, alive: bool, k: nat)
    requires Valid(m) && (m.wb.None? || (m.app.Some? && !alive))
    requires k < |names| && Contains(names[k], FileName)
    requires forall j :: 0 <= j < k ==> !Contains(names[j], FileName)
    ensures GetWb(m, Env(alive, Active(app, names), launch)).1 == Ok(Book(names[k], app.id))
  {
  }

  /** Without a matching open book, the workbook comes from a hidden engine with alerts off. */
  lemma LaunchedIsHidden(m: Manager, env: Env)
    requires Valid(m) && (m.wb.None? || (m.app.Some? && !env.alive))
    requires Adopt(Probe(m, env.alive), env.scan).wb.None?
    requires GetWb(m, env).1.Ok?
    ensures env.launch.Opens?
    ensures GetWb(m, env).0.app == Some(App(env.launch.id, false, false))
    ensures GetWb(m, env).1.value.name == FileName
  {
  }

  /** Once connected, a second call with the engine alive reuses the same workbook. */
  lemma ConnectionIsStable(m: Manager, env: Env, later: Env)
    requires Valid(m) && GetWb(m, env).1.Ok? && later.alive
    ensures GetWb(GetWb(m, env).0, later) == GetWb(m, env)
  {
  }

  /** A failed launch leaves no workbook cached, so the next call tries again. */
  lemma FailureRetries(m: Manager, env: Env)
    requires Valid(m) && GetWb(m, env).1.Err?
    ensures GetWb(m, env).0.wb.None?
  {
  }
}

=== FILE: gamecontext.dfy ===
/**
 * The shared game state of the dashboard (`GameProvider`): the driver, the
 * car's eleven parts, the weather forecast and the selected track, with the
 * reducers that update them and the derived average race temperature.
 *
 * Weather entries hold JavaScript values, since a partial update may bring
 * any value (even undefined) for a key; the temperatures go through `Number`.
 */
module GameContext {
  import opened Base
  import opened JsValues
  import Coercion
  import Backend

  // ---------------------------------------------------------------------------
  // Driver

  datatype DriverField =
    | Concentracao | Talento | Agressividade | Experiencia | Tecnica | Resistencia
    | Carisma | Motivacao | Reputacao | Peso | Idade | Energia | Total

  type Driver = map<DriverField, real>

  const InitialDriver: Driver := map[
    Concentracao := 150.0, Talento := 200.0, Agressividade := 0.0, Experiencia := 50.0,
    Tecnica := 50.0, Resistencia := 50.0, Carisma := 50.0, Motivacao := 10.0,
    Reputacao := 0.0, Peso := 65.0, Idade := 20.0, Energia := 100.0, Total := 0.0]

  /** `updateDriver`: the field takes the value; every other field keeps its own. */
  function UpdateDriver(d: Driver, field: DriverField, value: real): (r: Driver)
    ensures r.Keys == d.Keys + {field}
    ensures r[field] == value
    ensures forall f :: f in d && f != field ==> r[f] == d[f]
  {
    d[field := value]
  }

  /** The initial driver has every field; updates keep every field. */
  lemma DriverFieldsStay(d: Driver, field: DriverField, value: real)
    ensures forall f: DriverField :: f in InitialDriver
    ensures (forall f: DriverField :: f in d) ==> forall f: DriverField :: f in UpdateDriver(d, field, value)
  {
    forall f: DriverField ensures f in InitialDriver {
      match f
      case Concentracao =>
      case Talento =>
      case Agressividade =>
      case Experiencia =>
      case Tecnica =>
      case Resistencia =>
      case Carisma =>
      case Motivacao =>
      case Reputacao =>
      case Peso =>
      case Idade =>
      case Energia =>
      case Total =>
    }
  }

  // ---------------------------------------------------------------------------
  // Car

  datatype CarPart = CarPart(name: string, lvl: real, wear: real)

  datatype PartField = Lvl | Wear

  const PartNames: seq<string> := [
    "Chassi", "Motor", "Asa dianteira", "Asa traseira", "Assoalho", "Laterais",
    "Radiador", "Câmbio", "Freios", "Suspensão", "Eletrônicos"]

  /** The eleven parts, each at level 1 without wear. */
  const InitialCar: seq<CarPart> := seq(11, i requires 0 <= i < 11 => CarPart(PartNames[i], 1.0, 0.0))

  /** The car the dashboard starts with. */
  lemma InitialCarShape()
    ensures |InitialCar| == 11
    ensures forall i :: 0 <= i < 11 ==> InitialCar[i].lvl == 1.0 && InitialCar[i].wear == 0.0
    ensures forall i :: 0 <= i < 11 ==> InitialCar[i].name == PartNames[i]
  {
  }

  /** `updateCar`: a part in range takes the value in the one field; any other index changes nothing. */
  function UpdateCar(car: seq<CarPart>, index: int, field: PartField, value: real): (r: seq<CarPart>)
    ensures |r| == |car|
    ensures !(0 <= index < |car|) ==> r == car
    ensures forall j :: 0 <= j < |car| && j != index ==> r[j] == car[j]
    ensures 0 <= index < |car| ==> r[index].name == car[index].name
    ensures 0 <= index < |car| && field == Lvl ==> r[index].lvl == value && r[index].wear == car[index].wear
    ensures 0 <= index < |car| && field == Wear ==> r[index].wear == value && r[index].lvl == car[index].lvl
  {
    if 0 <= index < |car| then
      var p := car[index];
      car[index := if field == Lvl then p.(lvl := value) else p.(wear := value)]
    else car
  }

  /** Writing a field's current value back is a no-op, and two writes to one field keep the last. */
  lemma UpdateCarLaws(car: seq<CarPart>, index: int, v: real, w: real)
    ensures 0 <= index < |car| ==> UpdateCar(car, index, Lvl, car[index].lvl) == car
    ensures UpdateCar(UpdateCar(car, index, Wear, v), index, Wear, w) == UpdateCar(car, index, Wear, w)
  {
  }

  // ---------------------------------------------------------------------------
  // Weather

  datatype WeatherKey =
    | TempQ1 | WeatherQ1 | TempQ2 | WeatherQ2 | WeatherRace
    | R1Min | R1Max | R2Min | R2Max | R3Min | R3Max | R4Min | R4Max

  type Weather = map<WeatherKey, JsVal>

  const InitialWeather: Weather := map[
    TempQ1 := Num(0.0), WeatherQ1 := Str("Dry"), TempQ2 := Num(0.0), WeatherQ2 := Str("Dry"),
    WeatherRace := Str("Dry"),
    R1Min := Num(0.0), R1Max := Num(0.0), R2Min := Num(0.0), R2Max := Num(0.0),
    R3Min := Num(0.0), R3Max := Num(0.0), R4Min := Num(0.0), R4Max := Num(0.0)]

  /** `updateWeather`: the supplied keys take the new values, all others keep theirs. */
  function UpdateWeather(w: Weather, data: Weather): (r: Weather)
    ensures r.Keys == w.Keys + data.Keys
    ensures forall k :: k in data ==> r[k] == data[k]
    ensures forall k :: k in w && k !in data ==> r[k] == w[k]
  {
    w + data
  }

  /** Two updates in a row are one update with the later values winning. */
  lemma UpdateWeatherTwice(w: Weather, a: Weather, b: Weather)
    ensures UpdateWeather(UpdateWeather(w, a), b) == UpdateWeather(w, UpdateWeather(a, b))
  {
  }

  /** The quadrant bounds in the order `raceAvgTemp` lists them. */
  const QuadrantKeys: seq<WeatherKey> := [R1Min, R1Max, R2Min, R2Max, R3Min, R3Max, R4Min, R4Max]

  /** A weather entry; a missing key reads as undefined. */
  function Entry(w: Weather, k: WeatherKey): JsVal {
    if k in w then w[k] else Undefined
  }

  /** The eight quadrant bounds through `Number`: None when any of them is NaN. */
  function Bounds(w: Weather): (r: Option<seq<real>>)
    ensures r.Some? <==> forall i :: 0 <= i < 8 ==> ToNumber(Entry(w, QuadrantKeys[i])).Num?
    ensures r.Some? ==> |r.value| == 8 && forall i :: 0 <= i < 8 ==> r.value[i] == ToNumber(Entry(w, QuadrantKeys[i])).x
  {
    if forall i :: 0 <= i < 8 ==> ToNumber(Entry(w, QuadrantKeys[i])).Num? then
      Some(seq(8, i requires 0 <= i < 8 => ToNumber(Entry(w, QuadrantKeys[i])).x))
    else None
  }

  function RealSum(xs: seq<real>): real {
    if xs == [] then 0.0 else RealSum(xs[..|xs| - 1]) + xs[|xs| - 1]
  }

  /** `raceAvgTemp`: the mean of the eight quadrant bounds; 0 when one of them is not a number. */
  function RaceAvgTemp(w: Weather): (r: real)
    ensures Bounds(w).None? ==> r == 0.0
    ensures Bounds(w).Some? ==> r * 8.0 == RealSum(Bounds(w).value)
  {
    match Bounds(w)
    case Some(xs) => RealSum(xs) / 8.0
    case None => 0.0
  }

  /** A sum of values within [lo, hi] lies within |xs| times those bounds. */
  lemma {:induction false} RealSumWithin(xs: seq<real>, lo: real, hi: real)
    requires forall i :: 0 <= i < |xs| ==> lo <= xs[i] <= hi
    ensures |xs| as real * lo <= RealSum(xs) <= |xs| as real * hi
  {
    if xs != [] {
      var p := xs[..|xs| - 1];
      RealSumWithin(p, lo, hi);
      assert |xs| as real * lo == |p| as real * lo + lo;
      assert |xs| as real * hi == |p| as real * hi + hi;
    }
  }

  /** The average lies between the lowest and highest bound, so equal bounds give that value. */
  lemma RaceAvgWithin(w: Weather, lo: real, hi: real)
    requires Bounds(w).Some?
    requires forall i :: 0 <= i < 8 ==> lo <= Bounds(w).value[i] <= hi
    ensures lo <= RaceAvgTemp(w) <= hi
  {
    RealSumWithin(Bounds(w).value, lo, hi);
  }

  /** The initial forecast averages to 0. */
  lemma InitialRaceAvg()
    ensures RaceAvgTemp(InitialWeather) == 0.0
  {
    assert forall i :: 0 <= i < 8 ==> QuadrantKeys[i] in InitialWeather && InitialWeather[QuadrantKeys[i]] == Num(0.0);
    RaceAvgWithin(InitialWeather, 0.0, 0.0);
  }

  // ---------------------------------------------------------------------------
  // Track

  const InitialTrack: string := "Selecionar Pista"

  /** The initial track is the placeholder the backends never write to the sheet. */
  lemma InitialTrackNotWritten()
    ensures InitialTrack == Backend.TrackSentinel
    ensures Backend.TrackWrites(Coercion.Str(InitialTrack)) == []
  {
  }
}

=== FILE: jsvalues.dfy ===
/**
 * JavaScript values as the Node routes see them, with the conversions the
 * routes use: truthiness, `Number(v)`, `v || d` and `Math.round`.
 *
 * Numbers are exact reals; `NaN` is its own value. Infinities, `-0` and
 * floating-point rounding are outside the model.
 */
module JsValues {
  import opened Base
  import opened Text
  import opened Numbers

  datatype JsVal =
    | Undefined
    | Null
    | Bool(b: bool)
    | Num(x: real)
    | NaN
    | Str(s: string)
    | Obj(f: Fields)

  /**
   * The properties of an object that the routes look at. A property the
   * object does not have is `Undefined` (or "" for `formula`, `None` for
   * `richText`).
   */
  datatype Fields = Fields(
    error: JsVal,
    formula: string,
    sharedFormula: JsVal,
    result: JsVal,
    richText: Option<seq<string>>,
    text: JsVal)

  /** An object none of whose inspected properties is set. */
  const NoFields: Fields := Fields(Undefined, "", Undefined, Undefined, None, Undefined)

  /** JavaScript truthiness: undefined, null, false, 0, NaN and "" are false; every object is true. */
  predicate Truthy(v: JsVal) {
    match v
    case Undefined => false
    case Null => false
    case Bool(b) => b
    case Num(x) => x != 0.0
    case NaN => false
    case Str(s) => s != ""
    case Obj(_) => true
  }

  /** `typeof v === 'object'`, which holds for null too. */
  predicate IsObjectType(v: JsVal) {
    v.Null? || v.Obj?
  }

  /** `v || d`. */
  function Or(v: JsVal, d: JsVal): (r: JsVal)
    ensures Truthy(v) ==> r == v
    ensures !Truthy(v) ==> r == d
  {
    if Truthy(v) then v else d
  }

  /**
   * `Number(v)`: a blank string is 0, a string in the decimal grammar its
   * value, anything else NaN; null is 0, booleans 0 and 1, objects NaN.
   */
  function ToNumber(v: JsVal): (r: JsVal)
    ensures r.Num? || r.NaN?
    ensures v.Num? ==> r == v
    ensures v.Undefined? || v.NaN? || v.Obj? ==> r == NaN
    ensures v.Null? ==> r == Num(0.0)
    ensures v.Bool? ==> r == Num(if v.b then 1.0 else 0.0)
    ensures v.Str? && Trim(v.s) == "" ==> r == Num(0.0)
    ensures v.Str? && Trim(v.s) != "" ==> (r.Num? <==> DecimalBody(SplitSign(Trim(v.s)).1))
    ensures v.Str? && Trim(v.s) != "" && r.Num? ==> Some(r.x) == ParseDecimal(Trim(v.s))
  {
    match v
    case Undefined => NaN
    case Null => Num(0.0)
    case Bool(b) => Num(if b then 1.0 else 0.0)
    case Num(x) => v
    case NaN => NaN
    case Str(s) =>
      var t := Trim(s);
      if t == "" then Num(0.0)
      else (match ParseDecimal(t)
        case Some(x) => Num(x)
        case None => NaN)
    case Obj(_) => NaN
  }

  /** `Number(v) || d`: the number `v` denotes, or `d` when that is 0 or NaN. */
  function NumberOr(v: JsVal, d: real): (r: real)
    ensures ToNumber(v).Num? && ToNumber(v).x != 0.0 ==> r == ToNumber(v).x
    ensures ToNumber(v).NaN? || ToNumber(v) == Num(0.0) ==> r == d
  {
    match ToNumber(v)
    case Num(x) => if x != 0.0 then x else d
    case _ => d
  }

  /** `Math.round`: the nearest integer, halves rounded up. */
  function Round(x: real): (r: int)
    ensures r as real - 0.5 <= x < r as real + 0.5
  {
    (x + 0.5).Floor
  }

  /** A member of a request body; a missing member is undefined. */
  function Member(body: map<string, JsVal>, k: string): (r: JsVal)
    ensures k !in body ==> r == Undefined
    ensures k in body ==> r == body[k]
  {
    if k in body then body[k] else Undefined
  }

  // ---------------------------------------------------------------------------
  // Properties

  /** Storing `Number(v) || d` and converting it again gives the same number. */
  lemma NumberOrStable(v: JsVal, d: real)
    ensures NumberOr(Num(NumberOr(v, d)), d) == NumberOr(v, d)
  {
  }

  /** `Number` reads an integer's rendering back as that integer. */
  lemma ToNumberOfIntText(i: int)
    ensures ToNumber(Str(IntToString(i))) == Num(i as real)
  {
    var s := IntToString(i);
    var d := NatToString(if i < 0 then -i else i);
    DigitsOfNatToString(if i < 0 then -i else i);
    assert IsDigit(d[0]) && IsDigit(d[|d| - 1]);
    if i < 0 {
      assert s == "-" + d;
    }
    TrimFixed(s);
    ParseDecimalOfInt(i);
  }
}

=== FILE: manual.dfy ===
/**
 * The manual setup solver (`app/api/manual/route.ts`): a per-part search
 * over integer setup values driven by the driver's feedback after each
 * practice lap. A part's history is the sequence of its past laps; the
 * solver probes with halving steps until a lap is rejected, then bisects
 * between the latest accepted and the latest rejected value.
 *
 * The `zs` width comes from a floating-point formula of the driver's
 * experience and technical insight; the model takes its rounded total as
 * a parameter.
 */
module Manual {
  import opened Base
  import opened Text
  import opened JsValues

  // ---------------------------------------------------------------------------
  // Feedback tables

  /** The five logical parts; both wings share one table. */
  datatype Part = Asas | Motor | Freios | Cambio | Suspensao

  /**
   * What a feedback message means: accepted or not, the direction to move
   * (-1 down, +1 up), how many `zs` widths to move, the signed step, and
   * the short label.
   */
  datatype Feedback = Feedback(isOk: bool, dir: int, mult: int, step: int, short: string)

  const OkFeedback: Feedback := Feedback(true, 0, 0, 0, "OK")

  /** The `i`-th message of part `p`, in table order. */
  function Message(p: Part, i: int): string
    requires 0 <= i < 7
  {
    match p
    case Asas => WingMessage(i)
    case Motor => EngineMessage(i)
    case Freios => BrakeMessage(i)
    case Cambio => GearMessage(i)
    case Suspensao => SuspensionMessage(i)
  }

  /** The messages of the wing table. */
  function WingMessage(i: int): string
    requires 0 <= i < 7
  {
    if i == 0 then "Falta ao carro muita velocidade nas retas"
    else if i == 1 then "O carro está perdendo alguma velocidade nas retas"
    else if i == 2 then "O carro poderia ter um pouco mais de velocidade nas retas"
    else if i == 3 then "OK"
    else if i == 4 then "Estou perdendo um pouco de aderência nas curvas"
    else if i == 5 then "O carro é muito instável em muitas curvas"
    else "Não posso dirigir o carro, ele não tem aderência"
  }

  /** The messages of the engine table. */
  function EngineMessage(i: int): string
    requires 0 <= i < 7
  {
    if i == 0 then "Não, não, não!!! Favoreça muito mais as baixas rotações!"
    else if i == 1 then "As rotações estão muito altas"
    else if i == 2 then "Tente favorecer um pouco mais as baixas rotações"
    else if i == 3 then "OK"
    else if i == 4 then "Eu sinto que não tenho força suficiente no motor durante as retas"
    else if i == 5 then "A força do motor nas retas não é suficiente"
    else "Você deve tentar favorecer muito mais as altas rotações"
  }

  /** The messages of the brakes table. */
  function BrakeMessage(i: int): string
    requires 0 <= i < 7
  {
    if i == 0 then "Por favor, coloque o balanço dos freios muito mais para trás"
    else if i == 1 then "Eu penso que a eficácia dos freios pode ser maior se movermos o balanço para trás"
    else if i == 2 then "Coloque o balanço um pouco mais para trás"
    else if i == 3 then "OK"
    else if i == 4 then "Eu gostaria de ter o balanço um pouco mais para frente"
    else if i == 5 then "Eu penso que a eficácia dos freios pode ser maior se movermos o balanço para frente"
    else "Eu me sentiria muito mais confortável se movêssemos o balanço para a frente"
  }

  /** The messages of the gearbox table. */
  function GearMessage(i: int): string
    requires 0 <= i < 7
  {
    if i == 0 then "Por favor, coloque um pouco menor o intervalo entre as marchas."
    else if i == 1 then "A relação do câmbio é muito longa"
    else if i == 2 then "Eu não posso tirar vantagem da força do motor. Coloque a relação do câmbio um pouco menor"
    else if i == 3 then "OK"
    else if i == 4 then "Estou muito frequentemente no vermelho. Coloque a relação do câmbio um pouco mais alta"
    else if i == 5 then "A relação do câmbio está muito curta"
    else "Eu sinto que o motor vai explodir. Coloque o intervalo de marchas bem maior."
  }

  /** The messages of the suspension table. */
  function SuspensionMessage(i: int): string
    requires 0 <= i < 7
  {
    if i == 0 then "O carro está rígido demais. Diminua muito mais a rigidez"
    else if i == 1 then "A rigidez da suspensão está muito alta"
    else if i == 2 then "O carro está muito rígido. Diminua um pouco a rigidez"
    else if i == 3 then "OK"
    else if i == 4 then "Eu penso que com uma suspensão um pouco mais rígida eu poderei ir mais rápido"
    else if i == 5 then "A rigidez da suspensão está muito baixa"
    else "A rigidez da suspensão deve ser muito maior"
  }

  /** The short label of the `i`-th message. */
  function Short(p: Part, i: int): string
    requires 0 <= i < 7
  {
    match p
    case Asas =>
    if i == 0 then "NOK (muito alto)"
    else if i == 1 then "NOK (alto)"
    else if i == 2 then "NOK (pouco alto)"
    else if i == 3 then "OK"
    else if i == 4 then "NOK (pouco baixo)"
    else if i == 5 then "NOK (baixo)"
      else "NOK (muito baixo)"
    case Motor =>
    if i == 0 then "NOK (muito alto)"
    else if i == 1 then "NOK (alto)"
    else if i == 2 then "NOK (pouco alto)"
    else if i == 3 then "OK"
    else if i == 4 then "NOK (pouco baixo)"
    else if i == 5 then "NOK (baixo)"
      else "NOK (muito baixo)"
    case Freios =>
    if i == 0 then "NOK (muito p/ trás)"
    else if i == 1 then "NOK (p/ trás)"
    else if i == 2 then "NOK (pouco p/ trás)"
    else if i == 3 then "OK"
    else if i == 4 then "NOK (pouco p/ frente)"
    else if i == 5 then "NOK (p/ frente)"
      else "NOK (muito p/ frente)"
    case Cambio =>
    if i == 0 then "NOK (muito longo)"
    else if i == 1 then "NOK (longo)"
    else if i == 2 then "NOK (pouco longo)"
    else if i == 3 then "OK"
    else if i == 4 then "NOK (pouco curto)"
    else if i == 5 then "NOK (curto)"
      else "NOK (muito curto)"
    case Suspensao =>
    if i == 0 then "NOK (muito rígido)"
    else if i == 1 then "NOK (rígido)"
    else if i == 2 then "NOK (pouco rígido)"
    else if i == 3 then "OK"
    else if i == 4 then "NOK (pouco macio)"
    else if i == 5 then "NOK (macio)"
    else "NOK (muito macio)"
  }

  /**
   * The numeric columns of a table row (accepted, direction, widths,
   * signed step); the five tables share them row by row.
   */
  const Rows: seq<(bool, int, int, int)> := [
    (false, -1, 2, 3),
    (false, -1, 1, 2),
    (false, -1, 1, 1),
    (true, 0, 0, 0),
    (false, 1, 1, -1),
    (false, 1, 1, -2),
    (false, 1, 2, -3)]

  /** The table of part `p`: each message with its row of data. */
  function Table(p: Part): (t: seq<(string, Feedback)>)
    ensures |t| == 7
    ensures forall i :: 0 <= i < 7 ==> t[i].0 == Message(p, i)
    ensures forall i :: 0 <= i < 7 ==>
              t[i].1 == Feedback(Rows[i].0, Rows[i].1, Rows[i].2, Rows[i].3, Short(p, i))
  {
    seq(7, i requires 0 <= i < 7 =>
      (Message(p, i), Feedback(Rows[i].0, Rows[i].1, Rows[i].2, Rows[i].3, Short(p, i))))
  }

  /**
   * The shape every table has: three "too high" messages (move down), the
   * accepted "OK" in the middle, three "too low" messages (move up); the
   * outermost ones ask for two widths; the signed steps run 3 .. -3; the
   * messages are pairwise distinct, as the keys of an object are.
   */
  predicate WellShaped(t: seq<(string, Feedback)>) {
    && |t| == 7
    && t[3] == ("OK", OkFeedback)
    && (forall i :: 0 <= i < 7 ==> (t[i].1.isOk <==> i == 3))
    && (forall i :: 0 <= i < 7 ==> t[i].1.dir == (if i < 3 then -1 else if i == 3 then 0 else 1))
    && (forall i :: 0 <= i < 7 ==> t[i].1.mult == (if i == 3 then 0 else if i == 0 || i == 6 then 2 else 1))
    && (forall i :: 0 <= i < 7 ==> t[i].1.step == 3 - i)
    && (forall i, j :: 0 <= i < j < 7 ==> t[i].0 != t[j].0)
  }

  /** Every part's table has that shape. */
  lemma TableShape(p: Part)
    ensures WellShaped(Table(p))
  {
    RowsShape();
    OkIsMiddle(p);
    MessagesDistinct(p);
  }

  /** The numeric columns, row by row. */
  lemma RowsShape()
    ensures forall i :: 0 <= i < 7 ==> (Rows[i].0 <==> i == 3)
    ensures forall i :: 0 <= i < 7 ==> Rows[i].1 == (if i < 3 then -1 else if i == 3 then 0 else 1)
    ensures forall i :: 0 <= i < 7 ==> Rows[i].2 == (if i == 3 then 0 else if i == 0 || i == 6 then 2 else 1)
    ensures forall i :: 0 <= i < 7 ==> Rows[i].3 == 3 - i
    ensures Rows[3] == (true, 0, 0, 0)
  {
  }

  /** The middle message of every table is the plain "OK". */
  lemma OkIsMiddle(p: Part)
    ensures Message(p, 3) == "OK" && Short(p, 3) == "OK"
  {
  }

  lemma MessagesDistinct(p: Part)
    ensures forall i, j :: 0 <= i < j < 7 ==> Message(p, i) != Message(p, j)
  {
    match p
    case Asas => WingMessagesDistinct();
    case Motor => EngineMessagesDistinct();
    case Freios => BrakeMessagesDistinct();
    case Cambio => GearMessagesDistinct();
    case Suspensao => SuspensionMessagesDistinct();
  }

  /** No two rows of the table carry the same message. */
  lemma WingMessagesDistinct()
    ensures forall i, j :: 0 <= i < j < 7 ==> WingMessage(i) != WingMessage(j)
  {
    WingFirstRowsDistinct();
    WingMiddleRowsDistinct();
    WingFifthRowDistinct();
    WingSixthRowDistinct();
  }

  lemma WingFirstRowsDistinct()
    ensures forall i, j :: 0 <= i < 2 && i < j < 7 ==> WingMessage(i) != WingMessage(j)
  {
  }

  lemma WingMiddleRowsDistinct()
    ensures forall i, j :: 2 <= i < 4 && i < j < 7 ==> WingMessage(i) != WingMessage(j)
  {
  }

  lemma WingFifthRowDistinct()
    ensures forall i, j :: i == 4 && i < j < 7 ==> WingMessage(i) != WingMessage(j)
  {
  }

  lemma WingSixthRowDistinct()
    ensures forall i, j :: i == 5 && i < j < 7 ==> WingMessage(i) != WingMessage(j)
  {
  }

  /** No two rows of the table carry the same message. */
  lemma EngineMessagesDistinct()
    ensures forall i, j :: 0 <= i < j < 7 ==> EngineMessage(i) != EngineMessage(j)
  {
    EngineFirstRowsDistinct();
    EngineMiddleRowsDistinct();
    EngineFifthRowDistinct();
    EngineSixthRowDistinct();
  }

  lemma EngineFirstRowsDistinct()
    ensures forall i, j :: 0 <= i < 2 && i < j < 7 ==> EngineMessage(i) != EngineMessage(j)
  {
  }

  lemma EngineMiddleRowsDistinct()
    ensures forall i, j :: 2 <= i < 4 && i < j < 7 ==> EngineMessage(i) != EngineMessage(j)
  {
  }

  lemma EngineFifthRowDistinct()
    ensures forall i, j :: i == 4 && i < j < 7 ==> EngineMessage(i) != EngineMessage(j)
  {
  }

  lemma EngineSixthRowDistinct()
    ensures forall i, j :: i == 5 && i < j < 7 ==> EngineMessage(i) != EngineMessage(j)
  {
  }

  /** No two rows of the table carry the same message. */
  lemma BrakeMessagesDistinct()
    ensures forall i, j :: 0 <= i < j < 7 ==> BrakeMessage(i) != BrakeMessage(j)
  {
    BrakeFirstRowsDistinct();
    BrakeMiddleRowsDistinct();
    BrakeFifthRowDistinct();
    BrakeSixthRowDistinct();
  }

  lemma BrakeFirstRowsDistinct()
    ensures forall i, j :: 0 <= i < 2 && i < j < 7 ==> BrakeMessage(i) != BrakeMessage(j)
  {
  }

  lemma BrakeMiddleRowsDistinct()
    ensures forall i, j :: 2 <= i < 4 && i < j < 7 ==> BrakeMessage(i) != BrakeMessage(j)
  {
  }

  lemma BrakeFifthRowDistinct()
    ensures forall i, j :: i == 4 && i < j < 7 ==> BrakeMessage(i) != BrakeMessage(j)
  {
  }

  lemma BrakeSixthRowDistinct()
    ensures forall i, j :: i == 5 && i < j < 7 ==> BrakeMessage(i) != BrakeMessage(j)
  {
  }

  /** No two rows of the table carry the same message. */
  lemma GearMessagesDistinct()
    ensures forall i, j :: 0 <= i < j < 7 ==> GearMessage(i) != GearMessage(j)
  {
    GearFirstRowsDistinct();
    GearMiddleRowsDistinct();
    GearFifthRowDistinct();
    GearSixthRowDistinct();
  }

  lemma GearFirstRowsDistinct()
    ensures forall i, j :: 0 <= i < 2 && i < j < 7 ==> GearMessage(i) != GearMessage(j)
  {
  }

  lemma GearMiddleRowsDistinct()
    ensures forall i, j :: 2 <= i < 4 && i < j < 7 ==> GearMessage(i) != GearMessage(j)
  {
  }

  lemma GearFifthRowDistinct()
    ensures forall i, j :: i == 4 && i < j < 7 ==> GearMessage(i) != GearMessage(j)
  {
  }

  lemma GearSixthRowDistinct()
    ensures forall i, j :: i == 5 && i < j < 7 ==> GearMessage(i) != GearMessage(j)
  {
  }

  /** No two rows of the table carry the same message. */
  lemma SuspensionMessagesDistinct()
    ensures forall i, j :: 0 <= i < j < 7 ==> SuspensionMessage(i) != SuspensionMessage(j)
  {
    SuspensionFirstRowsDistinct();
    SuspensionMiddleRowsDistinct();
    SuspensionFifthRowDistinct();
    SuspensionSixthRowDistinct();
  }

  lemma SuspensionFirstRowsDistinct()
    ensures forall i, j :: 0 <= i < 2 && i < j < 7 ==> SuspensionMessage(i) != SuspensionMessage(j)
  {
  }

  lemma SuspensionMiddleRowsDistinct()
    ensures forall i, j :: 2 <= i < 4 && i < j < 7 ==> SuspensionMessage(i) != SuspensionMessage(j)
  {
  }

  lemma SuspensionFifthRowDistinct()
    ensures forall i, j :: i == 4 && i < j < 7 ==> SuspensionMessage(i) != SuspensionMessage(j)
  {
  }

  lemma SuspensionSixthRowDistinct()
    ensures forall i, j :: i == 5 && i < j < 7 ==> SuspensionMessage(i) != SuspensionMessage(j)
  {
  }

  /** The logical part of a display name; both wings use the wing table. */
  function LogicOf(display: string): (r: Option<Part>)
    ensures display == "Asa Dianteira" || display == "Asa Traseira" ==> r == Some(Asas)
  {
    if display == "Asa Dianteira" || display == "Asa Traseira" then Some(Asas)
    else if display == "Motor" then Some(Motor)
    else if display == "Freios" then Some(Freios)
    else if display == "Câmbio" then Some(Cambio)
    else if display == "Suspensão" then Some(Suspensao)
    else None
  }

  /** Move down first for the wings, the gearbox and the suspension, up for the rest. */
  function Direction(p: Part): (d: int)
    ensures d == -1 || d == 1
    ensures d == -1 <==> p == Asas || p == Cambio || p == Suspensao
  {
    if p == Asas || p == Cambio || p == Suspensao then -1 else 1
  }

  /** The data of a message, or `None` when the table has no such message. */
  function FindFeedback(t: seq<(string, Feedback)>, msg: string): (r: Option<Feedback>)
    ensures r.Some? ==> (msg, r.value) in t
    ensures r.None? <==> forall i :: 0 <= i < |t| ==> t[i].0 != msg
  {
    if t == [] then None
    else if t[0].0 == msg then Some(t[0].1)
    else FindFeedback(t[1..], msg)
  }

  /**
   * The data a lap's message is processed with: the row of the message in
   * the part's table, and the "OK" row for a message the table lacks.
   */
  function Classify(p: Part, msg: string): (fb: Feedback)
    ensures forall i :: 0 <= i < 7 && Message(p, i) == msg ==> fb == Table(p)[i].1
    ensures (forall i :: 0 <= i < 7 ==> Message(p, i) != msg) ==> fb == OkFeedback
  {
    ClassifyLookup(p, msg);
    match FindFeedback(Table(p), msg)
    case Some(fb) => fb
    case None => FindFeedback(Table(p), "OK").value
  }

  /** The lookups `Classify` makes: a message finds its own row, and "OK" finds the accepting row. */
  lemma ClassifyLookup(p: Part, msg: string)
    ensures FindFeedback(Table(p), "OK") == Some(OkFeedback)
    ensures forall i :: 0 <= i < 7 && Message(p, i) == msg ==> FindFeedback(Table(p), msg) == Some(Table(p)[i].1)
  {
    var t := Table(p);
    TableShape(p);
    FindFirst(t, msg);
    FindFirst(t, "OK");
    assert t[3].0 == "OK";
  }

  /** In a table with distinct messages, a message finds its own row. */
  lemma {:induction false} FindFirst(t: seq<(string, Feedback)>, msg: string)
    requires forall a, b :: 0 <= a < b < |t| ==> t[a].0 != t[b].0
    ensures forall i :: 0 <= i < |t| && t[i].0 == msg ==> FindFeedback(t, msg) == Some(t[i].1)
    decreases |t|
  {
    if t != [] && t[0].0 != msg {
      FindFirst(t[1..], msg);
      forall i | 0 <= i < |t| && t[i].0 == msg
        ensures FindFeedback(t, msg) == Some(t[i].1)
      {
        assert t[1..][i - 1] == t[i];
      }
    }
  }

  // ---------------------------------------------------------------------------
  // Histories

  /** One lap of one part: the value tried, the message heard and what it means. */
  datatype Entry = Entry(acerto: int, msg: string, fb: Feedback)

  /** Index of the latest entry whose acceptance is `ok`. */
  function LastWith(h: seq<Entry>, ok: bool): (r: Option<nat>)
    ensures r.Some? ==> r.value < |h| && h[r.value].fb.isOk == ok
    ensures r.Some? ==> forall j :: r.value < j < |h| ==> h[j].fb.isOk != ok
    ensures r.None? <==> forall j :: 0 <= j < |h| ==> h[j].fb.isOk != ok
    decreases |h|
  {
    if h == [] then None
    else if h[|h| - 1].fb.isOk == ok then Some(|h| - 1)
    else LastWith(h[..|h| - 1], ok)
  }

  /** The value of the latest accepted lap. */
  function LastOk(h: seq<Entry>): Option<int> {
    match LastWith(h, true)
    case Some(k) => Some(h[k].acerto)
    case None => None
  }

  /** The value of the latest rejected lap. */
  function LastNok(h: seq<Entry>): Option<int> {
    match LastWith(h, false)
    case Some(k) => Some(h[k].acerto)
    case None => None
  }

  /** Bisection: the history holds both an accepted and a rejected lap. */
  predicate InBisection(h: seq<Entry>) {
    LastOk(h).Some? && LastNok(h).Some?
  }

  /** Every value already tried. */
  function Tried(h: seq<Entry>): set<int> {
    set k | 0 <= k < |h| :: h[k].acerto
  }

  /** How many accepted laps end the history. */
  function TrailingOks(h: seq<Entry>): (n: nat)
    ensures n <= |h|
    ensures forall j :: |h| - n <= j < |h| ==> h[j].fb.isOk
    ensures n < |h| ==> !h[|h| - 1 - n].fb.isOk
    decreases |h|
  {
    if h == [] || !h[|h| - 1].fb.isOk then 0
    else 1 + TrailingOks(h[..|h| - 1])
  }

  /**
   * The backward scan both routines share: it stops as soon as it has seen
   * an accepted and a rejected lap, which finds the latest of each.
   */
  method ScanLast(h: seq<Entry>) returns (ok: Option<int>, nok: Option<int>)
    ensures ok == LastOk(h) && nok == LastNok(h)
  {
    ok, nok := None, None;
    var i := |h| - 1;
    while i >= 0
      invariant -1 <= i < |h|
      invariant ok.None? ==> forall j :: i < j < |h| ==> !h[j].fb.isOk
      invariant nok.None? ==> forall j :: i < j < |h| ==> h[j].fb.isOk
      invariant ok.Some? ==> ok == LastOk(h)
      invariant nok.Some? ==> nok == LastNok(h)
      decreases i
    {
      if h[i].fb.isOk && ok.None? {
        ok := Some(h[i].acerto);
      }
      if !h[i].fb.isOk && nok.None? {
        nok := Some(h[i].acerto);
      }
      if ok.Some? && nok.Some? {
        break;
      }
      i := i - 1;
    }
  }

  // ---------------------------------------------------------------------------
  // Next suggestion

  /** `Math.floor(n + 0.5)`, the same as `Math.round`. */
  function RoundHalfUp(x: real): (r: int)
    ensures r as real - 0.5 <= x < r as real + 0.5
  {
    Round(x)
  }

  /** Setup values live in 1..1000. */
  function ApplyBounds(v: int): (r: int)
    ensures 1 <= r <= 1000
    ensures 1 <= v <= 1000 ==> r == v
    ensures v < 1 ==> r == 1
    ensures v > 1000 ==> r == 1000
  {
    if v < 1 then 1 else if v > 1000 then 1000 else v
  }

  /** Half a width, rounded half up: the integer `(n + 1) / 2`. */
  function Half(n: int): (r: int)
    ensures r == (n + 1) / 2
  {
    var r := RoundHalfUp(n as real / 2.0);
    assert r == (n + 1) / 2 by {
      var q := (n + 1) / 2;
      assert n + 1 == 2 * q || n + 1 == 2 * q + 1;
    }
    r
  }

  /** The rounded midpoint of two values lies between them. */
  function Midpoint(lo: int, hi: int): (m: int)
    requires lo <= hi
    ensures lo <= m <= hi
    ensures m == (lo + hi + 1) / 2
  {
    var m := RoundHalfUp((lo + hi) as real / 2.0);
    assert m == (lo + hi + 1) / 2 by {
      var q := (lo + hi + 1) / 2;
      assert lo + hi + 1 == 2 * q || lo + hi + 1 == 2 * q + 1;
    }
    m
  }

  /** The first value of `start`, `start + 1`, ..., `stop` not yet tried. */
  function FreeUp(tried: set<int>, start: int, stop: int): (r: Option<int>)
    ensures r.Some? ==> start <= r.value <= stop && r.value !in tried
    ensures r.Some? ==> forall u :: start <= u < r.value ==> u in tried
    ensures r.None? ==> forall u :: start <= u <= stop ==> u in tried
    decreases stop - start
  {
    if start > stop then None
    else if start !in tried then Some(start)
    else FreeUp(tried, start + 1, stop)
  }

  /** The first value of `start`, `start - 1`, ..., `stop` not yet tried. */
  function FreeDown(tried: set<int>, start: int, stop: int): (r: Option<int>)
    ensures r.Some? ==> stop <= r.value <= start && r.value !in tried
    ensures r.Some? ==> forall u :: r.value < u <= start ==> u in tried
    ensures r.None? ==> forall u :: stop <= u <= start ==> u in tried
    decreases start - stop
  {
    if start < stop then None
    else if start !in tried then Some(start)
    else FreeDown(tried, start - 1, stop)
  }

  /**
   * The bisection pick between the latest accepted and rejected values:
   * the first untried value from the midpoint up, then from below the
   * midpoint down, and the accepted value when everything was tried.
   */
  function BisectPick(tried: set<int>, ok: int, nok: int): (r: int)
    ensures var lo := if ok < nok then ok else nok;
            var hi := if ok < nok then nok else ok;
            lo <= r <= hi
    ensures var lo := if ok < nok then ok else nok;
            var hi := if ok < nok then nok else ok;
            r !in tried || (r == ok && forall u :: lo <= u <= hi ==> u in tried)
  {
    var lo := if ok < nok then ok else nok;
    var hi := if ok < nok then nok else ok;
    var mid := Midpoint(lo, hi);
    match FreeUp(tried, mid, hi)
    case Some(v) => v
    case None =>
      match FreeDown(tried, mid - 1, lo)
      case Some(v) => v
      case None => ok
  }

  /** One halving of the probing step, never below 1. */
  function Halve(s: int): (r: int)
    ensures r >= 1
    ensures s >= 1 ==> r <= s
  {
    var h := Half(s);
    if h < 1 then 1 else h
  }

  /** The probing step after `n` halvings of `zsHalf`. */
  function StepAfter(zsHalf: int, n: nat): (r: int)
    ensures n > 0 ==> r >= 1
    ensures zsHalf >= 1 ==> 1 <= r <= zsHalf
  {
    if n == 0 then zsHalf else Halve(StepAfter(zsHalf, n - 1))
  }

  /**
   * The retry loop of the probe: while the candidate was already tried,
   * move it one unit further, at most five times; with a unit step it
   * falls back to the last value instead.
   */
  function Nudge(tried: set<int>, last: int, dir: int, step: int, s: int, retries: nat): (r: int)
    requires dir == 1 || dir == -1
    requires retries <= 5
    ensures r == last || (dir == 1 && s <= r <= s + (5 - retries)) || (dir == -1 && s - (5 - retries) <= r <= s)
    ensures r != last && r in tried ==> r == s + dir * (5 - retries)
    decreases 5 - retries
  {
    if s in tried && retries < 5 then
      if step == 1 then last
      else Nudge(tried, last, dir, step, s + dir, retries + 1)
    else s
  }

  /**
   * `calculateNextSuggestion`: 500 for an empty history; in bisection the
   * latest accepted value when the gap is at most 2, else the clamped
   * bisection pick; after a rejected lap with no accepted one, a move of
   * `dir * mult` widths; after accepted laps only, a halving probe in the
   * part's direction.
   */
  function NextSuggestion(p: Part, h: seq<Entry>, zsTotal: int, zsHalf: int): (r: int)
    ensures |h| == 0 ==> r == 500
    ensures InBisection(h) && Abs(LastOk(h).value - LastNok(h).value) <= 2 ==> r == LastOk(h).value
    ensures |h| > 0 && !(InBisection(h) && Abs(LastOk(h).value - LastNok(h).value) <= 2) ==> 1 <= r <= 1000
  {
    if |h| == 0 then 500
    else if InBisection(h) then BisectSuggestion(Tried(h), LastOk(h).value, LastNok(h).value)
    else if !h[|h| - 1].fb.isOk then
      var last := h[|h| - 1];
      ApplyBounds(last.acerto + last.fb.dir * last.fb.mult * zsTotal)
    else ProbeSuggestion(p, h, zsHalf)
  }

  /** The suggestion in bisection: the accepted value when the gap is at most 2, else the clamped pick. */
  function BisectSuggestion(tried: set<int>, ok: int, nok: int): (r: int)
    ensures Abs(ok - nok) <= 2 ==> r == ok
    ensures Abs(ok - nok) > 2 ==> 1 <= r <= 1000
  {
    if Abs(ok - nok) <= 2 then ok else ApplyBounds(BisectPick(tried, ok, nok))
  }

  /** The suggestion after accepted laps only: a probe of halving steps in the part's direction. */
  function ProbeSuggestion(p: Part, h: seq<Entry>, zsHalf: int): (r: int)
    requires |h| > 0 && h[|h| - 1].fb.isOk
    ensures 1 <= r <= 1000
  {
    var last := h[|h| - 1].acerto;
    var d := Direction(p);
    var step := StepAfter(zsHalf, TrailingOks(h) - 1);
    ApplyBounds(Nudge(Tried(h), last, d, step, last + d * step, 0))
  }

  function Abs(x: int): (r: nat)
    ensures r == x || r == -x
  {
    if x < 0 then -x else x
  }

  /** `calculateNextSuggestion` as the route runs it, with its loops. */
  method ComputeNextSuggestion(p: Part, h: seq<Entry>, zsTotal: int, zsHalf: int) returns (r: int)
    ensures r == NextSuggestion(p, h, zsTotal, zsHalf)
  {
    if |h| == 0 {
      return 500;
    }
    var last := h[|h| - 1];
    var ok, nok := ScanLast(h);
    if ok.Some? && nok.Some? {
      r := ComputeBisect(Tried(h), ok.value, nok.value);
    } else if !last.fb.isOk {
      r := ApplyBounds(last.acerto + last.fb.dir * last.fb.mult * zsTotal);
    } else {
      r := ComputeProbe(p, h, zsHalf);
    }
  }

  /** The bisection branch with its two search loops. */
  method ComputeBisect(tried: set<int>, ok: int, nok: int) returns (r: int)
    ensures r == BisectSuggestion(tried, ok, nok)
  {
    if Abs(ok - nok) <= 2 {
      return ok;
    }
    r := BisectLoops(tried, ok, nok);
    r := ApplyBounds(r);
  }

  /** A history that ends in an accepted lap has at least one trailing accepted lap. */
  lemma LastOkTrails(h: seq<Entry>)
    requires |h| > 0 && h[|h| - 1].fb.isOk
    ensures TrailingOks(h) >= 1
  {
  }

  /** The probing branch: count the trailing accepted laps, halve, retry. */
  method ComputeProbe(p: Part, h: seq<Entry>, zsHalf: int) returns (r: int)
    requires |h| > 0 && h[|h| - 1].fb.isOk
    ensures r == ProbeSuggestion(p, h, zsHalf)
  {
    var last := h[|h| - 1].acerto;
    var d := Direction(p);
    var consecutive := CountTrailingOks(h);
    LastOkTrails(h);
    var step := HalvingLoop(zsHalf, consecutive);
    r := NudgeLoop(Tried(h), last, d, step);
    r := ApplyBounds(r);
  }

  /** The halving loop: `consecutive - 1` halvings of `zsHalf`, none when `consecutive` is at most 1. */
  method HalvingLoop(zsHalf: int, consecutive: nat) returns (step: int)
    ensures step == StepAfter(zsHalf, if consecutive == 0 then 0 else consecutive - 1)
  {
    step := zsHalf;
    var i := 1;
    while i < consecutive
      invariant 1 <= i <= (if consecutive == 0 then 1 else consecutive)
      invariant step == StepAfter(zsHalf, i - 1)
    {
      step := Halve(step);
      i := i + 1;
    }
  }

  /** The trailing-accepted count as the route computes it. */
  method CountTrailingOks(h: seq<Entry>) returns (n: nat)
    ensures n == TrailingOks(h)
  {
    n := 0;
    var i := |h| - 1;
    while i >= 0 && h[i].fb.isOk
      invariant -1 <= i < |h| && n == |h| - 1 - i
      invariant TrailingOks(h) == n + TrailingOks(h[..i + 1])
      decreases i
    {
      assert h[..i + 1][..i] == h[..i];
      n := n + 1;
      i := i - 1;
    }
    assert h[..|h|] == h;
  }

  /** The two search loops of the bisection. */
  method BisectLoops(tried: set<int>, ok: int, nok: int) returns (r: int)
    ensures r == BisectPick(tried, ok, nok)
  {
    var lo := if ok < nok then ok else nok;
    var hi := if ok < nok then nok else ok;
    var mid := Midpoint(lo, hi);
    var up := SearchUp(tried, mid, hi);
    if up.Some? {
      return up.value;
    }
    var down := SearchDown(tried, mid - 1, lo);
    if down.Some? {
      return down.value;
    }
    r := ok;
  }

  /** The upward search loop. */
  method SearchUp(tried: set<int>, start: int, stop: int) returns (r: Option<int>)
    ensures r == FreeUp(tried, start, stop)
  {
    var t := start;
    while t <= stop
      invariant start <= t
      invariant FreeUp(tried, start, stop) == FreeUp(tried, t, stop)
      decreases stop - t
    {
      if t !in tried {
        return Some(t);
      }
      t := t + 1;
    }
    r := None;
  }

  /** The downward search loop. */
  method SearchDown(tried: set<int>, start: int, stop: int) returns (r: Option<int>)
    ensures r == FreeDown(tried, start, stop)
  {
    var t := start;
    while t >= stop
      invariant t <= start
      invariant FreeDown(tried, start, stop) == FreeDown(tried, t, stop)
      decreases t - stop
    {
      if t !in tried {
        return Some(t);
      }
      t := t - 1;
    }
    r := None;
  }

  /** The retry loop of the probe. */
  method NudgeLoop(tried: set<int>, last: int, dir: int, step: int) returns (r: int)
    requires dir == 1 || dir == -1
    ensures r == Nudge(tried, last, dir, step, last + dir * step, 0)
  {
    r := last + dir * step;
    var retries := 0;
    while r in tried && retries < 5
      invariant 0 <= retries <= 5
      invariant Nudge(tried, last, dir, step, last + dir * step, 0) == Nudge(tried, last, dir, step, r, retries)
      decreases 5 - retries
    {
      if step == 1 {
        r := last;
        return;
      }
      r := r + dir;
      retries := retries + 1;
    }
  }

  // ---------------------------------------------------------------------------
  // Final analysis

  /** The proposed final value: a label or a number. */
  datatype FinalValue = Label(text: string) | Value(n: int)

  datatype Analysis = Analysis(final: FinalValue, margin: string)

  /** `±n`. */
  function PlusMinus(n: int): string {
    "±" + IntToString(n)
  }

  /**
   * `calculateFinalAnalysis`: "—" for an empty history, "N/A" without an
   * accepted lap; half a width beyond the latest accepted value, away
   * from the latest rejected one (or in the part's direction when there
   * is none), clamped.
   */
  function FinalAnalysis(p: Part, h: seq<Entry>, zsHalf: int): (r: Analysis)
    ensures |h| == 0 ==> r == Analysis(Label("—"), "—")
    ensures |h| > 0 && LastOk(h).None? ==> r == Analysis(Label("N/A"), "N/A")
    ensures |h| > 0 && LastOk(h).Some? ==> r.final.Value? && 1 <= r.final.n <= 1000
    ensures |h| > 0 && LastOk(h).Some? && LastNok(h).None? ==>
              r == Analysis(Value(ApplyBounds(LastOk(h).value + Direction(p) * zsHalf)), PlusMinus(zsHalf))
    ensures InBisection(h) ==>
              r.final == Value(ApplyBounds(if LastNok(h).value > LastOk(h).value
                                           then LastOk(h).value - zsHalf else LastOk(h).value + zsHalf))
    ensures InBisection(h) ==>
              r.margin == (if Abs(LastOk(h).value - LastNok(h).value) <= 2 then "0"
                           else PlusMinus(Abs(LastOk(h).value - LastNok(h).value) / 2))
  {
    if |h| == 0 then Analysis(Label("—"), "—")
    else
      if LastOk(h).None? then Analysis(Label("N/A"), "N/A")
      else if LastNok(h).None? then
        Analysis(Value(ApplyBounds(LastOk(h).value + Direction(p) * zsHalf)), PlusMinus(zsHalf))
      else
        var ok, nok := LastOk(h).value, LastNok(h).value;
        // The brakes have their own branch in the route, computing the same value.
        var diff := Abs(ok - nok);
        var ideal := if nok > ok then ok - zsHalf else ok + zsHalf;
        Analysis(Value(ApplyBounds(ideal)), if diff <= 2 then "0" else PlusMinus(diff / 2))
  }

  // ---------------------------------------------------------------------------
  // Allowed feedbacks

  /** A rejection of one width in the expected direction. */
  predicate Relevant(o: (string, Feedback), expected: int) {
    !o.1.isOk && o.1.mult == 1 && o.1.dir == expected
  }

  /**
   * Index of the relevant option with the smallest absolute step, the
   * earliest one on a tie: the head of the stable sort the route uses.
   */
  function BestNok(t: seq<(string, Feedback)>, expected: int): (r: Option<nat>)
    ensures r.Some? ==> r.value < |t| && Relevant(t[r.value], expected)
    ensures r.Some? ==> forall j :: 0 <= j < |t| && Relevant(t[j], expected) ==>
                          Abs(t[r.value].1.step) <= Abs(t[j].1.step)
    ensures r.Some? ==> forall j :: 0 <= j < r.value && Relevant(t[j], expected) ==>
                          Abs(t[r.value].1.step) < Abs(t[j].1.step)
    ensures r.None? <==> forall j :: 0 <= j < |t| ==> !Relevant(t[j], expected)
    decreases |t|
  {
    if t == [] then None
    else
      var rest := BestNok(t[1..], expected);
      if Relevant(t[0], expected) && (rest.None? || Abs(t[0].1.step) <= Abs(t[1..][rest.value].1.step)) then
        Some(0)
      else if rest.Some? then
        Some(rest.value + 1)
      else
        None
  }

  /** Whether the filter keeps an option: every accepted one and the picked rejection. */
  predicate Kept(o: (string, Feedback), pick: Option<string>) {
    o.1.isOk || pick == Some(o.0)
  }

  /** The messages of `t[i..]` the filter keeps, in order. */
  function KeepFrom(t: seq<(string, Feedback)>, pick: Option<string>, i: nat): (r: seq<string>)
    requires i <= |t|
    ensures |r| <= |t| - i
    ensures forall m :: m in r <==> exists k :: i <= k < |t| && t[k].0 == m && Kept(t[k], pick)
    decreases |t| - i
  {
    if i == |t| then []
    else
      var rest := KeepFrom(t, pick, i + 1);
      if Kept(t[i], pick) then [t[i].0] + rest else rest
  }

  /** Every message of a table, in order. */
  function Messages(t: seq<(string, Feedback)>): (r: seq<string>)
    ensures |r| == |t| && forall i :: 0 <= i < |t| ==> r[i] == t[i].0
  {
    seq(|t|, i requires 0 <= i < |t| => t[i].0)
  }

  /** The direction a rejection is expected in: down when the rejected value is above the accepted one. */
  function ExpectedDir(ok: int, nok: int): (e: int)
    ensures e == -1 <==> nok > ok
    ensures e == 1 <==> nok < ok
    ensures e == 0 <==> nok == ok
  {
    if nok > ok then -1 else if nok < ok then 1 else 0
  }

  /** The rejection the filter keeps for the expected direction, if any. */
  function Pick(t: seq<(string, Feedback)>, e: int): (r: Option<string>)
    ensures e == 0 ==> r.None?
    ensures r.Some? ==> exists k :: 0 <= k < |t| && Relevant(t[k], e) && t[k].0 == r.value
  {
    if e == 0 then None
    else match BestNok(t, e)
      case Some(k) => Some(t[k].0)
      case None => None
  }

  /**
   * `calculateAllowedFeedbacks`: outside bisection every message; in
   * bisection the accepted message and at most the one rejection the
   * current gap can still produce, "OK" alone when nothing is kept.
   */
  function AllowedFeedbacks(p: Part, h: seq<Entry>): (r: seq<string>)
    ensures |r| > 0
    ensures !InBisection(h) ==> r == Messages(Table(p))
    ensures InBisection(h) ==> forall m :: m in r ==> m == "OK" || !Classify(p, m).isOk
  {
    var t := Table(p);
    TableShape(p);
    if InBisection(h) then
      var kept := KeepFrom(t, Pick(t, ExpectedDir(LastOk(h).value, LastNok(h).value)), 0);
      if kept == [] then ["OK"] else kept
    else Messages(t)
  }

  // ---------------------------------------------------------------------------
  // The route

  /** What the driver reported for one part in the current lap. */
  datatype LapInput = LapInput(acerto: int, msg: string)

  /** A lap as the client keeps it: the processed entry of each display part. */
  type Lap = map<string, Entry>

  /** The reply of a successful call. */
  datatype ManualData = ManualData(
    processedLap: Lap,
    nextSuggestions: map<string, int>,
    finalAnalysis: map<string, Analysis>,
    allowedOptions: map<string, seq<string>>,
    zsTotal: int,
    zsHalf: int)

  /** The `zs` width from the driver's experience and technical insight, rounded half up. */
  function ZsTotal(xp: real, ct: real): (r: int)
    ensures r as real - 0.5 <= 136.0 - 0.11555 * xp - 0.29895 * ct < r as real + 0.5
  {
    RoundHalfUp(136.0 - 0.11555 * xp - 0.29895 * ct)
  }

  /** One part of the current lap, processed with the table of its logical part. */
  function ProcessPart(p: Part, input: LapInput): (e: Entry)
    ensures e.acerto == input.acerto && e.msg == input.msg
    ensures (forall i :: 0 <= i < 7 ==> Message(p, i) != input.msg) ==> e.fb == OkFeedback
  {
    Entry(input.acerto, input.msg, Classify(p, input.msg))
  }

  /** The entries of one display part across laps, or None when a lap lacks it. */
  function PartHistory(laps: seq<Lap>, display: string): (r: Option<seq<Entry>>)
    ensures r.Some? <==> forall k :: 0 <= k < |laps| ==> display in laps[k]
    ensures r.Some? ==> |r.value| == |laps| && forall k :: 0 <= k < |laps| ==> r.value[k] == laps[k][display]
  {
    if forall k :: 0 <= k < |laps| ==> display in laps[k] then
      Some(seq(|laps|, k requires 0 <= k < |laps| => laps[k][display]))
    else None
  }

  /** Every display name of the lap has a table. */
  predicate KnownParts(current: map<string, LapInput>) {
    forall d :: d in current ==> LogicOf(d).Some?
  }

  /** Every earlier lap holds every part of the current lap. */
  predicate CompleteHistory(history: seq<Lap>, current: map<string, LapInput>) {
    forall d, k :: d in current && 0 <= k < |history| ==> d in history[k]
  }

  /** The processed current lap. */
  function ProcessLap(current: map<string, LapInput>): (lap: Lap)
    requires KnownParts(current)
    ensures lap.Keys == current.Keys
  {
    map d | d in current :: ProcessPart(LogicOf(d).value, current[d])
  }

  /**
   * The entries each part of the current lap is evaluated on: its earlier
   * entries followed by the entry the current lap produced for it.
   */
  function Histories(history: seq<Lap>, lap: Lap): (hs: map<string, seq<Entry>>)
    requires forall d, k :: d in lap && 0 <= k < |history| ==> d in history[k]
    ensures hs.Keys == lap.Keys
    ensures forall d :: d in lap ==> PartHistory(history, d).Some?
    ensures forall d :: d in lap ==> hs[d] == PartHistory(history, d).value + [lap[d]]
  {
    map d | d in lap :: PartHistory(history, d).value + [lap[d]]
  }

  /**
   * The route: process the current lap, append it to the history, and
   * for each part of the lap compute the next suggestion, the final
   * analysis and the messages allowed next. An unknown display name or an
   * earlier lap without one of the parts makes the route fail.
   */
  function Post(xp: real, ct: real, history: seq<Lap>, current: map<string, LapInput>): (r: Result<ManualData>)
    ensures r.Ok? <==> KnownParts(current) && CompleteHistory(history, current)
    ensures r.Err? ==> r.msg == "Erro interno"
    ensures r.Ok? ==> r.value.zsTotal == ZsTotal(xp, ct) && r.value.zsHalf == Half(r.value.zsTotal)
    ensures r.Ok? ==>
              && r.value.processedLap.Keys == current.Keys
              && r.value.nextSuggestions.Keys == current.Keys
              && r.value.finalAnalysis.Keys == current.Keys
              && r.value.allowedOptions.Keys == current.Keys
  {
    if !KnownParts(current) || !CompleteHistory(history, current) then Err("Erro interno")
    else
      var lap := ProcessLap(current);
      var hs := Histories(history, lap);
      var zt := ZsTotal(xp, ct);
      var zh := Half(zt);
      Ok(ManualData(
        lap,
        map d | d in hs :: NextSuggestion(LogicOf(d).value, hs[d], zt, zh),
        map d | d in hs :: FinalAnalysis(LogicOf(d).value, hs[d], zh),
        map d | d in hs :: AllowedFeedbacks(LogicOf(d).value, hs[d]),
        zt,
        zh))
  }

  // ---------------------------------------------------------------------------
  // Properties

  /** The halving step is `max(1, (s + 1) / 2)`. */
  lemma HalveIsIntegerHalf(s: int)
    ensures Halve(s) == (if (s + 1) / 2 < 1 then 1 else (s + 1) / 2)
  {
  }

  /** Each message is processed with its own row; the round trip from row to message and back. */
  lemma ClassifyRoundTrip(p: Part, i: int)
    requires 0 <= i < 7
    ensures Classify(p, Message(p, i)) == Table(p)[i].1
    ensures Classify(p, Message(p, i)).isOk <==> i == 3
  {
    TableShape(p);
  }

  /** The rejection the picker keeps is the one-width message nearest to "OK" on the expected side. */
  lemma BestNokIsNearest(t: seq<(string, Feedback)>)
    requires WellShaped(t)
    ensures BestNok(t, -1) == Some(2)
    ensures BestNok(t, 1) == Some(4)
  {
    assert Relevant(t[2], -1) && Relevant(t[4], 1);
  }

  /**
   * In bisection the allowed messages are exactly "OK" and the mildest
   * rejection towards the accepted value, in table order; with equal
   * values only "OK".
   */
  lemma AllowedInBisection(p: Part, h: seq<Entry>)
    requires InBisection(h)
    ensures LastNok(h).value > LastOk(h).value ==> AllowedFeedbacks(p, h) == [Message(p, 2), "OK"]
    ensures LastNok(h).value < LastOk(h).value ==> AllowedFeedbacks(p, h) == ["OK", Message(p, 4)]
    ensures LastNok(h).value == LastOk(h).value ==> AllowedFeedbacks(p, h) == ["OK"]
  {
    TableShape(p);
    BisectionKeeps(Table(p), ExpectedDir(LastOk(h).value, LastNok(h).value));
  }

  /** The filter of a well-shaped table for each expected direction. */
  lemma BisectionKeeps(t: seq<(string, Feedback)>, e: int)
    requires WellShaped(t)
    ensures e == -1 ==> KeepFrom(t, Pick(t, e), 0) == [t[2].0, "OK"]
    ensures e == 1 ==> KeepFrom(t, Pick(t, e), 0) == ["OK", t[4].0]
    ensures e == 0 ==> KeepFrom(t, Pick(t, e), 0) == ["OK"]
  {
    BestNokIsNearest(t);
    if e == -1 {
      KeepOne(t, 2);
    } else if e == 1 {
      KeepOne(t, 4);
    } else if e == 0 {
      KeepNone(t);
    }
  }

  /** With one picked rejection, the filter keeps it and "OK", in table order. */
  lemma KeepOne(t: seq<(string, Feedback)>, k: int)
    requires WellShaped(t)
    requires k == 2 || k == 4
    ensures KeepFrom(t, Some(t[k].0), 0) == if k == 2 then [t[2].0, "OK"] else ["OK", t[4].0]
  {
    var pick := Some(t[k].0);
    assert forall i :: 0 <= i < 7 ==> (Kept(t[i], pick) <==> i == 3 || i == k);
    assert KeepFrom(t, pick, 7) == [];
    assert KeepFrom(t, pick, 6) == [];
    assert KeepFrom(t, pick, 5) == [];
    if k == 4 {
      assert KeepFrom(t, pick, 4) == [t[4].0];
      assert KeepFrom(t, pick, 3) == ["OK", t[4].0];
      assert KeepFrom(t, pick, 2) == ["OK", t[4].0];
    } else {
      assert KeepFrom(t, pick, 4) == [];
      assert KeepFrom(t, pick, 3) == ["OK"];
      assert KeepFrom(t, pick, 2) == [t[2].0, "OK"];
    }
    assert KeepFrom(t, pick, 1) == KeepFrom(t, pick, 2);
  }

  /** Without a picked rejection, the filter keeps "OK" alone. */
  lemma KeepNone(t: seq<(string, Feedback)>)
    requires WellShaped(t)
    ensures KeepFrom(t, None, 0) == ["OK"]
  {
    assert KeepFrom(t, None, 7) == [];
    assert KeepFrom(t, None, 6) == [];
    assert KeepFrom(t, None, 5) == [];
    assert KeepFrom(t, None, 4) == [];
    assert KeepFrom(t, None, 3) == ["OK"];
    assert KeepFrom(t, None, 2) == ["OK"];
    assert KeepFrom(t, None, 1) == ["OK"];
  }

  /** After a rejected lap the next probe moves the rejected value by `dir * mult` widths. */
  lemma RejectedMoves(p: Part, h: seq<Entry>, zsTotal: int, zsHalf: int)
    requires |h| > 0 && !h[|h| - 1].fb.isOk && LastOk(h).None?
    ensures NextSuggestion(p, h, zsTotal, zsHalf)
         == ApplyBounds(h[|h| - 1].acerto + h[|h| - 1].fb.dir * h[|h| - 1].fb.mult * zsTotal)
  {
  }

  /**
   * In bisection with a gap above 2, the suggestion is a value between the
   * two latest verdicts that was never tried, unless all of them were.
   */
  lemma BisectionTriesNewValue(p: Part, h: seq<Entry>, zsTotal: int, zsHalf: int)
    requires InBisection(h) && Abs(LastOk(h).value - LastNok(h).value) > 2
    requires 1 <= LastOk(h).value <= 1000 && 1 <= LastNok(h).value <= 1000
    ensures var r := NextSuggestion(p, h, zsTotal, zsHalf);
            var ok, nok := LastOk(h).value, LastNok(h).value;
            (ok < nok ==> ok <= r <= nok) && (nok < ok ==> nok <= r <= ok)
    ensures var r := NextSuggestion(p, h, zsTotal, zsHalf);
            r !in Tried(h) || r == LastOk(h).value
  {
  }

  /** After a first accepted lap the probe moves half a width in the part's direction. */
  lemma FirstProbe(p: Part, e: Entry, zsTotal: int, zsHalf: int)
    requires e.fb.isOk && zsHalf >= 1
    ensures NextSuggestion(p, [e], zsTotal, zsHalf) == ApplyBounds(e.acerto + Direction(p) * zsHalf)
  {
    var h := [e];
    assert LastWith(h, false).None?;
    assert TrailingOks(h) == 1 by {
      assert h[..0] == [];
    }
    assert Tried(h) == {e.acerto} by {
      assert h[0] == e;
    }
  }

  /**
   * Each part is evaluated on its own earlier entries followed by exactly
   * the entry the current lap produced for it.
   */
  lemma PostExtendsPartHistory(xp: real, ct: real, history: seq<Lap>, current: map<string, LapInput>, d: string)
    requires d in current && KnownParts(current) && CompleteHistory(history, current)
    ensures PartHistory(history, d).Some?
    ensures var r := Post(xp, ct, history, current).value;
            var p := LogicOf(d).value;
            var h := PartHistory(history, d).value + [r.processedLap[d]];
            && r.nextSuggestions[d] == NextSuggestion(p, h, r.zsTotal, r.zsHalf)
            && r.finalAnalysis[d] == FinalAnalysis(p, h, r.zsHalf)
            && r.allowedOptions[d] == AllowedFeedbacks(p, h)
  {
  }

  /** A message the part's table does not know is processed as "OK" and counts as an accepted lap. */
  lemma PostUnknownMessageIsOk(xp: real, ct: real, history: seq<Lap>, current: map<string, LapInput>, d: string)
    requires d in current && KnownParts(current) && CompleteHistory(history, current)
    requires forall i :: 0 <= i < 7 ==> Message(LogicOf(d).value, i) != current[d].msg
    ensures Post(xp, ct, history, current).value.processedLap[d].fb == OkFeedback
    ensures Post(xp, ct, history, current).value.processedLap[d].fb.isOk
  {
  }
}

=== FILE: manualpage.dfy ===
/**
 * The manual setup page (`app/dashboard/manual/page.tsx`): the labels and
 * colours it gives to feedback messages, the guard and state update of a
 * calculation, the end of the session after eight laps, and the lap deltas
 * of the history view.
 */
module ManualPage {
  import opened Base
  import opened Text
  import Manual

  // ---------------------------------------------------------------------------
  // Labels and colours

  /** The critical keywords, looked for first. */
  predicate IsCritical(msg: string) {
    Contains(msg, "muito mais") || Contains(msg, "não posso") || Contains(msg, "muito alta")
    || Contains(msg, "muito rígid") || Contains(msg, "muito curta") || Contains(msg, "explodir")
  }

  /** The adjustment keywords, looked for when no critical one matched. */
  predicate IsAdjustment(msg: string) {
    Contains(msg, "um pouco") || Contains(msg, "pode ser maior") || Contains(msg, "gostaria")
  }

  /** The words that put a message on the low side. */
  predicate IsLowSide(msg: string) {
    Contains(msg, "baixa") || Contains(msg, "trás") || Contains(msg, "menor")
  }

  const Labels: set<string> := {"SATISFATÓRIO", "CRÍTICO BAIXO", "CRÍTICO ALTO", "AJUSTE BAIXO", "AJUSTE ALTO", "AJUSTE REQUERIDO"}

  /** `getShortFeedback`: the label of a message in the history view. */
  function ShortFeedback(msg: string): (r: string)
    ensures r in Labels
    ensures r == "SATISFATÓRIO" <==> msg == "OK"
    ensures msg != "OK" && IsCritical(msg) ==> r == (if IsLowSide(msg) then "CRÍTICO BAIXO" else "CRÍTICO ALTO")
    ensures msg != "OK" && !IsCritical(msg) && IsAdjustment(msg) ==>
              r == (if IsLowSide(msg) then "AJUSTE BAIXO" else "AJUSTE ALTO")
    ensures msg != "OK" && !IsCritical(msg) && !IsAdjustment(msg) ==> r == "AJUSTE REQUERIDO"
  {
    if msg == "OK" then "SATISFATÓRIO"
    else if IsCritical(msg) then (if IsLowSide(msg) then "CRÍTICO BAIXO" else "CRÍTICO ALTO")
    else if IsAdjustment(msg) then (if IsLowSide(msg) then "AJUSTE BAIXO" else "AJUSTE ALTO")
    else "AJUSTE REQUERIDO"
  }

  datatype Colour = Emerald | Rose | Amber

  /** The CSS class of a colour. */
  function ColourClass(c: Colour): string {
    match c
    case Emerald => "text-emerald-400"
    case Rose => "text-rose-500"
    case Amber => "text-amber-400"
  }

  /** The words that make a message alarming. */
  predicate IsAlarming(msg: string) {
    Contains(msg, "muito") || Contains(msg, "não") || Contains(msg, "explodir")
  }

  /** `getFeedbackColor`: emerald for "OK", rose for alarming messages, amber otherwise. */
  function FeedbackColour(msg: string): (c: Colour)
    ensures c == Emerald <==> msg == "OK"
    ensures c == Rose <==> msg != "OK" && IsAlarming(msg)
    ensures c == Amber <==> msg != "OK" && !IsAlarming(msg)
  {
    if msg == "OK" then Emerald
    else if IsAlarming(msg) then Rose
    else Amber
  }

  /** Every critical keyword contains an alarming one. */
  lemma CriticalIsAlarming(msg: string)
    requires IsCritical(msg)
    ensures IsAlarming(msg)
  {
    if Contains(msg, "muito mais") {
      assert "muito mais" == "muito" + " mais";
      ContainsPrefixOf(msg, "muito", " mais");
    } else if Contains(msg, "não posso") {
      assert "não posso" == "não" + " posso";
      ContainsPrefixOf(msg, "não", " posso");
    } else if Contains(msg, "muito alta") {
      assert "muito alta" == "muito" + " alta";
      ContainsPrefixOf(msg, "muito", " alta");
    } else if Contains(msg, "muito rígid") {
      assert "muito rígid" == "muito" + " rígid";
      ContainsPrefixOf(msg, "muito", " rígid");
    } else if Contains(msg, "muito curta") {
      assert "muito curta" == "muito" + " curta";
      ContainsPrefixOf(msg, "muito", " curta");
    }
  }

  /** A message labelled critical is always shown in rose. */
  lemma CriticalIsRose(msg: string)
    requires ShortFeedback(msg) == "CRÍTICO BAIXO" || ShortFeedback(msg) == "CRÍTICO ALTO"
    ensures FeedbackColour(msg) == Rose
  {
    CriticalIsAlarming(msg);
  }

  // ---------------------------------------------------------------------------
  // The session

  /** The six display parts, in page order. */
  const Parts: seq<string> := ["Asa Dianteira", "Asa Traseira", "Motor", "Freios", "Câmbio", "Suspensão"]

  /** The page state a calculation reads and writes. */
  datatype Session = Session(
    xp: string,
    ct: string,
    zs: (int, int),
    history: seq<Manual.Lap>,
    inputs: map<string, int>,
    feedbacks: map<string, string>,
    analysis: map<string, Manual.Analysis>,
    options: map<string, seq<string>>)

  /** Every display part has an input value, as the page starts with and every reply keeps. */
  predicate HasInputs(s: Session) {
    forall k :: 0 <= k < |Parts| ==> Parts[k] in s.inputs
  }

  /** After eight laps the session is over and the calculate button is gone. */
  predicate IsFinished(s: Session) {
    |s.history| >= 8
  }

  /** The guard of `handleCalculate`: XP must be set and not "0"; CT must be set ("0" is accepted). */
  predicate CanCalculate(s: Session) {
    s.xp != "" && s.ct != "" && s.xp != "0"
  }

  /** The message sent for a part: the chosen feedback, or "OK" when none was chosen. */
  function ChosenMessage(feedbacks: map<string, string>, part: string): (m: string)
    ensures part in feedbacks && feedbacks[part] != "" ==> m == feedbacks[part]
    ensures part !in feedbacks || feedbacks[part] == "" ==> m == "OK"
  {
    if part in feedbacks && feedbacks[part] != "" then feedbacks[part] else "OK"
  }

  /** The current lap the page sends: every part with its input value and message. */
  function CurrentLap(s: Session): (lap: map<string, Manual.LapInput>)
    requires HasInputs(s)
    ensures lap.Keys == set k | 0 <= k < |Parts| :: Parts[k]
    ensures forall part :: part in lap ==> lap[part] == Manual.LapInput(s.inputs[part], ChosenMessage(s.feedbacks, part))
  {
    map part | part in (set k | 0 <= k < |Parts| :: Parts[k]) :: Manual.LapInput(s.inputs[part], ChosenMessage(s.feedbacks, part))
  }

  /**
   * `handleCalculate` with the server's reply (`Err` for a failed call or
   * a network error): on success one lap is appended, the inputs become
   * the suggestions, the feedbacks are cleared; otherwise nothing changes.
   * A finished session has no button, and the guard blocks a missing XP/CT.
   */
  function Calculate(s: Session, reply: Result<Manual.ManualData>): (r: Session)
    ensures IsFinished(s) || !CanCalculate(s) || reply.Err? ==> r == s
    ensures !IsFinished(s) && CanCalculate(s) && reply.Ok? ==>
              && r.history == s.history + [reply.value.processedLap]
              && r.inputs == reply.value.nextSuggestions
              && r.feedbacks == map[]
              && r.analysis == reply.value.finalAnalysis
              && r.options == reply.value.allowedOptions
              && r.zs == (reply.value.zsTotal, reply.value.zsHalf)
              && r.xp == s.xp && r.ct == s.ct
  {
    if IsFinished(s) || !CanCalculate(s) then s
    else match reply
      case Err(_) => s
      case Ok(d) => s.(zs := (d.zsTotal, d.zsHalf), history := s.history + [d.processedLap],
                       inputs := d.nextSuggestions, analysis := d.finalAnalysis,
                       options := d.allowedOptions, feedbacks := map[])
  }

  /**
   * A calculation answered by the route itself: the reply is the route's
   * answer to this session's history and current lap, the session gains
   * exactly one lap, and every part keeps an input value.
   */
  lemma CalculateWithRoute(s: Session, xp: real, ct: real)
    requires HasInputs(s) && !IsFinished(s) && CanCalculate(s)
    requires Manual.Post(xp, ct, s.history, CurrentLap(s)).Ok?
    ensures var r := Calculate(s, Manual.Post(xp, ct, s.history, CurrentLap(s)));
            && |r.history| == |s.history| + 1
            && r.history[..|s.history|] == s.history
            && r.history[|s.history|].Keys == CurrentLap(s).Keys
            && HasInputs(r)
  {
    var lap := CurrentLap(s);
    var r := Calculate(s, Manual.Post(xp, ct, s.history, lap));
    assert r.history[..|s.history|] == s.history;
    forall k | 0 <= k < |Parts| ensures Parts[k] in r.inputs {
      assert Parts[k] in lap;
    }
  }

  /** At most eight calculations succeed: a finished session never grows. */
  lemma FinishedIsFinal(s: Session, reply: Result<Manual.ManualData>)
    requires IsFinished(s)
    ensures Calculate(s, reply) == s
  {
  }

  // ---------------------------------------------------------------------------
  // Lap deltas

  /** Every lap of the history holds `part`. */
  predicate Tracks(history: seq<Manual.Lap>, part: string) {
    forall k :: 0 <= k < |history| ==> part in history[k]
  }

  /** The delta shown for lap `k` (0-based): the change from the previous lap, 0 for the first. */
  function Delta(history: seq<Manual.Lap>, part: string, k: int): (d: int)
    requires Tracks(history, part) && 0 <= k < |history|
    ensures k == 0 ==> d == 0
    ensures k > 0 ==> history[k - 1][part].acerto + d == history[k][part].acerto
  {
    if k == 0 then 0 else history[k][part].acerto - history[k - 1][part].acerto
  }

  /** The sum of the deltas of laps `0..k`. */
  function DeltaSum(history: seq<Manual.Lap>, part: string, k: int): int
    requires Tracks(history, part) && 0 <= k < |history|
    decreases k
  {
    if k == 0 then Delta(history, part, 0) else DeltaSum(history, part, k - 1) + Delta(history, part, k)
  }

  /** The deltas telescope: the first value plus the deltas up to a lap give that lap's value. */
  lemma {:induction false} DeltasTelescope(history: seq<Manual.Lap>, part: string, k: int)
    requires Tracks(history, part) && 0 <= k < |history|
    ensures history[0][part].acerto + DeltaSum(history, part, k) == history[k][part].acerto
    decreases k
  {
    if k > 0 {
      DeltasTelescope(history, part, k - 1);
    }
  }
}

=== FILE: marketimport.dfy ===
/**
 * The driver-market import (`app/api/market/update/route.ts`): the CSV file
 * downloaded from the game is split into lines, each line into fields, the
 * header row names the columns, and every data row becomes one driver record
 * for the `market_drivers` table.
 *
 * Text is modelled as JavaScript sees it, a sequence of UTF-16 code units,
 * because `String.fromCharCode` in the entity decoder can produce any unit,
 * lone surrogates included. The download, the gzip/latin-1 decoding and the
 * database are outside the model: the decoded file content is a parameter,
 * and the table is a sequence of records whose failures are parameters too.
 */
module MarketImport {
  import opened Base
  import opened Text
  import opened Numbers

  /** One UTF-16 code unit. */
  type U16 = x: int | 0 <= x < 0x1_0000

  type Units = seq<U16>

  const Quote: U16 := 34
  const Hash: U16 := 35
  const Dollar: U16 := 36
  const Amp: U16 := 38
  const Comma: U16 := 44
  const Dot: U16 := 46
  const Semicolon: U16 := 59
  const LF: U16 := 10
  const CR: U16 := 13

  /** The code units of a string of basic-plane characters. */
  function U(s: string): (r: Units)
    ensures |r| == |s|
    ensures forall i :: 0 <= i < |s| ==> r[i] == s[i] as int % 0x1_0000
  {
    seq(|s|, i requires 0 <= i < |s| => s[i] as int % 0x1_0000)
  }

  /** A code unit as a character; a lone surrogate becomes U+FFFD, which is no digit, sign or blank. */
  function CharOf(u: U16): (c: char)
    ensures !(0xD800 <= u < 0xE000) ==> c as int == u
  {
    if 0xD800 <= u < 0xE000 then 0xFFFD as char else u as char
  }

  function Chars(s: Units): (r: string)
    ensures |r| == |s|
    ensures forall i :: 0 <= i < |s| ==> r[i] == CharOf(s[i])
  {
    seq(|s|, i requires 0 <= i < |s| => CharOf(s[i]))
  }

  /** ASCII text survives the round trip through code units. */
  lemma CharsOfAscii(s: string)
    requires forall i :: 0 <= i < |s| ==> s[i] as int < 128
    ensures Chars(U(s)) == s
  {
    assert forall i :: 0 <= i < |s| ==> Chars(U(s))[i] == s[i];
  }

  /**
   * JavaScript's white space and line terminators, the set that `trim()`
   * removes and that `\s` matches.
   */
  predicate IsJsSpace(u: U16) {
    (9 <= u <= 13) || u == 32 || u == 0xA0 || u == 0x1680 || (0x2000 <= u <= 0x200A)
    || u == 0x2028 || u == 0x2029 || u == 0x202F || u == 0x205F || u == 0x3000 || u == 0xFEFF
  }

  /** `String.prototype.trim`. */
  function TrimUnits(s: Units): (r: Units)
    ensures |r| <= |s|
    ensures r == [] || (!IsJsSpace(r[0]) && !IsJsSpace(r[|r| - 1]))
    ensures forall x :: x in r ==> x in s
  {
    var r := TrimWith(s, IsJsSpace);
    TrimWithWithin(s, IsJsSpace);
    r
  }

  predicate Trimmed(s: Units) {
    TrimUnits(s) == s
  }

  lemma TrimUnitsTrimmed(s: Units)
    ensures Trimmed(TrimUnits(s))
  {
    TrimWithIdempotent(s, IsJsSpace);
  }

  /** Number of occurrences of `x` in `s`. */
  function CountOf(s: Units, x: U16): (n: nat)
    ensures n <= |s|
    ensures n == 0 <==> x !in s
    decreases |s|
  {
    if s == [] then 0
    else
      var m := |s| - 1;
      assert s == s[..m] + [s[m]];
      CountOf(s[..m], x) + (if s[m] == x then 1 else 0)
  }

  // ---------------------------------------------------------------------------
  // Splitting on a separator

  /**
   * `s.split(sep)` for a one-unit separator: the pieces between separators,
   * so one more than there are separators.
   */
  function SplitOn(s: Units, sep: U16): (r: seq<Units>)
    ensures |r| == CountOf(s, sep) + 1
    ensures forall k :: 0 <= k < |r| ==> sep !in r[k]
    decreases |s|
  {
    if s == [] then [[]]
    else
      var n := |s| - 1;
      assert s == s[..n] + [s[n]];
      var p := SplitOn(s[..n], sep);
      if s[n] == sep then p + [[]]
      else p[..|p| - 1] + [p[|p| - 1] + [s[n]]]
  }

  /** `parts.join(sep)`. */
  function Join(parts: seq<Units>, sep: U16): Units
    requires |parts| > 0
  {
    if |parts| == 1 then parts[0]
    else Join(parts[..|parts| - 1], sep) + [sep] + parts[|parts| - 1]
  }

  /** Splitting and joining again gives back the text. */
  lemma {:induction false} JoinSplit(s: Units, sep: U16)
    ensures Join(SplitOn(s, sep), sep) == s
    decreases |s|
  {
    if s != [] {
      var n := |s| - 1;
      var p := SplitOn(s[..n], sep);
      JoinSplit(s[..n], sep);
      var r := SplitOn(s, sep);
      if s[n] == sep {
        assert r[..|r| - 1] == p;
      } else if |p| == 1 {
        assert s[..n] == p[0];
      } else {
        assert r[..|r| - 1] == p[..|p| - 1];
        assert Join(p, sep) == Join(p[..|p| - 1], sep) + [sep] + p[|p| - 1];
      }
      assert s == s[..n] + [s[n]];
    }
  }

  // ---------------------------------------------------------------------------
  // parseCSVLine

  /** The splitter's state after a prefix of the line. */
  datatype ScanState = ScanState(inQuotes: bool, current: Units, columns: seq<Units>)

  /** The separator at index `k` lies outside quotes and ends a field. */
  predicate SplitsAt(line: Units, sep: U16, k: int)
    requires 0 <= k < |line|
  {
    line[k] == sep && sep != Quote && CountOf(line[..k], Quote) % 2 == 0
  }

  /** Number of separators outside quotes. */
  function SeparatorsOutside(line: Units, sep: U16): nat
    decreases |line|
  {
    if line == [] then 0
    else SeparatorsOutside(line[..|line| - 1], sep) + (if SplitsAt(line, sep, |line| - 1) then 1 else 0)
  }

  /** No quote is kept, and every finished field is trimmed. */
  predicate Clean(st: ScanState) {
    Quote !in st.current && forall k :: 0 <= k < |st.columns| ==> Quote !in st.columns[k] && Trimmed(st.columns[k])
  }

  /** One unit of the loop: a quote toggles, a separator outside quotes ends the field, the rest is kept. */
  function Step(prev: ScanState, u: U16, sep: U16): ScanState {
    if u == Quote then ScanState(!prev.inQuotes, prev.current, prev.columns)
    else if u == sep && !prev.inQuotes then ScanState(prev.inQuotes, [], prev.columns + [TrimUnits(prev.current)])
    else ScanState(prev.inQuotes, prev.current + [u], prev.columns)
  }

  lemma StepClean(prev: ScanState, u: U16, sep: U16)
    requires Clean(prev)
    ensures Clean(Step(prev, u, sep))
    ensures Step(prev, u, sep).inQuotes == (prev.inQuotes != (u == Quote))
    ensures |Step(prev, u, sep).columns| == |prev.columns| + (if u == sep && u != Quote && !prev.inQuotes then 1 else 0)
  {
    if u != Quote && u == sep && !prev.inQuotes {
      TrimUnitsTrimmed(prev.current);
      var field := TrimUnits(prev.current);
      assert Quote !in field;
      var cs := prev.columns + [field];
      forall k | 0 <= k < |cs| ensures Quote !in cs[k] && Trimmed(cs[k]) {
        if k < |prev.columns| {
          assert cs[k] == prev.columns[k];
        }
      }
    }
  }

  /**
   * The loop over the line. The source iterates over code points; a
   * surrogate pair is never a quote or a separator and is appended whole,
   * so iterating over units gives the same fields.
   */
  function Scan(line: Units, sep: U16): (st: ScanState)
    ensures st.inQuotes <==> CountOf(line, Quote) % 2 == 1
    ensures |st.columns| == SeparatorsOutside(line, sep)
    ensures Clean(st)
    decreases |line|
  {
    if line == [] then ScanState(false, [], [])
    else
      var n := |line| - 1;
      var prev := Scan(line[..n], sep);
      StepClean(prev, line[n], sep);
      assert CountOf(line, Quote) == CountOf(line[..n], Quote) + (if line[n] == Quote then 1 else 0);
      Step(prev, line[n], sep)
  }

  /** `v.replace(/^"|"$/g, '')`: one leading and one trailing quote go. */
  function StripQuotes(v: Units): (r: Units)
    ensures Quote !in v ==> r == v
    ensures |v| - 2 <= |r| <= |v|
  {
    var a := if |v| > 0 && v[0] == Quote then v[1..] else v;
    if |a| > 0 && a[|a| - 1] == Quote then a[..|a| - 1] else a
  }

  /** The final `map` of the source: quotes at the ends stripped, then trimmed again. */
  function CleanField(v: Units): (r: Units)
    ensures Trimmed(r)
  {
    TrimUnitsTrimmed(StripQuotes(v));
    TrimUnits(StripQuotes(v))
  }

  function CleanFields(cols: seq<Units>): (r: seq<Units>)
    ensures |r| == |cols|
    ensures forall k :: 0 <= k < |cols| ==> r[k] == CleanField(cols[k])
  {
    seq(|cols|, k requires 0 <= k < |cols| => CleanField(cols[k]))
  }

  /**
   * `parseCSVLine(line, separator)`: one field per separator outside quotes,
   * plus one; quotes toggle the quoted state and are dropped, so a doubled
   * quote inside a quoted field (RFC 4180, section 2, rule 7) is lost.
   */
  function ParseCsvLine(line: Units, sep: U16): (r: seq<Units>)
    ensures |r| == SeparatorsOutside(line, sep) + 1
    ensures forall k :: 0 <= k < |r| ==> Quote !in r[k] && Trimmed(r[k])
  {
    var st := Scan(line, sep);
    var last := TrimUnits(st.current);
    TrimUnitsTrimmed(st.current);
    CleanFieldsAppend(st.columns, last);
    CleanFields(st.columns + [last])
  }

  /** The quote stripping and the second trim never change a field. */
  lemma ParseCsvLineColumns(line: Units, sep: U16)
    ensures var st := Scan(line, sep);
      ParseCsvLine(line, sep) == st.columns + [TrimUnits(st.current)]
  {
    var st := Scan(line, sep);
    TrimUnitsTrimmed(st.current);
    CleanFieldsAppend(st.columns, TrimUnits(st.current));
  }

  /** Fields without quotes that are already trimmed come out of the final `map` unchanged. */
  lemma CleanFieldsAppend(cols: seq<Units>, last: Units)
    requires forall k :: 0 <= k < |cols| ==> Quote !in cols[k] && Trimmed(cols[k])
    requires Quote !in last && Trimmed(last)
    ensures CleanFields(cols + [last]) == cols + [last]
  {
    var all := cols + [last];
    var r := CleanFields(all);
    forall k | 0 <= k < |all| ensures r[k] == all[k] {
      var v := all[k];
      if k < |cols| {
        assert v == cols[k];
      }
      assert Quote !in v && Trimmed(v);
      CleanFieldFixed(v);
    }
  }

  lemma CleanFieldFixed(v: Units)
    requires Quote !in v && Trimmed(v)
    ensures CleanField(v) == v
  {
    assert StripQuotes(v) == v;
  }

  /** Without quotes, the splitter is `split` followed by `trim` on each piece. */
  lemma {:induction false} ScanWithoutQuotes(line: Units, sep: U16)
    requires Quote !in line
    ensures var st := Scan(line, sep); var p := SplitOn(line, sep);
      && !st.inQuotes
      && st.current == p[|p| - 1]
      && st.columns == seq(|p| - 1, k requires 0 <= k < |p| - 1 => TrimUnits(p[k]))
    decreases |line|
  {
    if line != [] {
      var n := |line| - 1;
      assert line == line[..n] + [line[n]];
      ScanWithoutQuotes(line[..n], sep);
    }
  }

  lemma ParseCsvLineWithoutQuotes(line: Units, sep: U16)
    requires Quote !in line
    ensures var p := SplitOn(line, sep);
      ParseCsvLine(line, sep) == seq(|p|, k requires 0 <= k < |p| => TrimUnits(p[k]))
  {
    ScanWithoutQuotes(line, sep);
    ParseCsvLineColumns(line, sep);
    var p := SplitOn(line, sep);
    var st := Scan(line, sep);
    var r := ParseCsvLine(line, sep);
    var want := seq(|p|, k requires 0 <= k < |p| => TrimUnits(p[k]));
    assert r == st.columns + [TrimUnits(p[|p| - 1])];
    assert |r| == |want|;
    forall k | 0 <= k < |r| ensures r[k] == want[k] {
      if k < |p| - 1 {
        assert r[k] == st.columns[k];
      }
    }
  }

  /** A method twin of the splitter, one unit per iteration as in the source loop. */
  method ParseCsvLineLoop(line: Units, sep: U16) returns (columns: seq<Units>)
    ensures columns == ParseCsvLine(line, sep)
  {
    var inQuotes := false;
    var current: Units := [];
    columns := [];
    var i := 0;
    while i < |line|
      invariant 0 <= i <= |line|
      invariant ScanState(inQuotes, current, columns) == Scan(line[..i], sep)
    {
      var u := line[i];
      assert line[..i + 1][..i] == line[..i];
      if u == Quote {
        inQuotes := !inQuotes;
      } else if u == sep && !inQuotes {
        columns := columns + [TrimUnits(current)];
        current := [];
      } else {
        current := current + [u];
      }
      i := i + 1;
    }
    assert line[..i] == line;
    columns := columns + [TrimUnits(current)];
    ParseCsvLineColumns(line, sep);
  }

  // ---------------------------------------------------------------------------
  // decodeHTMLEntities

  predicate IsDigitUnit(u: U16) {
    48 <= u <= 57
  }

  /** Length of the run of ASCII digits (`\d`) that starts `s`. */
  function DigitRun(s: Units): (n: nat)
    ensures n <= |s|
    ensures forall k :: 0 <= k < n ==> IsDigitUnit(s[k])
    ensures n < |s| ==> !IsDigitUnit(s[n])
  {
    if s == [] || !IsDigitUnit(s[0]) then 0 else 1 + DigitRun(s[1..])
  }

  /** The decimal value of a run of digit units. */
  function UnitsValue(ds: Units): (n: nat)
    requires forall k :: 0 <= k < |ds| ==> IsDigitUnit(ds[k])
  {
    forall k | 0 <= k < |ds| ensures IsDigit(Chars(ds)[k]) {
      var c := Chars(ds)[k];
      assert IsDigitUnit(ds[k]);
      assert c == CharOf(ds[k]);
      assert c as int == ds[k];
      assert '0' as int == 48 && '9' as int == 57;
    }
    DigitsValue(Chars(ds))
  }

  /**
   * A decimal character reference `&#digits;` at the start of `s`: its
   * number and its length. The regular expression's `\d+` is greedy and a
   * digit is never `;`, so the digits are exactly the maximal run.
   */
  function NumericRefAt(s: Units): (r: Option<(nat, nat)>)
    ensures r.Some? ==> 4 <= r.value.1 <= |s| && s[0] == Amp
  {
    if |s| >= 2 && s[0] == Amp && s[1] == Hash then
      var d := DigitRun(s[2..]);
      if d > 0 && 2 + d < |s| && s[2 + d] == Semicolon then
        assert forall k :: 0 <= k < d ==> s[2..2 + d][k] == s[2..][k];
        Some((UnitsValue(s[2..2 + d]), 3 + d))
      else None
    else None
  }

  /**
   * First pass, `replace(/&#(\d+);/g, ...)`: every reference, scanning left
   * to right without overlap, becomes `String.fromCharCode(n)`, the unit
   * `n` modulo 2^16.
   */
  function DecodeNumeric(s: Units): (r: Units)
    ensures |r| <= |s|
    ensures Amp !in s ==> r == s
    decreases |s|
  {
    if s == [] then []
    else match NumericRefAt(s)
      case Some((v, n)) => [v % 0x1_0000] + DecodeNumeric(s[n..])
      case None =>
        assert Amp !in s ==> Amp !in s[1..];
        [s[0]] + DecodeNumeric(s[1..])
  }

  /** `&amp;`, `&quot;`, `&lt;` and `&gt;` as code units. */
  const AmpRef: Units := [38, 97, 109, 112, 59]
  const QuotRef: Units := [38, 113, 117, 111, 116, 59]
  const LtRef: Units := [38, 108, 116, 59]
  const GtRef: Units := [38, 103, 116, 59]

  /** A text that contains a non-empty pattern holds the pattern's first unit. */
  lemma {:induction false} ContainsHead(s: Units, pat: Units)
    requires |pat| > 0 && Contains(s, pat)
    ensures pat[0] in s
    decreases |s|
  {
    if !IsPrefix(pat, s) {
      ContainsHead(s[1..], pat);
    } else {
      assert s[0] == pat[0];
    }
  }

  /** A text without `&` holds no reference to replace. */
  lemma ReplaceWithoutAmp(s: Units, pat: Units, rep: Units)
    requires |pat| > 0 && pat[0] == Amp && Amp !in s
    ensures ReplaceAll(s, pat, rep) == s
  {
    if Contains(s, pat) {
      ContainsHead(s, pat);
    }
    ReplaceAllAbsent(s, pat, rep);
  }

  /** The four named passes, in the order of the source: `&amp;` first. */
  function DecodeNamed(s: Units): (r: Units)
    ensures Amp !in s ==> r == s
  {
    if Amp !in s then
      ReplaceWithoutAmp(s, AmpRef, [Amp]);
      ReplaceWithoutAmp(s, QuotRef, [Quote]);
      ReplaceWithoutAmp(s, LtRef, [60]);
      ReplaceWithoutAmp(s, GtRef, [62]);
      s
    else
      var a := ReplaceAll(s, AmpRef, [Amp]);
      var b := ReplaceAll(a, QuotRef, [Quote]);
      var c := ReplaceAll(b, LtRef, [60]);
      ReplaceAll(c, GtRef, [62])
  }

  /** `decodeHTMLEntities(text)`: undefined or "" is "", otherwise both passes. */
  function DecodeEntities(text: Option<Units>): (r: Units)
    ensures text.None? || text == Some([]) ==> r == []
    ensures text.Some? && Amp !in text.value ==> r == text.value
  {
    if text.None? || text.value == [] then []
    else DecodeNamed(DecodeNumeric(text.value))
  }

  /** The reference that encodes the unit `u`: `&#` then its decimal digits then `;`. */
  function RefOf(u: U16): (r: Units)
    ensures |r| >= 4
  {
    [Amp, Hash] + U(NatToString(u)) + [Semicolon]
  }

  /** Every unit written as a reference. */
  function EncodeNumeric(s: Units): Units
    decreases |s|
  {
    if s == [] then [] else RefOf(s[0]) + EncodeNumeric(s[1..])
  }

  lemma NumericRefAtRef(u: U16, rest: Units)
    ensures NumericRefAt(RefOf(u) + rest) == Some((u as nat, |RefOf(u)|))
  {
    var ds := U(NatToString(u));
    var s := RefOf(u) + rest;
    RefDigits(u);
    assert s[0] == Amp && s[1] == Hash;
    assert s[2..] == ds + ([Semicolon] + rest);
    DigitRunOver(ds, [Semicolon] + rest);
    assert s[2 + |ds|] == Semicolon;
    assert s[2..2 + |ds|] == ds;
  }

  /** The digits of a reference are decimal digit units that read back as the unit. */
  lemma RefDigits(u: U16)
    ensures |U(NatToString(u))| > 0
    ensures forall k :: 0 <= k < |U(NatToString(u))| ==> IsDigitUnit(U(NatToString(u))[k])
    ensures UnitsValue(U(NatToString(u))) == u
  {
    var d := NatToString(u);
    DigitsOfNatToString(u);
    var ds := U(d);
    assert forall k :: 0 <= k < |d| ==> d[k] as int < 128 by {
      assert forall k :: 0 <= k < |d| ==> IsDigit(d[k]);
    }
    CharsOfAscii(d);
    assert forall k :: 0 <= k < |ds| ==> IsDigitUnit(ds[k]);
  }

  lemma {:induction false} DigitRunOver(ds: Units, rest: Units)
    requires forall k :: 0 <= k < |ds| ==> IsDigitUnit(ds[k])
    requires rest == [] || !IsDigitUnit(rest[0])
    ensures DigitRun(ds + rest) == |ds|
    decreases |ds|
  {
    if ds != [] {
      assert (ds + rest)[1..] == ds[1..] + rest;
      DigitRunOver(ds[1..], rest);
    }
  }

  /** Writing every unit as a decimal reference and decoding gives the text back. */
  lemma {:induction false} DecodeEncodeNumeric(s: Units)
    ensures DecodeNumeric(EncodeNumeric(s)) == s
    decreases |s|
  {
    if s != [] {
      var tail := EncodeNumeric(s[1..]);
      assert EncodeNumeric(s) == RefOf(s[0]) + tail;
      DecodeRef(s[0], tail);
      DecodeEncodeNumeric(s[1..]);
      assert s == [s[0]] + s[1..];
    }
  }

  /** A reference in front decodes to its unit, and decoding goes on after it. */
  lemma DecodeRef(u: U16, tail: Units)
    ensures DecodeNumeric(RefOf(u) + tail) == [u] + DecodeNumeric(tail)
  {
    var r := RefOf(u);
    var e := r + tail;
    NumericRefAtRef(u, tail);
    assert e[|r|..] == tail;
    assert u as int % 0x1_0000 == u as int;
  }

  /** `&amp;` is not a numeric reference, so the first pass keeps it. */
  lemma AmpRefKept(tail: Units)
    requires Amp !in tail
    ensures DecodeNumeric(AmpRef + tail) == AmpRef + tail
  {
    var s := AmpRef + tail;
    assert s[1] != Hash;
    assert NumericRefAt(s) == None;
    assert s[1..] == [97, 109, 112, 59] + tail;
    assert Amp !in s[1..];
    assert s == [s[0]] + s[1..];
  }

  /** The `&amp;` pass turns a leading `&amp;` into `&` and leaves a tail without `&` alone. */
  lemma AmpPass(tail: Units)
    requires Amp !in tail
    ensures ReplaceAll(AmpRef + tail, AmpRef, [Amp]) == [Amp] + tail
  {
    var s := AmpRef + tail;
    assert IsPrefix(AmpRef, s) && s[|AmpRef|..] == tail;
    ReplaceWithoutAmp(tail, AmpRef, [Amp]);
  }

  /** The references are decoded before `&amp;`: a double-escaped `<` comes out as `<`. */
  lemma DoubleEscapedLessThan()
    ensures DecodeEntities(Some(AmpRef + [108, 116, 59])) == [60]
  {
    var tail: Units := [108, 116, 59];
    var s := AmpRef + tail;
    AmpRefKept(tail);
    AmpPass(tail);
    var a := ReplaceAll(s, AmpRef, [Amp]);
    assert a == LtRef;
    assert !IsPrefix(QuotRef, LtRef);
    assert LtRef[1..] == tail;
    ReplaceWithoutAmp(tail, QuotRef, [Quote]);
    assert ReplaceAll(a, QuotRef, [Quote]) == LtRef;
    assert IsPrefix(LtRef, LtRef) && LtRef[|LtRef|..] == [];
    assert ReplaceAll(LtRef, LtRef, [60]) == [60];
    ReplaceWithoutAmp([60], GtRef, [62]);
  }

  // ---------------------------------------------------------------------------
  // safeParseInt

  /** What `replace(/[$,\s]/g, '')` removes. */
  predicate IsCurrencyNoise(u: U16) {
    u == Dollar || u == Comma || IsJsSpace(u)
  }

  predicate IsDot(u: U16) {
    u == Dot
  }

  /** Everything the currency mode removes. */
  predicate IsCurrencyMark(u: U16) {
    IsCurrencyNoise(u) || IsDot(u)
  }

  /** `parseInt(text, 10)` with `NaN` read as 0. */
  function ParseIntOrZero(text: Units): (n: int)
    ensures LeadingInt(Chars(text)).Some? ==> n == LeadingInt(Chars(text)).value
    ensures LeadingInt(Chars(text)).None? ==> n == 0
    ensures n != 0 ==> exists k :: 0 <= k < |text| && IsDigitUnit(text[k])
  {
    match LeadingInt(Chars(text))
    case Some(i) =>
      var k :| 0 <= k < |Chars(text)| && IsDigit(Chars(text)[k]);
      assert IsDigitUnit(text[k]);
      i
    case None => 0
  }

  /** The text `parseInt` sees: trimmed, and in currency mode without `$`, `,`, blanks and `.`. */
  function CleanNumber(v: Units, isCurrency: bool): (c: Units)
    ensures forall x :: x in c ==> x in v
    ensures !isCurrency ==> c == TrimUnits(v)
    ensures isCurrency ==> forall k :: 0 <= k < |c| ==> !IsCurrencyMark(c[k])
  {
    var t := TrimUnits(v);
    if isCurrency then
      var a := RemoveWhere(t, IsCurrencyNoise);
      var c := RemoveWhere(a, IsDot);
      assert forall k :: 0 <= k < |c| ==> c[k] in a;
      c
    else t
  }

  /** A digit of a text whose units all come from `v` is a digit of `v`. */
  lemma DigitFrom(c: Units, v: Units)
    requires forall x :: x in c ==> x in v
    requires exists k :: 0 <= k < |c| && IsDigitUnit(c[k])
    ensures exists k :: 0 <= k < |v| && IsDigitUnit(v[k])
  {
    var k :| 0 <= k < |c| && IsDigitUnit(c[k]);
    assert c[k] in v;
  }

  /**
   * `safeParseInt(value, isCurrency)`: undefined or "" is 0; otherwise the
   * cleaned text is read by `parseInt(text, 10)`, and `NaN` becomes 0.
   */
  function SafeParseInt(value: Option<Units>, isCurrency: bool): (n: int)
    ensures value.None? || value == Some([]) ==> n == 0
    ensures value.Some? && value.value != [] ==>
      n == (match LeadingInt(Chars(CleanNumber(value.value, isCurrency))) case Some(i) => i case None => 0)
    ensures n != 0 ==> exists k :: 0 <= k < |value.value| && IsDigitUnit(value.value[k])
  {
    if value.None? || value.value == [] then 0
    else
      var c := CleanNumber(value.value, isCurrency);
      var n := ParseIntOrZero(c);
      if n != 0 then DigitFrom(c, value.value); n else n
  }

  /** An integer's rendering: a leading minus sign or digit, then digits. */
  lemma IntTextShape(i: int)
    ensures var s := IntToString(i);
      && (forall k :: 0 <= k < |s| ==> IsDigit(s[k]) || (k == 0 && s[k] == '-'))
      && IsDigit(s[|s| - 1])
  {
    var s := IntToString(i);
    var m: nat := if i < 0 then -i else i;
    var d := NatToString(m);
    if i < 0 {
      assert s == "-" + d;
      forall k | 0 < k < |s| ensures IsDigit(s[k]) {
        assert s[k] == d[k - 1];
      }
    } else {
      assert s == d;
    }
  }

  /** `safeParseInt` reads back the plain rendering of any integer. */
  lemma SafeParseIntOfInt(i: int)
    ensures SafeParseInt(Some(U(IntToString(i))), false) == i
  {
    var s := IntToString(i);
    IntTextShape(i);
    assert forall k :: 0 <= k < |s| ==> s[k] as int < 128;
    CharsOfAscii(s);
    var u := U(s);
    assert !IsJsSpace(u[0]) && !IsJsSpace(u[|u| - 1]);
    TrimWithFixed(u, IsJsSpace);
    assert CleanNumber(u, false) == u;
    LeadingIntOfInt(i);
    assert ParseIntOrZero(u) == i;
  }

  /** Everything the currency mode drops, dropped in one pass. */
  lemma {:induction false} RemoveCurrencyMarks(s: Units)
    ensures RemoveWhere(RemoveWhere(s, IsCurrencyNoise), IsDot) == RemoveWhere(s, IsCurrencyMark)
    decreases |s|
  {
    if s != [] {
      RemoveCurrencyMarks(s[1..]);
    }
  }

  /** Removing marks, blanks among them, makes trimming first irrelevant. */
  lemma RemoveMarksAfterTrim(s: Units)
    ensures RemoveWhere(TrimUnits(s), IsCurrencyMark) == RemoveWhere(s, IsCurrencyMark)
  {
    var t := TrimUnits(s);
    var pre, suf := TrimWithParts(s, IsJsSpace);
    RemoveWhereAppend(pre + t, suf, IsCurrencyMark);
    RemoveWhereAppend(pre, t, IsCurrencyMark);
    RemoveWhereAll(pre, IsCurrencyMark);
    RemoveWhereAll(suf, IsCurrencyMark);
  }

  /** Currency mode is plain mode on the text with `$`, `,`, blanks and `.` removed. */
  lemma SafeParseIntCurrency(v: Units)
    ensures SafeParseInt(Some(v), true) == SafeParseInt(Some(RemoveWhere(v, IsCurrencyMark)), false)
  {
    var m := RemoveWhere(v, IsCurrencyMark);
    if v != [] {
      RemoveCurrencyMarks(TrimUnits(v));
      RemoveMarksAfterTrim(v);
      assert CleanNumber(v, true) == m;
      if m != [] {
        assert !IsCurrencyMark(m[0]) && !IsCurrencyMark(m[|m| - 1]);
        TrimWithFixed(m, IsJsSpace);
        assert CleanNumber(m, false) == m;
      } else {
        assert Chars(m) == [];
      }
    }
  }

  // ---------------------------------------------------------------------------
  // Lines, header and separator

  function StripCR(p: Units): Units {
    if |p| > 0 && p[|p| - 1] == CR then p[..|p| - 1] else p
  }

  /** `content.split(/\r?\n/)`: split at line feeds, dropping one carriage return before each. */
  function SplitLines(content: Units): (r: seq<Units>)
    ensures |r| == CountOf(content, LF) + 1
    ensures forall k :: 0 <= k < |r| ==> LF !in r[k]
  {
    var p := SplitOn(content, LF);
    seq(|p|, k requires 0 <= k < |p| => if k < |p| - 1 then StripCR(p[k]) else p[k])
  }

  predicate IsBlank(l: Units) {
    TrimUnits(l) == []
  }

  /** `split(...).filter(l => l.trim().length > 0)`. */
  function Lines(content: Units): (r: seq<Units>)
    ensures forall k :: 0 <= k < |r| ==> !IsBlank(r[k]) && LF !in r[k]
    ensures forall l :: l in r ==> l in SplitLines(content)
    ensures forall k :: 0 <= k < |SplitLines(content)| && !IsBlank(SplitLines(content)[k]) ==> SplitLines(content)[k] in r
  {
    var pieces := SplitLines(content);
    var r := RemoveWhere(pieces, IsBlank);
    NoLineFeedLeft(pieces, r);
    r
  }

  lemma NoLineFeedLeft(pieces: seq<Units>, r: seq<Units>)
    requires forall k :: 0 <= k < |pieces| ==> LF !in pieces[k]
    requires forall l :: l in r ==> l in pieces
    ensures forall k :: 0 <= k < |r| ==> LF !in r[k]
  {
    forall k | 0 <= k < |r| ensures LF !in r[k] {
      assert r[k] in pieces;
    }
  }

  /** `lines[1].includes(';') ? ';' : ','`. */
  function SeparatorOf(header: Units): (sep: U16)
    ensures sep == Semicolon <==> Semicolon in header
    ensures sep == Semicolon || sep == Comma
  {
    if Semicolon in header then Semicolon else Comma
  }

  // ---------------------------------------------------------------------------
  // Columns and records

  /** The database columns a CSV header can name. */
  datatype Column =
    | Id | Nome | Nacionalidade | Total | Concentracao | Talento | Agressividade
    | Experiencia | Tecnica | Resistencia | Carisma | Motivacao | Reputacao | Peso
    | Idade | Salario | Taxa | Ofertas | Favorito | Nivel | Aposentadoria

  const AllColumns: seq<Column> := [
    Id, Nome, Nacionalidade, Total, Concentracao, Talento, Agressividade,
    Experiencia, Tecnica, Resistencia, Carisma, Motivacao, Reputacao, Peso,
    Idade, Salario, Taxa, Ofertas, Favorito, Nivel, Aposentadoria]

  /** The CSV header of each column, as in the column map. */
  function HeaderOf(c: Column): string {
    match c
    case Id => "ID"
    case Nome => "NAME"
    case Nacionalidade => "NAT"
    case Total => "OA"
    case Concentracao => "CON"
    case Talento => "TAL"
    case Agressividade => "AGG"
    case Experiencia => "EXP"
    case Tecnica => "TEI"
    case Resistencia => "STA"
    case Carisma => "CHA"
    case Motivacao => "MOT"
    case Reputacao => "REP"
    case Peso => "WEI"
    case Idade => "AGE"
    case Salario => "SAL"
    case Taxa => "FEE"
    case Ofertas => "OFF"
    case Favorito => "FAV"
    case Nivel => "LVL"
    case Aposentadoria => "RET"
  }

  /** How a column's text is read: the numeric keys, the two money keys, the name, the rest. */
  datatype Kind = Numeric | Currency | Name | Plain

  function KindOf(c: Column): Kind {
    match c
    case Salario => Currency
    case Taxa => Currency
    case Nome => Name
    case Nacionalidade => Plain
    case Favorito => Plain
    case Aposentadoria => Plain
    case _ => Numeric
  }

  /** A small Latin-1 letter as a code unit: a-z, or U+00E0..U+00FE without U+00F7. */
  predicate IsSmallUnit(u: U16) {
    97 <= u <= 122 || (0xE0 <= u <= 0xFE && u != 0xF7)
  }

  /** `toUpperCase` on the Latin-1 letters. */
  function UpperUnits(s: Units): (r: Units)
    ensures |r| == |s|
    ensures forall k :: 0 <= k < |s| ==> r[k] == (if IsSmallUnit(s[k]) then s[k] - 32 else s[k])
  {
    seq(|s|, k requires 0 <= k < |s| => if IsSmallUnit(s[k]) then s[k] - 32 else s[k])
  }

  function FindColumn(u: Units, cs: seq<Column>): (r: Option<Column>)
    ensures r.Some? ==> r.value in cs && U(HeaderOf(r.value)) == u
    ensures r.None? ==> forall c :: c in cs ==> U(HeaderOf(c)) != u
  {
    if cs == [] then None
    else if U(HeaderOf(cs[0])) == u then Some(cs[0])
    else FindColumn(u, cs[1..])
  }

  /** `COLUMN_MAP[h.toUpperCase()]`: the column whose header the upper-cased text is. */
  function ColumnOf(h: Units): (r: Option<Column>)
    ensures r.Some? ==> U(HeaderOf(r.value)) == UpperUnits(h)
    ensures r.None? ==> forall c :: c in AllColumns ==> U(HeaderOf(c)) != UpperUnits(h)
  {
    FindColumn(UpperUnits(h), AllColumns)
  }

  datatype Field = IntField(n: int) | TextField(s: Units)

  /** A driver record: the columns it sets, each with its value. */
  type Record = map<Column, Field>

  /**
   * The value stored for column `c` from the cell text `v` (undefined past
   * the end of the row); `None` is an explicit `undefined`.
   */
  function Convert(c: Column, v: Option<Units>): (r: Option<Field>)
    ensures r.None? <==> KindOf(c) == Plain && v.None?
    ensures r.Some? ==> (r.value.IntField? <==> KindOf(c) == Numeric || KindOf(c) == Currency)
    ensures KindOf(c) == Plain && v.Some? ==> r == Some(TextField(v.value))
  {
    match KindOf(c)
    case Numeric => Some(IntField(SafeParseInt(v, false)))
    case Currency => Some(IntField(SafeParseInt(v, true)))
    case Name => Some(TextField(DecodeEntities(v)))
    case Plain => if v.Some? then Some(TextField(v.value)) else None
  }

  function ValueAt(values: seq<Units>, i: nat): (r: Option<Units>)
    ensures r.Some? <==> i < |values|
  {
    if i < |values| then Some(values[i]) else None
  }

  /** The column each header names, if any. */
  function HeaderKeys(headers: seq<Units>): (keys: seq<Option<Column>>)
    ensures |keys| == |headers|
    ensures forall i :: 0 <= i < |headers| ==> keys[i] == ColumnOf(headers[i])
  {
    seq(|headers|, i requires 0 <= i < |headers| => ColumnOf(headers[i]))
  }

  /** Key `i` is the last one that is column `c`. */
  predicate LastKeyAt(keys: seq<Option<Column>>, c: Column, i: int) {
    0 <= i < |keys| && keys[i] == Some(c)
    && forall j :: i < j < |keys| ==> keys[j] != Some(c)
  }

  /**
   * For each column some key names, the index of the last such key: the
   * `forEach` over the headers assigns `rawObj[key]` once per header, so the
   * last assignment to a key is the one that stays.
   */
  function LastIndexes(keys: seq<Option<Column>>): (m: map<Column, int>)
    ensures forall c :: c in m ==> LastKeyAt(keys, c, m[c])
    decreases |keys|
  {
    if keys == [] then map[]
    else
      var n := |keys| - 1;
      var prev := LastIndexes(keys[..n]);
      assert forall c :: c in prev ==> LastKeyAt(keys[..n], c, prev[c]);
      match keys[n]
      case None => prev
      case Some(c) => prev[c := n]
  }

  /** Every column some key names is in the map. */
  lemma {:induction false} LastIndexesComplete(keys: seq<Option<Column>>, c: Column, i: int)
    requires 0 <= i < |keys| && keys[i] == Some(c)
    ensures c in LastIndexes(keys)
    decreases |keys|
  {
    var n := |keys| - 1;
    if i < n && keys[n] != Some(c) {
      assert keys[..n][i] == keys[i];
      LastIndexesComplete(keys[..n], c, i);
    }
  }

  /** `cleanObj`: each named column gets the conversion of the cell under its last header, unless that is undefined. */
  function RowRecord(headers: seq<Units>, values: seq<Units>): (rec: Record)
    ensures forall c :: c in rec ==> exists i :: 0 <= i < |headers| && ColumnOf(headers[i]) == Some(c)
  {
    var m := LastIndexes(HeaderKeys(headers));
    map c | c in m && Convert(c, ValueAt(values, m[c])).Some? :: Convert(c, ValueAt(values, m[c])).value
  }

  /**
   * A column present in a row's record was named by a header, and its value
   * is the conversion of the cell under the last such header; a text column
   * whose cell is missing is absent.
   */
  lemma RowRecordColumn(headers: seq<Units>, values: seq<Units>, c: Column, i: int)
    requires LastKeyAt(HeaderKeys(headers), c, i)
    ensures c in RowRecord(headers, values) <==> KindOf(c) != Plain || i < |values|
    ensures c in RowRecord(headers, values) ==> RowRecord(headers, values)[c] == Convert(c, ValueAt(values, i)).value
  {
    var keys := HeaderKeys(headers);
    LastIndexesComplete(keys, c, i);
    var m := LastIndexes(keys);
    assert LastKeyAt(keys, c, m[c]);
    assert m[c] == i;
  }

  /** `d.id` is truthy: the record has a non-zero id. */
  predicate HasId(rec: Record) {
    Id in rec && match rec[Id]
      case IntField(n) => n != 0
      case TextField(s) => s != []
  }

  predicate LacksId(rec: Record) {
    !HasId(rec)
  }

  /** The record of data line `k` (counted from the third line). */
  function RowOf(lines: seq<Units>, k: int): Record
    requires |lines| >= 2 && 0 <= k < |lines| - 2
  {
    var sep := SeparatorOf(lines[1]);
    RowRecord(ParseCsvLine(lines[1], sep), ParseCsvLine(lines[k + 2], sep))
  }

  /** `lines.slice(2).map(...)`: one record per data line. */
  function Rows(lines: seq<Units>): (rows: seq<Record>)
    requires |lines| >= 2
    ensures |rows| == |lines| - 2
    ensures forall k :: 0 <= k < |rows| ==> rows[k] == RowOf(lines, k)
  {
    seq(|lines| - 2, k requires 0 <= k < |lines| - 2 => RowOf(lines, k))
  }

  /** `.filter(d => d.id)`: the records with an id, in their order. */
  function WithIds(rows: seq<Record>): (r: seq<Record>)
    ensures forall k :: 0 <= k < |r| ==> HasId(r[k])
    ensures forall d :: d in r ==> d in rows
    ensures forall k :: 0 <= k < |rows| && HasId(rows[k]) ==> rows[k] in r
  {
    RemoveWhere(rows, LacksId)
  }

  function Drivers(lines: seq<Units>): (r: seq<Record>)
    requires |lines| >= 2
  {
    WithIds(Rows(lines))
  }

  /**
   * Steps 2 of the synchronisation: the records to insert, or the message of
   * the error the route throws.
   */
  function Import(content: Units): (r: Result<seq<Record>>)
    ensures |Lines(content)| < 2 ==> r == Err("Arquivo CSV inválido ou vazio.")
    ensures |Lines(content)| >= 2 ==> r == (if Drivers(Lines(content)) == [] then Err("Nenhum piloto válido processado.") else Ok(Drivers(Lines(content))))
    ensures r.Ok? ==> |r.value| > 0 && forall k :: 0 <= k < |r.value| ==> HasId(r.value[k])
  {
    var lines := Lines(content);
    if |lines| < 2 then Err("Arquivo CSV inválido ou vazio.")
    else
      var drivers := Drivers(lines);
      if drivers == [] then Err("Nenhum piloto válido processado.") else Ok(drivers)
  }

  /** The decoding pass runs once: an escaped reference stays a reference. */
  lemma EscapedReferenceStays()
    ensures DecodeEntities(Some(AmpRef + [35, 54, 53, 59])) == [38, 35, 54, 53, 59]
  {
    var tail: Units := [35, 54, 53, 59];
    var s := AmpRef + tail;
    AmpRefKept(tail);
    AmpPass(tail);
    var a := ReplaceAll(s, AmpRef, [Amp]);
    assert a == [Amp] + tail;
    assert a[1] == 35;
    LoneAmpKept(tail, QuotRef, [Quote]);
    LoneAmpKept(tail, LtRef, [60]);
    LoneAmpKept(tail, GtRef, [62]);
  }

  /** A named pass leaves a lone `&` in front of a tail without `&` when its name does not follow. */
  lemma LoneAmpKept(tail: Units, pat: Units, rep: Units)
    requires Amp !in tail && |pat| > 1 && pat[0] == Amp
    requires tail == [] || tail[0] != pat[1]
    ensures ReplaceAll([Amp] + tail, pat, rep) == [Amp] + tail
  {
    var a := [Amp] + tail;
    assert a[1..] == tail;
    assert !IsPrefix(pat, a) by {
      if |pat| <= |a| {
        assert a[..|pat|][1] == a[1] != pat[1];
      }
    }
    ReplaceWithoutAmp(tail, pat, rep);
  }

  // ---------------------------------------------------------------------------
  // Chunked insertion and the synchronisation

  const ChunkSize: nat := 1000

  function Flatten<T>(css: seq<seq<T>>): seq<T>
    decreases |css|
  {
    if css == [] then [] else css[0] + Flatten(css[1..])
  }

  lemma {:induction false} FlattenAppend<T>(css: seq<seq<T>>, c: seq<T>)
    ensures Flatten(css + [c]) == Flatten(css) + c
    decreases |css|
  {
    if css != [] {
      assert (css + [c])[1..] == css[1..] + [c];
      FlattenAppend(css[1..], c);
    }
  }

  /**
   * Consecutive slices of `size` elements, the last one possibly shorter:
   * `slice(i, i + size)` for i = 0, size, 2 size, ... below the length.
   */
  function Chunks<T>(s: seq<T>, size: nat): seq<seq<T>>
    requires size > 0
    decreases |s|
  {
    if s == [] then []
    else
      var n := Min(size, |s|);
      [s[..n]] + Chunks(s[n..], size)
  }

  /** The chunks partition the sequence: their concatenation is the whole. */
  lemma {:induction false} ChunksFlatten<T>(s: seq<T>, size: nat)
    requires size > 0
    ensures Flatten(Chunks(s, size)) == s
    decreases |s|
  {
    if s != [] {
      var n := Min(size, |s|);
      ChunksFlatten(s[n..], size);
      assert s == s[..n] + s[n..];
    }
  }

  /** Every chunk holds between 1 and `size` elements, and all but the last exactly `size`. */
  lemma {:induction false} ChunksSizes<T>(s: seq<T>, size: nat)
    requires size > 0
    ensures forall k :: 0 <= k < |Chunks(s, size)| ==> 0 < |Chunks(s, size)[k]| <= size
    ensures forall k :: 0 <= k < |Chunks(s, size)| - 1 ==> |Chunks(s, size)[k]| == size
    decreases |s|
  {
    if s != [] {
      var n := Min(size, |s|);
      ChunksSizes(s[n..], size);
      ChunksEmpty<T>(size);
      var cs := Chunks(s, size);
      assert forall k :: 1 <= k < |cs| ==> cs[k] == Chunks(s[n..], size)[k - 1];
    }
  }

  /** Where chunk `k` starts: `k` times the size, counted up one chunk at a time. */
  function ChunkStart(k: nat, size: nat): nat {
    if k == 0 then 0 else ChunkStart(k - 1, size) + size
  }

  lemma {:induction false} ChunkStartProduct(k: nat, size: nat)
    ensures ChunkStart(k, size) == k * size
  {
    if k > 0 {
      ChunkStartProduct(k - 1, size);
      assert (k - 1) * size + size == k * size;
    }
  }

  /** Chunk `k` is the slice of `size` elements starting at `ChunkStart(k, size)`. */
  lemma {:induction false} ChunkAt<T>(s: seq<T>, size: nat, k: nat)
    requires size > 0 && k < |Chunks(s, size)|
    ensures ChunkStart(k, size) < |s|
    ensures Chunks(s, size)[k] == s[ChunkStart(k, size)..Min(ChunkStart(k, size) + size, |s|)]
    decreases |s|
  {
    if k > 0 {
      var n := Min(size, |s|);
      var t := s[n..];
      ChunksUnfold(s, size);
      assert Chunks(s, size)[k] == Chunks(t, size)[k - 1];
      assert t != [] by { ChunksEmpty<T>(size); }
      ChunkAt(t, size, k - 1);
      var a := ChunkStart(k - 1, size);
      assert n == size;
      SliceOfSuffix(s, n, a, Min(a + size, |t|));
    }
  }

  lemma SliceOfSuffix<T>(s: seq<T>, n: int, a: int, e: int)
    requires 0 <= n <= |s| && 0 <= a <= e <= |s| - n
    ensures s[n..][a..e] == s[n + a..n + e]
  {
  }

  /** There are just enough chunks to reach the end, and no more. */
  lemma ChunksCount<T>(s: seq<T>, size: nat)
    requires size > 0
    ensures |s| <= ChunkStart(|Chunks(s, size)|, size)
    ensures |Chunks(s, size)| > 0 ==> ChunkStart(|Chunks(s, size)| - 1, size) < |s|
  {
    var cs := Chunks(s, size);
    ChunksFlatten(s, size);
    ChunksPrefix(s, size, |cs|);
    assert cs[..|cs|] == cs;
    if |cs| > 0 {
      ChunkAt(s, size, |cs| - 1);
    }
  }

  /** The first `k` chunks hold the elements before `ChunkStart(k, size)`. */
  lemma {:induction false} ChunksPrefix<T>(s: seq<T>, size: nat, k: nat)
    requires size > 0 && k <= |Chunks(s, size)|
    ensures Flatten(Chunks(s, size)[..k]) == s[..Min(ChunkStart(k, size), |s|)]
    decreases |s|
  {
    if k > 0 {
      var n := Min(size, |s|);
      var t := s[n..];
      var cs := Chunks(s, size);
      ChunksUnfold(s, size);
      assert cs[..k][1..] == Chunks(t, size)[..k - 1];
      assert cs[..k][0] == s[..n];
      ChunksPrefix(t, size, k - 1);
      var a := ChunkStart(k - 1, size);
      assert k > 1 ==> t != [] by { ChunksEmpty<T>(size); }
      assert t[..Min(a, |t|)] == s[n..Min(a + size, |s|)];
      assert s[..Min(a + size, |s|)] == s[..n] + s[n..Min(a + size, |s|)];
    }
  }

  /** One iteration of the insert loop moves one chunk from the rest to the done part. */
  lemma ChunksStep<T>(s: seq<T>, size: nat, i: nat, cs: seq<seq<T>>, all: seq<seq<T>>)
    requires size > 0 && i < |s|
    requires cs + Chunks(s[i..], size) == all
    ensures (cs + [s[i..Min(i + size, |s|)]]) + Chunks(s[Min(i + size, |s|)..], size) == all
  {
    var e := Min(i + size, |s|);
    var c := s[i..e];
    var rest := Chunks(s[e..], size);
    assert Chunks(s[i..], size) == [c] + rest by {
      var t := s[i..];
      var n := Min(size, |t|);
      assert t[..n] == c;
      assert t[n..] == s[e..];
      ChunksUnfold(t, size);
    }
    assert cs + ([c] + rest) == (cs + [c]) + rest;
  }

  lemma ChunksEmpty<T>(size: nat)
    requires size > 0
    ensures Chunks<T>([], size) == []
  {
  }

  lemma ChunksUnfold<T>(t: seq<T>, size: nat)
    requires size > 0 && t != []
    ensures Chunks(t, size) == [t[..Min(size, |t|)]] + Chunks(t[Min(size, |t|)..], size)
  {
  }

  /** The insert loop of the route, one chunk of `CHUNK_SIZE` per iteration. */
  method ChunkLoop<T>(s: seq<T>) returns (cs: seq<seq<T>>)
    ensures cs == Chunks(s, ChunkSize)
    ensures Flatten(cs) == s
  {
    ChunksFlatten(s, ChunkSize);
    cs := [];
    var i := 0;
    while i < |s|
      invariant 0 <= i
      invariant cs + Chunks(s[Min(i, |s|)..], ChunkSize) == Chunks(s, ChunkSize)
      decreases |s| - i
    {
      var chunk := s[i..Min(i + ChunkSize, |s|)];
      ChunksStep(s, ChunkSize, i, cs, Chunks(s, ChunkSize));
      cs := cs + [chunk];
      i := i + ChunkSize;
    }
    assert s[Min(i, |s|)..] == [];
  }

  /** `.delete().neq('id', 0)` removes every row whose id is set and not 0. */
  predicate DeletedByCleanup(rec: Record) {
    Id in rec && rec[Id] != IntField(0)
  }

  /** Index of the first chunk the database refuses, or the number of chunks. */
  function FirstRefused(n: nat, refused: map<nat, string>, from: nat): (k: nat)
    requires from <= n
    ensures from <= k <= n
    ensures k < n ==> k in refused
    ensures forall j :: from <= j < k ==> j !in refused
    decreases n - from
  {
    if from == n || from in refused then from else FirstRefused(n, refused, from + 1)
  }

  /** The `market_drivers` table after a synchronisation, and the route's reply. */
  datatype SyncOutcome = SyncOutcome(reply: Result<nat>, table: seq<Record>)

  /**
   * The insert loop over a cleared table `kept`: chunks go in until the
   * database refuses one (`refused` maps a chunk index to its error).
   */
  function Store(kept: seq<Record>, drivers: seq<Record>, refused: map<nat, string>): (r: SyncOutcome)
    ensures |kept| <= |r.table| && r.table[..|kept|] == kept
    ensures IsPrefix(r.table[|kept|..], drivers)
    ensures r.reply.Ok? <==> r.table == kept + drivers
    ensures r.reply.Ok? ==> r.reply.value == |drivers|
    ensures r.reply.Err? ==> exists k :: k in refused && r.reply.msg == refused[k]
  {
    var cs := Chunks(drivers, ChunkSize);
    var k := FirstRefused(|cs|, refused, 0);
    ChunksPrefix(drivers, ChunkSize, k);
    var inserted := Flatten(cs[..k]);
    assert (kept + inserted)[..|kept|] == kept;
    assert (kept + inserted)[|kept|..] == inserted;
    if k < |cs| then
      assert |inserted| < |drivers| by { ChunkAt(drivers, ChunkSize, k); }
      SyncOutcome(Err(refused[k]), kept + inserted)
    else
      ChunksFlatten(drivers, ChunkSize);
      assert cs[..k] == cs;
      SyncOutcome(Ok(|drivers|), kept + drivers)
  }

  /**
   * `POST`: import the file, clear the old rows, then insert the records in
   * chunks. `deleteError` and `refused` stand for the database's answers.
   */
  function Sync(content: Units, table: seq<Record>, deleteError: Option<string>, refused: map<nat, string>): (r: SyncOutcome)
    ensures Import(content).Err? ==> r == SyncOutcome(Err(Import(content).msg), table)
    ensures Import(content).Ok? && deleteError.Some? ==>
      r == SyncOutcome(Err("Erro ao limpar base antiga: " + deleteError.value), table)
    ensures Import(content).Ok? && deleteError.None? ==>
      r == Store(RemoveWhere(table, DeletedByCleanup), Import(content).value, refused)
    ensures r.reply.Ok? ==> r.reply.value == |Import(content).value| > 0
  {
    match Import(content)
    case Err(m) => SyncOutcome(Err(m), table)
    case Ok(drivers) =>
      if deleteError.Some? then SyncOutcome(Err("Erro ao limpar base antiga: " + deleteError.value), table)
      else Store(RemoveWhere(table, DeletedByCleanup), drivers, refused)
  }

  /** After a successful synchronisation the table holds the rows with id 0 and then the file's drivers. */
  lemma SyncReplacesDrivers(content: Units, table: seq<Record>, refused: map<nat, string>)
    requires Sync(content, table, None, refused).reply.Ok?
    ensures Import(content).Ok?
    ensures Sync(content, table, None, refused).table
      == RemoveWhere(table, DeletedByCleanup) + Import(content).value
    ensures forall i :: 0 <= i < |RemoveWhere(table, DeletedByCleanup)| ==>
      !DeletedByCleanup(Sync(content, table, None, refused).table[i])
  {
  }

}

=== FILE: marketview.dfy ===
/**
 * The driver-market page: the "is the base outdated" check against the
 * Monday/Thursday 21:00 UTC market deadlines, the flag and favourite-track
 * helpers, the range filter, the column sort and the pagination.
 *
 * Rows are the records the import stores (`MarketImport.Record`); a column
 * a record does not set comes back from the database as null.
 */
module MarketView {
  import opened Base
  import opened Text
  import opened MarketImport

  // ---------------------------------------------------------------------------
  // Market deadlines

  const HourMs: int := 3_600_000
  const DayMs: int := 86_400_000
  /** `setUTCHours(21, 0, 0, 0)`: 22:00 CET. */
  const DeadlineOffset: int := 21 * 3_600_000

  /** Days since 1970-01-01 UTC of an instant in milliseconds (floor division). */
  function DayOf(t: int): int {
    t / DayMs
  }

  /** `getUTCDay()` of day number `m`: 0 is Sunday; day 0 was a Thursday. */
  function WeekdayOfDay(m: int): (w: int)
    ensures 0 <= w < 7
  {
    (m + 4) % 7
  }

  /** Monday (1) or Thursday (4): the days the market closes. */
  predicate IsMarketDay(m: int) {
    WeekdayOfDay(m) == 1 || WeekdayOfDay(m) == 4
  }

  /** An instant that is a Monday or Thursday at exactly 21:00:00.000 UTC. */
  predicate IsDeadline(t: int) {
    t % DayMs == DeadlineOffset && IsMarketDay(DayOf(t))
  }

  /** Any four consecutive days hold a Monday or a Thursday. */
  lemma FourDays(m: int)
    ensures IsMarketDay(m) || IsMarketDay(m - 1) || IsMarketDay(m - 2) || IsMarketDay(m - 3)
  {
    var w := (m + 4) % 7;
    assert (m - 1 + 4) % 7 == (w + 6) % 7;
    assert (m - 2 + 4) % 7 == (w + 5) % 7;
    assert (m - 3 + 4) % 7 == (w + 4) % 7;
  }

  /** The 21:00 instant of day `m`. */
  function DeadlineOfDay(m: int): (t: int)
    ensures DayOf(t) == m && t % DayMs == DeadlineOffset
  {
    m * DayMs + DeadlineOffset
  }

  /**
   * `getLatestDeadline(now)`: start at 21:00 of today and step back one day
   * at a time until a Monday or Thursday 21:00 that is not after `now`.
   * `steps` counts the back-steps.
   */
  method LatestDeadline(now: int) returns (d: int, steps: nat)
    ensures IsDeadline(d) && d <= now
    ensures forall t :: IsDeadline(t) && t <= now ==> t <= d
    ensures steps <= 4
  {
    var today := DayOf(now);
    d := DeadlineOfDay(today);
    steps := 0;
    while !(IsMarketDay(today - steps) && d <= now)
      invariant steps <= 4
      invariant d == DeadlineOfDay(today - steps)
      invariant steps > 0 ==> d < now
      invariant forall m :: today - steps < m < today ==> !IsMarketDay(m)
      invariant steps > 0 ==> !(IsMarketDay(today) && DeadlineOfDay(today) <= now)
      decreases 4 - steps
    {
      if steps == 4 {
        FourDays(today - 1);
        assert false;
      }
      steps := steps + 1;
      d := DeadlineOfDay(today - steps);
    }
    forall t | IsDeadline(t) && t <= now
      ensures t <= d
    {
      NoDeadlineBetween(now, today, steps, t);
    }
  }

  lemma NoDeadlineBetween(now: int, today: int, steps: nat, t: int)
    requires today == DayOf(now)
    requires forall m :: today - steps < m < today ==> !IsMarketDay(m)
    requires steps > 0 ==> !(IsMarketDay(today) && DeadlineOfDay(today) <= now)
    requires IsDeadline(t) && t <= now
    ensures t <= DeadlineOfDay(today - steps)
  {
    var m := DayOf(t);
    assert t == DeadlineOfDay(m);
    assert m <= today;
    assert m <= today - steps;
  }

  /** The last sync as the page reads it: none, an unparseable date, or an instant. */
  datatype LastSync = NoSync | InvalidDate | SyncedAt(t: int)

  datatype Status = Outdated | Updated

  datatype DbInfo = DbInfo(status: Status, caption: string)

  /**
   * `checkDatabaseStatus`: the base is outdated when it was never synced or
   * when a market deadline has passed since the sync. An unparseable date is
   * `NaN`, which compares false, so it counts as up to date.
   */
  method CheckDatabaseStatus(last: LastSync, now: int) returns (info: DbInfo)
    ensures info.status == Outdated <==>
      last.NoSync? || (last.SyncedAt? && exists d :: IsDeadline(d) && last.t < d <= now)
    ensures last.NoSync? ==> info.caption == "Sem Dados"
    ensures !last.NoSync? ==>
      info.caption == (if info.status == Outdated then "Atualização Disponível" else "Base Atualizada")
  {
    if last.NoSync? {
      return DbInfo(Outdated, "Sem Dados");
    }
    var deadline, _ := LatestDeadline(now);
    var outdated := last.SyncedAt? && last.t < deadline;
    if outdated {
      info := DbInfo(Outdated, "Atualização Disponível");
    } else {
      info := DbInfo(Updated, "Base Atualizada");
    }
  }

  // ---------------------------------------------------------------------------
  // Flags

  /**
   * `ISO3_TO_ISO2_MAP`: ISO 3166-1 alpha-3 country codes to the alpha-2 codes
   * of the flag images, with the four home nations of the United Kingdom
   * mapped to their subdivision flags.
   */
  const FlagTable: map<string, string> := map[
      "ABW" := "aw", "AFG" := "af", "AGO" := "ao", "AIA" := "ai", "ALA" := "ax", "ALB" := "al",
      "AND" := "ad", "ARE" := "ae", "ARG" := "ar", "ARM" := "am", "ASM" := "as", "ATA" := "aq",
      "ATF" := "tf", "ATG" := "ag", "AUS" := "au", "AUT" := "at", "AZE" := "az", "BDI" := "bi",
      "BEL" := "be", "BEN" := "bj", "BES" := "bq", "BFA" := "bf", "BGD" := "bd", "BGR" := "bg",
      "BHR" := "bh", "BHS" := "bs", "BIH" := "ba", "BLM" := "bl", "BLR" := "by", "BLZ" := "bz",
      "BMU" := "bm", "BOL" := "bo", "BRA" := "br", "BRB" := "bb", "BRN" := "bn", "BTN" := "bt",
      "BVT" := "bv", "BWA" := "bw", "CAF" := "cf", "CAN" := "ca", "CCK" := "cc", "CHE" := "ch",
      "CHL" := "cl", "CHN" := "cn", "CIV" := "ci", "CMR" := "cm", "COD" := "cd", "COG" := "cg",
      "COK" := "ck", "COL" := "co", "COM" := "km", "CPV" := "cv", "CRI" := "cr", "CUB" := "cu",
      "CUW" := "cw", "CXR" := "cx", "CYM" := "ky", "CYP" := "cy", "CZE" := "cz", "DEU" := "de",
      "DJI" := "dj", "DMA" := "dm", "DNK" := "dk", "DOM" := "do", "DZA" := "dz", "ECU" := "ec",
      "EGY" := "eg", "ERI" := "er", "ESH" := "eh", "ESP" := "es", "EST" := "ee", "ETH" := "et",
      "FIN" := "fi", "FJI" := "fj", "FLK" := "fk", "FRA" := "fr", "FRO" := "fo", "FSM" := "fm",
      "GAB" := "ga", "GBR" := "gb", "GEO" := "ge", "GGY" := "gg", "GHA" := "gh", "GIB" := "gi",
      "GIN" := "gn", "GLP" := "gp", "GMB" := "gm", "GNB" := "gw", "GNQ" := "gq", "GRC" := "gr",
      "GRD" := "gd", "GRL" := "gl", "GTM" := "gt", "GUF" := "gf", "GUM" := "gu", "GUY" := "gy",
      "ENG" := "gb-eng", "NIR" := "gb-nir", "SCO" := "gb-sct", "WAL" := "gb-wls", "WLS" := "gb-wls", "HKG" := "hk",
      "HMD" := "hm", "HND" := "hn", "HRV" := "hr", "HTI" := "ht", "HUN" := "hu", "IDN" := "id",
      "IMN" := "im", "IND" := "in", "IOT" := "io", "IRL" := "ie", "IRN" := "ir", "IRQ" := "iq",
      "ISL" := "is", "ISR" := "il", "ITA" := "it", "JAM" := "jm", "JEY" := "je", "JOR" := "jo",
      "JPN" := "jp", "KAZ" := "kz", "KEN" := "ke", "KGZ" := "kg", "KHM" := "kh", "KIR" := "ki",
      "KNA" := "kn", "KOR" := "kr", "KWT" := "kw", "LAO" := "la", "LBN" := "lb", "LBR" := "lr",
      "LBY" := "ly", "LCA" := "lc", "LIE" := "li", "LKA" := "lk", "LSO" := "ls", "LTU" := "lt",
      "LUX" := "lu", "LVA" := "lv", "MAC" := "mo", "MAF" := "mf", "MAR" := "ma", "MCO" := "mc",
      "MDA" := "md", "MDG" := "mg", "MDV" := "mv", "MEX" := "mx", "MHL" := "mh", "MKD" := "mk",
      "MLI" := "ml", "MLT" := "mt", "MMR" := "mm", "MNE" := "me", "MNG" := "mn", "MNP" := "mp",
      "MOZ" := "mz", "MRT" := "mr", "MSR" := "ms", "MTQ" := "mq", "MUS" := "mu", "MWI" := "mw",
      "MYS" := "my", "MYT" := "yt", "NAM" := "na", "NCL" := "nc", "NER" := "ne", "NFK" := "nf",
      "NGA" := "ng", "NIC" := "ni", "NIU" := "nu", "NLD" := "nl", "NOR" := "no", "NPL" := "np",
      "NRU" := "nr", "NZL" := "nz", "OMN" := "om", "PAK" := "pk", "PAN" := "pa", "PCN" := "pn",
      "PER" := "pe", "PHL" := "ph", "PLW" := "pw", "PNG" := "pg", "POL" := "pl", "PRI" := "pr",
      "PRK" := "kp", "PRT" := "pt", "PRY" := "py", "PSE" := "ps", "PYF" := "pf", "QAT" := "qa",
      "REU" := "re", "ROU" := "ro", "RUS" := "ru", "RWA" := "rw", "SAU" := "sa", "SDN" := "sd",
      "SEN" := "sn", "SGP" := "sg", "SGS" := "gs", "SHN" := "sh", "SJM" := "sj", "SLB" := "sb",
      "SLE" := "sl", "SLV" := "sv", "SMR" := "sm", "SOM" := "so", "SPM" := "pm", "SRB" := "rs",
      "SSD" := "ss", "STP" := "st", "SUR" := "sr", "SVK" := "sk", "SVN" := "si", "SWE" := "se",
      "SWZ" := "sz", "SXM" := "sx", "SYC" := "sc", "SYR" := "sy", "TCA" := "tc", "TCD" := "td",
      "TGO" := "tg", "THA" := "th", "TJK" := "tj", "TKL" := "tk", "TKM" := "tm", "TLS" := "tl",
      "TON" := "to", "TTO" := "tt", "TUN" := "tn", "TUR" := "tr", "TUV" := "tv", "TWN" := "tw",
      "TZA" := "tz", "UGA" := "ug", "UKR" := "ua", "UMI" := "um", "URY" := "uy", "USA" := "us",
      "UZB" := "uz", "VAT" := "va", "VCT" := "vc", "VEN" := "ve", "VGB" := "vg", "VIR" := "vi",
      "VNM" := "vn", "VUT" := "vu", "WLF" := "wf", "WSM" := "ws", "XKX" := "xk", "YEM" := "ye",
      "ZAF" := "za", "ZMB" := "zm", "ZWE" := "zw"
    ]

  /** The look-up key of a nationality: trimmed and upper-cased. */
  function NationalityKey(nationality: Units): string {
    Chars(UpperUnits(TrimUnits(nationality)))
  }

  /** `getFlagCode`: the lower-cased flag code of the nationality, "xx" when unknown. */
  function FlagCodeIn(table: map<string, string>, nationality: Units): (r: string)
    ensures forall i :: 0 <= i < |r| ==> !('A' <= r[i] <= 'Z')
    ensures r != ""
  {
    var key := NationalityKey(nationality);
    if key in table && table[key] != "" then Lower(table[key]) else "xx"
  }

  /** `getFlagCode` over the ISO 3166 alpha-3 to alpha-2 table of the market page. */
  function FlagCode(nationality: Units): (r: string)
    ensures r != "" && forall i :: 0 <= i < |r| ==> !('A' <= r[i] <= 'Z')
    ensures NationalityKey(nationality) !in FlagTable ==> r == "xx"
  {
    FlagCodeIn(FlagTable, nationality)
  }

  predicate IsUpperWord(key: string) {
    forall i :: 0 <= i < |key| ==> 'A' <= key[i] <= 'Z'
  }

  predicate IsLowerText(v: string) {
    forall i :: 0 <= i < |v| ==> !IsCapital(v[i])
  }

  /** A listed code, written in any letter case, gives its flag. */
  lemma FlagCodeOfCode(table: map<string, string>, key: string)
    requires IsUpperWord(key) && key in table && table[key] != "" && IsLowerText(table[key])
    ensures FlagCodeIn(table, U(key)) == table[key]
    ensures FlagCodeIn(table, U(Lower(key))) == table[key]
  {
    LowerFixed(table[key]);
    assert NationalityKey(U(key)) == key by {
      UpperWordKey(key);
      UpperIdentity(key);
    }
    assert NationalityKey(U(Lower(key))) == key by {
      LowerWordUpper(key);
      UpperWordKey(Lower(key));
    }
  }

  lemma LowerFixed(v: string)
    requires IsLowerText(v)
    ensures Lower(v) == v
  {
    assert forall i :: 0 <= i < |v| ==> Lower(v)[i] == v[i];
  }

  /** Lower-casing an upper-case word gives letters that upper-case back to it. */
  lemma LowerWordUpper(key: string)
    requires IsUpperWord(key)
    ensures forall i :: 0 <= i < |Lower(key)| ==> 'a' <= Lower(key)[i] <= 'z'
    ensures Upper(Lower(key)) == key
  {
    var lo := Lower(key);
    forall i | 0 <= i < |lo| ensures 'a' <= lo[i] <= 'z' && Upper(lo)[i] == key[i] {
      LowerUpperChar(key[i]);
    }
  }

  lemma LowerUpperChar(c: char)
    requires 'A' <= c <= 'Z'
    ensures 'a' <= LowerChar(c) <= 'z' && UpperChar(LowerChar(c)) == c
  {
  }

  lemma UpperIdentity(w: string)
    requires IsUpperWord(w)
    ensures Upper(w) == w
  {
    assert forall i :: 0 <= i < |w| ==> Upper(w)[i] == w[i];
  }

  /** An ASCII letter is one code unit, not blank, and upper-cases alike as a unit. */
  lemma LetterUnit(c: char)
    requires 'A' <= c <= 'Z' || 'a' <= c <= 'z'
    ensures c as int % 0x1_0000 == c as int
    ensures !IsJsSpace(c as int)
    ensures CharOf(if IsSmallUnit(c as int) then c as int - 32 else c as int) == UpperChar(c)
  {
  }

  /** An ASCII word without blanks is its own trim and reads back as itself. */
  lemma UpperWordKey(w: string)
    requires forall i :: 0 <= i < |w| ==> ('A' <= w[i] <= 'Z' || 'a' <= w[i] <= 'z')
    ensures TrimUnits(U(w)) == U(w)
    ensures Chars(UpperUnits(U(w))) == Upper(w)
  {
    var u := U(w);
    var up := UpperUnits(u);
    forall i | 0 <= i < |w| ensures !IsJsSpace(u[i]) && Chars(up)[i] == Upper(w)[i] {
      LetterUnit(w[i]);
    }
    TrimWithFixed(u, IsJsSpace);
  }

  /** Blanks around the nationality do not change the flag. */
  lemma FlagCodePadded(table: map<string, string>, pre: Units, nationality: Units, suf: Units)
    requires forall k :: 0 <= k < |pre| ==> IsJsSpace(pre[k])
    requires forall k :: 0 <= k < |suf| ==> IsJsSpace(suf[k])
    ensures FlagCodeIn(table, pre + nationality + suf) == FlagCodeIn(table, nationality)
  {
    TrimWithPadded(pre, nationality, suf, IsJsSpace);
  }

  /** A nationality whose key is not listed gets the placeholder flag. */
  lemma FlagCodeUnknown(table: map<string, string>, nationality: Units)
    requires NationalityKey(nationality) !in table
    ensures FlagCodeIn(table, nationality) == "xx"
  {
  }

  // ---------------------------------------------------------------------------
  // Favourite tracks

  predicate IsQuoteUnit(u: U16) {
    u == Quote
  }

  /** The separators of `split(/[,;]/)`. */
  predicate IsTrackSep(u: U16) {
    u == Comma || u == Semicolon
  }

  /** `s.split(/[,;]/)`: the pieces between separators. */
  function SplitTracks(s: Units): (r: seq<Units>)
    ensures |r| > 0
    decreases |s|
  {
    if s == [] then [[]]
    else
      var n := |s| - 1;
      var p := SplitTracks(s[..n]);
      if IsTrackSep(s[n]) then p + [[]]
      else p[..|p| - 1] + [p[|p| - 1] + [s[n]]]
  }

  /** `"0"` */
  const Zero: Units := [48]

  /** A piece the count skips: blank, or `0` once trimmed. */
  predicate IsEmptyTrack(t: Units) {
    TrimUnits(t) == [] || TrimUnits(t) == Zero
  }

  /** The named tracks of a favourites text, quotes removed. */
  function Tracks(fav: Units): (r: seq<Units>)
    ensures forall k :: 0 <= k < |r| ==> !IsEmptyTrack(r[k])
  {
    RemoveWhere(SplitTracks(RemoveWhere(fav, IsQuoteUnit)), IsEmptyTrack)
  }

  /**
   * `countFavTracks`: 0 for an empty text, `0` or `""`; otherwise the number
   * of pieces that are neither blank nor `0`.
   */
  function CountFavTracks(fav: Units): (n: nat)
    ensures n <= |SplitTracks(RemoveWhere(fav, IsQuoteUnit))|
  {
    if fav == [] || fav == Zero || fav == [Quote, Quote] then 0
    else |Tracks(fav)|
  }

  /** The early return only short-cuts texts the general count already gives 0. */
  lemma CountFavTracksGuard(fav: Units)
    ensures CountFavTracks(fav) == |Tracks(fav)|
  {
    if fav == Zero {
      ZeroHasNoTracks();
    } else if fav == [Quote, Quote] {
      QuotesHaveNoTracks();
    }
  }

  /** `"0"` names no track. */
  lemma ZeroHasNoTracks()
    ensures Tracks(Zero) == []
  {
    var q := RemoveWhere(Zero, IsQuoteUnit);
    assert q == Zero by { RemoveWhereNone(Zero, IsQuoteUnit); }
    SplitOneUnit(48);
    assert TrimUnits(Zero) == Zero by { TrimWithFixed(Zero, IsJsSpace); }
    RemoveWhereAll(SplitTracks(Zero), IsEmptyTrack);
  }

  /** `""` (two quotes) names no track. */
  lemma QuotesHaveNoTracks()
    ensures Tracks([Quote, Quote]) == []
  {
    assert RemoveWhere([Quote, Quote], IsQuoteUnit) == [] by { RemoveWhereAll([Quote, Quote], IsQuoteUnit); }
    RemoveWhereAll(SplitTracks([]), IsEmptyTrack);
  }

  lemma SplitOneUnit(u: U16)
    requires !IsTrackSep(u)
    ensures SplitTracks([u]) == [[u]]
  {
    SplitWithoutSeps([u]);
  }

  /** Joining named tracks with commas and counting gives their number back. */
  lemma CountJoinedTracks(ts: seq<Units>)
    requires |ts| > 0
    requires forall k :: 0 <= k < |ts| ==> !IsEmptyTrack(ts[k]) && Quote !in ts[k]
    requires forall k :: 0 <= k < |ts| ==> forall i :: 0 <= i < |ts[k]| ==> !IsTrackSep(ts[k][i])
    ensures CountFavTracks(Join(ts, Comma)) == |ts|
  {
    var s := Join(ts, Comma);
    JoinQuoteFree(ts);
    RemoveWhereNone(s, IsQuoteUnit);
    SplitJoinTracks(ts);
    RemoveWhereNone(ts, IsEmptyTrack);
    CountFavTracksGuard(s);
  }

  lemma {:induction false} JoinQuoteFree(ts: seq<Units>)
    requires |ts| > 0
    requires forall k :: 0 <= k < |ts| ==> Quote !in ts[k]
    ensures Quote !in Join(ts, Comma)
    decreases |ts|
  {
    if |ts| > 1 {
      JoinQuoteFree(ts[..|ts| - 1]);
    }
  }

  /** Splitting a comma join of separator-free pieces gives the pieces. */
  lemma {:induction false} SplitJoinTracks(ts: seq<Units>)
    requires |ts| > 0
    requires forall k :: 0 <= k < |ts| ==> forall i :: 0 <= i < |ts[k]| ==> !IsTrackSep(ts[k][i])
    ensures SplitTracks(Join(ts, Comma)) == ts
    decreases |ts|
  {
    if |ts| == 1 {
      SplitWithoutSeps(ts[0]);
    } else {
      var init := ts[..|ts| - 1];
      var last := ts[|ts| - 1];
      SplitJoinTracks(init);
      assert Join(ts, Comma) == Join(init, Comma) + [Comma] + last;
      SplitAppendPiece(Join(init, Comma), last);
    }
  }

  /** A piece without separators splits to itself. */
  lemma {:induction false} SplitWithoutSeps(t: Units)
    requires forall i :: 0 <= i < |t| ==> !IsTrackSep(t[i])
    ensures SplitTracks(t) == [t]
    decreases |t|
  {
    if t != [] {
      var n := |t| - 1;
      SplitWithoutSeps(t[..n]);
      assert t[..n] + [t[n]] == t;
    }
  }

  /** Appending a separator and a separator-free piece adds that piece. */
  lemma {:induction false} SplitAppendPiece(s: Units, t: Units)
    requires forall i :: 0 <= i < |t| ==> !IsTrackSep(t[i])
    ensures SplitTracks(s + [Comma] + t) == SplitTracks(s) + [t]
    decreases |t|
  {
    var x := s + [Comma] + t;
    if t == [] {
      assert x[..|x| - 1] == s;
    } else {
      var n := |t| - 1;
      SplitAppendPiece(s, t[..n]);
      assert x[..|x| - 1] == s + [Comma] + t[..n];
      assert t[..n] + [t[n]] == t;
    }
  }

  // ---------------------------------------------------------------------------
  // Range filter

  /** A number column as the page reads it: null (not set) is 0, as `val ?? 0`. */
  function NumberAt(d: Record, c: Column): int {
    if c in d && d[c].IntField? then d[c].n else 0
  }

  /** An inclusive range of the filter panel; the inputs accept fractions. */
  datatype Range = Range(min: real, max: real)

  type Filters = map<Column, Range>

  /** The twelve columns the filter panel bounds. */
  const FilterColumns: set<Column> := {
    Total, Concentracao, Talento, Agressividade, Experiencia, Tecnica,
    Resistencia, Reputacao, Peso, Idade, Salario, Ofertas}

  /** `INITIAL_FILTERS`. */
  const InitialFilters: Filters := map[
    Total := Range(0.0, 300.0), Concentracao := Range(0.0, 300.0),
    Talento := Range(0.0, 300.0), Agressividade := Range(0.0, 300.0),
    Experiencia := Range(0.0, 500.0), Tecnica := Range(0.0, 300.0),
    Resistencia := Range(0.0, 300.0), Reputacao := Range(0.0, 300.0),
    Peso := Range(0.0, 150.0), Idade := Range(0.0, 99.0),
    Salario := Range(0.0, 200000000.0), Ofertas := Range(0.0, 100.0)]

  predicate InRange(v: int, r: Range) {
    r.min <= v as real <= r.max
  }

  /** The driver lies inside every bound of the panel. */
  predicate Passes(d: Record, f: Filters) {
    forall c :: c in f ==> InRange(NumberAt(d, c), f[c])
  }

  predicate Fails(f: Filters, d: Record) {
    !Passes(d, f)
  }

  /** `drivers.filter(...)`: the drivers inside every bound, in their order. */
  function FilterDrivers(drivers: seq<Record>, f: Filters): (r: seq<Record>)
    ensures forall i :: 0 <= i < |r| ==> Passes(r[i], f)
    ensures forall i :: 0 <= i < |drivers| && Passes(drivers[i], f) ==> drivers[i] in r
    ensures forall d :: d in r ==> d in drivers
  {
    RemoveWhere(drivers, d => Fails(f, d))
  }

  /** The filter keeps each passing driver as often as it occurs, and no other. */
  lemma FilterCounts(drivers: seq<Record>, f: Filters, d: Record)
    ensures multiset(FilterDrivers(drivers, f))[d] == if Passes(d, f) then multiset(drivers)[d] else 0
  {
    RemoveWhereMultiset(drivers, d => Fails(f, d), d);
  }

  /** `updateFilter`: one bound of one column changes, every other bound stays. */
  function UpdateFilter(f: Filters, c: Column, isMin: bool, v: real): (r: Filters)
    requires c in f
    ensures r.Keys == f.Keys
    ensures r[c] == (if isMin then Range(v, f[c].max) else Range(f[c].min, v))
    ensures forall k :: k in f && k != c ==> r[k] == f[k]
  {
    f[c := if isMin then f[c].(min := v) else f[c].(max := v)]
  }

  /** The panel starts with every driver of plausible values passing. */
  lemma InitialFiltersCover(d: Record)
    requires forall c :: c in FilterColumns ==> 0 <= NumberAt(d, c) <= 99
    ensures Passes(d, InitialFilters)
  {
    assert InitialFilters.Keys == FilterColumns;
  }

  // ---------------------------------------------------------------------------
  // Sorting

  datatype Direction = Asc | Desc

  /** `sortConfig`: the column and the direction of the table's order. */
  datatype SortConfig = SortConfig(key: Column, dir: Direction)

  const InitialSort: SortConfig := SortConfig(Total, Desc)

  /** `handleSort`: the active column toggles from descending to ascending; any other click sorts descending. */
  function HandleSort(prev: SortConfig, key: Column): (r: SortConfig)
    ensures r.key == key
    ensures r.dir == Asc <==> prev == SortConfig(key, Desc)
  {
    SortConfig(key, if prev.key == key && prev.dir == Desc then Asc else Desc)
  }

  /** Clicking the same header twice comes back to the same order. */
  lemma HandleSortTwice(prev: SortConfig)
    ensures HandleSort(HandleSort(prev, prev.key), prev.key) == prev
  {
  }

  /** What a column sorts by: a number, or text compared unit by unit. */
  datatype SortValue = Number(n: int) | Letters(u: Units)

  /** JavaScript's `<` on strings: lexicographic on code units. */
  predicate LexLess(a: Units, b: Units)
    decreases |a|
  {
    if a == [] then b != []
    else if b == [] then false
    else a[0] < b[0] || (a[0] == b[0] && LexLess(a[1..], b[1..]))
  }

  lemma {:induction false} LexLessAsym(a: Units, b: Units)
    ensures !(LexLess(a, b) && LexLess(b, a))
    decreases |a|
  {
    if a != [] && b != [] && a[0] == b[0] {
      LexLessAsym(a[1..], b[1..]);
    }
  }

  lemma {:induction false} LexLessTrans(a: Units, b: Units, c: Units)
    requires LexLess(a, b) && LexLess(b, c)
    ensures LexLess(a, c)
    decreases |a|
  {
    if a != [] && a[0] == b[0] && b[0] == c[0] {
      LexLessTrans(a[1..], b[1..], c[1..]);
    }
  }

  predicate Less(a: SortValue, b: SortValue) {
    match (a, b)
    case (Number(x), Number(y)) => x < y
    case (Letters(x), Letters(y)) => LexLess(x, y)
    case _ => false
  }

  /** The text `String(v)` gives for the favourites cell; null becomes "null". */
  function FavouritesText(d: Record): Units {
    if Favorito in d then
      match d[Favorito]
      case TextField(s) => s
      case IntField(n) => U(IntToString(n))
    else NullText
  }

  /** `String(null)`. */
  const NullText: Units := [110, 117, 108, 108]

  /** The number of favourite tracks the table shows: a null cell shows 0. */
  function ShownFavourites(d: Record): nat {
    if Favorito in d && d[Favorito].TextField? then CountFavTracks(d[Favorito].s) else 0
  }

  function TextAt(d: Record, c: Column): Units {
    if c in d && d[c].TextField? then d[c].s else []
  }

  predicate IsTextColumn(c: Column) {
    c == Nome || c == Nacionalidade || c == Aposentadoria
  }

  /** The sort value of the comparator as written: favourites count `String(value)`. */
  function SortValueAsWritten(d: Record, c: Column): SortValue {
    if c == Favorito then Number(CountFavTracks(FavouritesText(d)))
    else if IsTextColumn(c) then Letters(TextAt(d, c))
    else Number(NumberAt(d, c))
  }

  /** A driver without favourites sorts as if it had one, while the table shows 0. */
  lemma NullFavouritesSortAsOne(d: Record)
    requires Favorito !in d
    ensures SortValueAsWritten(d, Favorito) == Number(1)
    ensures ShownFavourites(d) == 0
  {
    NullTextIsOneTrack();
  }

  lemma NullTextIsOneTrack()
    ensures CountFavTracks(NullText) == 1
  {
    NullTextNamed();
    NullTextPlain();
    OneTrack(NullText);
  }

  lemma NullTextNamed()
    ensures !IsEmptyTrack(NullText)
  {
    TrimWithFixed(NullText, IsJsSpace);
  }

  lemma NullTextPlain()
    ensures Quote !in NullText
    ensures forall i :: 0 <= i < |NullText| ==> !IsTrackSep(NullText[i])
  {
  }

  /** A single named track counts as one. */
  lemma OneTrack(t: Units)
    requires !IsEmptyTrack(t) && Quote !in t
    requires forall i :: 0 <= i < |t| ==> !IsTrackSep(t[i])
    ensures CountFavTracks(t) == 1
  {
    var ts: seq<Units> := [t];
    assert Join(ts, Comma) == t;
    CountJoinedTracks(ts);
  }

  /** The sort value with favourites counted as the table shows them. */
  function SortValueOf(d: Record, c: Column): (v: SortValue)
    ensures c == Favorito ==> v == Number(ShownFavourites(d))
    ensures c != Favorito ==> v == SortValueAsWritten(d, c)
  {
    if c == Favorito then Number(ShownFavourites(d))
    else if IsTextColumn(c) then Letters(TextAt(d, c))
    else Number(NumberAt(d, c))
  }

  /** The comparator returns a negative number: `a` goes before `b`. */
  predicate Before(cfg: SortConfig, a: Record, b: Record) {
    if cfg.dir == Asc then Less(SortValueOf(a, cfg.key), SortValueOf(b, cfg.key))
    else Less(SortValueOf(b, cfg.key), SortValueOf(a, cfg.key))
  }

  lemma BeforeAsym(cfg: SortConfig, a: Record, b: Record)
    ensures !(Before(cfg, a, b) && Before(cfg, b, a))
  {
    var x := SortValueOf(a, cfg.key);
    var y := SortValueOf(b, cfg.key);
    if x.Letters? && y.Letters? {
      LexLessAsym(x.u, y.u);
    }
  }

  lemma BeforeTrans(cfg: SortConfig, a: Record, b: Record, c: Record)
    requires Before(cfg, a, b) && Before(cfg, b, c)
    ensures Before(cfg, a, c)
  {
    var x := SortValueOf(a, cfg.key);
    var y := SortValueOf(b, cfg.key);
    var z := SortValueOf(c, cfg.key);
    if x.Letters? && y.Letters? && z.Letters? {
      if cfg.dir == Asc {
        LexLessTrans(x.u, y.u, z.u);
      } else {
        LexLessTrans(z.u, y.u, x.u);
      }
    }
  }

  /** No driver is followed by one the comparator puts before it. */
  predicate Sorted(cfg: SortConfig, s: seq<Record>) {
    forall i, j :: 0 <= i < j < |s| ==> !Before(cfg, s[j], s[i])
  }

  /** Places `x` after every driver that does not go after it. */
  function Insert(cfg: SortConfig, x: Record, s: seq<Record>): (r: seq<Record>)
    requires Sorted(cfg, s)
    ensures multiset(r) == multiset(s) + multiset{x}
    ensures Sorted(cfg, r)
    decreases |s|
  {
    if s == [] then [x]
    else if Before(cfg, x, s[0]) then
      InsertFront(cfg, x, s);
      [x] + s
    else
      var rest := Insert(cfg, x, s[1..]);
      InsertBehind(cfg, x, s, rest);
      assert s == [s[0]] + s[1..];
      [s[0]] + rest
  }

  lemma InsertFront(cfg: SortConfig, x: Record, s: seq<Record>)
    requires s != [] && Sorted(cfg, s) && Before(cfg, x, s[0])
    ensures Sorted(cfg, [x] + s)
  {
    var r := [x] + s;
    forall i, j | 0 <= i < j < |r| ensures !Before(cfg, r[j], r[i]) {
      if i == 0 {
        BeforeAsym(cfg, x, s[0]);
        if j > 1 && Before(cfg, r[j], x) {
          BeforeTrans(cfg, r[j], x, s[0]);
        }
      }
    }
  }

  lemma InsertBehind(cfg: SortConfig, x: Record, s: seq<Record>, rest: seq<Record>)
    requires s != [] && Sorted(cfg, s) && !Before(cfg, x, s[0])
    requires multiset(rest) == multiset(s[1..]) + multiset{x}
    requires Sorted(cfg, rest)
    ensures Sorted(cfg, [s[0]] + rest)
  {
    var r := [s[0]] + rest;
    forall j | 1 <= j < |r| ensures !Before(cfg, r[j], s[0]) {
      assert r[j] in multiset(rest);
      if r[j] != x {
        assert r[j] in multiset(s[1..]);
        var k :| 0 <= k < |s[1..]| && s[1..][k] == r[j];
        assert s[k + 1] == r[j];
      }
    }
  }

  /** `result.sort(...)`: insertion of the drivers in their order, so equal drivers keep it. */
  function SortDrivers(cfg: SortConfig, s: seq<Record>): (r: seq<Record>)
    ensures multiset(r) == multiset(s)
    ensures Sorted(cfg, r)
    decreases |s|
  {
    if s == [] then []
    else
      var n := |s| - 1;
      assert s == s[..n] + [s[n]];
      Insert(cfg, s[n], SortDrivers(cfg, s[..n]))
  }

  /** `filteredDrivers`: the passing drivers, in the table's order. */
  function FilteredDrivers(drivers: seq<Record>, f: Filters, cfg: SortConfig): (r: seq<Record>)
    ensures Sorted(cfg, r)
    ensures forall d :: multiset(r)[d] == if Passes(d, f) then multiset(drivers)[d] else 0
  {
    var r := SortDrivers(cfg, FilterDrivers(drivers, f));
    forall d ensures multiset(r)[d] == if Passes(d, f) then multiset(drivers)[d] else 0 {
      FilterCounts(drivers, f, d);
    }
    r
  }

  /** Sorting by favourites, descending, lists the shown counts from high to low. */
  lemma FavouritesSortedAsShown(r: seq<Record>)
    requires Sorted(SortConfig(Favorito, Desc), r)
    ensures forall i, j :: 0 <= i < j < |r| ==> ShownFavourites(r[i]) >= ShownFavourites(r[j])
  {
    forall i, j | 0 <= i < j < |r| ensures ShownFavourites(r[i]) >= ShownFavourites(r[j]) {
      assert !Before(SortConfig(Favorito, Desc), r[j], r[i]);
    }
  }

  // ---------------------------------------------------------------------------
  // Pagination

  const PageSize: nat := 20

  /** `Math.ceil(n / pageSize)`. */
  function TotalPages(n: nat): (r: nat)
    ensures n <= r * PageSize < n + PageSize
  {
    (n + PageSize - 1) / PageSize
  }

  /** An index argument of `Array.prototype.slice`: negative counts from the end, then clamped. */
  function SliceIndex(i: int, n: nat): (r: nat)
    ensures r <= n
    ensures 0 <= i <= n ==> r == i
  {
    if i < 0 then (if n + i < 0 then 0 else n + i)
    else if i > n then n
    else i
  }

  /** `s.slice(start, end)`. */
  function JsSlice<T>(s: seq<T>, start: int, end: int): seq<T> {
    var a := SliceIndex(start, |s|);
    var b := SliceIndex(end, |s|);
    if a < b then s[a..b] else []
  }

  /** `paginatedDrivers`: the rows of page `page`, counted from 1. */
  function PageRows(rows: seq<Record>, page: int): (r: seq<Record>)
    ensures |r| <= PageSize
  {
    var start := (page - 1) * PageSize;
    JsSlice(rows, start, start + PageSize)
  }

  /** There are as many pages as chunks of twenty rows. */
  lemma PageCount(rows: seq<Record>)
    ensures |Chunks(rows, PageSize)| == TotalPages(|rows|)
  {
    var c := |Chunks(rows, PageSize)|;
    ChunksCount(rows, PageSize);
    ChunkStartProduct(c, PageSize);
    if c > 0 {
      ChunkStartProduct(c - 1, PageSize);
    }
  }

  /** Page `p` of the table is chunk `p - 1` of the rows. */
  lemma PageIsChunk(rows: seq<Record>, p: int)
    requires 1 <= p <= TotalPages(|rows|)
    ensures p - 1 < |Chunks(rows, PageSize)| && PageRows(rows, p) == Chunks(rows, PageSize)[p - 1]
  {
    PageCount(rows);
    var k := p - 1;
    ChunkAt(rows, PageSize, k);
    ChunkStartProduct(k, PageSize);
    var a := ChunkStart(k, PageSize);
    assert (p - 1) * PageSize == a;
    assert SliceIndex(a, |rows|) == a;
    assert SliceIndex(a + PageSize, |rows|) == Min(a + PageSize, |rows|);
  }

  /** The pages, read one after the other, are the whole table. */
  lemma PagesPartition(rows: seq<Record>)
    ensures Flatten(seq(TotalPages(|rows|), k requires 0 <= k < TotalPages(|rows|) => PageRows(rows, k + 1))) == rows
  {
    var pages := seq(TotalPages(|rows|), k requires 0 <= k < TotalPages(|rows|) => PageRows(rows, k + 1));
    PageCount(rows);
    forall k | 0 <= k < |pages| ensures pages[k] == Chunks(rows, PageSize)[k] {
      PageIsChunk(rows, k + 1);
    }
    assert pages == Chunks(rows, PageSize);
    ChunksFlatten(rows, PageSize);
  }

  /** Page 0 shows no row: its slice runs from 20 before the end to index 0. */
  lemma PageZeroEmpty(rows: seq<Record>)
    ensures PageRows(rows, 0) == []
  {
  }

  datatype PageButton = First | Previous | Next | Last

  /** First and previous are disabled on page 1, next and last on the last page. */
  predicate Disabled(b: PageButton, page: int, total: int) {
    if b == First || b == Previous then page == 1 else page == total
  }

  /** The page buttons as written: next and last go to `totalPages`, which is 0 for an empty list. */
  function PressAsWritten(b: PageButton, page: int, total: int): int {
    if Disabled(b, page, total) then page
    else match b
      case First => 1
      case Previous => Max(1, page - 1)
      case Next => Min(total, page + 1)
      case Last => total
  }

  /** On an empty list the next and last buttons are enabled on page 1 and lead to page 0. */
  lemma EmptyListLeadsToPageZero()
    ensures !Disabled(Next, 1, TotalPages(0)) && PressAsWritten(Next, 1, TotalPages(0)) == 0
    ensures !Disabled(Last, 1, TotalPages(0)) && PressAsWritten(Last, 1, TotalPages(0)) == 0
  {
  }

  /** The page buttons with the page kept at 1 or above. */
  function Press(b: PageButton, page: int, total: nat): (r: int)
    ensures 1 <= r
    ensures 1 <= page <= Max(total, 1) ==> r <= Max(total, 1)
    ensures !Disabled(b, page, total) && (b == First || b == Previous) ==> r < page || r == 1
    ensures Disabled(b, page, total) && 1 <= page ==> r == page
  {
    Max(1, PressAsWritten(b, page, total))
  }

  /** On a page of a non-empty list both agree. */
  lemma PressAgrees(b: PageButton, page: int, total: nat)
    requires 1 <= page <= total
    ensures Press(b, page, total) == PressAsWritten(b, page, total)
  {
  }

  // ---------------------------------------------------------------------------
  // The page's state

  datatype ViewState = ViewState(drivers: seq<Record>, filters: Filters, sort: SortConfig, page: int)

  function InitialView(drivers: seq<Record>): ViewState {
    ViewState(drivers, InitialFilters, InitialSort, 1)
  }

  /** The panel bounds the twelve columns and the page is 1 or above. */
  predicate ViewInvariant(v: ViewState) {
    v.filters.Keys == FilterColumns && 1 <= v.page
  }

  function Filtered(v: ViewState): seq<Record> {
    FilteredDrivers(v.drivers, v.filters, v.sort)
  }

  /** The rows the table shows. */
  function Visible(v: ViewState): (r: seq<Record>)
    ensures |r| <= PageSize
  {
    PageRows(Filtered(v), v.page)
  }

  /** A header click re-sorts and goes back to page 1. */
  function ClickSort(v: ViewState, key: Column): (r: ViewState)
    ensures ViewInvariant(v) ==> ViewInvariant(r)
    ensures r.page == 1 && r.sort == HandleSort(v.sort, key)
    ensures r.drivers == v.drivers && r.filters == v.filters
  {
    v.(sort := HandleSort(v.sort, key), page := 1)
  }

  /** Editing a bound re-filters and goes back to page 1. */
  function SetBound(v: ViewState, c: Column, isMin: bool, x: real): (r: ViewState)
    requires c in v.filters
    ensures ViewInvariant(v) ==> ViewInvariant(r)
    ensures r.page == 1 && r.sort == v.sort && r.drivers == v.drivers
  {
    v.(filters := UpdateFilter(v.filters, c, isMin, x), page := 1)
  }

  /** A page button, with the page kept at 1 or above. */
  function ClickPage(v: ViewState, b: PageButton): (r: ViewState)
    ensures ViewInvariant(v) ==> ViewInvariant(r)
    ensures 1 <= v.page <= Max(TotalPages(|Filtered(v)|), 1) ==> r.page <= Max(TotalPages(|Filtered(v)|), 1)
    ensures r.drivers == v.drivers && r.filters == v.filters && r.sort == v.sort
  {
    v.(page := Press(b, v.page, TotalPages(|Filtered(v)|)))
  }

  /** A reload after a synchronisation replaces the drivers and keeps the page. */
  function Reload(v: ViewState, drivers: seq<Record>): (r: ViewState)
    ensures ViewInvariant(v) ==> ViewInvariant(r)
    ensures r.drivers == drivers && r.page == v.page
  {
    v.(drivers := drivers)
  }

  /** The initial view satisfies the invariant and shows the first twenty drivers of the order. */
  lemma InitialViewShowsFirstPage(drivers: seq<Record>)
    ensures ViewInvariant(InitialView(drivers))
    ensures Visible(InitialView(drivers)) == Filtered(InitialView(drivers))[..Min(PageSize, |Filtered(InitialView(drivers))|)]
  {
    assert InitialFilters.Keys == FilterColumns;
  }
}

=== FILE: numbers.dfy ===
/**
 * The numeric text grammars the system relies on: Python's `int()` and
 * `float()` on an already-stripped string, JavaScript's `Number()` on a
 * string, and JavaScript's `parseInt(s, 10)`.
 *
 * All of them are modelled on the decimal subset `[+|-] digits [. digits]`;
 * exponents, `inf`/`Infinity`, `nan`, hexadecimal and digit separators are
 * outside the model and parse as failures.
 */
module Numbers {
  import opened Base
  import opened Text

  predicate AllDigits(s: string) {
    forall i :: 0 <= i < |s| ==> IsDigit(s[i])
  }

  /** Value of a digit string read most-significant first; `""` reads as 0. */
  function DigitsValue(s: string): (n: nat)
    requires AllDigits(s)
    ensures s == [] ==> n == 0
  {
    if s == [] then 0
    else DigitsValue(s[..|s| - 1]) * 10 + (s[|s| - 1] as int - '0' as int)
  }

  function Pow10(k: nat): (p: nat)
    ensures p >= 1
  {
    if k == 0 then 1 else 10 * Pow10(k - 1)
  }

  /** The rendering of a natural number reads back as that number. */
  lemma {:induction false} DigitsOfNatToString(n: nat)
    ensures AllDigits(NatToString(n))
    ensures DigitsValue(NatToString(n)) == n
    decreases n
  {
    if n >= 10 {
      DigitsOfNatToString(n / 10);
      var s := NatToString(n);
      assert s[..|s| - 1] == NatToString(n / 10);
    }
  }

  /** Splits an optional leading sign off: (is negative, rest). */
  function SplitSign(s: string): (r: (bool, string))
    ensures r.1 == (if |s| > 0 && (s[0] == '+' || s[0] == '-') then s[1..] else s)
    ensures r.0 <==> |s| > 0 && s[0] == '-'
  {
    if |s| > 0 && (s[0] == '+' || s[0] == '-') then (s[0] == '-', s[1..]) else (false, s)
  }

  /** Python `int(s)` on a stripped string: a sign and at least one digit. */
  function ParseInteger(s: string): (r: Option<int>)
    ensures r.Some? <==> (var b := SplitSign(s).1; |b| > 0 && AllDigits(b))
    ensures r.Some? && SplitSign(s).0 ==> r.value <= 0
    ensures r.Some? && !SplitSign(s).0 ==> r.value >= 0
  {
    var (neg, body) := SplitSign(s);
    if |body| > 0 && AllDigits(body) then
      var n: int := DigitsValue(body);
      Some(if neg then -n else n)
    else None
  }

  /** `int(str(i)) == i`. */
  lemma ParseIntegerRoundTrip(i: int)
    ensures ParseInteger(IntToString(i)) == Some(i)
  {
    var m: nat := if i < 0 then -i else i;
    var d := NatToString(m);
    DigitsOfNatToString(m);
    assert IsDigit(d[0]);
    var s := IntToString(i);
    if i < 0 {
      assert s == "-" + d;
      assert s[0] == '-' && s[1..] == d;
      assert SplitSign(s) == (true, d);
    } else {
      assert s == d;
      assert SplitSign(s) == (false, d);
    }
  }

  /** The value of the digits `ip` `.` `fp`. */
  function DecimalMagnitude(ip: string, fp: string): (x: real)
    requires AllDigits(ip) && AllDigits(fp)
    ensures x >= 0.0
    ensures fp == [] ==> x == DigitsValue(ip) as real
  {
    DigitsValue(ip) as real + DigitsValue(fp) as real / Pow10(|fp|) as real
  }

  /**
   * The unsigned decimal grammar: digits with at most one point, and at
   * least one digit on one side of it.
   */
  predicate DecimalBody(b: string) {
    && (forall i :: 0 <= i < |b| ==> IsDigit(b[i]) || b[i] == '.')
    && (forall i, j :: 0 <= i < j < |b| && b[i] == '.' ==> b[j] != '.')
    && b != [] && b != ['.']
  }

  /** The digits before the first point, and those after it ("" when there is no point). */
  function IntPart(b: string): string {
    b[..IndexOf(b, '.')]
  }

  function FracPart(b: string): string {
    var k := IndexOf(b, '.');
    if k < |b| then b[k + 1..] else []
  }

  /** Both parts are digits and not both are empty. */
  predicate PartsOk(b: string) {
    AllDigits(IntPart(b)) && AllDigits(FracPart(b)) && |IntPart(b)| + |FracPart(b)| > 0
  }

  /** The grammar, read as the digits before and after the first point. */
  lemma DecimalBodyParts(b: string)
    ensures DecimalBody(b) <==> PartsOk(b)
  {
    if DecimalBody(b) {
      BodyToParts(b);
    }
    if PartsOk(b) {
      PartsToBody(b);
    }
  }

  lemma BodyToParts(b: string)
    requires DecimalBody(b)
    ensures PartsOk(b)
  {
    var k := IndexOf(b, '.');
    var ip := IntPart(b);
    var fp := FracPart(b);
    forall i | 0 <= i < k ensures IsDigit(ip[i]) {
      assert ip[i] == b[i] && ip[i] in b[..k];
    }
    if k < |b| {
      forall i | 0 <= i < |fp| ensures IsDigit(fp[i]) {
        assert fp[i] == b[k + 1 + i];
      }
    }
  }

  lemma PartsToBody(b: string)
    requires PartsOk(b)
    ensures DecimalBody(b)
  {
    var k := IndexOf(b, '.');
    var ip := IntPart(b);
    var fp := FracPart(b);
    forall i | 0 <= i < |b| ensures IsDigit(b[i]) || b[i] == '.' {
      if i < k {
        assert b[i] == ip[i];
      } else if i > k {
        assert b[i] == fp[i - k - 1];
      }
    }
    forall i, j | 0 <= i < j < |b| && b[i] == '.' ensures b[j] != '.' {
      assert b[j] == fp[j - k - 1];
    }
  }

  /** The unsigned reading of a body in the grammar. */
  function UnsignedDecimal(body: string): Option<real> {
    if PartsOk(body) then Some(DecimalMagnitude(IntPart(body), FracPart(body))) else None
  }

  /**
   * Python `float(s)` and JavaScript `Number(s)` on a stripped, non-empty
   * string: a sign, then the unsigned decimal grammar.
   */
  function ParseDecimal(s: string): (r: Option<real>)
    ensures r.Some? <==> DecimalBody(SplitSign(s).1)
    ensures r.Some? ==> |s| > 0
    ensures r.Some? ==> '.' in s || ParseInteger(s).Some?
  {
    var (neg, body) := SplitSign(s);
    DecimalBodyParts(body);
    assert PartsOk(body) && IndexOf(body, '.') == |body| ==> IntPart(body) == body;
    ApplySign(neg, UnsignedDecimal(body))
  }

  /** A minus sign negates a reading; a failed reading stays failed. */
  function ApplySign(neg: bool, u: Option<real>): Option<real> {
    match u
    case Some(mag) => Some(if neg then -mag else mag)
    case None => None
  }

  lemma ParseDecimalUnfold(s: string)
    ensures ParseDecimal(s) == ApplySign(SplitSign(s).0, UnsignedDecimal(SplitSign(s).1))
  {
  }

  /** `ip` `.` `fp` is read as the decimal those digits denote. */
  lemma UnsignedOfParts(ip: string, fp: string)
    requires AllDigits(ip) && AllDigits(fp) && |ip| + |fp| > 0
    ensures UnsignedDecimal(ip + ['.'] + fp) == Some(DecimalMagnitude(ip, fp))
  {
    var body := ip + ['.'] + fp;
    PointAfterDigits(ip, ['.'] + fp);
    assert body == ip + (['.'] + fp);
    assert IntPart(body) == ip;
    assert FracPart(body) == fp;
  }

  /** A sign, `ip` `.` `fp` reads as the decimal those digits denote, with its sign. */
  lemma ParseDecimalOfParts(sign: string, ip: string, fp: string)
    requires sign == [] || sign == ['+'] || sign == ['-']
    requires AllDigits(ip) && AllDigits(fp) && |ip| + |fp| > 0
    ensures ParseDecimal(sign + (ip + ['.'] + fp))
      == Some(if sign == ['-'] then -DecimalMagnitude(ip, fp) else DecimalMagnitude(ip, fp))
  {
    var body := ip + ['.'] + fp;
    var mag := DecimalMagnitude(ip, fp);
    assert ParseDecimal(sign + body) == ApplySign(sign == ['-'], Some(mag)) by {
      assert body[0] == (if ip == [] then '.' else ip[0]);
      SignedBody(sign, body);
      UnsignedOfParts(ip, fp);
      ParseDecimalUnfold(sign + body);
    }
  }

  /** A sign in front of text starting with a digit or a point splits off again. */
  lemma SignedBody(sign: string, body: string)
    requires sign == [] || sign == ['+'] || sign == ['-']
    requires body != [] && (IsDigit(body[0]) || body[0] == '.')
    ensures SplitSign(sign + body) == (sign == ['-'], body)
  {
    if sign == [] {
      assert sign + body == body;
    } else {
      assert (sign + body)[1..] == body;
    }
  }

  /** The first point after a run of digits is the one that ends the run. */
  lemma {:induction false} PointAfterDigits(ip: string, rest: string)
    requires AllDigits(ip) && rest != [] && rest[0] == '.'
    ensures IndexOf(ip + rest, '.') == |ip|
    decreases |ip|
  {
    if ip == [] {
      assert ip + rest == rest;
    } else {
      assert (ip + rest)[1..] == ip[1..] + rest;
      assert (ip + rest)[0] == ip[0] && IsDigit(ip[0]);
      PointAfterDigits(ip[1..], rest);
    }
  }

  /** Without a point, the decimal and the integer readings agree. */
  lemma DecimalOfInteger(s: string)
    requires '.' !in s
    ensures ParseDecimal(s).Some? <==> ParseInteger(s).Some?
    ensures ParseInteger(s).Some? ==> ParseDecimal(s) == Some(ParseInteger(s).value as real)
  {
    var (neg, body) := SplitSign(s);
    assert '.' !in body;
    assert IndexOf(body, '.') == |body|;
    assert body[..|body|] == body;
  }

  /** `float(str(i)) == i` for the integers. */
  lemma ParseDecimalOfInt(i: int)
    ensures ParseDecimal(IntToString(i)) == Some(i as real)
  {
    ParseIntegerRoundTrip(i);
    DigitsOfNatToString(if i < 0 then -i else i);
    var s := IntToString(i);
    assert '.' !in s by {
      if i < 0 {
        assert s[1..] == NatToString(-i);
        forall k | 0 <= k < |s| ensures s[k] != '.' {
          if k > 0 { assert IsDigit(s[1..][k - 1]); }
        }
      } else {
        forall k | 0 <= k < |s| ensures s[k] != '.' {
          assert IsDigit(s[k]);
        }
      }
    }
    DecimalOfInteger(s);
  }

  /**
   * JavaScript `parseInt(s, 10)`: leading blanks skipped, an optional sign,
   * then the longest run of digits; no digit at all is `NaN` (None).
   */
  function LeadingInt(s: string): (r: Option<int>)
    ensures var b := SplitSign(TrimStartWith(s, IsSpace)).1; r.Some? <==> |b| > 0 && IsDigit(b[0])
    ensures r.Some? ==> exists k :: 0 <= k < |s| && IsDigit(s[k])
  {
    var t := TrimStartWith(s, IsSpace);
    var (neg, body) := SplitSign(t);
    var n := DigitRunLength(body);
    if n == 0 then None
    else
      assert IsDigit(body[0]);
      assert body[0] in s;
      var v: int := DigitsValue(body[..n]);
      Some(if neg then -v else v)
  }

  /** A maximal leading digit run is the one `DigitRunLength` measures. */
  lemma {:induction false} MaximalRunIsRun(s: string, m: nat)
    requires m <= |s| && AllDigits(s[..m]) && (m == |s| || !IsDigit(s[m]))
    ensures m == DigitRunLength(s)
    decreases m
  {
    if m > 0 {
      assert s[..m][0] == s[0];
      var t := s[1..];
      assert t[..m - 1] == s[1..m];
      MaximalRunIsRun(t, m - 1);
    }
  }

  /**
   * `parseInt` reads the maximal run of digits after the sign: any `n` that
   * ends a digit prefix at a non-digit (or at the end) gives the value.
   */
  lemma LeadingIntMaximalRun(s: string, n: nat)
    requires var b := SplitSign(TrimStartWith(s, IsSpace)).1;
      0 < n <= |b| && AllDigits(b[..n]) && (n == |b| || !IsDigit(b[n]))
    ensures var (neg, b) := SplitSign(TrimStartWith(s, IsSpace));
      LeadingInt(s) == Some(if neg then -(DigitsValue(b[..n]) as int) else DigitsValue(b[..n]))
  {
    MaximalRunIsRun(SplitSign(TrimStartWith(s, IsSpace)).1, n);
  }

  /** Length of the run of digits that starts `s`. */
  function DigitRunLength(s: string): (n: nat)
    ensures n <= |s|
    ensures AllDigits(s[..n])
    ensures n < |s| ==> !IsDigit(s[n])
  {
    if s == [] || !IsDigit(s[0]) then 0
    else
      var m := 1 + DigitRunLength(s[1..]);
      assert s[..m] == [s[0]] + s[1..][..m - 1];
      m
  }

  /** On a plain integer rendering, `parseInt` reads the integer back. */
  lemma LeadingIntOfInt(i: int)
    ensures LeadingInt(IntToString(i)) == Some(i)
  {
    var m: nat := if i < 0 then -i else i;
    DigitsOfNatToString(m);
    var d := NatToString(m);
    assert DigitRunLength(d) == |d| by { AllDigitsRun(d); }
    assert d[..|d|] == d;
    var s := IntToString(i);
    assert !IsSpace(s[0]) by {
      if i >= 0 { assert IsDigit(d[0]); }
    }
    assert TrimStartWith(s, IsSpace) == s;
    if i >= 0 {
      assert IsDigit(d[0]);
    } else {
      assert SplitSign(s).1 == d;
    }
  }

  lemma {:induction false} AllDigitsRun(s: string)
    requires AllDigits(s)
    ensures DigitRunLength(s) == |s|
    decreases |s|
  {
    if s != [] {
      AllDigitsRun(s[1..]);
    }
  }
}

=== FILE: sponsorspage.dfy ===
/**
 * The sponsor page's local list of saved sponsors: the search filter, saving
 * (a new name is put in front, an existing name is overwritten once the user
 * confirms), deletion by id, and the attribute editor.
 *
 * Names are compared after ASCII and Latin-1 lower-casing. The id and date a save stamps
 * come from the clock and are parameters; the user's answer to a
 * confirmation dialog is a parameter too.
 */
module SponsorsPage {
  import opened Base
  import opened Text

  datatype Attribute =
    | Finances | Expectations | Patience | Reputation | Image | Negotiation
    | CurrentProgress | AverageProgress | Managers

  type Attributes = map<Attribute, real>

  /** The attribute panel as the page opens. */
  const InitialAttributes: Attributes := map[
    Finances := 2.0, Expectations := 6.0, Patience := 2.0, Reputation := 6.0, Image := 1.0,
    Negotiation := 3.0, CurrentProgress := 50.0, AverageProgress := 50.0, Managers := 1.0]

  datatype Sponsor = Sponsor(id: string, name: string, attributes: Attributes, date: string)

  /** `handleAttributeChange`: one attribute takes the new value. */
  function ChangeAttribute(a: Attributes, field: Attribute, value: real): (r: Attributes)
    ensures r.Keys == a.Keys + {field}
    ensures r[field] == value
    ensures forall f :: f in a && f != field ==> r[f] == a[f]
  {
    a[field := value]
  }

  /** Setting an attribute to the value it has changes nothing; setting it twice keeps the last value. */
  lemma ChangeAttributeLaws(a: Attributes, field: Attribute, v: real, w: real)
    ensures field in a ==> ChangeAttribute(a, field, a[field]) == a
    ensures ChangeAttribute(ChangeAttribute(a, field, v), field, w) == ChangeAttribute(a, field, w)
  {
  }

  // ---------------------------------------------------------------------------
  // Search

  /** The sponsor's name contains the typed text, ignoring letter case. */
  predicate NameMatches(s: Sponsor, typed: string) {
    Contains(Lower(s.name), Lower(typed))
  }

  /** The test the search filter drops a sponsor by. */
  function Misses(typed: string): Sponsor -> bool {
    (s: Sponsor) => !NameMatches(s, typed)
  }

  /** `filteredSponsors`: the saved sponsors whose name contains the typed text, in list order. */
  function FilterSponsors(list: seq<Sponsor>, typed: string): (r: seq<Sponsor>)
    ensures forall i :: 0 <= i < |r| ==> NameMatches(r[i], typed)
    ensures forall x :: x in r ==> x in list
    ensures forall i :: 0 <= i < |list| && NameMatches(list[i], typed) ==> list[i] in r
    ensures forall x :: multiset(r)[x] == if NameMatches(x, typed) then multiset(list)[x] else 0
  {
    var r := RemoveWhere(list, Misses(typed));
    forall x ensures multiset(r)[x] == if NameMatches(x, typed) then multiset(list)[x] else 0 {
      RemoveWhereMultiset(list, Misses(typed), x);
    }
    r
  }

  /** Filtering works piecewise, so the kept sponsors stay in list order. */
  lemma FilterKeepsOrder(a: seq<Sponsor>, b: seq<Sponsor>, typed: string)
    ensures FilterSponsors(a + b, typed) == FilterSponsors(a, typed) + FilterSponsors(b, typed)
  {
    RemoveWhereAppend(a, b, Misses(typed));
  }

  /** The empty text is contained in every name. */
  lemma ContainsEmpty<T>(s: seq<T>)
    ensures Contains(s, [])
  {
    assert IsPrefix([], s);
  }

  /** An empty search keeps the whole list. */
  lemma FilterEmptyKeepsAll(list: seq<Sponsor>)
    ensures FilterSponsors(list, "") == list
  {
    forall i | 0 <= i < |list| ensures NameMatches(list[i], "") {
      ContainsEmpty(Lower(list[i].name));
    }
    RemoveWhereNone(list, Misses(""));
  }

  // ---------------------------------------------------------------------------
  // Saving

  /** Two names are the same name when they agree after lower-casing. */
  predicate SameName(a: string, b: string) {
    Lower(a) == Lower(b)
  }

  /** A name matches itself written in capitals or in small letters, accented Latin-1 letters included. */
  lemma SameNameIgnoresCase(a: string)
    ensures SameName(Upper(a), a) && SameName(Lower(a), a)
  {
    forall i | 0 <= i < |a| ensures LowerChar(UpperChar(a[i])) == LowerChar(a[i]) && LowerChar(LowerChar(a[i])) == LowerChar(a[i]) {
      CaseRoundTrip(a[i]);
    }
    assert Lower(Upper(a)) == Lower(a);
    assert Lower(Lower(a)) == Lower(a);
  }

  /** Saving a name in another letter case finds the sponsor saved under the original. */
  lemma FindByNameIgnoresCase(list: seq<Sponsor>, name: string)
    ensures FindByName(list, Upper(name)) == FindByName(list, name)
  {
    SameNameIgnoresCase(name);
    FindSameName(list, Upper(name), name);
  }

  lemma {:induction false} FindSameName(list: seq<Sponsor>, a: string, b: string)
    requires SameName(a, b)
    ensures FindByName(list, a) == FindByName(list, b)
    decreases |list|
  {
    if list != [] {
      FindSameName(list[1..], a, b);
    }
  }

  /** `findIndex` of the first sponsor with the same name; -1 when there is none. */
  function FindByName(list: seq<Sponsor>, name: string): (r: int)
    ensures -1 <= r < |list|
    ensures r >= 0 ==> SameName(list[r].name, name)
    ensures forall i :: 0 <= i < |list| && (r == -1 || i < r) ==> !SameName(list[i].name, name)
  {
    if list == [] then -1
    else if SameName(list[0].name, name) then 0
    else
      var r := FindByName(list[1..], name);
      if r == -1 then -1 else r + 1
  }

  /** No two saved sponsors share a name. */
  predicate DistinctNames(list: seq<Sponsor>) {
    forall i, j :: 0 <= i < j < |list| ==> !SameName(list[i].name, list[j].name)
  }

  /**
   * `saveToDb`: a blank name changes nothing; a new name goes in front; an
   * existing name is overwritten in place when the user confirms.
   */
  function Save(list: seq<Sponsor>, name: string, attrs: Attributes, id: string, date: string,
                confirmed: bool): (r: seq<Sponsor>)
    ensures Trim(name) == "" ==> r == list
    ensures Trim(name) != "" && FindByName(list, name) == -1 ==>
      r == [Sponsor(id, name, attrs, date)] + list
    ensures Trim(name) != "" && FindByName(list, name) >= 0 ==>
      |r| == |list|
      && (confirmed ==> r == list[FindByName(list, name) := Sponsor(id, name, attrs, date)])
      && (!confirmed ==> r == list)
  {
    if Trim(name) == "" then list
    else
      var item := Sponsor(id, name, attrs, date);
      var k := FindByName(list, name);
      if k >= 0 then (if confirmed then list[k := item] else list)
      else [item] + list
  }

  /** Overwriting a sponsor with one of the same name keeps the names distinct. */
  lemma ReplaceKeepsDistinct(list: seq<Sponsor>, k: int, item: Sponsor)
    requires DistinctNames(list) && 0 <= k < |list| && SameName(item.name, list[k].name)
    ensures DistinctNames(list[k := item])
  {
    var r := list[k := item];
    forall i, j | 0 <= i < j < |r| ensures !SameName(r[i].name, r[j].name) {
      if i == k {
        assert !SameName(list[k].name, list[j].name);
      } else if j == k {
        assert !SameName(list[i].name, list[k].name);
      } else {
        assert r[i] == list[i] && r[j] == list[j];
      }
    }
  }

  /** Putting a sponsor of a new name in front keeps the names distinct. */
  lemma PrependKeepsDistinct(list: seq<Sponsor>, item: Sponsor)
    requires DistinctNames(list)
    requires forall i :: 0 <= i < |list| ==> !SameName(list[i].name, item.name)
    ensures DistinctNames([item] + list)
  {
    var r := [item] + list;
    forall i, j | 0 <= i < j < |r| ensures !SameName(r[i].name, r[j].name) {
      assert r[j] == list[j - 1];
      if i > 0 {
        assert r[i] == list[i - 1];
      }
    }
  }

  /** Saving keeps the names distinct: a new name did not occur, an overwrite keeps the name. */
  lemma SavePreservesDistinct(list: seq<Sponsor>, name: string, attrs: Attributes, id: string, date: string,
                              confirmed: bool)
    requires DistinctNames(list)
    ensures DistinctNames(Save(list, name, attrs, id, date, confirmed))
  {
    var k := FindByName(list, name);
    var item := Sponsor(id, name, attrs, date);
    if Trim(name) != "" && k >= 0 && confirmed {
      ReplaceKeepsDistinct(list, k, item);
    } else if Trim(name) != "" && k == -1 {
      PrependKeepsDistinct(list, item);
    }
  }

  /** After a confirmed save of a non-blank name the list holds exactly one sponsor of that name, the new one. */
  lemma SaveStoresItem(list: seq<Sponsor>, name: string, attrs: Attributes, id: string, date: string)
    requires DistinctNames(list) && Trim(name) != ""
    ensures var r := Save(list, name, attrs, id, date, true);
      exists k :: 0 <= k < |r| && r[k] == Sponsor(id, name, attrs, date)
        && forall i :: 0 <= i < |r| && i != k ==> !SameName(r[i].name, name)
  {
    var r := Save(list, name, attrs, id, date, true);
    var k := FindByName(list, name);
    SavePreservesDistinct(list, name, attrs, id, date, true);
    if k >= 0 {
      assert r[k] == Sponsor(id, name, attrs, date);
      forall i | 0 <= i < |r| && i != k ensures !SameName(r[i].name, name) {
        if i < k {
          assert !SameName(r[i].name, r[k].name);
        } else {
          assert !SameName(r[k].name, r[i].name);
        }
      }
    } else {
      assert r[0] == Sponsor(id, name, attrs, date);
      forall i | 0 < i < |r| ensures !SameName(r[i].name, name) {
        assert r[i] == list[i - 1];
      }
    }
  }

  // ---------------------------------------------------------------------------
  // Deleting

  /** The test deletion applies to each sponsor. */
  function HasId(id: string): Sponsor -> bool {
    (s: Sponsor) => s.id == id
  }

  /** `deleteFromDb`: once confirmed, every sponsor with the id is removed. */
  function Delete(list: seq<Sponsor>, id: string, confirmed: bool): (r: seq<Sponsor>)
    ensures !confirmed ==> r == list
    ensures confirmed ==> forall i :: 0 <= i < |r| ==> r[i].id != id
    ensures confirmed ==> forall x :: multiset(r)[x] == if x.id == id then 0 else multiset(list)[x]
  {
    if confirmed then
      var r := RemoveWhere(list, HasId(id));
      forall x ensures multiset(r)[x] == if x.id == id then 0 else multiset(list)[x] {
        RemoveWhereMultiset(list, HasId(id), x);
      }
      r
    else list
  }

  /** Deletion works piecewise, so the kept sponsors stay in their order. */
  lemma DeleteKeepsOrder(a: seq<Sponsor>, b: seq<Sponsor>, id: string)
    ensures Delete(a + b, id, true) == Delete(a, id, true) + Delete(b, id, true)
    ensures forall x: Sponsor :: x.id != id ==> Delete([x], id, true) == [x]
  {
    RemoveWhereAppend(a, b, HasId(id));
  }

  /** Deletion keeps the names distinct. */
  lemma DeletePreservesDistinct(list: seq<Sponsor>, id: string, confirmed: bool)
    requires DistinctNames(list)
    ensures DistinctNames(Delete(list, id, confirmed))
  {
    if confirmed {
      DeleteSubsequence(list, id);
    }
  }

  lemma {:induction false} DeleteSubsequence(list: seq<Sponsor>, id: string)
    requires DistinctNames(list)
    ensures DistinctNames(RemoveWhere(list, HasId(id)))
    decreases |list|
  {
    if list != [] {
      var t := list[1..];
      assert DistinctNames(t) by {
        forall i, j | 0 <= i < j < |t| ensures !SameName(t[i].name, t[j].name) {
          assert t[i] == list[i + 1] && t[j] == list[j + 1];
        }
      }
      DeleteSubsequence(t, id);
      if list[0].id != id {
        var rest := RemoveWhere(t, HasId(id));
        var r := [list[0]] + rest;
        forall i, j | 0 <= i < j < |r| ensures !SameName(r[i].name, r[j].name) {
          if i == 0 {
            assert r[j] in t;
            var m :| 0 <= m < |t| && t[m] == r[j];
            assert list[m + 1] == r[j];
          } else {
            assert r[i] == rest[i - 1] && r[j] == rest[j - 1];
          }
        }
      }
    }
  }
}

=== FILE: sponsorsroute.dfy ===
/**
 * The sponsor negotiation helper (`app/api/sponsors/route.js`): two small
 * tables read from the calculator workbook, and the reply that looks the
 * five negotiation answers up in them and computes the progress difference.
 *
 * Cells hold JavaScript values as ExcelJS reports them; ExcelJS numbers
 * columns from 1, so column `n` of the route is the model's column `n - 1`.
 * Reading the file is a parameter: a `Result` that is either the workbook or
 * the error that made the request fail.
 */
module SponsorsRoute {
  import opened Base
  import opened Text
  import opened Cells
  import opened JsValues

  const PrimarySheet: string := "Patrocinador"
  const FallbackSheet: string := "Patrocinador 1"
  const TablesSheet: string := "Tables"

  /** The answer table occupies rows 37 to 43 of columns O to T. */
  const RefRowStart: int := 37
  const RefRowEnd: int := 43
  const ColKey: int := 15
  const ColExpect: int := 16
  const ColPop: int := 17
  const ColAmount: int := 18
  const ColDuration: int := 19
  const ColArea: int := 20

  /** The opponent table: managers in AC, progress in AD, rows 28 to 30. */
  const OppRowStart: int := 28
  const OppRowEnd: int := 30
  const ColManagers: int := 29
  const ColProgress: int := 30

  const Placeholder: string := "..."
  const ReadError: string := "Erro Leitura Excel"

  /** The workbook: the names of its worksheets and the values of its cells. */
  datatype Book = Book(sheets: set<string>, cells: Workbook<JsVal>)

  /** `row.getCell(col).value` with ExcelJS's 1-based column; an empty cell is undefined. */
  function CellValue(book: Book, sheet: string, col: int, row: int): JsVal {
    var a := Addr(sheet, col - 1, row);
    if a in book.cells then book.cells[a] else Undefined
  }

  /** The route's column numbers name the columns O to T and AC, AD. */
  lemma ColumnNumbersNameLetters()
    ensures ColKey - 1 == ColumnIndex("O") && ColExpect - 1 == ColumnIndex("P")
    ensures ColPop - 1 == ColumnIndex("Q") && ColAmount - 1 == ColumnIndex("R")
    ensures ColDuration - 1 == ColumnIndex("S") && ColArea - 1 == ColumnIndex("T")
    ensures ColManagers - 1 == ColumnIndex("AC") && ColProgress - 1 == ColumnIndex("AD")
  {
    SingleLetterIndex('O');
    SingleLetterIndex('P');
    SingleLetterIndex('Q');
    SingleLetterIndex('R');
    SingleLetterIndex('S');
    SingleLetterIndex('T');
    TwoLetters('C');
    TwoLetters('D');
  }

  // ---------------------------------------------------------------------------
  // Reading cells

  /**
   * `extractValue`: an empty cell is null, a primitive is itself, and an
   * object gives its result, its joined rich text, its text, or its rendering.
   */
  function Extract(v: JsVal): (r: JsVal)
    ensures !r.Undefined?
    ensures v.Undefined? || v.Null? ==> r == Null
    ensures !v.Undefined? && !IsObjectType(v) ==> r == v
  {
    match v
    case Undefined => Null
    case Null => Null
    case Obj(o) =>
      if !o.result.Undefined? then o.result
      else if o.richText.Some? then Str(Concat(o.richText.value))
      else if Truthy(o.text) then o.text
      else Str(ObjectText)
    case _ => v
  }

  const ObjectText: string := "[object Object]"

  /**
   * `String(v)`. Numbers render as integers; the rendering of a fractional
   * number is outside the model (None).
   */
  function JsText(v: JsVal): (r: Option<string>)
    ensures !v.Num? ==> r.Some?
    ensures v.Str? ==> r == Some(v.s)
    ensures v.Num? ==> (r.Some? <==> v.x.Floor as real == v.x)
  {
    match v
    case Undefined => Some("undefined")
    case Null => Some("null")
    case Bool(b) => Some(if b then "true" else "false")
    case Num(x) => if x.Floor as real == x then Some(IntToString(x.Floor)) else None
    case NaN => Some("NaN")
    case Str(s) => Some(s)
    case Obj(_) => Some(ObjectText)
  }

  /** `String(v || "...")`: a falsy value (empty text, 0, null) reads as "...". */
  function AnswerText(v: JsVal): (r: string)
    ensures r != ""
    ensures !Truthy(v) ==> r == Placeholder
    ensures v.Str? && v.s != "" ==> r == v.s
  {
    if !Truthy(v) then Placeholder
    else match JsText(v)
      case Some(s) => if v.Str? then s else (if s == "" then Placeholder else s)
      case None => Placeholder
  }

  // ---------------------------------------------------------------------------
  // The answer table

  /** The five answers a row of the table gives. */
  datatype Answers = Answers(expectation: string, pop: string, amount: string, duration: string, area: string)

  datatype Question = Area | Expect | Pop | Amount | Duration

  function Answer(a: Answers, q: Question): string {
    match q
    case Area => a.area
    case Expect => a.expectation
    case Pop => a.pop
    case Amount => a.amount
    case Duration => a.duration
  }

  /** Every answer of the row is a non-empty text. */
  predicate Filled(a: Answers) {
    a.expectation != "" && a.pop != "" && a.amount != "" && a.duration != "" && a.area != ""
  }

  /** The key of a table row: its column-O value as trimmed text; None when the cell is null. */
  function RowKey(book: Book, sheet: string, row: int): Option<string> {
    var raw := Extract(CellValue(book, sheet, ColKey, row));
    if raw.Null? then None
    else match JsText(raw)
      case Some(s) => Some(Trim(s))
      case None => None
  }

  /** The answers of a table row, columns P to T. */
  function RowAnswers(book: Book, sheet: string, row: int): (a: Answers)
    ensures Filled(a)
  {
    Answers(
      AnswerText(Extract(CellValue(book, sheet, ColExpect, row))),
      AnswerText(Extract(CellValue(book, sheet, ColPop, row))),
      AnswerText(Extract(CellValue(book, sheet, ColAmount, row))),
      AnswerText(Extract(CellValue(book, sheet, ColDuration, row))),
      AnswerText(Extract(CellValue(book, sheet, ColArea, row))))
  }

  /** A row as `loadTables` reads it: its key (None when null) and its answers. */
  datatype Row = Row(key: Option<string>, answers: Answers)

  /** The rows `rows` of `sheet`. */
  function ReadRows(book: Book, sheet: string, rows: seq<int>): (r: seq<Row>)
    ensures |r| == |rows|
    ensures forall i :: 0 <= i < |rows| ==> r[i] == Row(RowKey(book, sheet, rows[i]), RowAnswers(book, sheet, rows[i]))
  {
    seq(|rows|, i requires 0 <= i < |rows| => Row(RowKey(book, sheet, rows[i]), RowAnswers(book, sheet, rows[i])))
  }

  /** The table built from the rows in order; a later row with the same key replaces an earlier one. */
  function BuildAnswers(rows: seq<Row>): (t: map<string, Answers>)
    ensures (forall i :: 0 <= i < |rows| ==> Filled(rows[i].answers)) ==> forall k :: k in t ==> Filled(t[k])
  {
    if rows == [] then map[]
    else
      var prev := BuildAnswers(rows[..|rows| - 1]);
      var last := rows[|rows| - 1];
      match last.key
      case None => prev
      case Some(k) => prev[k := last.answers]
  }

  /** Some row carries the key `k`. */
  predicate KeyedRow(rows: seq<Row>, k: string) {
    exists j :: 0 <= j < |rows| && rows[j].key == Some(k)
  }

  /** The table's keys are exactly the keys of its rows. */
  lemma {:induction false} BuildAnswersKeys(rows: seq<Row>, k: string)
    ensures k in BuildAnswers(rows) <==> KeyedRow(rows, k)
  {
    if rows != [] {
      var p := rows[..|rows| - 1];
      BuildAnswersKeys(p, k);
      if KeyedRow(p, k) {
        var j :| 0 <= j < |p| && p[j].key == Some(k);
        assert rows[j] == p[j];
      }
      if KeyedRow(rows, k) && rows[|rows| - 1].key != Some(k) {
        var j :| 0 <= j < |rows| && rows[j].key == Some(k);
        assert p[j] == rows[j];
      }
    }
  }

  /** Row `j` is the last row whose key is `k`. */
  predicate LastKeyedRow(rows: seq<Row>, j: int, k: string) {
    && 0 <= j < |rows| && rows[j].key == Some(k)
    && forall i :: j < i < |rows| ==> rows[i].key != Some(k)
  }

  /** A key takes the answers of the last row that carries it. */
  lemma {:induction false} BuildAnswersLast(rows: seq<Row>, j: int, k: string)
    requires LastKeyedRow(rows, j, k)
    ensures k in BuildAnswers(rows)
    ensures BuildAnswers(rows)[k] == rows[j].answers
  {
    if j < |rows| - 1 {
      var p := rows[..|rows| - 1];
      assert p[j] == rows[j];
      assert LastKeyedRow(p, j, k);
      BuildAnswersLast(p, j, k);
    }
  }

  function Range(lo: int, hi: int): (r: seq<int>)
    ensures |r| == if lo <= hi then hi - lo + 1 else 0
    ensures forall i :: 0 <= i < |r| ==> r[i] == lo + i
    decreases hi - lo
  {
    if lo > hi then [] else [lo] + Range(lo + 1, hi)
  }

  /** The sheet the answers come from: the primary name, else the fallback. */
  function AnswerSheet(book: Book): Option<string> {
    if PrimarySheet in book.sheets then Some(PrimarySheet)
    else if FallbackSheet in book.sheets then Some(FallbackSheet)
    else None
  }

  /** The rows 37 to 43 of the answer sheet; none without it. */
  function AnswerRows(book: Book): (r: seq<Row>)
    ensures forall i :: 0 <= i < |r| ==> Filled(r[i].answers)
  {
    match AnswerSheet(book)
    case None => []
    case Some(sheet) => ReadRows(book, sheet, Range(RefRowStart, RefRowEnd))
  }

  /** The answer table of `loadTables`; without either sheet it is empty, never missing. */
  function LoadAnswers(book: Book): (t: map<string, Answers>)
    ensures AnswerSheet(book).None? ==> t == map[]
    ensures forall k :: k in t ==> Filled(t[k])
  {
    BuildAnswers(AnswerRows(book))
  }

  // ---------------------------------------------------------------------------
  // The opponent table

  /** The opponent table from `rows`: managers rendered as text, progress through `Number`. */
  function BuildOpponents(book: Book, rows: seq<int>): (t: map<string, JsVal>)
    ensures forall k :: k in t ==> t[k].Num? || t[k].NaN?
    ensures forall k :: k in t ==> exists j :: 0 <= j < |rows| && OpponentKey(book, rows[j]) == Some(k)
  {
    if rows == [] then map[]
    else
      var prev := BuildOpponents(book, rows[..|rows| - 1]);
      var row := rows[|rows| - 1];
      match OpponentKey(book, row)
      case None => prev
      case Some(k) => prev[k := ToNumber(Extract(CellValue(book, TablesSheet, ColProgress, row)))]
  }

  /** The managers cell of a row as a key; None when it is null. */
  function OpponentKey(book: Book, row: int): Option<string> {
    var m := Extract(CellValue(book, TablesSheet, ColManagers, row));
    if m.Null? then None else JsText(m)
  }

  function LoadOpponents(book: Book): (t: map<string, JsVal>)
    ensures TablesSheet !in book.sheets ==> t == map[]
  {
    if TablesSheet in book.sheets then BuildOpponents(book, Range(OppRowStart, OppRowEnd)) else map[]
  }

  // ---------------------------------------------------------------------------
  // POST

  /** The row index `lookup` reads: `Math.round(Number(v))` clamped to 1..7; None for NaN. */
  function LookupIndex(v: JsVal): (r: Option<int>)
    ensures r.Some? <==> ToNumber(v).Num?
    ensures r.Some? ==> 1 <= r.value <= 7
    ensures r.Some? && 1 <= Round(ToNumber(v).x) <= 7 ==> r.value == Round(ToNumber(v).x)
    ensures r.Some? && Round(ToNumber(v).x) < 1 ==> r.value == 1
    ensures r.Some? && Round(ToNumber(v).x) > 7 ==> r.value == 7
  {
    match ToNumber(v)
    case Num(x) => Some(Min(Max(Round(x), 1), 7))
    case _ => None
  }

  /** The key text `lookup` uses: the clamped index, or "NaN". */
  function LookupKey(v: JsVal): string {
    match LookupIndex(v)
    case Some(i) => IntToString(i)
    case None => "NaN"
  }

  /** `lookup(val, type)`: the error text without a table, "..." for a key without a row. */
  function Lookup(table: Option<map<string, Answers>>, v: JsVal, q: Question): (r: string)
    ensures table.None? ==> r == ReadError
    ensures table.Some? && LookupKey(v) !in table.value ==> r == Placeholder
    ensures table.Some? && LookupKey(v) in table.value ==> r == Answer(table.value[LookupKey(v)], q)
    ensures table.Some? && (forall k :: k in table.value ==> Filled(table.value[k])) ==> r != ""
  {
    match table
    case None => ReadError
    case Some(t) => if LookupKey(v) in t then Answer(t[LookupKey(v)], q) else Placeholder
  }

  datatype Stats = Stats(diff: real, opponentProgress: real)

  /** The difference of the two weighted progress figures, each offset by 100. */
  function Diff(current: real, average: real, managers: real): (d: real)
    ensures d == (current - average) * managers
  {
    (current * managers - 100.0) - (average * managers - 100.0)
  }
  datatype Reply = Reply(answers: seq<string>, stats: Stats)

  /** `Number(body.managers) || 1`. */
  function Managers(body: map<string, JsVal>): (m: real)
    ensures m != 0.0
    ensures !ToNumber(Member(body, "managers")).Num? ==> m == 1.0
    ensures Member(body, "managers") == Num(0.0) ==> m == 1.0
  {
    NumberOr(Member(body, "managers"), 1.0)
  }

  /** `cachedOpponentTable[String(managers)] || 0`, read as a number. */
  function OpponentProgress(opp: map<string, JsVal>, managers: real): (r: real)
    ensures JsText(Num(managers)).None? ==> r == 0.0
    ensures JsText(Num(managers)).Some? && JsText(Num(managers)).value !in opp ==> r == 0.0
    ensures JsText(Num(managers)).Some? && JsText(Num(managers)).value in opp ==>
      r == (match opp[JsText(Num(managers)).value] case Num(x) => x case _ => 0.0)
  {
    match JsText(Num(managers))
    case None => 0.0
    case Some(k) =>
      if k in opp then
        match Or(opp[k], Num(0.0))
        case Num(x) => x
        case _ => 0.0
      else 0.0
  }

  /** The five answers, in the order the page asks them. */
  function AnswerList(table: Option<map<string, Answers>>, body: map<string, JsVal>): (r: seq<string>)
    ensures |r| == 5
    ensures r[0] == Lookup(table, Member(body, "image"), Area)
    ensures r[1] == Lookup(table, Member(body, "expectations"), Expect)
    ensures r[2] == Lookup(table, Member(body, "image"), Pop)
    ensures r[3] == Lookup(table, Member(body, "patience"), Amount)
    ensures r[4] == Lookup(table, Member(body, "patience"), Duration)
    ensures table.Some? && (forall k :: k in table.value ==> Filled(table.value[k])) ==>
      forall i :: 0 <= i < 5 ==> r[i] != ""
  {
    [ Lookup(table, Member(body, "image"), Area),
      Lookup(table, Member(body, "expectations"), Expect),
      Lookup(table, Member(body, "image"), Pop),
      Lookup(table, Member(body, "patience"), Amount),
      Lookup(table, Member(body, "patience"), Duration) ]
  }

  /**
   * `POST`: a workbook that cannot be read fails the request; otherwise the
   * reply holds the five answers and the progress figures.
   */
  function Post(book: Result<Book>, body: map<string, JsVal>): (r: Result<Reply>)
    ensures book.Err? ==> r == Err(book.msg)
    ensures book.Ok? ==> r.Ok? && |r.value.answers| == 5
    ensures book.Ok? ==> forall i :: 0 <= i < 5 ==> r.value.answers[i] != ""
    ensures book.Ok? ==> r.value.stats.diff == Diff(
      NumberOr(Member(body, "currentProgress"), 0.0), NumberOr(Member(body, "averageProgress"), 0.0), Managers(body))
  {
    match book
    case Err(e) => Err(e)
    case Ok(b) =>
      var b9 := NumberOr(Member(body, "currentProgress"), 0.0);
      var b10 := NumberOr(Member(body, "averageProgress"), 0.0);
      var b11 := Managers(body);
      Ok(Reply(AnswerList(Some(LoadAnswers(b)), body), Stats(Diff(b9, b10, b11), OpponentProgress(LoadOpponents(b), b11))))
  }

  /**
   * The area answer is column T of the last table row whose key is the
   * clamped image rating, and "..." when no row has that key.
   */
  lemma PostReadsRow(book: Book, body: map<string, JsVal>, j: int)
    requires LastKeyedRow(AnswerRows(book), j, LookupKey(Member(body, "image")))
    ensures Post(Ok(book), body).value.answers[0] == AnswerRows(book)[j].answers.area
  {
    BuildAnswersLast(AnswerRows(book), j, LookupKey(Member(body, "image")));
  }

  /** Without a row keyed by the clamped image rating the area answer is "...". */
  lemma PostMissingRow(book: Book, body: map<string, JsVal>)
    requires !KeyedRow(AnswerRows(book), LookupKey(Member(body, "image")))
    ensures Post(Ok(book), body).value.answers[0] == Placeholder
  {
    BuildAnswersKeys(AnswerRows(book), LookupKey(Member(body, "image")));
  }
}

=== FILE: testspage.dfy ===
/**
 * The test-session page: eight stint lap fields that can be locked (freezing
 * the result shown under them), the number of stint columns shown, the lap
 * total, the minimum-laps rule applied when a field loses focus, the risk that
 * follows the chosen test priority and the tyre-supplier carousel.
 *
 * The results under the stints come from the simulation endpoint; here they
 * are opaque values that a recalculation replaces wholesale.
 */
module TestsPage {
  import opened Base
  import opened Numbers

  const StintCount: nat := 8
  const MaxStintLaps: int := 50
  const MaxTotalLaps: int := 100
  const MinStintLaps: int := 5

  /** A stint field holds "", a number `parseInt` produced, or `NaN`. */
  datatype Stint = Blank | Laps(n: int) | NotANumber

  /** `Number(v) || 0`: the laps a field counts for. */
  function LapValue(s: Stint): int {
    match s
    case Laps(n) => n
    case _ => 0
  }

  /** `totalLaps`: the laps of all stints. */
  function Sum(s: seq<Stint>): int {
    if s == [] then 0 else Sum(s[..|s| - 1]) + LapValue(s[|s| - 1])
  }

  /** The laps of every stint but the one at `k`. */
  function SumExcept(s: seq<Stint>, k: int): int {
    if s == [] then 0
    else SumExcept(s[..|s| - 1], k) + (if |s| - 1 == k then 0 else LapValue(s[|s| - 1]))
  }

  /** The total is the others' laps plus the stint's own. */
  lemma {:induction false} SumSplit(s: seq<Stint>, k: int)
    requires 0 <= k < |s|
    ensures Sum(s) == SumExcept(s, k) + LapValue(s[k])
  {
    var p := s[..|s| - 1];
    if k < |s| - 1 {
      SumSplit(p, k);
      assert p[k] == s[k];
    } else {
      SumExceptBeyond(p, k);
    }
  }

  /** A stint past the end of the list takes nothing out of the total. */
  lemma {:induction false} SumExceptBeyond(s: seq<Stint>, k: int)
    requires |s| <= k
    ensures SumExcept(s, k) == Sum(s)
  {
    if s != [] {
      SumExceptBeyond(s[..|s| - 1], k);
    }
  }

  /** The others' laps do not depend on what stint `k` holds. */
  lemma {:induction false} SumExceptUpdate(s: seq<Stint>, k: int, x: Stint)
    requires 0 <= k < |s|
    ensures SumExcept(s[k := x], k) == SumExcept(s, k)
  {
    var t := s[k := x];
    if k < |s| - 1 {
      SumExceptUpdate(s[..|s| - 1], k, x);
      assert t[..|t| - 1] == s[..|s| - 1][k := x];
    } else {
      assert t[..|t| - 1] == s[..|s| - 1];
    }
  }

  /** Changing one stint changes the total by the difference of its laps. */
  lemma SumUpdate(s: seq<Stint>, k: int, x: Stint)
    requires 0 <= k < |s|
    ensures Sum(s[k := x]) == Sum(s) - LapValue(s[k]) + LapValue(x)
  {
    SumSplit(s, k);
    SumSplit(s[k := x], k);
    SumExceptUpdate(s, k, x);
  }

  // ---------------------------------------------------------------------------
  // Visible stints

  /** Stint `j` has laps and the running total through it stays under 100. */
  predicate Opens(s: seq<Stint>, j: int)
    requires 0 <= j < |s|
  {
    LapValue(s[j]) > 0 && Sum(s[..j + 1]) < MaxTotalLaps
  }

  /**
   * `visibleStintsCount`: one column, plus one for each of the leading stints
   * among the first seven that has laps while the running total stays under 100.
   */
  method VisibleStintsCount(s: seq<Stint>) returns (count: int)
    requires |s| == StintCount
    ensures 1 <= count <= StintCount
    ensures forall j :: 0 <= j < count - 1 ==> Opens(s, j)
    ensures count < StintCount ==> !Opens(s, count - 1)
  {
    count := 1;
    var sum := 0;
    var i := 1;
    while i < StintCount
      invariant 1 <= i <= StintCount
      invariant count == i
      invariant sum == Sum(s[..i - 1])
      invariant forall j :: 0 <= j < count - 1 ==> Opens(s, j)
    {
      var v := LapValue(s[i - 1]);
      sum := sum + v;
      assert s[..i][..i - 1] == s[..i - 1];
      assert sum == Sum(s[..i]);
      if sum < MaxTotalLaps && v > 0 {
        assert Opens(s, count - 1);
        count := count + 1;
      } else {
        break;
      }
      i := i + 1;
    }
  }

  // ---------------------------------------------------------------------------
  // Editing the stints

  /** `parseInt(value)` of a non-empty field, or "" kept as it is. */
  function Typed(value: string): (r: Stint)
    ensures value == [] <==> r == Blank
    ensures r.NotANumber? <==> value != [] && LeadingInt(value).None?
  {
    if value == [] then Blank
    else match LeadingInt(value)
      case Some(n) => Laps(n)
      case None => NotANumber
  }

  /** A stint is locked when its flag is set; a missing flag is unlocked. */
  predicate IsLocked(locked: map<int, bool>, i: int) {
    i in locked && locked[i]
  }

  /**
   * `handleStintChange`: a locked stint ignores the edit; a number is capped
   * at 50 and then lowered to what is left of the 100 laps.
   */
  function EditStint(s: seq<Stint>, locked: map<int, bool>, k: int, value: string): (r: seq<Stint>)
    requires 0 <= k < |s|
    ensures IsLocked(locked, k) ==> r == s
    ensures |r| == |s| && forall j :: 0 <= j < |s| && j != k ==> r[j] == s[j]
    ensures !IsLocked(locked, k) && !Typed(value).Laps? ==> r[k] == Typed(value)
    ensures !IsLocked(locked, k) && Typed(value).Laps? ==>
      && r[k].Laps?
      && r[k].n <= MaxStintLaps && r[k].n <= Typed(value).n
      && Sum(r) <= MaxTotalLaps
      && (r[k].n == Min(Typed(value).n, MaxStintLaps) || Sum(r) == MaxTotalLaps)
  {
    if IsLocked(locked, k) then s
    else
      var t := Typed(value);
      match t
      case Laps(n) =>
        var capped := if n > MaxStintLaps then MaxStintLaps else n;
        var others := SumExcept(s, k);
        var v := if others + capped > MaxTotalLaps then MaxTotalLaps - others else capped;
        SumUpdate(s, k, Laps(v));
        SumSplit(s, k);
        s[k := Laps(v)]
      case _ => s[k := t]
  }

  /**
   * When the other stints already hold more than 100 laps (the minimum-laps
   * rule can cause that), any number typed into a stint becomes a negative lap count.
   */
  lemma EditAfterOverflowGoesNegative(s: seq<Stint>, locked: map<int, bool>, k: int, value: string)
    requires 0 <= k < |s| && !IsLocked(locked, k)
    requires SumExcept(s, k) > MaxTotalLaps
    requires Typed(value).Laps? && Typed(value).n >= 0
    ensures EditStint(s, locked, k, value)[k].n < 0
  {
    var r := EditStint(s, locked, k, value);
    SumSplit(r, k);
    SumExceptUpdate(s, k, r[k]);
  }

  /** `Number(v)` of a field: "" is 0, `NaN` is not a number. */
  function NumberOf(s: Stint): Option<int> {
    match s
    case Blank => Some(0)
    case Laps(n) => Some(n)
    case NotANumber => None
  }

  /** `validateMinLaps`: a field holding 1 to 4 laps is raised to 5; nothing else changes. */
  function ValidateMinLaps(s: seq<Stint>, k: int): (r: seq<Stint>)
    requires 0 <= k < |s|
    ensures |r| == |s| && forall j :: 0 <= j < |s| && j != k ==> r[j] == s[j]
    ensures r[k] != s[k] <==> s[k].Laps? && 0 < s[k].n < MinStintLaps
    ensures r[k] != s[k] ==> r[k] == Laps(MinStintLaps)
  {
    match NumberOf(s[k])
    case Some(v) => if 0 < v < MinStintLaps then s[k := Laps(MinStintLaps)] else s
    case None => s
  }

  /** The minimum-laps rule ignores the 100-lap budget: it can raise a full total past 100. */
  lemma ValidateCanExceedBudget(s: seq<Stint>, k: int)
    requires 0 <= k < |s| && Sum(s) == MaxTotalLaps
    requires s[k].Laps? && 0 < s[k].n < MinStintLaps
    ensures Sum(ValidateMinLaps(s, k)) > MaxTotalLaps
  {
    SumUpdate(s, k, Laps(MinStintLaps));
  }

  // ---------------------------------------------------------------------------
  // Locking and the results shown

  /** One simulated stint result (its wear and fuel). */
  datatype StintResult = StintResult(wear: real, fuel: real)

  datatype TestsState = TestsState(
    stints: seq<Stint>,
    locked: map<int, bool>,
    frozen: seq<Option<StintResult>>,
    results: seq<StintResult>)

  const InitialResults: seq<StintResult> := seq(8, _ => StintResult(0.0, 0.0))

  /** The page as it opens: ten laps in the first stint, nothing locked. */
  function InitialTests(): (st: TestsState)
    ensures |st.stints| == StintCount && Sum(st.stints) == 10
    ensures Invariant(st)
  {
    var stints := [Laps(10)] + seq(7, _ => Blank);
    assert Sum(stints) == 10 by {
      assert stints[..1] == [Laps(10)];
      BlanksAdd(stints, 1);
    }
    TestsState(stints, map[], seq(8, _ => None), InitialResults)
  }

  /** Blank fields add nothing to the total. */
  lemma {:induction false} BlanksAdd(s: seq<Stint>, n: nat)
    requires n <= |s| && forall j :: n <= j < |s| ==> s[j] == Blank
    ensures Sum(s) == Sum(s[..n])
    decreases |s|
  {
    if |s| > n {
      BlanksAdd(s[..|s| - 1], n);
      assert s[..|s| - 1][..n] == s[..n];
    } else {
      assert s[..n] == s;
    }
  }

  /** Eight stints, eight result slots, and a frozen result under every locked stint. */
  predicate Invariant(st: TestsState) {
    && |st.stints| == StintCount && |st.frozen| == StintCount && |st.results| == StintCount
    && forall i :: 0 <= i < StintCount && IsLocked(st.locked, i) ==> st.frozen[i].Some?
  }

  /** The result shown under stint `i`: the frozen one while locked, the live one otherwise. */
  function Shown(st: TestsState, i: int): Option<StintResult>
    requires 0 <= i < |st.frozen| && i < |st.results|
  {
    if IsLocked(st.locked, i) then st.frozen[i] else Some(st.results[i])
  }

  /** `toggleLock`: locking copies the live result into the frozen slot; either way only the flag of `i` flips. */
  function ToggleLock(st: TestsState, i: int): (r: TestsState)
    requires 0 <= i < |st.frozen| && i < |st.results|
    ensures IsLocked(r.locked, i) == !IsLocked(st.locked, i)
    ensures forall j :: j != i ==> IsLocked(r.locked, j) == IsLocked(st.locked, j)
    ensures !IsLocked(st.locked, i) ==> r.frozen == st.frozen[i := Some(st.results[i])]
    ensures IsLocked(st.locked, i) ==> r.frozen == st.frozen
    ensures r.stints == st.stints && r.results == st.results
    ensures Invariant(st) ==> Invariant(r)
  {
    var was := IsLocked(st.locked, i);
    var frozen := if !was then st.frozen[i := Some(st.results[i])] else st.frozen;
    st.(locked := st.locked[i := !was], frozen := frozen)
  }

  /** Locking a stint keeps the result under it as it was, whatever later recalculations bring. */
  lemma LockFreezesShown(st: TestsState, i: int, results: seq<StintResult>)
    requires Invariant(st) && 0 <= i < StintCount && !IsLocked(st.locked, i)
    requires |results| == StintCount
    ensures Shown(ToggleLock(st, i), i) == Shown(st, i)
    ensures Shown(Recalculated(ToggleLock(st, i), results), i) == Shown(st, i)
  {
  }

  /** Unlocking shows the live result again. */
  lemma UnlockShowsLive(st: TestsState, i: int)
    requires Invariant(st) && 0 <= i < StintCount && IsLocked(st.locked, i)
    ensures Shown(ToggleLock(st, i), i) == Some(st.results[i])
  {
  }

  /** A recalculation replaces the live results and nothing else. */
  function Recalculated(st: TestsState, results: seq<StintResult>): (r: TestsState)
    requires |results| == |st.results|
    ensures Invariant(st) ==> Invariant(r)
    ensures r.stints == st.stints && r.locked == st.locked && r.frozen == st.frozen
  {
    st.(results := results)
  }

  /** Editing a stint field, with the lock checked. */
  function Edit(st: TestsState, k: int, value: string): (r: TestsState)
    requires Invariant(st) && 0 <= k < StintCount
    ensures Invariant(r)
    ensures IsLocked(st.locked, k) ==> r == st
    ensures r.locked == st.locked && r.frozen == st.frozen && r.results == st.results
  {
    st.(stints := EditStint(st.stints, st.locked, k, value))
  }

  /** A field losing focus; the rule does not look at the lock. */
  function Blur(st: TestsState, k: int): (r: TestsState)
    requires Invariant(st) && 0 <= k < StintCount
    ensures Invariant(r)
    ensures r.locked == st.locked && r.frozen == st.frozen && r.results == st.results
  {
    st.(stints := ValidateMinLaps(st.stints, k))
  }

  // ---------------------------------------------------------------------------
  // Risk and supplier

  const LimitsPriority: string := "Testar os limites do carro"

  /** The inputs sent with each simulation. */
  datatype Inputs = Inputs(temp: real, risk: int, pits: int)

  const InitialInputs: Inputs := Inputs(24.4, 80, 1)

  /** Choosing a priority sets the risk: 100 for testing the car's limits, 80 otherwise. */
  function ApplyPriority(inputs: Inputs, priority: string): (r: Inputs)
    ensures r.risk == 100 <==> priority == LimitsPriority
    ensures r.risk == 100 || r.risk == 80
    ensures r.temp == inputs.temp && r.pits == inputs.pits
  {
    inputs.(risk := if priority == LimitsPriority then 100 else 80)
  }

  const SupplierCount: int := 9

  /** JavaScript `a % b` for `b > 0`: the remainder takes the sign of `a`. */
  function JsRem(a: int, b: int): (r: int)
    requires b > 0
    ensures a >= 0 ==> 0 <= r < b
    ensures a < 0 ==> -b < r <= 0
    ensures a >= 0 ==> r == a % b
  {
    if a >= 0 then a % b else -((-a) % b)
  }

  /** The right arrow of the carousel. */
  function NextSupplier(i: int): (r: int)
    ensures i >= -1 ==> 0 <= r < SupplierCount
    ensures 0 <= i < SupplierCount - 1 ==> r == i + 1
    ensures i == SupplierCount - 1 ==> r == 0
  {
    JsRem(i + 1, SupplierCount)
  }

  /** The left arrow of the carousel. */
  function PrevSupplier(i: int): (r: int)
    ensures i >= 1 - SupplierCount ==> 0 <= r < SupplierCount
    ensures 0 < i < SupplierCount ==> r == i - 1
    ensures i == 0 ==> r == SupplierCount - 1
  {
    JsRem(i - 1 + SupplierCount, SupplierCount)
  }

  /** On a valid index the two arrows undo each other. */
  lemma SupplierArrowsInverse(i: int)
    requires 0 <= i < SupplierCount
    ensures PrevSupplier(NextSupplier(i)) == i
    ensures NextSupplier(PrevSupplier(i)) == i
  {
  }
}

=== FILE: testsroute.dfy ===
/**
 * The Node test-session route (`app/api/tests/route.ts`): its own `safeVal`,
 * the `write` helper that accepts a column as a number or as letters, the
 * injection of track, driver, car and test conditions, the race setup it
 * reads back, and the guard of the lap simulation.
 *
 * The simulation's floating-point wear and fuel rates are a parameter
 * `simulate`; the loading of the workbook and the mutex are outside the model.
 */
module TestsRoute {
  import opened Base
  import opened Text
  import opened Numbers
  import opened Cells
  import opened JsValues
  import Coercion
  import Backend
  import Calcular

  // ---------------------------------------------------------------------------
  // safeVal

  /** `Math.round(x * 10000) / 10000`, on exact reals. */
  function Round4(x: real): (r: real)
    ensures r - 0.00005 <= x < r + 0.00005
  {
    Round(x * 10000.0) as real / 10000.0
  }

  /** The markers the route canonicalises, whatever their letter case. */
  function Keyword(t: string): (r: Option<string>)
    ensures r.Some? ==> r.value == "Opt" || r.value == "Best"
  {
    var l := Lower(t);
    if l == "opt" then Some("Opt")
    else if l == "best" then Some("Best")
    else None
  }

  /** A trimmed non-marker string: `Number` of it after its first comma becomes a point, or the string itself when that is NaN. */
  function NumberText(t: string): (r: JsVal)
    ensures r.Str? ==> r.s == t
    ensures r.Num? || r.Str?
  {
    match ToNumber(Str(ReplaceFirstChar(t, ',', '.')))
    case Num(x) => Num(x)
    case _ => Str(t)
  }

  /**
   * `safeVal`: null, undefined, "" and error objects are absent; strings are
   * trimmed, "opt"/"best" canonicalised, and read as numbers after their
   * first comma becomes a point; numbers keep four decimals; the rest passes.
   */
  function SafeVal(v: JsVal): (r: JsVal)
    ensures r == Null <==> v.Null? || v.Undefined? || v == Str("") || (v.Obj? && Truthy(v.f.error))
    ensures v.Str? && r.Str? ==> r.s == Trim(v.s) || Keyword(Trim(v.s)) == Some(r.s)
    ensures v.Num? ==> r == Num(Round4(v.x))
    ensures v.Bool? || v.NaN? || (v.Obj? && !Truthy(v.f.error)) ==> r == v
  {
    if v.Null? || v.Undefined? || v == Str("") then Null
    else if v.Obj? && Truthy(v.f.error) then Null
    else if v.Str? then
      var t := Trim(v.s);
      match Keyword(t)
      case Some(k) => Str(k)
      case None => NumberText(t)
    else if v.Num? then Num(Round4(v.x))
    else v
  }

  /** A non-marker string is read as number text, after trimming. */
  lemma SafeValText(s: string)
    requires s != "" && Keyword(Trim(s)) == None
    ensures SafeVal(Str(s)) == NumberText(Trim(s))
  {
  }

  /** Unlike the backend, a lone "-" is a string here, not an absent value. */
  lemma DashIsKept()
    ensures SafeVal(Str("-")) == Str("-")
    ensures Coercion.SafeVal(Coercion.Str("-")) == Coercion.Null
  {
    DashIsNotKeyword();
    DashIsNaN();
    SafeValText("-");
  }

  lemma DashIsNotKeyword()
    ensures Trim("-") == "-" && Keyword("-") == None
  {
    TrimFixed("-");
    var l := Lower("-");
    assert |l| == 1;
    assert |"opt"| == 3 && |"best"| == 4;
  }

  lemma DashIsNaN()
    ensures NumberText("-") == Str("-")
  {
    assert ReplaceFirstChar("-", ',', '.') == "-";
    TrimFixed("-");
    assert SplitSign("-").1 == "";
    assert ParseDecimal("-") == None;
  }

  /** Unlike the backend, a blank string reads as the number 0, not as "". */
  lemma BlankIsZero(s: string)
    requires s != "" && Trim(s) == ""
    ensures SafeVal(Str(s)) == Num(0.0)
    ensures Coercion.SafeVal(Coercion.Str(s)) == Coercion.Str("")
  {
    assert Lower("") == "";
    assert ReplaceFirstChar("", ',', '.') == "";
    SafeValText(s);
    Coercion.BlankIsNotStable(s);
  }

  /** Unlike the backend, "tyres" is not canonicalised. */
  lemma TyresIsNotCanonical(s: string)
    requires Trim(s) == "tyres"
    ensures SafeVal(Str(s)) == Str("tyres")
    ensures Coercion.SafeVal(Coercion.Str(s)) == Coercion.Str("Tyres")
  {
    TyresKeyword();
    TyresIsText();
    SafeValText(s);
    Coercion.SafeValMarker(s);
  }

  lemma TyresKeyword()
    ensures Keyword("tyres") == None
    ensures Coercion.Keyword("tyres") == Some("Tyres")
  {
    var l := Lower("tyres");
    assert |l| == 5;
    assert |"opt"| == 3 && |"best"| == 4;
    assert l == "tyres";
  }

  lemma TyresIsText()
    ensures NumberText("tyres") == Str("tyres")
  {
    var t := "tyres";
    assert t[0] == 't' && t[|t| - 1] == 's';
    assert ',' !in t;
    WordIsText(t);
  }

  /** A comma-free word without blanks at its ends that no number starts like stays text. */
  lemma WordIsText(t: string)
    requires |t| > 0 && ',' !in t && !IsSpace(t[0]) && !IsSpace(t[|t| - 1])
    requires !IsDigit(t[0]) && t[0] != '.' && t[0] != '+' && t[0] != '-'
    ensures NumberText(t) == Str(t)
  {
    assert ReplaceFirstChar(t, ',', '.') == t;
    TrimFixed(t);
    NotNumeric(t);
    assert ToNumber(Str(t)) == NaN;
  }

  /** A string starting with a character no number starts with is not in the decimal grammar. */
  lemma NotNumeric(t: string)
    requires |t| > 0 && !IsDigit(t[0]) && t[0] != '.' && t[0] != '+' && t[0] != '-'
    ensures ParseDecimal(t) == None
  {
    var body := SplitSign(t).1;
    assert body == t;
    var k := IndexOf(body, '.');
    if k > 0 {
      assert body[..k][0] == body[0];
    }
  }

  /** Like the backend, digits, a comma and digits read as the decimal number they denote. */
  lemma DecimalCommaAgrees(ip: string, fp: string)
    requires |ip| > 0 && |fp| > 0 && AllDigits(ip) && AllDigits(fp)
    ensures SafeVal(Str(ip + "," + fp)) == Num(DecimalMagnitude(ip, fp))
    ensures Coercion.SafeVal(Coercion.Str(ip + "," + fp)) == Coercion.Num(DecimalMagnitude(ip, fp))
  {
    var s := ip + "," + fp;
    assert s[0] == ip[0] && s[|s| - 1] == fp[|fp| - 1];
    Coercion.DigitsArePlain(s);
    assert Lower(s)[0] == s[0];
    assert Keyword(s) == None;
    CommaNumber(ip, fp);
    SafeValText(s);
    Coercion.SafeValDecimalComma(ip, fp);
  }

  lemma CommaNumber(ip: string, fp: string)
    requires |ip| > 0 && |fp| > 0 && AllDigits(ip) && AllDigits(fp)
    ensures NumberText(ip + "," + fp) == Num(DecimalMagnitude(ip, fp))
  {
    var d := ip + "." + fp;
    FirstCommaBecomesPoint(ip, fp);
    Coercion.PointedDecimal(ip, fp);
    DigitsEnds(ip, fp);
    NumberTextOfDecimal(ip + "," + fp, d);
  }

  lemma DigitsEnds(ip: string, fp: string)
    requires |ip| > 0 && |fp| > 0 && AllDigits(ip) && AllDigits(fp)
    ensures Trim(ip + "." + fp) == ip + "." + fp
  {
    var d := ip + "." + fp;
    assert d[0] == ip[0] && d[|d| - 1] == fp[|fp| - 1];
    TrimFixed(d);
  }

  /** Text whose first comma turned into a point gives a trimmed decimal reads as that decimal. */
  lemma NumberTextOfDecimal(t: string, d: string)
    requires ReplaceFirstChar(t, ',', '.') == d && Trim(d) == d && ParseDecimal(d).Some?
    ensures NumberText(t) == Num(ParseDecimal(d).value)
  {
  }

  lemma FirstCommaBecomesPoint(ip: string, fp: string)
    requires AllDigits(ip) && AllDigits(fp)
    ensures ReplaceFirstChar(ip + "," + fp, ',', '.') == ip + "." + fp
  {
    var s := ip + "," + fp;
    assert s[..|ip|] == ip;
    IndexOfAt(s, ',', |ip|);
    var c := ReplaceFirstChar(s, ',', '.');
    forall k | 0 <= k < |s| ensures c[k] == (ip + "." + fp)[k] {
      if k < |ip| {
        assert s[k] == ip[k];
      } else if k > |ip| {
        assert s[k] == fp[k - |ip| - 1];
      }
    }
  }

  /** The index of `x` is `k` when `x` sits at `k` and nowhere before it. */
  lemma IndexOfAt(s: string, x: char, k: int)
    requires 0 <= k < |s| && s[k] == x && x !in s[..k]
    ensures IndexOf(s, x) == k
  {
  }

  // ---------------------------------------------------------------------------
  // The write helper

  /** A column given as a 0-based index or as letters. */
  datatype ColRef = Index(i: int) | Letters(s: string)

  /** The 0-based column a reference denotes. */
  function ColIdx(col: ColRef): int {
    match col
    case Index(i) => i
    case Letters(s) => ColumnIndex(s)
  }

  /** The helper's letter loop: bijective base 26 on the upper-cased letters, minus one. */
  method ColumnOf(col: ColRef) returns (idx: int)
    ensures idx == ColIdx(col)
    ensures col.Letters? && IsColumnName(Upper(col.s)) ==> idx >= 0 && ColumnLetters(idx) == Upper(col.s)
  {
    match col {
      case Index(i) =>
        idx := i;
      case Letters(s) =>
        var up := Upper(s);
        var c := 0;
        var i := 0;
        while i < |s|
          invariant 0 <= i <= |s|
          invariant c == LettersValue(s[..i])
        {
          assert s[..i + 1][..i] == s[..i];
          c := c * 26 + up[i] as int - 64;
          i := i + 1;
        }
        assert s[..|s|] == s;
        idx := c - 1;
        if IsColumnName(up) {
          UpperLetters(s);
          ColumnIndexRoundTrip(up);
        }
    }
  }

  /** Upper-casing first does not change a column's index. */
  lemma {:induction false} UpperLetters(s: string)
    ensures LettersValue(Upper(s)) == LettersValue(s)
    decreases |s|
  {
    if s != [] {
      var u := Upper(s);
      assert u[..|u| - 1] == Upper(s[..|s| - 1]);
      UpperLetters(s[..|s| - 1]);
      assert UpperChar(u[|u| - 1]) == UpperChar(s[|s| - 1]);
    }
  }

  /** The write `write(sheet, col, row, val)` performs: "" and null empty the cell, the 1-based row becomes 0-based. */
  function WriteOf(sheet: string, col: ColRef, row: int, val: JsVal): (w: Write<JsVal>)
    ensures w.0 == Calcular.HfCell(sheet, ColIdx(col), row - 1)
    ensures w.1 == (if val == Str("") || val == Null then None else Some(val))
  {
    (Calcular.HfCell(sheet, ColIdx(col), row - 1), if val == Str("") || val == Null then None else Some(val))
  }

  /** The helper itself: exactly one cell changes. */
  method WriteCell(wb: Workbook<JsVal>, sheet: string, col: ColRef, row: int, val: JsVal) returns (r: Workbook<JsVal>)
    ensures r == Put(wb, WriteOf(sheet, col, row, val), {})
    ensures Lookup(r, Calcular.HfCell(sheet, ColIdx(col), row - 1)) == WriteOf(sheet, col, row, val).1
    ensures forall a :: a != Calcular.HfCell(sheet, ColIdx(col), row - 1) ==> Lookup(r, a) == Lookup(wb, a)
  {
    var idx := ColumnOf(col);
    var a := Calcular.HfCell(sheet, idx, row - 1);
    if val == Str("") || val == Null {
      r := wb - {a};
    } else {
      r := wb[a := val];
    }
  }

  /** A write with letters lands on the A1 cell those letters and that row name. */
  lemma LettersWriteIsA1(sheet: string, letters: string, row: int, val: JsVal)
    ensures WriteOf(sheet, Letters(letters), row, val).0 == At(sheet, letters, row)
  {
  }

  // ---------------------------------------------------------------------------
  // POST: injection

  /** The car parts in sheet order, from row 6. */
  const CarPartsOrder: seq<string> := [
    "chassi", "motor", "asaDianteira", "asaTraseira",
    "assoalho", "laterais", "radiador", "cambio",
    "freios", "suspensao", "eletronicos"]

  /** Both Node routes put the parts in the same rows. */
  lemma CarPartsOrderAgrees()
    ensures CarPartsOrder == Calcular.CarInputKeys
  {
  }

  /** A member of the request's `car` object; a falsy member value is `None`. */
  type PartEntry = (string, Option<map<string, JsVal>>)

  /** Index of the first key equal to `id` ignoring letter case, or `|car|`. */
  function FirstCaseMatch(car: seq<PartEntry>, id: string): (k: nat)
    ensures k <= |car|
    ensures k < |car| ==> Lower(car[k].0) == Lower(id)
    ensures forall j :: 0 <= j < k ==> Lower(car[j].0) != Lower(id)
  {
    if car == [] then 0
    else if Lower(car[0].0) == Lower(id) then 0
    else 1 + FirstCaseMatch(car[1..], id)
  }

  /** `car[key]` for an exact key: the first member with that key, falsy when there is none. */
  function ValueAt(car: seq<PartEntry>, key: string): (v: Option<map<string, JsVal>>)
    ensures (forall j :: 0 <= j < |car| ==> car[j].0 != key) ==> v == None
  {
    if car == [] then None
    else if car[0].0 == key then car[0].1
    else ValueAt(car[1..], key)
  }

  /** The part data the route uses for `id`: the case-insensitive match, or `{level: 1, wear: 0}`. */
  function PartData(car: seq<PartEntry>, id: string): map<string, JsVal> {
    var k := FirstCaseMatch(car, id);
    var key := if k < |car| then car[k].0 else id;
    match ValueAt(car, key)
    case Some(m) => m
    case None => map["level" := Num(1.0), "wear" := Num(0.0)]
  }

  /** Level and wear of part `id`: a missing, zero or non-numeric level is 1, such a wear 0. */
  function PartLevel(car: seq<PartEntry>, id: string): real {
    NumberOr(Member(PartData(car, id), "level"), 1.0)
  }

  function PartWear(car: seq<PartEntry>, id: string): real {
    NumberOr(Member(PartData(car, id), "wear"), 0.0)
  }

  /** A part the request does not name, in any letter case, gets level 1 and wear 0. */
  lemma MissingPartDefaults(car: seq<PartEntry>, id: string)
    requires forall j :: 0 <= j < |car| ==> Lower(car[j].0) != Lower(id)
    ensures PartLevel(car, id) == 1.0 && PartWear(car, id) == 0.0
  {
    assert forall j :: 0 <= j < |car| ==> car[j].0 != id;
  }

  /** A part named in another letter case is found, and its own level and wear are used. */
  lemma PartFoundIgnoringCase(car: seq<PartEntry>, id: string, j: int, m: map<string, JsVal>)
    requires 0 <= j < |car| && Lower(car[j].0) == Lower(id) && car[j].1 == Some(m)
    requires forall l :: 0 <= l < j ==> Lower(car[l].0) != Lower(id)
    requires forall l :: 0 <= l < |car| && l != j ==> car[l].0 != car[j].0
    ensures PartLevel(car, id) == NumberOr(Member(m, "level"), 1.0)
    ensures PartWear(car, id) == NumberOr(Member(m, "wear"), 0.0)
  {
    assert FirstCaseMatch(car, id) == j;
    ValueAtUnique(car, j);
  }

  lemma {:induction false} ValueAtUnique(car: seq<PartEntry>, j: int)
    requires 0 <= j < |car|
    requires forall l :: 0 <= l < |car| && l != j ==> car[l].0 != car[j].0
    ensures ValueAt(car, car[j].0) == car[j].1
    decreases |car|
  {
    if j > 0 {
      assert car[0].0 != car[j].0;
      ValueAtUnique(car[1..], j - 1);
    }
  }

  datatype TestsRequest = TestsRequest(
    track: JsVal,
    testInputs: Option<map<string, JsVal>>,
    driver: Option<map<string, JsVal>>,
    car: Option<seq<PartEntry>>,
    desgasteModifier: JsVal)

  /** Writes of `vals` down column `col` of the setup sheet, from zero-based row `row0`. */
  function ColumnWrites(col: int, row0: int, vals: seq<JsVal>): (ws: seq<Write<JsVal>>)
    ensures |ws| == |vals|
    ensures forall j :: 0 <= j < |vals| ==> ws[j].0 == Addr(Backend.SetupSheet, col, row0 + 1 + j)
    ensures forall j :: 0 <= j < |vals| ==> ws[j].1 == Some(vals[j])
  {
    seq(|vals|, i requires 0 <= i < |vals| => (Addr(Backend.SetupSheet, col, row0 + 1 + i), Some(vals[i])))
  }

  /** The driver column E6..E17: a missing, zero or non-numeric attribute is 0, the energy included. */
  function DriverW(d: map<string, JsVal>): (ws: seq<Write<JsVal>>)
    ensures |ws| == 12
    ensures forall j :: 0 <= j < 12 ==> ws[j].0 == Addr(Backend.SetupSheet, 4, 6 + j)
  {
    ColumnWrites(Calcular.DriverCol, Calcular.DriverStartRow - 1, DriverValues(d))
  }

  function DriverValues(d: map<string, JsVal>): (vs: seq<JsVal>)
    ensures |vs| == 12
  {
    seq(12, i requires 0 <= i < 12 => Num(NumberOr(Member(d, Backend.DriverInputs[i].key), 0.0)))
  }

  /** Levels I6..I16, then wears J6..J16, in sheet order. */
  function CarW(car: seq<PartEntry>): (ws: seq<Write<JsVal>>)
    ensures |ws| == 22
  {
    LevelW(car) + WearW(car)
  }

  function LevelW(car: seq<PartEntry>): (ws: seq<Write<JsVal>>)
    ensures |ws| == 11
    ensures forall j :: 0 <= j < 11 ==> ws[j].0 == Addr(Backend.SetupSheet, 8, 6 + j)
    ensures forall j :: 0 <= j < 11 ==> ws[j].1 == Some(Num(PartLevel(car, CarPartsOrder[j])))
  {
    ColumnWrites(Calcular.CarLvlCol, Calcular.StartRowCar - 1,
                 seq(11, i requires 0 <= i < 11 => Num(PartLevel(car, CarPartsOrder[i]))))
  }

  function WearW(car: seq<PartEntry>): (ws: seq<Write<JsVal>>)
    ensures |ws| == 11
    ensures forall j :: 0 <= j < 11 ==> ws[j].0 == Addr(Backend.SetupSheet, 9, 6 + j)
    ensures forall j :: 0 <= j < 11 ==> ws[j].1 == Some(Num(PartWear(car, CarPartsOrder[j])))
  {
    ColumnWrites(Calcular.CarWearCol, Calcular.StartRowCar - 1,
                 seq(11, i requires 0 <= i < 11 => Num(PartWear(car, CarPartsOrder[i]))))
  }

  /** The track write, when there is one, comes first. */
  function TrackW(req: TestsRequest): (ws: seq<Write<JsVal>>)
    ensures |ws| == if Truthy(req.track) then 1 else 0
    ensures |ws| == 1 ==> ws[0] == (At(Backend.SetupSheet, "R", 5), Some(req.track))
  {
    Backend.SetupColumns();
    if Truthy(req.track) then [WriteOf(Backend.SetupSheet, Letters("R"), 5, req.track)] else []
  }

  function DriverBlock(req: TestsRequest): seq<Write<JsVal>> {
    match req.driver case Some(d) => DriverW(d) case None => []
  }

  function CarBlock(req: TestsRequest): seq<Write<JsVal>> {
    match req.car case Some(c) => CarW(c) case None => []
  }

  /** The writes made before the test inputs are first read: track, driver and car. */
  function InjectWrites(req: TestsRequest): seq<Write<JsVal>> {
    TrackW(req) + DriverBlock(req) + CarBlock(req)
  }

  /**
   * The test conditions and the risk modifier; `ti` is the test-inputs object.
   * The temperature lands in R9 and the condition in T9, the cells the backend keeps the
   * average temperature and the race weather in; the modifier lands in the tyre sheet's C4,
   * the backend's `ct_valor` cell.
   */
  function ConditionWrites(ti: map<string, JsVal>, dm: JsVal): (w: seq<Write<JsVal>>)
    ensures |w| == if dm.Undefined? then 2 else 3
    ensures w[0].0 == At(Backend.SetupSheet, "R", 9) == Backend.InputCell(Backend.SetupSheet, Backend.WeatherInputs[2])
    ensures w[0].1 == Some(ToNumber(Member(ti, "avg_temp")))
    ensures w[1].0 == At(Backend.SetupSheet, "T", 9) == Backend.InputCell(Backend.SetupSheet, Backend.WeatherInputs[5])
    ensures w[1].1 == (if Member(ti, "condicao") in {Str(""), Null} then None else Some(Member(ti, "condicao")))
    ensures |w| == 3 ==> w[2].0 == At(Backend.TyreSheet, "C", 4)
                                 == Backend.InputCell(Backend.RaceOptionInputs[2].0, Backend.RaceOptionInputs[2].1)
    ensures |w| == 3 ==> w[2].1 == Some(Num(NumberOr(dm, 0.0)))
  {
    Backend.SetupColumns();
    SingleLetterIndex('C');
    [WriteOf(Backend.SetupSheet, Letters("R"), 9, ToNumber(Member(ti, "avg_temp"))),
     WriteOf(Backend.SetupSheet, Letters("T"), 9, Member(ti, "condicao"))]
    + (if dm.Undefined? then []
       else [WriteOf(Backend.TyreSheet, Index(2), 4, Num(NumberOr(dm, 0.0)))])
  }

  // ---------------------------------------------------------------------------
  // POST: the reply

  /** The simulated first stint. */
  datatype Stint = Stint(voltas: JsVal, wear: string, fuel: string, tyre: JsVal)

  datatype TestsResult = TestsResult(setupIdeal: seq<(string, JsVal)>, stint: Stint)

  /** A race-setup cell as reported: a number rounded and rendered, anything else through `safeVal`. */
  function SetupText(v: JsVal): (r: JsVal)
    ensures v.Num? ==> r == Str(IntToString(Round(v.x)))
    ensures v.NaN? ==> r == Str("NaN")
    ensures !v.Num? && !v.NaN? ==> r == SafeVal(v)
  {
    match v
    case Num(x) => Str(IntToString(Round(x)))
    case NaN => Str("NaN")
    case _ => SafeVal(v)
  }

  /** The stint: the simulation runs only for a positive lap count, otherwise wear "0.0" and fuel "0". */
  function SimulateStint(ti: map<string, JsVal>, simulate: real -> (string, string)): (s: Stint)
    ensures s.voltas == ToNumber(Member(ti, "voltas"))
    ensures !(ToNumber(Member(ti, "voltas")).Num? && ToNumber(Member(ti, "voltas")).x > 0.0) ==> s.wear == "0.0" && s.fuel == "0"
    ensures ToNumber(Member(ti, "voltas")).Num? && ToNumber(Member(ti, "voltas")).x > 0.0 ==>
              (s.wear, s.fuel) == simulate(ToNumber(Member(ti, "voltas")).x)
  {
    var laps := ToNumber(Member(ti, "voltas"));
    var (wear, fuel) := if laps.Num? && laps.x > 0.0 then simulate(laps.x) else ("0.0", "0");
    Stint(laps, wear, fuel, Member(ti, "tipo_pneu"))
  }

  /** The race setup of the six adjustable parts, read from AE6..AE11. */
  function SetupIdeal(wb: Workbook<JsVal>): (r: seq<(string, JsVal)>)
    ensures |r| == 6
    ensures forall i :: 0 <= i < 6 ==>
              r[i] == (Backend.SetupPartKeys[i], SetupText(Calcular.ReadCell(wb, At(Backend.SetupSheet, "AE", 6 + i))))
  {
    seq(6, i requires 0 <= i < 6 =>
      (Backend.SetupPartKeys[i], SetupText(Calcular.ReadCell(wb, At(Backend.SetupSheet, "AE", 6 + i)))))
  }

  /**
   * `POST`: injects the test, lets the engine recalculate, and answers the
   * race setup of the six adjustable parts and the simulated stint. Without
   * test inputs the request fails after the track, driver and car are
   * already in the shared workbook.
   */
  function Post(engine: Result<()>, wb: Workbook<JsVal>, req: TestsRequest,
                recalc: Workbook<JsVal> -> Workbook<JsVal>, simulate: real -> (string, string)):
    (r: (Workbook<JsVal>, Backend.Reply<TestsResult>))
    ensures engine.Err? ==> r == (wb, Backend.Failure(engine.msg))
    ensures engine.Ok? && req.testInputs.None? ==>
              r.0 == recalc(PutAll(wb, InjectWrites(req), {})) && r.1.Failure?
    ensures engine.Ok? && req.testInputs.Some? ==>
              r.0 == recalc(PutAll(wb, InjectWrites(req) + ConditionWrites(req.testInputs.value, req.desgasteModifier), {}))
              && r.1 == Backend.Success(TestsResult(SetupIdeal(r.0), SimulateStint(req.testInputs.value, simulate)))
  {
    match engine
    case Err(msg) => (wb, Backend.Failure(msg))
    case Ok(_) =>
      match req.testInputs
      case None => (recalc(PutAll(wb, InjectWrites(req), {})), Backend.Failure("testInputs is undefined"))
      case Some(ti) =>
        var wb1 := recalc(PutAll(wb, InjectWrites(req) + ConditionWrites(ti, req.desgasteModifier), {}));
        (wb1, Backend.Success(TestsResult(SetupIdeal(wb1), SimulateStint(ti, simulate))))
  }

  // ---------------------------------------------------------------------------
  // Properties

  /** Unlike the setup calculator, an energy of 0 is written as 0. */
  lemma EnergyZeroKept(d: map<string, JsVal>)
    requires Member(d, "energia") == Num(0.0)
    ensures DriverW(d)[11] == (At(Backend.SetupSheet, "E", 17), Some(Num(0.0)))
  {
    Calcular.DriverCellsAgree(11);
  }

  /** The race setup is read from the cells of the setup calculator's race column. */
  lemma RaceColumnAgrees(i: int)
    requires 0 <= i < 6
    ensures At(Backend.SetupSheet, "AE", 6 + i)
         == Calcular.HfCell(Backend.SetupSheet, Calcular.OutputColRace, Calcular.OutputStartRow - 1 + i)
  {
    Calcular.ColumnConstantsNameLetters();
  }

  /** The condition writes touch only R9 and T9 of the setup sheet and C4 of the tyre sheet. */
  lemma ConditionTargets(ti: map<string, JsVal>, dm: JsVal)
    ensures forall j :: 0 <= j < |ConditionWrites(ti, dm)| ==>
              ConditionWrites(ti, dm)[j].0 in {Addr(Backend.SetupSheet, 17, 9), Addr(Backend.SetupSheet, 19, 9),
                                               Addr(Backend.TyreSheet, 2, 4)}
  {
    Backend.SetupColumns();
    var w := ConditionWrites(ti, dm);
    assert w[0].0 == Addr(Backend.SetupSheet, 17, 9);
    assert w[1].0 == Addr(Backend.SetupSheet, 19, 9);
    assert |w| == 2 || w[2].0 == Addr(Backend.TyreSheet, 2, 4);
  }

  lemma TargetsAppend(xs: seq<Write<JsVal>>, ys: seq<Write<JsVal>>)
    requires |xs| == 11 && |ys| == 11
    requires forall j :: 0 <= j < 11 ==> xs[j].0 == Addr(Backend.SetupSheet, 8, 6 + j)
    requires forall j :: 0 <= j < 11 ==> ys[j].0 == Addr(Backend.SetupSheet, 9, 6 + j)
    ensures forall j :: 0 <= j < 11 ==> (xs + ys)[j].0 == Addr(Backend.SetupSheet, 8, 6 + j)
    ensures forall j :: 11 <= j < 22 ==> (xs + ys)[j].0 == Addr(Backend.SetupSheet, 9, j - 5)
  {
  }

  /** The car block writes I6..I16 and then J6..J16. */
  lemma CarTargets(car: seq<PartEntry>)
    ensures forall j :: 0 <= j < 11 ==> CarW(car)[j].0 == Addr(Backend.SetupSheet, 8, 6 + j)
    ensures forall j :: 11 <= j < 22 ==> CarW(car)[j].0 == Addr(Backend.SetupSheet, 9, j - 5)
  {
    TargetsAppend(LevelW(car), WearW(car));
  }

  /** The car block writes only columns I and J of the setup sheet. */
  lemma CarAvoids(req: TestsRequest, a: Addr)
    requires a.col != 8 && a.col != 9
    ensures forall j :: 0 <= j < |CarBlock(req)| ==> CarBlock(req)[j].0 != a
  {
    if req.car.Some? {
      CarTargets(req.car.value);
    }
  }

  /** The condition writes touch neither column E nor column I of the setup sheet. */
  lemma ConditionAvoids(ti: map<string, JsVal>, dm: JsVal, a: Addr)
    requires a.sheet == Backend.SetupSheet && (a.col == 4 || a.col == 8)
    ensures forall j :: 0 <= j < |ConditionWrites(ti, dm)| ==> ConditionWrites(ti, dm)[j].0 != a
  {
    ConditionTargets(ti, dm);
    assert Backend.SetupSheet != Backend.TyreSheet;
  }

  /** In the full batch, driver attribute `i` is written last by the driver block. */
  lemma DriverIsLast(req: TestsRequest, ti: map<string, JsVal>, i: int)
    requires req.driver.Some? && 0 <= i < 12
    ensures var k := (if Truthy(req.track) then 1 else 0) + i;
      LastWriteAt(InjectWrites(req) + ConditionWrites(ti, req.desgasteModifier), Addr(Backend.SetupSheet, 4, 6 + i), k)
      && (InjectWrites(req) + ConditionWrites(ti, req.desgasteModifier))[k] == DriverW(req.driver.value)[i]
  {
    var a := Addr(Backend.SetupSheet, 4, 6 + i);
    CarAvoids(req, a);
    ConditionAvoids(ti, req.desgasteModifier, a);
    LastWriteWithin(TrackW(req), DriverBlock(req), CarBlock(req), ConditionWrites(ti, req.desgasteModifier), a, i);
  }

  /** A recalculation that keeps the input cell leaves the driver attribute as injected. */
  lemma DriverInjected(engine: Result<()>, wb: Workbook<JsVal>, req: TestsRequest,
                       recalc: Workbook<JsVal> -> Workbook<JsVal>, simulate: real -> (string, string), i: int)
    requires engine.Ok? && req.testInputs.Some? && req.driver.Some? && 0 <= i < 12
    requires Keeps(recalc, At(Backend.SetupSheet, "E", 6 + i))
    ensures Lookup(Post(engine, wb, req, recalc, simulate).0, At(Backend.SetupSheet, "E", 6 + i))
         == Some(Num(NumberOr(Member(req.driver.value, Backend.DriverInputs[i].key), 0.0)))
  {
    var ws := InjectWrites(req) + ConditionWrites(req.testInputs.value, req.desgasteModifier);
    Backend.SetupColumns();
    DriverIsLast(req, req.testInputs.value, i);
    RecalcKeepsLast(wb, ws, recalc, At(Backend.SetupSheet, "E", 6 + i), (if Truthy(req.track) then 1 else 0) + i);
  }

  /** In the full batch, the level of part `i` is written last by the car block. */
  lemma LevelIsLast(req: TestsRequest, ti: map<string, JsVal>, i: int)
    requires req.car.Some? && 0 <= i < 11
    ensures var k := (if Truthy(req.track) then 1 else 0) + (if req.driver.Some? then 12 else 0) + i;
      LastWriteAt(InjectWrites(req) + ConditionWrites(ti, req.desgasteModifier), Addr(Backend.SetupSheet, 8, 6 + i), k)
      && (InjectWrites(req) + ConditionWrites(ti, req.desgasteModifier))[k] == CarW(req.car.value)[i]
  {
    var a := Addr(Backend.SetupSheet, 8, 6 + i);
    CarTargets(req.car.value);
    ConditionAvoids(ti, req.desgasteModifier, a);
    var xs := TrackW(req) + DriverBlock(req);
    LastWriteWithin(xs, CarBlock(req), [], ConditionWrites(ti, req.desgasteModifier), a, i);
    assert xs + CarBlock(req) + [] == InjectWrites(req);
  }

  /**
   * A recalculation that keeps the input cell leaves the level of the part
   * in sheet row `6 + i` as the route resolved it from the request.
   */
  lemma LevelInjected(engine: Result<()>, wb: Workbook<JsVal>, req: TestsRequest,
                      recalc: Workbook<JsVal> -> Workbook<JsVal>, simulate: real -> (string, string), i: int)
    requires engine.Ok? && req.testInputs.Some? && req.car.Some? && 0 <= i < 11
    requires Keeps(recalc, At(Backend.SetupSheet, "I", 6 + i))
    ensures Lookup(Post(engine, wb, req, recalc, simulate).0, At(Backend.SetupSheet, "I", 6 + i))
         == Some(Num(PartLevel(req.car.value, CarPartsOrder[i])))
  {
    var ws := InjectWrites(req) + ConditionWrites(req.testInputs.value, req.desgasteModifier);
    Backend.SetupColumns();
    LevelIsLast(req, req.testInputs.value, i);
    var k := (if Truthy(req.track) then 1 else 0) + (if req.driver.Some? then 12 else 0) + i;
    RecalcKeepsLast(wb, ws, recalc, At(Backend.SetupSheet, "I", 6 + i), k);
    assert CarW(req.car.value)[i] == LevelW(req.car.value)[i];
  }
}
